=== FILE: README.md ===
# EARA Connect: a Dafny model of the review workflow and its rules

EARA Connect is a web application for the East African Revenue Authorities.
It has a Java Spring backend and a React client. This project models the
core of both.

The core is the backend's workflow: a resolution, its weighted assignment to
subcommittees, the reports a subcommittee chair submits, and the two-stage
review of those reports. The HOD (Head of Delegation) reviews first and the
Commissioner General second. Around it sit the rules that decide who may act
at each step, the record stores with their uniqueness and upsert rules, the
file validators, and the pure helpers of the web client that mirror or feed
the workflow.

How the model is organised:

- **Backend services that update tables become classes.** Their fields are
  `map`s keyed by id, standing in for the JPA repositories, and `seq` logs
  for notifications and mail. Their methods carry `modifies` clauses and
  state the whole new state. Examples: `ReportLifecycle.ReportService`,
  `Resolutions.ResolutionService`, `Users.UserStore`,
  `CommitteeMembers.MemberRegistry`, `MeetingInvitations.InvitationTable`,
  `Countries`, `Committees`, `MeetingAttendance`.
- **Services that loop are proved against a pure function.** The methods
  that update state step by step ensure that the new state equals that
  function of the old one. The function's properties are proved as lemmas.
- **Rule services are functions over the tables they read.** These are the
  HOD privilege, the secretary and chair guards, the role derivations, and
  the validators.
- **Client helpers are functions on values.** The reducer of the HOD
  context, the filters and sorts, the classifiers, URL building and the
  route guard of the application shell are functions on datatypes.
  `notificationService.sortByDate`, which sorts in place, is a method on an
  array.
- **Nondeterminism is passed in.** The clock, `UUID.randomUUID()`,
  `java.util.Random`, browser storage, `JSON.parse` and the API base address
  are parameters. Whether a mail fails is a parameter. Each stored
  notification records whether its mail went out.
- **Integers are unbounded.** Percentages and counts are integers. A
  JavaScript `Math.round((a / t) * 100)` of non-negative values is taken on
  the exact quotient and written as `(200 a + t) / (2 t)`; JavaScript's
  doubles can round differently near a half (see Left out). Java `int`
  products and sums that can leave 32 bits are wrapped explicitly. Strings
  are sequences of characters with ASCII case mapping.
- **Untyped JSON numbers keep their Java class.** A number in a request
  body read as `Map<String, Object>` becomes an `Integer` within 32 bits, a
  `Long` within 64 bits and a `BigInteger` beyond. The casts of the
  resolution-assignment paths succeed or throw accordingly, and their `int`
  sum wraps around as Java's does.

Where the code and its documentation disagree, the model follows the code.
Three examples:

- The backend compares the HOD subcommittee name exactly, while the client
  ignores letter case.
- Only the plain `SECRETARY` role may send meeting invitations, although
  three roles count as secretaries elsewhere.
- `utils/testHODPermissions.js` expects `/chair/dashboard` for users that
  `getDashboardRoute` sends elsewhere; the model follows the service.

Several lemmas compare the two sides of the application, for example:

- the client and backend validators of report data, user forms and profile
  pictures;
- the client and backend HOD privilege tests;
- the dashboard chosen by the application shell and by the permission
  service.

They state where the two sides agree and exhibit an input where they do not.

## Model

| member | source | states |
|---|---|---|
| Domain.RoleName | EARACONNECT-BACKEND-DEPLOY4-main/src/main/java/com/earacg/earaconnect/model/User.java:85-96 | every role has a non-trivial constant name |
| Domain.ParseRole | EARACONNECT-BACKEND-DEPLOY4-main/src/main/java/com/earacg/earaconnect/model/User.java:85-96 | `valueOf` only yields the role whose name is the text |
| Domain.ParseRoleName | EARACONNECT-BACKEND-DEPLOY4-main/src/main/java/com/earacg/earaconnect/model/User.java:85-96 | parsing a role's name gives the role back |
| Domain.UsersWithRole | EARACONNECT-BACKEND-DEPLOY4-main/src/main/java/com/earacg/earaconnect/service/UserService.java:42-44 | exactly the stored users holding that role |
| Domain.AssignmentsOf | EARACONNECT-BACKEND-DEPLOY4-main/src/main/java/com/earacg/earaconnect/service/ResolutionService.java:162 | only rows of the table, and only rows of that resolution |
| Users.RoleRequirementError | EARACONNECT-BACKEND-DEPLOY4-main/src/main/java/com/earacg/earaconnect/service/UserService.java:209-234 | no error exactly when the role's requirements hold; a missing role is the first error |
| Users.RoleRequirementsByRole | EARACONNECT-BACKEND-DEPLOY4-main/src/main/java/com/earacg/earaconnect/service/UserService.java:209-234 | the three secretary roles need a country, chairs and subcommittee members a subcommittee, the other roles nothing |
| Users.ResolveReferences | EARACONNECT-BACKEND-DEPLOY4-main/src/main/java/com/earacg/earaconnect/service/UserService.java:239-256 | succeeds exactly when every referenced id is stored, and then swaps in the stored records |
| Users.PasswordFromUuid | EARACONNECT-BACKEND-DEPLOY4-main/src/main/java/com/earacg/earaconnect/service/UserService.java:179-181 | the password is the UUID text's first eight characters |
| Users.ApplyUpdate | EARACONNECT-BACKEND-DEPLOY4-main/src/main/java/com/earacg/earaconnect/service/UserService.java:99-123 | name, phone and email always copied; optional fields only when given; password only when non-empty; role, activity and login data kept |
| Users.AfterLogin | EARACONNECT-BACKEND-DEPLOY4-main/src/main/java/com/earacg/earaconnect/service/UserService.java:145-149 | login stamps the time and clears the first-login flag, nothing else |
| Users.LookupEmail | EARACONNECT-BACKEND-DEPLOY4-main/src/main/java/com/earacg/earaconnect/service/UserService.java:38-40 | finds a user with that email, and finds none exactly when no user has it |
| Users.UserStore.SendCredentials | EARACONNECT-BACKEND-DEPLOY4-main/src/main/java/com/earacg/earaconnect/service/UserService.java:76 | a successful send appends one mail; the users are unchanged |
| Users.UserStore.CreateUser | EARACONNECT-BACKEND-DEPLOY4-main/src/main/java/com/earacg/earaconnect/service/UserService.java:50-91 | bad references or role requirements change nothing; an existing email is overwritten in place and reactivated, otherwise a new row; fresh password mailed; success iff the mail goes out |
| Users.UpsertKeepsOneRowPerEmail | EARACONNECT-BACKEND-DEPLOY4-main/src/main/java/com/earacg/earaconnect/service/UserService.java:58-79 | the email upsert keeps one row per email and adds no row |
| Users.UserStore.UpdateUser | EARACONNECT-BACKEND-DEPLOY4-main/src/main/java/com/earacg/earaconnect/service/UserService.java:93-127 | unknown id gives null and no change; otherwise the stored user becomes ApplyUpdate of it; succeeds when references resolve and the email is free |
| Users.UserStore.Authenticate | EARACONNECT-BACKEND-DEPLOY4-main/src/main/java/com/earacg/earaconnect/service/UserService.java:137-155 | true iff known email, matching password and active account; only then the login fields change |
| Users.UserStore.RecordSuccessfulLogin | EARACONNECT-BACKEND-DEPLOY4-main/src/main/java/com/earacg/earaconnect/service/UserService.java:161-169 | the login fields of the user with that email change, nothing else |
| Users.UserStore.ChangePassword | EARACONNECT-BACKEND-DEPLOY4-main/src/main/java/com/earacg/earaconnect/service/UserService.java:265-290 | succeeds iff the current password matches; only the password changes |
| Users.UserStore.ResendCredentials | EARACONNECT-BACKEND-DEPLOY4-main/src/main/java/com/earacg/earaconnect/service/UserService.java:186-204 | unknown id is an error with no change; otherwise a new password is saved and mailed, and a failed mail is an error after the save |
| DatabaseFix.RequirementsMatchValidation | EARACONNECT-BACKEND-DEPLOY4-main/src/main/java/com/earacg/earaconnect/service/DatabaseFixService.java:127-136 | the repair pass's country and subcommittee requirements are exactly the ones user creation enforces |
| DatabaseFix.WithRole | EARACONNECT-BACKEND-DEPLOY4-main/src/main/java/com/earacg/earaconnect/service/DatabaseFixService.java:29-47 | a member without a role gets the one its flags determine; a member with one is untouched |
| DatabaseFix.RolesFixed | EARACONNECT-BACKEND-DEPLOY4-main/src/main/java/com/earacg/earaconnect/service/DatabaseFixService.java:29-47 | the same members, each repaired |
| DatabaseFix.RolesFixedProperties | EARACONNECT-BACKEND-DEPLOY4-main/src/main/java/com/earacg/earaconnect/service/DatabaseFixService.java:29-47 | afterwards every member has a role, roles already set are kept, and the pass is idempotent |
| DatabaseFix.FixNullUserRoles | EARACONNECT-BACKEND-DEPLOY4-main/src/main/java/com/earacg/earaconnect/service/DatabaseFixService.java:29-47 | the loop over the members leaves exactly the repaired table |
| DatabaseFix.WithFirstLoginFixed | EARACONNECT-BACKEND-DEPLOY4-main/src/main/java/com/earacg/earaconnect/service/DatabaseFixService.java:52-67 | a user who has logged in but still has the first-login flag gets it cleared; others are untouched |
| DatabaseFix.FirstLoginFixed | EARACONNECT-BACKEND-DEPLOY4-main/src/main/java/com/earacg/earaconnect/service/DatabaseFixService.java:52-67 | the same users, each repaired |
| DatabaseFix.StaleIds | EARACONNECT-BACKEND-DEPLOY4-main/src/main/java/com/earacg/earaconnect/service/DatabaseFixService.java:58-63 | exactly the users the pass updates |
| DatabaseFix.FirstLoginFixedProperties | EARACONNECT-BACKEND-DEPLOY4-main/src/main/java/com/earacg/earaconnect/service/DatabaseFixService.java:52-67 | afterwards no user is stale, users with a login have the flag false, users without one are untouched |
| DatabaseFix.FirstLoginFixKeepsEmails | EARACONNECT-BACKEND-DEPLOY4-main/src/main/java/com/earacg/earaconnect/service/DatabaseFixService.java:52-67 | the pass keeps every email, so emails stay unique |
| DatabaseFix.FixFirstLoginRows | EARACONNECT-BACKEND-DEPLOY4-main/src/main/java/com/earacg/earaconnect/service/DatabaseFixService.java:52-67 | the loop yields the repaired table and counts exactly the stale users |
| DatabaseFix.FixFirstLoginFlags | EARACONNECT-BACKEND-DEPLOY4-main/src/main/java/com/earacg/earaconnect/service/DatabaseFixService.java:52-67 | the store's users become the repaired table; the count is the number of stale users |
| DatabaseFix.GenerateIntegrityReport | EARACONNECT-BACKEND-DEPLOY4-main/src/main/java/com/earacg/earaconnect/service/DatabaseFixService.java:72-106 | each counter is the number of rows with that defect |
| DatabaseFix.HasIssuesIffSomeRowBroken | EARACONNECT-BACKEND-DEPLOY4-main/src/main/java/com/earacg/earaconnect/service/DatabaseFixService.java:192-195 | the report has issues iff some user lacks a phone, country or subcommittee, or some member lacks a role; never-logged-in users do not count |
| DatabaseFix.FixedMembersCountNoNullRole | EARACONNECT-BACKEND-DEPLOY4-main/src/main/java/com/earacg/earaconnect/service/DatabaseFixService.java:29-47 | after the role repair the null-role counter is zero |
| Documents.FileExtension | EARACONNECT-BACKEND-DEPLOY4-main/src/main/java/com/earacg/earaconnect/service/DocumentService.java:157-163 | empty iff no name or no dot; otherwise a dot-led suffix of the name with no further dot |
| Documents.ExtensionAfterDotFreePrefix | EARACONNECT-BACKEND-DEPLOY4-main/src/main/java/com/earacg/earaconnect/service/DocumentService.java:157-163 | a dot-free prefix does not change the extension |
| Documents.ValidateFile | EARACONNECT-BACKEND-DEPLOY4-main/src/main/java/com/earacg/earaconnect/service/DocumentService.java:121-152 | passes iff acceptable; the first failed check's message, in the order empty, path, size, type |
| Documents.SizeLimitIsInclusive | EARACONNECT-BACKEND-DEPLOY4-main/src/main/java/com/earacg/earaconnect/service/DocumentService.java:131-134 | exactly 10 MiB passes; one byte more fails |
| Documents.StoredFilename | EARACONNECT-BACKEND-DEPLOY4-main/src/main/java/com/earacg/earaconnect/service/DocumentService.java:36-51 | a stored name exists iff the upload validates; otherwise the validation message |
| Documents.StoredNameKeepsExtension | EARACONNECT-BACKEND-DEPLOY4-main/src/main/java/com/earacg/earaconnect/service/DocumentService.java:50-51 | the stored name has the original file's extension |
| ProfilePictures.ValidatePicture | EARACONNECT-BACKEND-DEPLOY4-main/src/main/java/com/earacg/earaconnect/service/ProfilePictureService.java:111-136 | passes iff acceptable; empty first, then non-image type |
| ProfilePictures.ExtensionCaseIgnored | EARACONNECT-BACKEND-DEPLOY4-main/src/main/java/com/earacg/earaconnect/service/ProfilePictureService.java:131 | an upper-case ".PNG" is accepted |
| ProfilePictures.PictureUrl | EARACONNECT-BACKEND-DEPLOY4-main/src/main/java/com/earacg/earaconnect/service/ProfilePictureService.java:49-57 | the URL is the public prefix followed by the stored file name |
| ProfilePictures.FilenameOfUrl | EARACONNECT-BACKEND-DEPLOY4-main/src/main/java/com/earacg/earaconnect/service/ProfilePictureService.java:77 | a slash-free suffix of the URL |
| ProfilePictures.FilenameOfUrlSplit | EARACONNECT-BACKEND-DEPLOY4-main/src/main/java/com/earacg/earaconnect/service/ProfilePictureService.java:77 | the last segment after a slash-ended prefix is that segment |
| ProfilePictures.DeleteRecoversUploadedName | EARACONNECT-BACKEND-DEPLOY4-main/src/main/java/com/earacg/earaconnect/service/ProfilePictureService.java:50-77 | deleting removes the very file the upload stored |
| ProfilePictures.UploadOutcome | EARACONNECT-BACKEND-DEPLOY4-main/src/main/java/com/earacg/earaconnect/service/ProfilePictureService.java:35-65 | succeeds iff the picture is acceptable and the user exists, with the picture URL; a bad picture gives its validation message |
| ProfilePictures.UploadProfilePicture | EARACONNECT-BACKEND-DEPLOY4-main/src/main/java/com/earacg/earaconnect/service/ProfilePictureService.java:35-65 | the outcome above; on success only the user's picture changes |
| ProfilePictures.DeleteProfilePicture | EARACONNECT-BACKEND-DEPLOY4-main/src/main/java/com/earacg/earaconnect/service/ProfilePictureService.java:70-96 | unknown user is an error; a set picture is cleared and its file named; otherwise nothing changes |
| Dashboard.BandOf | EARACONNECT-BACKEND-DEPLOY4-main/src/main/java/com/earacg/earaconnect/service/DashboardService.java:340-345 | each band is exactly its percentage range: at least 90, 80 to 89, 70 to 79, 60 to 69, below 60 |
| Dashboard.BandMonotone | EARACONNECT-BACKEND-DEPLOY4-main/src/main/java/com/earacg/earaconnect/service/DashboardService.java:340-345 | a higher percentage never falls in a lower band |
| Dashboard.PerformanceDistribution | EARACONNECT-BACKEND-DEPLOY4-main/src/main/java/com/earacg/earaconnect/service/DashboardService.java:329-360 | each counter is the number of rated reports in that band, and the counters add up to the rated reports |
| Dashboard.DatedYears | EARACONNECT-BACKEND-DEPLOY4-main/src/main/java/com/earacg/earaconnect/service/DashboardService.java:391-395 | exactly the years of the dated reports |
| Dashboard.HasMax | EARACONNECT-BACKEND-DEPLOY4-main/src/main/java/com/earacg/earaconnect/service/DashboardService.java:398-399 | a non-empty set of years has a largest one, so the descending sort is well defined |
| Dashboard.CollectYears | EARACONNECT-BACKEND-DEPLOY4-main/src/main/java/com/earacg/earaconnect/service/DashboardService.java:391-395 | the loop collects exactly the years of the dated reports |
| Dashboard.SortDescending | EARACONNECT-BACKEND-DEPLOY4-main/src/main/java/com/earacg/earaconnect/service/DashboardService.java:398-399 | strictly descending, the same years, empty iff the set is |
| Dashboard.AvailableYears | EARACONNECT-BACKEND-DEPLOY4-main/src/main/java/com/earacg/earaconnect/service/DashboardService.java:384-412 | the default years when no report is dated; otherwise the report years, newest first, each once |
| Dashboard.DescendingHasNoRepeats | EARACONNECT-BACKEND-DEPLOY4-main/src/main/java/com/earacg/earaconnect/service/DashboardService.java:398-399 | no year is listed twice |
| Dashboard.SummaryCounts | EARACONNECT-BACKEND-DEPLOY4-main/src/main/java/com/earacg/earaconnect/service/DashboardService.java:33-37 | the total is the number of reports |
| Dashboard.SummaryCountsBounded | EARACONNECT-BACKEND-DEPLOY4-main/src/main/java/com/earacg/earaconnect/service/DashboardService.java:33-37 | HOD-approved, HOD-rejected and pending together never exceed the total |
| Dashboard.CommissionerOutcomesUncounted | EARACONNECT-BACKEND-DEPLOY4-main/src/main/java/com/earacg/earaconnect/service/DashboardService.java:34-36 | reports decided by the Commissioner are in none of the three counters |
| Dashboard.TotalReviews | EARACONNECT-BACKEND-DEPLOY4-main/src/main/java/com/earacg/earaconnect/service/DashboardService.java:638-640 | at most the number of reports |
| Dashboard.ReviewsAndPendingPartition | EARACONNECT-BACKEND-DEPLOY4-main/src/main/java/com/earacg/earaconnect/service/DashboardService.java:638-640 | reviews and pending reports partition the reports |
| Dashboard.MeanAbove | EARACONNECT-BACKEND-DEPLOY4-main/src/main/java/com/earacg/earaconnect/service/DashboardService.java:219 | comparing a mean with a threshold is comparing the total with threshold times count |
| Dashboard.TrendByTotals | EARACONNECT-BACKEND-DEPLOY4-main/src/main/java/com/earacg/earaconnect/service/DashboardService.java:219 | "up" iff the sum exceeds 80 per report, "stable" iff it lies in (60, 80] per report, "down" otherwise |
| HodPermission.HasHodPrivilegesById | EARACONNECT-BACKEND-DEPLOY4-main/src/main/java/com/earacg/earaconnect/service/HODPermissionService.java:39-53 | true iff the user exists and is privileged; an unknown id is never privileged |
| HodPermission.HodPrivilegeCharacterised | EARACONNECT-BACKEND-DEPLOY4-main/src/main/java/com/earacg/earaconnect/service/HODPermissionService.java:58-99 | privileged iff the role is CHAIR or VICE_CHAIR and the subcommittee is named exactly "Head Of Delegation" |
| HodPermission.OtherRolesNeverPrivileged | EARACONNECT-BACKEND-DEPLOY4-main/src/main/java/com/earacg/earaconnect/service/HODPermissionService.java:64-66 | no other role, the HOD role included, is privileged |
| HodPermission.NullUserNotPrivileged | EARACONNECT-BACKEND-DEPLOY4-main/src/main/java/com/earacg/earaconnect/service/HODPermissionService.java:58-63 | a null user is not privileged |
| HodPermission.NameComparisonIsExact | EARACONNECT-BACKEND-DEPLOY4-main/src/main/java/com/earacg/earaconnect/service/HODPermissionService.java:88 | a chair of "head of delegation" in other letter case is not privileged |
| HodPermission.HeadOfDelegationSubcommitteeId | EARACONNECT-BACKEND-DEPLOY4-main/src/main/java/com/earacg/earaconnect/service/HODPermissionService.java:104-116 | an id found names a subcommittee called "Head Of Delegation"; none is found when no subcommittee has that name |
| HodPermission.OneHodSubcommittee | EARACONNECT-BACKEND-DEPLOY4-main/src/main/java/com/earacg/earaconnect/service/HODPermissionService.java:104-109 | exactly one subcommittee named "Head Of Delegation" gives its id |
| HodPermission.SeveralHodSubcommittees | EARACONNECT-BACKEND-DEPLOY4-main/src/main/java/com/earacg/earaconnect/service/HODPermissionService.java:104-116 | two or more subcommittees with that name make findByName throw, and the answer is null |
| HodPermission.FindSubcommittee | EARACONNECT-BACKEND-DEPLOY4-main/src/main/java/com/earacg/earaconnect/service/HODPermissionService.java:121-132 | finds a subcommittee with that id, and none exactly when no subcommittee has it |
| HodPermission.IsHeadOfDelegationSubcommittee | EARACONNECT-BACKEND-DEPLOY4-main/src/main/java/com/earacg/earaconnect/service/HODPermissionService.java:121-132 | true exactly for an id whose first subcommittee row has that name: true only then, and always then; false for an unknown id |
| HodPermission.UserRoleDisplay | EARACONNECT-BACKEND-DEPLOY4-main/src/main/java/com/earacg/earaconnect/service/HODPermissionService.java:137-143 | "Head of Delegation" for the privileged, the role's name otherwise, null without a role |
| HodPermission.RoleDisplayIffPrivileged | EARACONNECT-BACKEND-DEPLOY4-main/src/main/java/com/earacg/earaconnect/service/HODPermissionService.java:137-143 | the display is "Head of Delegation" exactly for the privileged |
| SecretaryValidation.ValidateLocation | EARACONNECT-BACKEND-DEPLOY4-main/src/main/java/com/earacg/earaconnect/service/SecretaryValidationService.java:37-67 | true iff a secretary role with a country equal to the meeting's hosting country |
| SecretaryValidation.ValidateLocationById | EARACONNECT-BACKEND-DEPLOY4-main/src/main/java/com/earacg/earaconnect/service/SecretaryValidationService.java:22-32 | true iff the secretary exists, the meeting is given and the location check passes |
| SecretaryValidation.CanCreateMeeting | EARACONNECT-BACKEND-DEPLOY4-main/src/main/java/com/earacg/earaconnect/service/SecretaryValidationService.java:81-100 | true iff the user exists, holds a secretary role and belongs to the hosting country |
| SecretaryValidation.MismatchMessage | EARACONNECT-BACKEND-DEPLOY4-main/src/main/java/com/earacg/earaconnect/service/SecretaryValidationService.java:119-121 | the mismatch message names the secretary's country first |
| SecretaryValidation.LocationMessage | EARACONNECT-BACKEND-DEPLOY4-main/src/main/java/com/earacg/earaconnect/service/SecretaryValidationService.java:105-125 | the message for each failed condition, in the order role, country, hosting country, mismatch |
| SecretaryValidation.MessagePassedIffValid | EARACONNECT-BACKEND-DEPLOY4-main/src/main/java/com/earacg/earaconnect/service/SecretaryValidationService.java:105-125 | the message is the success message exactly when the location check passes |
| SecretaryValidation.ValidateMinuteTaking | EARACONNECT-BACKEND-DEPLOY4-main/src/main/java/com/earacg/earaconnect/service/SecretaryValidationService.java:130-150 | valid iff the user exists, holds a secretary role and has a country; an unknown user gets the not-found message |
| SecretaryValidation.MinuteTakingIgnoresMeeting | EARACONNECT-BACKEND-DEPLOY4-main/src/main/java/com/earacg/earaconnect/service/SecretaryValidationService.java:130-150 | the meeting id plays no part in the answer |
| SecretaryValidation.ValidateResolutionAssignment | EARACONNECT-BACKEND-DEPLOY4-main/src/main/java/com/earacg/earaconnect/service/SecretaryValidationService.java:155-169 | valid iff the user exists and holds a secretary role |
| SecretaryValidation.LocationImpliesCanCreate | EARACONNECT-BACKEND-DEPLOY4-main/src/main/java/com/earacg/earaconnect/service/SecretaryValidationService.java:22-169 | a secretary placed in the hosting country may also create the meeting, take minutes and assign resolutions |
| ChairValidation.IsChair | EARACONNECT-BACKEND-DEPLOY4-main/src/main/java/com/earacg/earaconnect/service/ChairValidationService.java:35-43 | true iff the user exists with role CHAIR or VICE_CHAIR |
| ChairValidation.CanAccessResolution | EARACONNECT-BACKEND-DEPLOY4-main/src/main/java/com/earacg/earaconnect/service/ChairValidationService.java:48-64 | true iff the chair's subcommittee has an assignment on the resolution; a chair without a subcommittee faced with assignments throws |
| ChairValidation.CanSubmitReport | EARACONNECT-BACKEND-DEPLOY4-main/src/main/java/com/earacg/earaconnect/service/ChairValidationService.java:69-87 | true iff a chair who can access the resolution while it is ASSIGNED or IN_PROGRESS; a non-chair gets false |
| ChairValidation.ClosedResolutionRejectsReports | EARACONNECT-BACKEND-DEPLOY4-main/src/main/java/com/earacg/earaconnect/service/ChairValidationService.java:69-87 | completed or cancelled resolutions take no report |
| ChairValidation.ProgressErrors | EARACONNECT-BACKEND-DEPLOY4-main/src/main/java/com/earacg/earaconnect/service/ChairValidationService.java:95-99 | at most one progress error: required when missing or blank, too short when under 10 trimmed characters |
| ChairValidation.PerformanceErrors | EARACONNECT-BACKEND-DEPLOY4-main/src/main/java/com/earacg/earaconnect/service/ChairValidationService.java:101-105 | at most one performance error: required when missing, out of range outside 0 to 100 |
| ChairValidation.ValidateReportData | EARACONNECT-BACKEND-DEPLOY4-main/src/main/java/com/earacg/earaconnect/service/ChairValidationService.java:92-116 | no errors iff the draft is acceptable; each rule's error present iff its condition holds; the two pairs exclude each other |
| ChairValidation.AssignedResolutions | EARACONNECT-BACKEND-DEPLOY4-main/src/main/java/com/earacg/earaconnect/service/ChairValidationService.java:121-139 | empty without a chair or subcommittee; otherwise exactly the resolutions assigned to the chair's subcommittee |
| ChairValidation.AssignedIffAccessible | EARACONNECT-BACKEND-DEPLOY4-main/src/main/java/com/earacg/earaconnect/service/ChairValidationService.java:48-64 | a resolution is listed iff the chair can access it |
| ChairValidation.CanUpdateReport | EARACONNECT-BACKEND-DEPLOY4-main/src/main/java/com/earacg/earaconnect/service/ChairValidationService.java:157-166 | true iff the chair submitted the report and it is SUBMITTED or REJECTED_BY_HOD |
| ChairValidation.FinalisedReportsLocked | EARACONNECT-BACKEND-DEPLOY4-main/src/main/java/com/earacg/earaconnect/service/ChairValidationService.java:157-166 | approved or Commissioner-decided reports cannot be updated |
| Resolutions.Row | EARACONNECT-BACKEND-DEPLOY4-main/src/main/java/com/earacg/earaconnect/service/ResolutionService.java:129-144 | a saved row carries the request's subcommittee and weight (0 standing for none), for that resolution, with status ASSIGNED |
| Resolutions.AssignedRows | EARACONNECT-BACKEND-DEPLOY4-main/src/main/java/com/earacg/earaconnect/service/ResolutionService.java:129-144 | one row per request, in order, each recording the resolution's creator as assigner |
| Resolutions.AssignedRowsSnoc | EARACONNECT-BACKEND-DEPLOY4-main/src/main/java/com/earacg/earaconnect/service/ResolutionService.java:129-144 | one more request saves one more row, after the others and numbered after them |
| Resolutions.ReplacementRows | EARACONNECT-BACKEND-DEPLOY4-main/src/main/java/com/earacg/earaconnect/service/ResolutionService.java:264-281 | one row per request, in order, each recording the assigner its own request carries |
| Resolutions.FirstUnknown | EARACONNECT-BACKEND-DEPLOY4-main/src/main/java/com/earacg/earaconnect/service/ResolutionService.java:134-136 | every request before the index names a known subcommittee; the one at the index does not |
| Resolutions.FirstUnknownAt | EARACONNECT-BACKEND-DEPLOY4-main/src/main/java/com/earacg/earaconnect/service/ResolutionService.java:134-136 | the first unknown subcommittee is at i when all before i are known and the one at i is not |
| Resolutions.FirstBadWeight | EARACONNECT-BACKEND-DEPLOY4-main/src/main/java/com/earacg/earaconnect/service/ResolutionService.java:119-121 | every weight before the index unboxes to an int (present and within 32 bits); the one at the index is null or too wide, so the stream throws there |
| Resolutions.ReplaceError | EARACONNECT-BACKEND-DEPLOY4-main/src/main/java/com/earacg/earaconnect/service/ResolutionService.java:270-281 | no error iff the subcommittee is known, the weight is an Integer and the assigner arrived as a Long; an unknown subcommittee is reported first; a known subcommittee with an assigner within 32 bits always fails with a cast error |
| Resolutions.FirstUnsaveable | EARACONNECT-BACKEND-DEPLOY4-main/src/main/java/com/earacg/earaconnect/service/ResolutionService.java:266-283 | every request before the index passes ReplaceError (known subcommittee, Integer weight, Long assigner); the one at the index fails it |
| Resolutions.AssignOutcome | EARACONNECT-BACKEND-DEPLOY4-main/src/main/java/com/earacg/earaconnect/service/ResolutionService.java:115-153 | an unknown resolution, a null or non-Integer weight (the first one's exception) and a 32-bit wrapped sum other than 100 change nothing; rows are only appended, each followed by its notifications; success makes the resolution IN_PROGRESS with one row per request; other resolutions untouched |
| Resolutions.SaveAssigned | EARACONNECT-BACKEND-DEPLOY4-main/src/main/java/com/earacg/earaconnect/service/ResolutionService.java:129-148 | the assign loop: one row per request before the first unknown subcommittee, after the rows already there, and the notifications of exactly those rows; the error is SubcommitteeNotFound iff some request names an unknown subcommittee; resolutions untouched |
| Resolutions.SaveAssignedAt | EARACONNECT-BACKEND-DEPLOY4-main/src/main/java/com/earacg/earaconnect/service/ResolutionService.java:129-148 | when requests before i are known and the one at i is not (or i is the end), the loop's result is the tables after the first i requests' rows and notifications |
| Resolutions.SavedFirstStep | EARACONNECT-BACKEND-DEPLOY4-main/src/main/java/com/earacg/earaconnect/service/ResolutionService.java:129-148 | one more turn of the assign loop appends the next request's row, advances the id and appends that row's notifications |
| Resolutions.SubcommitteeUsersExact | EARACONNECT-BACKEND-DEPLOY4-main/src/main/java/com/earacg/earaconnect/service/ResolutionService.java:195 | findBySubcommitteeId finds exactly the users whose subcommittee is the row's |
| Resolutions.NoticesFor | EARACONNECT-BACKEND-DEPLOY4-main/src/main/java/com/earacg/earaconnect/service/ResolutionService.java:193-230 | one notification per user of the row's subcommittee, in table order, titled New Task Assignment, about the row's resolution and weight, recording whether that user's mail went out |
| Resolutions.AssignmentNoticesSnoc | EARACONNECT-BACKEND-DEPLOY4-main/src/main/java/com/earacg/earaconnect/service/ResolutionService.java:144-147 | saving one more row appends that row's notifications after the earlier ones |
| Resolutions.NoticeIsListed | EARACONNECT-BACKEND-DEPLOY4-main/src/main/java/com/earacg/earaconnect/service/ResolutionService.java:193-230 | every user of a saved row's subcommittee is sent that row's notification |
| Resolutions.NoticeOrigin | EARACONNECT-BACKEND-DEPLOY4-main/src/main/java/com/earacg/earaconnect/service/ResolutionService.java:193-230 | every notification of saved rows is one row's notification to a user of that row's subcommittee |
| Resolutions.RequestNoticesExact | EARACONNECT-BACKEND-DEPLOY4-main/src/main/java/com/earacg/earaconnect/service/ResolutionService.java:129-148 | a notification is among those of the saved rows iff it goes to a user of some request's subcommittee and carries that request's resolution, subcommittee and weight |
| Resolutions.AssignedRowsWeight | EARACONNECT-BACKEND-DEPLOY4-main/src/main/java/com/earacg/earaconnect/service/ResolutionService.java:119-125 | the saved rows weigh what the requests weigh |
| Resolutions.RowWeightConcat | EARACONNECT-BACKEND-DEPLOY4-main/src/main/java/com/earacg/earaconnect/service/ResolutionService.java:119-125 | weights of concatenated rows add up |
| Resolutions.AssignSuccess | EARACONNECT-BACKEND-DEPLOY4-main/src/main/java/com/earacg/earaconnect/service/ResolutionService.java:115-153 | a successful assign appends one ASSIGNED row per request, in order, recording the creator and the request's weight, with a 32-bit wrapped total of 100, and keeps the old rows |
| Resolutions.AssignNotifiesSubcommittees | EARACONNECT-BACKEND-DEPLOY4-main/src/main/java/com/earacg/earaconnect/service/ResolutionService.java:115-153 | a successful assign keeps the earlier notifications and adds exactly one TASK_ASSIGNMENT notification per request and per user of its subcommittee, with the resolution and weight and whether the mail went out |
| Resolutions.AssignAcceptsDuplicates | EARACONNECT-BACKEND-DEPLOY4-main/src/main/java/com/earacg/earaconnect/service/ResolutionService.java:129-148 | the same subcommittee twice gets two rows |
| Resolutions.AssignMakesVisible | EARACONNECT-BACKEND-DEPLOY4-main/src/main/java/com/earacg/earaconnect/service/ResolutionService.java:60-68 | after a successful assign every requested subcommittee is assigned the resolution |
| Resolutions.AssignPartialWrite | EARACONNECT-BACKEND-DEPLOY4-main/src/main/java/com/earacg/earaconnect/service/ResolutionService.java:129-152 | an unknown subcommittee after the weight checks keeps the rows saved before it and leaves the status alone |
| Resolutions.AssignAcceptsWrappedSum | EARACONNECT-BACKEND-DEPLOY4-main/src/main/java/com/earacg/earaconnect/service/ResolutionService.java:119-125 | weights 2147483647, 2147483647 and 102 pass the check (their int sum wraps to 100) and are saved, though they add up to 4294967396 |
| Resolutions.RowsAfterDelete | EARACONNECT-BACKEND-DEPLOY4-main/src/main/java/com/earacg/earaconnect/service/ResolutionService.java:261-281 | after deleting and re-saving, the resolution's rows are exactly the new ones |
| Resolutions.OtherRowsAfterDelete | EARACONNECT-BACKEND-DEPLOY4-main/src/main/java/com/earacg/earaconnect/service/ResolutionService.java:261-281 | other resolutions' rows are unaffected by the replace |
| Resolutions.ReplaceOutcome | EARACONNECT-BACKEND-DEPLOY4-main/src/main/java/com/earacg/earaconnect/service/ResolutionService.java:256-290 | an unknown resolution changes nothing; the resolutions table is never changed; the error is the first failing request's ReplaceError; success reports the number of requests |
| Resolutions.SaveRequests | EARACONNECT-BACKEND-DEPLOY4-main/src/main/java/com/earacg/earaconnect/service/ResolutionService.java:266-283 | the tables gain exactly one row per request before the first unsaveable one, after the rows already there, and nothing else |
| Resolutions.ReplaceSuccess | EARACONNECT-BACKEND-DEPLOY4-main/src/main/java/com/earacg/earaconnect/service/ResolutionService.java:256-290 | after a successful replace every request had a known subcommittee, an Integer weight and a Long assigner, the resolution's rows are exactly the requested ones, in order, and other resolutions' rows are unchanged |
| Resolutions.ReplaceSkipsWeightCheck | EARACONNECT-BACKEND-DEPLOY4-main/src/main/java/com/earacg/earaconnect/service/ResolutionService.java:256-290 | weights that do not sum to 100 are saved, given an assigner number the mapper delivers as a Long |
| Resolutions.ReplaceRejectsIntegerAssigner | EARACONNECT-BACKEND-DEPLOY4-main/src/main/java/com/earacg/earaconnect/service/ResolutionService.java:262-276 | an assigner number within 32 bits in any request makes the replace fail after the delete; the resolution keeps no more rows than there are requests before that one; other resolutions keep theirs |
| Resolutions.ReplaceSmallAssignerExample | EARACONNECT-BACKEND-DEPLOY4-main/src/main/java/com/earacg/earaconnect/service/ResolutionService.java:262-276 | example: one request with assignedBy 5 fails with the Integer-to-Long cast and leaves the resolution with no rows at all |
| Resolutions.FirstIndexFor | EARACONNECT-BACKEND-DEPLOY4-main/src/main/java/com/earacg/earaconnect/service/ResolutionService.java:171-173 | the index of the first row for the subcommittee, or the length when none |
| Resolutions.FirstFor | EARACONNECT-BACKEND-DEPLOY4-main/src/main/java/com/earacg/earaconnect/service/ResolutionService.java:171-174 | none iff no row for the subcommittee; otherwise the first such row |
| Resolutions.Contribution | EARACONNECT-BACKEND-DEPLOY4-main/src/main/java/com/earacg/earaconnect/service/ResolutionService.java:169-180 | 0 without a matching row; fails exactly when a matching row meets a missing percentage; the percentage times the weight is an int product and wraps at 32 bits |
| Resolutions.WeightedProgress | EARACONNECT-BACKEND-DEPLOY4-main/src/main/java/com/earacg/earaconnect/service/ResolutionService.java:168-181 | fails exactly when some report's contribution fails |
| Resolutions.ProgressBounds | EARACONNECT-BACKEND-DEPLOY4-main/src/main/java/com/earacg/earaconnect/service/ResolutionService.java:168-181 | with percentages in 0..100 and weights in 0..21474836 (so that no product leaves 32 bits) the progress lies between 0 and 100 times the matched weights; it is not divided by the number of reports |
| Resolutions.ContributionBounds | EARACONNECT-BACKEND-DEPLOY4-main/src/main/java/com/earacg/earaconnect/service/ResolutionService.java:168-181 | a percentage in 0..100 times a weight in 0..21474836 does not wrap: the contribution lies between 0 and 100 times the matched weight |
| Resolutions.UnmatchedReportsIgnored | EARACONNECT-BACKEND-DEPLOY4-main/src/main/java/com/earacg/earaconnect/service/ResolutionService.java:176-180 | a report without a matching row adds nothing |
| Resolutions.ProgressNotNormalised | EARACONNECT-BACKEND-DEPLOY4-main/src/main/java/com/earacg/earaconnect/service/ResolutionService.java:168-181 | two full reports for a subcommittee weighted 100 give 200% |
| Resolutions.ProgressWrapsExample | EARACONNECT-BACKEND-DEPLOY4-main/src/main/java/com/earacg/earaconnect/service/ResolutionService.java:178 | example: a full report for a subcommittee weighted 2147483647 contributes -100, because the int product wraps |
| Resolutions.ResolutionProgress | EARACONNECT-BACKEND-DEPLOY4-main/src/main/java/com/earacg/earaconnect/service/ResolutionService.java:158-191 | the counts are the resolution's rows and reports; the sum is the sum over its reports of perf × weight, each product wrapped at 32 bits, failing when a contribution fails |
| Resolutions.BySubcommittee | EARACONNECT-BACKEND-DEPLOY4-main/src/main/java/com/earacg/earaconnect/service/ResolutionService.java:60-68 | exactly the resolutions assigned to the subcommittee, in table order |
| Resolutions.ResolutionService.CreateResolution | EARACONNECT-BACKEND-DEPLOY4-main/src/main/java/com/earacg/earaconnect/service/ResolutionService.java:70-74 | the saved resolution is the input with status ASSIGNED and the creation time, under its own or a new id |
| Resolutions.ResolutionService.Assign | EARACONNECT-BACKEND-DEPLOY4-main/src/main/java/com/earacg/earaconnect/service/ResolutionService.java:115-153 | the error and new tables, notifications included, are AssignOutcome of the old tables |
| Resolutions.ResolutionService.SaveAndNotifyEach | EARACONNECT-BACKEND-DEPLOY4-main/src/main/java/com/earacg/earaconnect/service/ResolutionService.java:129-148 | the error and new tables are SaveAssigned of the old ones: each known request's row is saved and its subcommittee notified before the next request is read |
| Resolutions.ResolutionService.NotifySubcommitteeMembers | EARACONNECT-BACKEND-DEPLOY4-main/src/main/java/com/earacg/earaconnect/service/ResolutionService.java:193-230 | appends NoticesFor the row, one notification per user of its subcommittee; a failed mail is swallowed; no table but the notifications changes |
| Resolutions.ResolutionService.AssignAsSecretary | EARACONNECT-BACKEND-DEPLOY4-main/src/main/java/com/earacg/earaconnect/service/ResolutionService.java:100-110 | a refused assigner changes nothing; otherwise it behaves as Assign, notifications of the subcommittees' users included |
| Resolutions.ResolutionService.ReplaceAssignments | EARACONNECT-BACKEND-DEPLOY4-main/src/main/java/com/earacg/earaconnect/service/ResolutionService.java:256-290 | the count and new tables are ReplaceOutcome of the old tables: the resolution's rows deleted, then SaveEach |
| Resolutions.ResolutionService.SaveEach | EARACONNECT-BACKEND-DEPLOY4-main/src/main/java/com/earacg/earaconnect/service/ResolutionService.java:266-283 | the count and new tables are SaveRequests of the tables after the delete |
| ReportLifecycle.FindUser | EARACONNECT-BACKEND-DEPLOY4-main/src/main/java/com/earacg/earaconnect/service/ReportService.java:86-90 | a user is found iff some row has the id, and it is that row |
| ReportLifecycle.RowsWithRole | EARACONNECT-BACKEND-DEPLOY4-main/src/main/java/com/earacg/earaconnect/service/ReportService.java:185-186 | the rows holding the role, never more than the table |
| ReportLifecycle.NoticesTo | EARACONNECT-BACKEND-DEPLOY4-main/src/main/java/com/earacg/earaconnect/service/ReportService.java:193-217 | one notice per recipient |
| ReportLifecycle.NoticesToExact | EARACONNECT-BACKEND-DEPLOY4-main/src/main/java/com/earacg/earaconnect/service/ReportService.java:193-217 | every recipient is notified in order, and mailed exactly when its mail does not fail |
| ReportLifecycle.HodRecipientsExact | EARACONNECT-BACKEND-DEPLOY4-main/src/main/java/com/earacg/earaconnect/service/ReportService.java:183-218 | submission notices reach exactly the privileged users among the chairs and vice chairs |
| ReportLifecycle.HodRecipientsOncePerRow | EARACONNECT-BACKEND-DEPLOY4-main/src/main/java/com/earacg/earaconnect/service/ReportService.java:185-190 | no more notices than rows: nobody is notified twice for one row |
| ReportLifecycle.CountAtMostRoles | EARACONNECT-BACKEND-DEPLOY4-main/src/main/java/com/earacg/earaconnect/service/ReportService.java:185-190 | the chair and vice-chair lists together are no longer than the table |
| ReportLifecycle.Submission | EARACONNECT-BACKEND-DEPLOY4-main/src/main/java/com/earacg/earaconnect/service/ReportService.java:62-64 | status SUBMITTED with a fresh submission time; every other field as given |
| ReportLifecycle.HodReviewed | EARACONNECT-BACKEND-DEPLOY4-main/src/main/java/com/earacg/earaconnect/service/ReportService.java:100-116 | the stage 1 fields recorded and status approved or rejected by HOD; every other field kept |
| ReportLifecycle.CommissionerReviewed | EARACONNECT-BACKEND-DEPLOY4-main/src/main/java/com/earacg/earaconnect/service/ReportService.java:134-142 | the stage 2 fields recorded and status approved or rejected by the Commissioner; every other field kept |
| ReportLifecycle.Resubmitted | EARACONNECT-BACKEND-DEPLOY4-main/src/main/java/com/earacg/earaconnect/service/ReportService.java:159-171 | new content and submission time, status SUBMITTED, all six review fields cleared, identity kept |
| ReportLifecycle.ReviewsIgnoreCurrentStatus | EARACONNECT-BACKEND-DEPLOY4-main/src/main/java/com/earacg/earaconnect/service/ReportService.java:74-148 | neither review depends on the status it starts from |
| ReportLifecycle.HodReviewReopensFinalReport | EARACONNECT-BACKEND-DEPLOY4-main/src/main/java/com/earacg/earaconnect/service/ReportService.java:99-116 | a stage 1 review moves a Commissioner-decided report back to a HOD status and keeps the Commissioner's reviewer |
| ReportLifecycle.ResubmissionReopensForChair | EARACONNECT-BACKEND-DEPLOY4-main/src/main/java/com/earacg/earaconnect/service/ReportService.java:153-181 | after resubmission the submitter may update again, and the version is unchanged |
| ReportLifecycle.ReportService.NotifyAll | EARACONNECT-BACKEND-DEPLOY4-main/src/main/java/com/earacg/earaconnect/service/ReportService.java:220-245 | notices to every commissioner in turn; reports unchanged |
| ReportLifecycle.ReportService.NotifyHods | EARACONNECT-BACKEND-DEPLOY4-main/src/main/java/com/earacg/earaconnect/service/ReportService.java:183-218 | notices to the privileged chairs then vice chairs; reports unchanged |
| ReportLifecycle.ReportService.NotifyWhere | EARACONNECT-BACKEND-DEPLOY4-main/src/main/java/com/earacg/earaconnect/service/ReportService.java:193-217 | notices to exactly the users the filter keeps, in order |
| ReportLifecycle.ReportService.SubmitReport | EARACONNECT-BACKEND-DEPLOY4-main/src/main/java/com/earacg/earaconnect/service/ReportService.java:62-72 | a null performance percentage (NOT NULL at Report.java:35-36) is refused before anything is stored; otherwise the stored report is the submitted one, under its id or a new one, and the HODs are notified |
| ReportLifecycle.ReportService.ReviewByHod | EARACONNECT-BACKEND-DEPLOY4-main/src/main/java/com/earacg/earaconnect/service/ReportService.java:74-125 | null and no change for a missing report or reviewer or a reviewer without HOD privileges; otherwise the HOD review is stored; approval notifies the commissioners then the chair, rejection the chair |
| ReportLifecycle.ReportService.ReviewByCommissioner | EARACONNECT-BACKEND-DEPLOY4-main/src/main/java/com/earacg/earaconnect/service/ReportService.java:127-148 | null for a missing report or user; otherwise the Commissioner review is stored with no role or status check and no notice |
| ReportLifecycle.ReportService.UpdateReport | EARACONNECT-BACKEND-DEPLOY4-main/src/main/java/com/earacg/earaconnect/service/ReportService.java:153-181 | null for an unknown report; a null performance percentage is refused with no change; otherwise the resubmitted report is stored whatever its status, and the HODs are notified |
| CommitteeMembers.FirstSet | EARACONNECT-BACKEND-DEPLOY4-main/src/main/java/com/earacg/earaconnect/model/CSubCommitteeMembers.java:68-82 | the fallback when no post is held; otherwise the role of the first post held in the ranking |
| CommitteeMembers.DetermineUserRole | EARACONNECT-BACKEND-DEPLOY4-main/src/main/java/com/earacg/earaconnect/model/CSubCommitteeMembers.java:68-82 | one of the six member roles, CHAIR whenever the chair post is held |
| CommitteeMembers.DetermineUserRoleIsRanking | EARACONNECT-BACKEND-DEPLOY4-main/src/main/java/com/earacg/earaconnect/model/CSubCommitteeMembers.java:68-82 | the stored role is the first post held in the order chair, committee secretary, delegation secretary, vice chair, committee member |
| CommitteeMembers.SyncRole | EARACONNECT-BACKEND-DEPLOY4-main/src/main/java/com/earacg/earaconnect/service/CSubCommitteeMembersService.java:335-349 | one of the six member roles, CHAIR whenever the chair post is held |
| CommitteeMembers.SyncRoleIsRanking | EARACONNECT-BACKEND-DEPLOY4-main/src/main/java/com/earacg/earaconnect/service/CSubCommitteeMembersService.java:335-349 | the synced role is the first post held in the order chair, vice chair, committee secretary, delegation secretary, committee member |
| CommitteeMembers.StoredAndSyncedRolesDiffer | EARACONNECT-BACKEND-DEPLOY4-main/src/main/java/com/earacg/earaconnect/service/CSubCommitteeMembersService.java:335-349 | the two priority orders disagree exactly for a vice chair (not chair) who is also a secretary |
| CommitteeMembers.RoleCount | EARACONNECT-BACKEND-DEPLOY4-main/src/main/java/com/earacg/earaconnect/service/CSubCommitteeMembersService.java:270-280 | at most five, zero exactly when no post is held |
| CommitteeMembers.MemberError | EARACONNECT-BACKEND-DEPLOY4-main/src/main/java/com/earacg/earaconnect/service/CSubCommitteeMembersService.java:246-280 | no error iff the appointment date is not in the future and one or two posts are held; a future date is reported first |
| CommitteeMembers.AcceptedMemberRoles | EARACONNECT-BACKEND-DEPLOY4-main/src/main/java/com/earacg/earaconnect/service/CSubCommitteeMembersService.java:52-65 | an accepted member holds one or two posts and is stored with a post role, never a staff role |
| CommitteeMembers.NewUserFor | EARACONNECT-BACKEND-DEPLOY4-main/src/main/java/com/earacg/earaconnect/service/CSubCommitteeMembersService.java:317-325 | the new account has the member's email, country and subcommittee, the synced role, and is active |
| CommitteeMembers.SyncedUser | EARACONNECT-BACKEND-DEPLOY4-main/src/main/java/com/earacg/earaconnect/service/CSubCommitteeMembersService.java:307-313 | an existing account gets the synced role, the member's name, email and subcommittee; id, password, country and activity kept |
| CommitteeMembers.SyncedAccount | EARACONNECT-BACKEND-DEPLOY4-main/src/main/java/com/earacg/earaconnect/service/UserService.java:93-96 | updateUser on the synced account itself: it succeeds iff the account's country and the member's subcommittee are stored, and then carries the synced role, name and email, the stored subcommittee, and the old id and password |
| CommitteeMembers.SyncedMails | EARACONNECT-BACKEND-DEPLOY4-main/src/main/java/com/earacg/earaconnect/service/CSubCommitteeMembersService.java:306-326 | a successful sync queues at most one mail, and one exactly when the member has an email that names no account yet: the credentials createUser sends; an existing account gets none |
| CommitteeMembers.SyncedAccountCarriesRole | EARACONNECT-BACKEND-DEPLOY4-main/src/main/java/com/earacg/earaconnect/service/CSubCommitteeMembersService.java:285-330 | after a successful sync the member's email names exactly one account, holding the synced role and the stored subcommittee the member refers to; a queued mail goes to that email and carries that account's password |
| CommitteeMembers.StoredLetter | EARACONNECT-BACKEND-DEPLOY4-main/src/main/java/com/earacg/earaconnect/service/CSubCommitteeMembersService.java:59-62 | no letter for a missing or empty file; an accepted file becomes the stored document; otherwise validateFile's error |
| CommitteeMembers.SyncIgnoresMemberId | EARACONNECT-BACKEND-DEPLOY4-main/src/main/java/com/earacg/earaconnect/service/CSubCommitteeMembersService.java:285-330 | the sync's success, resulting user table and queued mails do not depend on the member's id |
| CommitteeMembers.Prepared | EARACONNECT-BACKEND-DEPLOY4-main/src/main/java/com/earacg/earaconnect/service/CSubCommitteeMembersService.java:59-65 | the stored member has the role its flags determine and the new letter when one was uploaded |
| CommitteeMembers.Updated | EARACONNECT-BACKEND-DEPLOY4-main/src/main/java/com/earacg/earaconnect/service/CSubCommitteeMembersService.java:128-152 | the existing member with the new fields and flags, the re-derived role, and the new letter if uploaded |
| CommitteeMembers.MemberRegistry.SyncMemberToUser | EARACONNECT-BACKEND-DEPLOY4-main/src/main/java/com/earacg/earaconnect/service/CSubCommitteeMembersService.java:285-330 | no email changes nothing; a known email updates that account in place through updateUser, failing without change when its country or the member's subcommittee is unknown, and sends nothing; otherwise a new account with the synced role is created through user creation, which takes the next user id and queues its credentials mail; on success the user table is SyncedUsers and the outbox gains SyncedMails |
| CommitteeMembers.MemberRegistry.Create | EARACONNECT-BACKEND-DEPLOY4-main/src/main/java/com/earacg/earaconnect/service/CSubCommitteeMembersService.java:35-80 | a validation error or a rejected letter changes nothing; success stores the prepared member, with the accepted letter, under the next member id, which advances; the user table becomes SyncedUsers of it, and the user id counter and outbox advance by SyncedMails: the credentials mail for a new account, nothing for an existing one; a failing sync undoes everything |
| CommitteeMembers.MemberRegistry.Update | EARACONNECT-BACKEND-DEPLOY4-main/src/main/java/com/earacg/earaconnect/service/CSubCommitteeMembersService.java:110-165 | unknown id, validation error or rejected letter changes nothing; success stores the updated member in place, keeps the member id counter, and the user table becomes SyncedUsers of it while the user id counter and outbox advance by SyncedMails: the credentials mail for a new account, nothing for an existing one; a failing sync undoes everything |
| CountryCommitteeMembers.PrimaryRole | EARACONNECT-BACKEND-DEPLOY4-main/src/main/java/com/earacg/earaconnect/service/CountryCommitteeMemberService.java:208-222 | CHAIR for a chair, COMMISSIONER_GENERAL when no post is held, otherwise a post role |
| CountryCommitteeMembers.PrimaryRoleRanking | EARACONNECT-BACKEND-DEPLOY4-main/src/main/java/com/earacg/earaconnect/service/CountryCommitteeMemberService.java:208-222 | the order chair, vice chair, committee secretary, committee member; never a subcommittee or delegation role |
| CountryCommitteeMembers.GeneratePassword | EARACONNECT-BACKEND-DEPLOY4-main/src/main/java/com/earacg/earaconnect/service/CountryCommitteeMemberService.java:227-238 | the password is DrawnPassword of the draws: twelve characters, each the alphabet character its draw selects |
| CountryCommitteeMembers.DrawnPassword | EARACONNECT-BACKEND-DEPLOY4-main/src/main/java/com/earacg/earaconnect/service/CountryCommitteeMemberService.java:227-238 | twelve characters, every one from the 70-character alphabet |
| CountryCommitteeMembers.NewUserFor | EARACONNECT-BACKEND-DEPLOY4-main/src/main/java/com/earacg/earaconnect/service/CountryCommitteeMemberService.java:178-189 | the new account has the member's email and country, the primary role, the password, no subcommittee, and is active |
| CountryCommitteeMembers.SyncedUser | EARACONNECT-BACKEND-DEPLOY4-main/src/main/java/com/earacg/earaconnect/service/CountryCommitteeMemberService.java:153-163 | an existing account gets the primary role, name, email, country, activity and a new password; its subcommittee and login data kept |
| CountryCommitteeMembers.SyncGivesAccess | EARACONNECT-BACKEND-DEPLOY4-main/src/main/java/com/earacg/earaconnect/service/CountryCommitteeMemberService.java:133-203 | after a sync the member's email names exactly one account, active, with the primary role and the drawn password, and the mail, unless it failed, carries that password |
| CountryCommitteeMembers.CountryMemberRegistry.SyncMemberToUser | EARACONNECT-BACKEND-DEPLOY4-main/src/main/java/com/earacg/earaconnect/service/CountryCommitteeMemberService.java:137-203 | no email changes nothing; otherwise the user table, id counter and outbox become SyncState: the account with that email updated, or a new one added, with the drawn password, and the mail recorded unless it failed |
| CountryCommitteeMembers.CountryMemberRegistry.Save | EARACONNECT-BACKEND-DEPLOY4-main/src/main/java/com/earacg/earaconnect/service/CountryCommitteeMemberService.java:36-48 | the member is stored under its own id or a new one, then the user table, id counter and outbox become SyncState of the stored member |
| CountryCommitteeMembers.CountryMemberRegistry.ResendCredentials | EARACONNECT-BACKEND-DEPLOY4-main/src/main/java/com/earacg/earaconnect/service/CountryCommitteeMemberService.java:244-284 | false and no change without member or email; with an account, only its password becomes the drawn one, the mail to the account's email and name carries it unless it failed, and the answer is whether it went out; without one, the state becomes SyncState of the member and the answer is true |
| Invitations.SendAll | EARACONNECT-BACKEND-DEPLOY4-main/src/main/java/com/earacg/earaconnect/service/InvitationService.java:69-149 | one result per recipient, in the order the recipients are given |
| Invitations.SendOneEffect | EARACONNECT-BACKEND-DEPLOY4-main/src/main/java/com/earacg/earaconnect/service/InvitationService.java:70-127 | one recipient: the table stays well formed, the result names the recipient and is a success exactly when the user exists and the pair's lookup succeeds; afterwards the pair has exactly one row, PENDING and sent now when rows are reset; no other row and no other pair changes |
| Invitations.SendOneValidEligible | EARACONNECT-BACKEND-DEPLOY4-main/src/main/java/com/earacg/earaconnect/service/InvitationService.java:70-127 | one recipient keeps the table well formed and does not change which recipients can be sent to |
| Invitations.SendAllValidEligible | EARACONNECT-BACKEND-DEPLOY4-main/src/main/java/com/earacg/earaconnect/service/InvitationService.java:69-149 | the whole loop keeps the table well formed and does not change which recipients can be sent to |
| Invitations.SendAllFrame | EARACONNECT-BACKEND-DEPLOY4-main/src/main/java/com/earacg/earaconnect/service/InvitationService.java:69-149 | rows of other meetings and of users not among the recipients are left untouched, as are all rows when rows are not reset; no row disappears |
| Invitations.SendAllResults | EARACONNECT-BACKEND-DEPLOY4-main/src/main/java/com/earacg/earaconnect/service/InvitationService.java:128-148 | the i-th result names the i-th recipient and is a success exactly when that recipient is a known user whose pair lookup succeeds |
| Invitations.SendAllOneRow | EARACONNECT-BACKEND-DEPLOY4-main/src/main/java/com/earacg/earaconnect/service/InvitationService.java:77-97 | after the loop every eligible recipient has exactly one invitation to the meeting, never a duplicate |
| Invitations.SendOnePending | EARACONNECT-BACKEND-DEPLOY4-main/src/main/java/com/earacg/earaconnect/service/InvitationService.java:81-94 | sending to an eligible recipient leaves its invitation PENDING and sent now, and keeps every other recipient's pending invitation pending |
| Invitations.SendAllPending | EARACONNECT-BACKEND-DEPLOY4-main/src/main/java/com/earacg/earaconnect/service/InvitationService.java:69-149 | after the loop every eligible recipient's invitation is PENDING with the new send time, including ones answered before |
| Invitations.SendGuard | EARACONNECT-BACKEND-DEPLOY4-main/src/main/java/com/earacg/earaconnect/service/InvitationService.java:48-63 | the send is allowed exactly when the meeting and sender exist, the sender's role is SECRETARY and the sender's country is the meeting's hosting country; missing meeting and sender give their own messages |
| Invitations.OnlyPlainSecretariesSend | EARACONNECT-BACKEND-DEPLOY4-main/src/main/java/com/earacg/earaconnect/service/InvitationService.java:56-58 | committee and delegation secretaries are refused: only the plain SECRETARY role may send |
| Invitations.SendTo | EARACONNECT-BACKEND-DEPLOY4-main/src/main/java/com/earacg/earaconnect/service/InvitationService.java:70-127 | one recipient on the invitation table: the new table and the result are those of the one-recipient step |
| Invitations.SendSequence | EARACONNECT-BACKEND-DEPLOY4-main/src/main/java/com/earacg/earaconnect/service/InvitationService.java:69-149 | the loop over the recipients on the table: the new table and the results are the fold of the one-recipient step, and the success count is the number of successes |
| Invitations.SendInvitations | EARACONNECT-BACKEND-DEPLOY4-main/src/main/java/com/earacg/earaconnect/service/InvitationService.java:44-162 | a refused send returns its error and changes nothing; an allowed one runs the loop with rows reset and reports the number of recipients, the successes and the failures, which add up to the number of recipients |
| Invitations.SendInvitationsOutcome | EARACONNECT-BACKEND-DEPLOY4-main/src/main/java/com/earacg/earaconnect/service/InvitationService.java:69-149 | every recipient reported a success ends with exactly one PENDING invitation sent now; invitations of users not among the recipients are unchanged |
| Invitations.RespondToInvitation | EARACONNECT-BACKEND-DEPLOY4-main/src/main/java/com/earacg/earaconnect/service/InvitationService.java:229-267 | an unknown id or a status outside PENDING, ACCEPTED, DECLINED, MAYBE is an error that changes nothing; otherwise exactly that invitation is replaced by its answered form with the status, comment and response time |
| Invitations.CommitteeUsers | EARACONNECT-BACKEND-DEPLOY4-main/src/main/java/com/earacg/earaconnect/service/InvitationService.java:318-329 | the users of a committee are exactly the users whose e-mail belongs to one of the committee's country members; members without a user are skipped |
| Invitations.CommitteeRecipientsMembers | EARACONNECT-BACKEND-DEPLOY4-main/src/main/java/com/earacg/earaconnect/service/InvitationService.java:312-331 | the committee recipients are exactly the users belonging to some known committee among the requested ids |
| Invitations.SubcommitteeRecipientsMembers | EARACONNECT-BACKEND-DEPLOY4-main/src/main/java/com/earacg/earaconnect/service/InvitationService.java:382-388 | the subcommittee recipients are exactly the users whose subcommittee is some known subcommittee among the requested ids |
| Invitations.UnknownCount | EARACONNECT-BACKEND-DEPLOY4-main/src/main/java/com/earacg/earaconnect/service/InvitationService.java:370-377 | at most one error per requested group id |
| Invitations.UnknownCountZero | EARACONNECT-BACKEND-DEPLOY4-main/src/main/java/com/earacg/earaconnect/service/InvitationService.java:370-377 | no group error exactly when every requested id names an existing group |
| Invitations.CommitteeResult | EARACONNECT-BACKEND-DEPLOY4-main/src/main/java/com/earacg/earaconnect/service/InvitationService.java:312-378 | a committee's result entry is an error exactly when the committee does not exist |
| Invitations.SubcommitteeResult | EARACONNECT-BACKEND-DEPLOY4-main/src/main/java/com/earacg/earaconnect/service/InvitationService.java:382-435 | a subcommittee's result entry is an error exactly when the subcommittee does not exist |
| Invitations.CommitteeResults | EARACONNECT-BACKEND-DEPLOY4-main/src/main/java/com/earacg/earaconnect/service/InvitationService.java:312-379 | one result entry per requested committee id |
| Invitations.SubcommitteeResults | EARACONNECT-BACKEND-DEPLOY4-main/src/main/java/com/earacg/earaconnect/service/InvitationService.java:382-436 | one result entry per requested subcommittee id |
| Invitations.CommitteeResultsAt | EARACONNECT-BACKEND-DEPLOY4-main/src/main/java/com/earacg/earaconnect/service/InvitationService.java:312-379 | the k-th committee entry is the result for the k-th requested committee id |
| Invitations.SubcommitteeResultsAt | EARACONNECT-BACKEND-DEPLOY4-main/src/main/java/com/earacg/earaconnect/service/InvitationService.java:382-436 | the k-th subcommittee entry is the result for the k-th requested subcommittee id |
| Invitations.SendBulkInvitations | EARACONNECT-BACKEND-DEPLOY4-main/src/main/java/com/earacg/earaconnect/service/InvitationService.java:294-504 | a missing meeting is an error that changes nothing; otherwise the recipients are the union of the known groups' users, each sent to once in some order with rows reset, the group entries are listed committees first, and successes plus errors equal the recipients plus the unknown group ids |
| Invitations.GatherCommittees | EARACONNECT-BACKEND-DEPLOY4-main/src/main/java/com/earacg/earaconnect/service/InvitationService.java:312-379 | the committee loop gathers exactly the committee recipients, one entry per id and one error per unknown id |
| Invitations.GatherSubcommittees | EARACONNECT-BACKEND-DEPLOY4-main/src/main/java/com/earacg/earaconnect/service/InvitationService.java:382-436 | the subcommittee loop gathers exactly the subcommittee recipients, one entry per id and one error per unknown id |
| Invitations.SendToEach | EARACONNECT-BACKEND-DEPLOY4-main/src/main/java/com/earacg/earaconnect/service/InvitationService.java:439-479 | every unique recipient is sent to once, in some order, with rows reset; successes and failures add up to the number of recipients |
| Invitations.BulkRecipientsAreUsers | EARACONNECT-BACKEND-DEPLOY4-main/src/main/java/com/earacg/earaconnect/service/InvitationService.java:301-388 | every bulk recipient is a known user |
| MeetingInvitations.ParseStatus | EARACONNECT-BACKEND-DEPLOY4-main/src/main/java/com/earacg/earaconnect/service/InvitationService.java:236-238 | a status name is read case-insensitively: the result, when there is one, is the status whose name is the upper-cased input, and there is none exactly when no status has that name |
| MeetingInvitations.ParseIgnoresCase | EARACONNECT-BACKEND-DEPLOY4-main/src/main/java/com/earacg/earaconnect/model/MeetingInvitation.java:47-52 | every spelling whose upper-case form is a status name reads as that status |
| MeetingInvitations.PairIds | EARACONNECT-BACKEND-DEPLOY4-main/src/main/java/com/earacg/earaconnect/repository/MeetingInvitationRepo.java:25 | the rows of one (meeting, user) pair are exactly the stored rows with that meeting and that user |
| MeetingInvitations.LookupPair | EARACONNECT-BACKEND-DEPLOY4-main/src/main/java/com/earacg/earaconnect/repository/MeetingInvitationRepo.java:25 | the optional lookup of a pair finds nothing when it has no row, its single row when it has one, and fails when it has two or more |
| MeetingInvitations.SecondRowBreaksLookup | EARACONNECT-BACKEND-DEPLOY4-main/src/main/java/com/earacg/earaconnect/repository/MeetingInvitationRepo.java:25 | storing a second row for a pair makes every later lookup of that pair fail |
| MeetingInvitations.Updated | EARACONNECT-BACKEND-DEPLOY4-main/src/main/java/com/earacg/earaconnect/service/MeetingInvitationService.java:48-69 | an update keeps the row's identity, meeting, user and send time, replaces the status and the comment only when they are supplied, and stamps the response time exactly when a status other than PENDING is supplied |
| MeetingInvitations.EmptyUpdateChangesNothing | EARACONNECT-BACKEND-DEPLOY4-main/src/main/java/com/earacg/earaconnect/service/MeetingInvitationService.java:48-69 | an update that supplies neither status nor comment leaves the row as it was |
| MeetingInvitations.Responded | EARACONNECT-BACKEND-DEPLOY4-main/src/main/java/com/earacg/earaconnect/service/MeetingInvitationService.java:79-90 | answering sets the status and the comment (a missing comment clears it) and stamps the response time, keeping the row's identity, meeting, user and send time |
| MeetingInvitations.RespondStampsEvenPending | EARACONNECT-BACKEND-DEPLOY4-main/src/main/java/com/earacg/earaconnect/service/MeetingInvitationService.java:48-90 | answering PENDING stamps a response time, while an update to PENDING does not |
| MeetingInvitations.InvitationTable.constructor | EARACONNECT-BACKEND-DEPLOY4-main/src/main/java/com/earacg/earaconnect/service/MeetingInvitationService.java:12-15 | the table starts empty |
| MeetingInvitations.InvitationTable.Insert | EARACONNECT-BACKEND-DEPLOY4-main/src/main/java/com/earacg/earaconnect/service/MeetingInvitationService.java:37-46 | saving a new row stores it under the next id, which then advances, and changes no other row |
| MeetingInvitations.InvitationTable.CreateInvitation | EARACONNECT-BACKEND-DEPLOY4-main/src/main/java/com/earacg/earaconnect/service/MeetingInvitationService.java:37-46 | without a meeting or a user nothing is stored; otherwise a new PENDING row sent now is stored under the next id |
| MeetingInvitations.InvitationTable.UpdateInvitation | EARACONNECT-BACKEND-DEPLOY4-main/src/main/java/com/earacg/earaconnect/service/MeetingInvitationService.java:48-69 | an unknown id changes nothing; otherwise exactly that row becomes its updated form |
| MeetingInvitations.InvitationTable.RespondToInvitation | EARACONNECT-BACKEND-DEPLOY4-main/src/main/java/com/earacg/earaconnect/service/MeetingInvitationService.java:79-90 | an unknown id changes nothing; otherwise exactly that row becomes its answered form |
| MeetingInvitations.InvitationTable.DeleteInvitation | EARACONNECT-BACKEND-DEPLOY4-main/src/main/java/com/earacg/earaconnect/service/MeetingInvitationService.java:71-77 | the row is removed, and the answer says whether it existed |
| Meetings.UsersForMeetingType | EARACONNECT-BACKEND-DEPLOY4-main/src/main/java/com/earacg/earaconnect/service/MeetingService.java:262-281 | the invitees of a meeting type: every Commissioner General for a Commissioner General meeting, otherwise the users with the type's role (SECRETARY for technical, CHAIR for subcommittee meetings) in the hosting country |
| Meetings.CommissionerMeetingsIgnoreCountry | EARACONNECT-BACKEND-DEPLOY4-main/src/main/java/com/earacg/earaconnect/service/MeetingService.java:264-265 | a Commissioner General meeting invites every Commissioner General, whatever country hosts it |
| Meetings.Candidates | EARACONNECT-BACKEND-DEPLOY4-main/src/main/java/com/earacg/earaconnect/service/MeetingService.java:165-166 | a meeting without a type or a hosting country has no candidates and fails; otherwise its candidates are the users for its type and country |
| Meetings.InvitedUsers | EARACONNECT-BACKEND-DEPLOY4-main/src/main/java/com/earacg/earaconnect/service/MeetingService.java:438-441 | the users already invited are exactly those holding some invitation to the meeting |
| Meetings.PotentialInvitees | EARACONNECT-BACKEND-DEPLOY4-main/src/main/java/com/earacg/earaconnect/service/MeetingService.java:430-474 | an unknown meeting is an error; otherwise the potential invitees are exactly the candidates that hold no invitation to the meeting |
| Meetings.InvitedUsersLeaveThePool | EARACONNECT-BACKEND-DEPLOY4-main/src/main/java/com/earacg/earaconnect/service/MeetingService.java:430-474 | a user the send loop succeeds for is no longer a potential invitee of the meeting |
| Meetings.SameCountry | EARACONNECT-BACKEND-DEPLOY4-main/src/main/java/com/earacg/earaconnect/service/MeetingService.java:144-158 | the secretary check holds exactly when meeting and user exist, both countries are set and they are the same country |
| Meetings.SameCountryIgnoresRole | EARACONNECT-BACKEND-DEPLOY4-main/src/main/java/com/earacg/earaconnect/service/MeetingService.java:144-158 | every secretary the location validator clears passes the service's own check, and of the users of the hosting country it also lets through those who are not secretaries |
| Meetings.CreationGuard | EARACONNECT-BACKEND-DEPLOY4-main/src/main/java/com/earacg/earaconnect/service/MeetingService.java:67-78 | creation is refused exactly when the creator is a secretary failing the location check, with the validator's message after "Location validation failed: " |
| Meetings.InsertAll | EARACONNECT-BACKEND-DEPLOY4-main/src/main/java/com/earacg/earaconnect/service/MeetingService.java:165-170 | one new invitation per user, each with the next id |
| Meetings.InsertAllRows | EARACONNECT-BACKEND-DEPLOY4-main/src/main/java/com/earacg/earaconnect/service/MeetingService.java:215-224 | the k-th user gets a new PENDING invitation sent now with id next+k, whether or not the pair already had one; existing rows stay unchanged |
| Meetings.InsertAllDuplicates | EARACONNECT-BACKEND-DEPLOY4-main/src/main/java/com/earacg/earaconnect/service/MeetingService.java:215-224 | inviting on creation a user who already holds an invitation adds a second row, after which the pair's lookup fails |
| Meetings.CreateAndSend | EARACONNECT-BACKEND-DEPLOY4-main/src/main/java/com/earacg/earaconnect/service/MeetingService.java:215-224 | one user invited on the table: exactly one new PENDING row for that pair |
| Meetings.InviteAll | EARACONNECT-BACKEND-DEPLOY4-main/src/main/java/com/earacg/earaconnect/service/MeetingService.java:165-170 | every candidate gets one new row, in some order |
| Meetings.FirstUntitled | EARACONNECT-BACKEND-DEPLOY4-main/src/main/java/com/earacg/earaconnect/service/MeetingService.java:356-367 | the drafts before the first untitled one all have titles; the index names the first draft without a title, if any |
| Meetings.MeetingTable.constructor | EARACONNECT-BACKEND-DEPLOY4-main/src/main/java/com/earacg/earaconnect/service/MeetingService.java:18-27 | the meeting table starts empty |
| Meetings.MeetingTable.CreateMeeting | EARACONNECT-BACKEND-DEPLOY4-main/src/main/java/com/earacg/earaconnect/service/MeetingService.java:65-98 | a refused secretary changes nothing; a meeting without a creator or without a hosting country is refused before anything is stored; otherwise it is stored under the next id and, when it has a type, every candidate gets a new invitation; without a type creation fails after the meeting was saved |
| Meetings.MeetingTable.UpdateMeetingMinutes | EARACONNECT-BACKEND-DEPLOY4-main/src/main/java/com/earacg/earaconnect/service/MeetingService.java:331-341 | an unknown id changes nothing; otherwise the minutes are stored and the meeting becomes COMPLETED, nothing else changing |
| Meetings.MeetingTable.UpdateMeetingMinutesWithValidation | EARACONNECT-BACKEND-DEPLOY4-main/src/main/java/com/earacg/earaconnect/service/MeetingService.java:477-505 | the update succeeds exactly when the meeting and the secretary exist and the secretary passes the location check; it then stores the minutes and marks the meeting COMPLETED, and a failure changes nothing |
| Meetings.MeetingTable.CreateResolutions | EARACONNECT-BACKEND-DEPLOY4-main/src/main/java/com/earacg/earaconnect/service/MeetingService.java:344-371 | an unknown meeting or no drafts is refused before anything is saved; each titled draft in turn becomes a new ASSIGNED resolution created by the meeting's creator, up to the first untitled draft, which stops the loop with an error; the saved resolutions stay |
| Meetings.SendInvitationsToUsers | EARACONNECT-BACKEND-DEPLOY4-main/src/main/java/com/earacg/earaconnect/service/MeetingService.java:176-210 | an unknown meeting throws and changes nothing; otherwise each user is handled by the one-recipient step with existing rows kept, and successes and errors add up to the number of users |
| Meetings.ExistingInvitationsUntouched | EARACONNECT-BACKEND-DEPLOY4-main/src/main/java/com/earacg/earaconnect/service/MeetingService.java:188-200 | existing rows are never changed; a user with one invitation keeps exactly that one and counts as a success; no pair gets a second row |
| Meetings.SendAllUnknownUser | EARACONNECT-BACKEND-DEPLOY4-main/src/main/java/com/earacg/earaconnect/service/MeetingService.java:189-191 | an id that names no user never gets an invitation |
| MeetingAttendance.ParseAttendanceNames | EARACONNECT-BACKEND-DEPLOY4-main/src/main/java/com/earacg/earaconnect/service/MeetingService.java:298 | a status is read case-insensitively: the result is the status named by the upper-cased input, and a missing status or an unknown name is an error |
| MeetingAttendance.RecordOneOutcome | EARACONNECT-BACKEND-DEPLOY4-main/src/main/java/com/earacg/earaconnect/service/MeetingService.java:288-311 | one record succeeds exactly when the user exists, the pair has at most one row and the status parses; an unknown user gives "User not found with ID: " and the id |
| MeetingAttendance.RecordOneFrame | EARACONNECT-BACKEND-DEPLOY4-main/src/main/java/com/earacg/earaconnect/service/MeetingService.java:295-311 | one record removes no row, keeps each kept row's pair, leaves other pairs' rows untouched and adds rows only for its own pair |
| MeetingAttendance.RecordOneSets | EARACONNECT-BACKEND-DEPLOY4-main/src/main/java/com/earacg/earaconnect/service/MeetingService.java:295-311 | after a record its pair holds exactly one row, with the record's status and notes, whether it was updated or inserted |
| MeetingAttendance.RecordOneOthers | EARACONNECT-BACKEND-DEPLOY4-main/src/main/java/com/earacg/earaconnect/service/MeetingService.java:295-311 | a record leaves every other user's rows for the meeting as they were |
| MeetingAttendance.RecordAllValid | EARACONNECT-BACKEND-DEPLOY4-main/src/main/java/com/earacg/earaconnect/service/MeetingService.java:287-312 | the attendance table stays well formed whatever the records |
| MeetingAttendance.RecordAllFrame | EARACONNECT-BACKEND-DEPLOY4-main/src/main/java/com/earacg/earaconnect/service/MeetingService.java:287-312 | rows outside the pairs the records name are untouched and no row is removed |
| MeetingAttendance.RecordAllStops | EARACONNECT-BACKEND-DEPLOY4-main/src/main/java/com/earacg/earaconnect/service/MeetingService.java:287-312 | once a record has thrown, later records change nothing |
| MeetingAttendance.RecordAllAborts | EARACONNECT-BACKEND-DEPLOY4-main/src/main/java/com/earacg/earaconnect/service/MeetingService.java:287-312 | a failing run keeps the effect of exactly the records before the first failing one, which is the record that fails on that state |
| MeetingAttendance.RecordAllSucceeded | EARACONNECT-BACKEND-DEPLOY4-main/src/main/java/com/earacg/earaconnect/service/MeetingService.java:287-312 | a run without error had every user known and every status valid |
| MeetingAttendance.RecordAllLastWins | EARACONNECT-BACKEND-DEPLOY4-main/src/main/java/com/earacg/earaconnect/service/MeetingService.java:287-312 | after a run without error, each recorded user's pair holds one row with the status and notes of that user's last record |
| MeetingAttendance.AttendanceTable.constructor | EARACONNECT-BACKEND-DEPLOY4-main/src/main/java/com/earacg/earaconnect/service/MeetingService.java:18-21 | the attendance table starts empty |
| MeetingAttendance.AttendanceTable.Record | EARACONNECT-BACKEND-DEPLOY4-main/src/main/java/com/earacg/earaconnect/service/MeetingService.java:288-311 | one record on the table: the new table, or the error with the table unchanged, is that of the one-record step |
| MeetingAttendance.AttendanceTable.RecordAttendance | EARACONNECT-BACKEND-DEPLOY4-main/src/main/java/com/earacg/earaconnect/service/MeetingService.java:283-312 | an unknown meeting throws before any record and changes nothing; otherwise the records are applied in order up to the first failure |
| MeetingAttendance.AttendanceTable.RecordEach | EARACONNECT-BACKEND-DEPLOY4-main/src/main/java/com/earacg/earaconnect/service/MeetingService.java:287-311 | the loop over the records leaves the table and the error exactly where the in-order fold that stops at the first failure leaves them, and the table stays well formed |
| Countries.Create | EARACONNECT-BACKEND-DEPLOY4-main/src/main/java/com/earacg/earaconnect/service/CountryService.java:36-54 | a country is created exactly when its name, e-mail and ISO code are all free and its EAC exists; a taken name gives "Country with name … already exists" |
| Countries.Update | EARACONNECT-BACKEND-DEPLOY4-main/src/main/java/com/earacg/earaconnect/service/CountryService.java:57-90 | an unknown id gives "Country not found with id: …"; otherwise the update succeeds exactly when each of name, e-mail and ISO code is kept or free and the EAC is kept or exists |
| Countries.AuthoritiesWithout | EARACONNECT-BACKEND-DEPLOY4-main/src/main/java/com/earacg/earaconnect/service/CountryService.java:97 | the revenue authorities left are exactly those of the other countries, unchanged |
| Countries.Delete | EARACONNECT-BACKEND-DEPLOY4-main/src/main/java/com/earacg/earaconnect/service/CountryService.java:93-102 | deleting fails exactly for an unknown id; afterwards the country and every revenue authority pointing at it are gone |
| Countries.CreateKeepsKeysUnique | EARACONNECT-BACKEND-DEPLOY4-main/src/main/java/com/earacg/earaconnect/service/CountryService.java:36-54 | a successful create keeps names, e-mails and ISO codes unique, keeps authorities attached and changes no stored country |
| Countries.UpdateKeepsKeysUnique | EARACONNECT-BACKEND-DEPLOY4-main/src/main/java/com/earacg/earaconnect/service/CountryService.java:57-90 | a successful update keeps the keys unique, changes no other country and writes exactly the name, e-mail, ISO code and EAC |
| Countries.DeleteKeepsAuthoritiesAttached | EARACONNECT-BACKEND-DEPLOY4-main/src/main/java/com/earacg/earaconnect/service/CountryService.java:93-102 | deleting keeps every remaining authority attached to an existing country and leaves the other countries and their authorities alone |
| Countries.DeleteOrderMatters | EARACONNECT-BACKEND-DEPLOY4-main/src/main/java/com/earacg/earaconnect/service/CountryService.java:96-101 | removing the country before its authorities would leave an authority pointing at no country |
| Countries.UpdateKeepingKeysPasses | EARACONNECT-BACKEND-DEPLOY4-main/src/main/java/com/earacg/earaconnect/service/CountryService.java:60-78 | an update that keeps name, e-mail and ISO code always passes the uniqueness checks |
| Countries.CreateRejectsTakenKeys | EARACONNECT-BACKEND-DEPLOY4-main/src/main/java/com/earacg/earaconnect/service/CountryService.java:38-47 | a name, e-mail or ISO code already stored cannot be used by a new country |
| Countries.CountryService.constructor | EARACONNECT-BACKEND-DEPLOY4-main/src/main/java/com/earacg/earaconnect/service/CountryService.java:18-23 | the service starts with no countries and no authorities |
| Countries.CountryService.GetCountryById | EARACONNECT-BACKEND-DEPLOY4-main/src/main/java/com/earacg/earaconnect/service/CountryService.java:30-33 | the stored country, or "Country not found with id: …" |
| Countries.CountryService.CreateCountry | EARACONNECT-BACKEND-DEPLOY4-main/src/main/java/com/earacg/earaconnect/service/CountryService.java:36-54 | a refused create returns its error and changes nothing; otherwise the tables become the created ones and the new country is returned |
| Countries.CountryService.UpdateCountry | EARACONNECT-BACKEND-DEPLOY4-main/src/main/java/com/earacg/earaconnect/service/CountryService.java:57-90 | a refused update returns its error and changes nothing; otherwise the tables become the updated ones and the updated country is returned |
| Countries.CountryService.DeleteCountry | EARACONNECT-BACKEND-DEPLOY4-main/src/main/java/com/earacg/earaconnect/service/CountryService.java:93-102 | an unknown id returns its error and changes nothing; otherwise the country and its authorities are removed |
| Committees.Get | EARACONNECT-BACKEND-DEPLOY4-main/src/main/java/com/earacg/earaconnect/service/CommitteeService.java:27-30 | the stored committee exactly when the id is known |
| Committees.Create | EARACONNECT-BACKEND-DEPLOY4-main/src/main/java/com/earacg/earaconnect/service/CommitteeService.java:33-39 | creation fails exactly when the name is taken, with "Committee with name … already exists" |
| Committees.Update | EARACONNECT-BACKEND-DEPLOY4-main/src/main/java/com/earacg/earaconnect/service/CommitteeService.java:42-53 | the update succeeds exactly when the id is known and the name is kept or free; an unknown id passes on the lookup's error |
| Committees.Delete | EARACONNECT-BACKEND-DEPLOY4-main/src/main/java/com/earacg/earaconnect/service/CommitteeService.java:56-80 | deleting fails exactly when the lookup fails, with its error; otherwise exactly that committee is removed |
| Committees.OperationsKeepNamesUnique | EARACONNECT-BACKEND-DEPLOY4-main/src/main/java/com/earacg/earaconnect/service/CommitteeService.java:33-80 | create, update and delete keep committee names unique and the table well formed |
| Committees.UpdateSameNameChangesNothing | EARACONNECT-BACKEND-DEPLOY4-main/src/main/java/com/earacg/earaconnect/service/CommitteeService.java:42-53 | an update that keeps a stored committee's name succeeds and changes nothing |
| Committees.CommitteeService.constructor | EARACONNECT-BACKEND-DEPLOY4-main/src/main/java/com/earacg/earaconnect/service/CommitteeService.java:17-20 | the service starts with no committees |
| Committees.CommitteeService.GetCommitteeById | EARACONNECT-BACKEND-DEPLOY4-main/src/main/java/com/earacg/earaconnect/service/CommitteeService.java:27-30 | the lookup of the stored table |
| Committees.CommitteeService.CreateCommittee | EARACONNECT-BACKEND-DEPLOY4-main/src/main/java/com/earacg/earaconnect/service/CommitteeService.java:33-39 | a refused create changes nothing; otherwise the new committee is stored under the next id and returned |
| Committees.CommitteeService.UpdateCommittee | EARACONNECT-BACKEND-DEPLOY4-main/src/main/java/com/earacg/earaconnect/service/CommitteeService.java:42-53 | a refused update changes nothing; otherwise the committee takes the new name and is returned |
| Committees.CommitteeService.DeleteCommittee | EARACONNECT-BACKEND-DEPLOY4-main/src/main/java/com/earacg/earaconnect/service/CommitteeService.java:56-80 | a failed lookup changes nothing; otherwise the committee is removed |
| AssignmentClient.DistinctIdsCount | EARACONNECT-FRONTEND-DEPLOY4-main/src/services/resolutionAssignmentService.js:112-117 | the set of subcommittee ids is no larger than the list, and as large exactly when no two rows share an id |
| AssignmentClient.RowErrors | EARACONNECT-FRONTEND-DEPLOY4-main/src/services/resolutionAssignmentService.js:120-129 | a row has no error exactly when it names a subcommittee and its weight is from 1 to 100; at most two messages per row |
| AssignmentClient.EachRowErrors | EARACONNECT-FRONTEND-DEPLOY4-main/src/services/resolutionAssignmentService.js:120-129 | the rows give no error exactly when every row names a subcommittee with a weight from 1 to 100 |
| AssignmentClient.ValidateAssignments | EARACONNECT-FRONTEND-DEPLOY4-main/src/services/resolutionAssignmentService.js:92-131 | a missing or empty list gives only "At least one assignment is required"; a total other than 100 is reported first, with the total |
| AssignmentClient.ValidationPassesIff | EARACONNECT-FRONTEND-DEPLOY4-main/src/services/resolutionAssignmentService.js:92-131 | a list passes exactly when it is non-empty, sums to 100, repeats no subcommittee and every row names a subcommittee with a weight from 1 to 100 |
| AssignmentClient.DuplicateReported | EARACONNECT-FRONTEND-DEPLOY4-main/src/services/resolutionAssignmentService.js:112-117 | a subcommittee named twice is always reported |
| AssignmentClient.AsRequests | EARACONNECT-FRONTEND-DEPLOY4-main/src/services/resolutionAssignmentService.js:61-67 | one request entry per form row |
| AssignmentClient.AsRequestsTotal | EARACONNECT-FRONTEND-DEPLOY4-main/src/services/resolutionAssignmentService.js:61-67 | the request entries carry the same total weight as the form rows |
| AssignmentClient.AsRequestsUnbox | EARACONNECT-FRONTEND-DEPLOY4-main/src/services/resolutionAssignmentService.js:61-67 | weights from 1 to 100 reach the backend as Integers, so none fails to unbox |
| AssignmentClient.AcceptedRows | EARACONNECT-FRONTEND-DEPLOY4-main/src/services/resolutionAssignmentService.js:92-131 | an accepted list totals 100 and every row names a subcommittee with a weight from 1 to 100 |
| AssignmentClient.ClientValidationImpliesBackendSum | EARACONNECT-FRONTEND-DEPLOY4-main/src/services/resolutionAssignmentService.js:92-131 | a list the client accepts names a subcommittee in every row, unboxes without error and passes the backend's sum check with an exact (unwrapped) total of 100 |
| AssignmentClient.AssignResolutionRequest | EARACONNECT-FRONTEND-DEPLOY4-main/src/services/resolutionAssignmentService.js:53-67 | a list that fails validation is refused with its messages joined by ". " before any request; otherwise one entry per row with its subcommittee and weight |
| AssignmentClient.RemainingPercentage | EARACONNECT-FRONTEND-DEPLOY4-main/src/services/resolutionAssignmentService.js:174-179 | the remaining share is never negative, is zero exactly when the total reaches 100, and with the total makes 100 otherwise |
| AssignmentClient.AutoDistribute | EARACONNECT-FRONTEND-DEPLOY4-main/src/pages/Resolutions/ResolutionAssignmentForm.jsx:157-169 | an empty list is left alone; otherwise every row keeps its other fields and takes its share |
| AssignmentClient.SharesSum | EARACONNECT-FRONTEND-DEPLOY4-main/src/pages/Resolutions/ResolutionAssignmentForm.jsx:160-166 | the shares from a position on, each q plus one below position m, add up to q per row plus the positions below m; with q = ⌊100/n⌋ and m = 100 mod n these are the distributed weights |
| AssignmentClient.AutoDistributeSumsToHundred | EARACONNECT-FRONTEND-DEPLOY4-main/src/pages/Resolutions/ResolutionAssignmentForm.jsx:157-169 | the distributed weights of any non-empty list sum to exactly 100, each being ⌊100/n⌋ or one more |
| AssignmentClient.AutoDistributeLeavesNothing | EARACONNECT-FRONTEND-DEPLOY4-main/src/pages/Resolutions/ResolutionAssignmentForm.jsx:92-94 | after auto-distribution the remaining share is zero |
| ChairClient.ClientProgressErrors | EARACONNECT-FRONTEND-DEPLOY4-main/src/services/chairService.js:394-400 | "required" exactly for missing or blank progress text; "too short" exactly for non-empty text under ten characters, counted before trimming; no error exactly for text of ten or more characters that is not blank |
| ChairClient.ClientPerformanceErrors | EARACONNECT-FRONTEND-DEPLOY4-main/src/services/chairService.js:402-408 | "required" exactly for a missing performance (0 passes); "out of range" exactly for a value outside 0..100 |
| ChairClient.ClientValidateReportData | EARACONNECT-FRONTEND-DEPLOY4-main/src/services/chairService.js:391-411 | no error exactly when progress and performance both pass; the resolution and subcommittee references are never checked |
| ChairClient.BothProgressErrors | EARACONNECT-FRONTEND-DEPLOY4-main/src/services/chairService.js:394-400 | both progress messages appear together exactly for blank text of one to nine characters |
| ChairClient.ClientIgnoresReferences | EARACONNECT-FRONTEND-DEPLOY4-main/src/services/chairService.js:391-411 | changing the resolution or subcommittee reference never changes the client's messages |
| ChairClient.BackendAcceptedPassesClient | EARACONNECT-FRONTEND-DEPLOY4-main/src/services/chairService.js:391-411 | every report draft the backend accepts passes the client check |
| ChairClient.TrimmedTextNotBlank | EARACONNECT-FRONTEND-DEPLOY4-main/src/services/chairService.js:394-400 | text that keeps ten characters after trimming is long enough and not blank for the client |
| ChairClient.JsBlankIsBlank | EARACONNECT-FRONTEND-DEPLOY4-main/src/services/chairService.js:394 | text blank for the client is blank for the backend too |
| ChairClient.PaddedProgressPassesOnlyClient | EARACONNECT-FRONTEND-DEPLOY4-main/src/services/chairService.js:398-400 | progress padded with blanks to ten characters passes the client but the backend finds it too short |
| ChairClient.ChairPerformanceColor | EARACONNECT-FRONTEND-DEPLOY4-main/src/services/chairService.js:467-472 | green exactly from 80, orange exactly from 60 to 79, yellow exactly from 40 to 59, red exactly below 40 |
| ChairClient.ChairColorMonotone | EARACONNECT-FRONTEND-DEPLOY4-main/src/services/chairService.js:467-472 | a higher percentage never gets a worse colour |
| CommissionerClient.CompletionRate | EARACONNECT-FRONTEND-DEPLOY4-main/src/services/commissionerService.js:585-588 | 0 for an empty total; otherwise completed over total as a percentage, the exact quotient rounded half up, within 0..100 when completed does not exceed the total |
| CommissionerClient.ReportPriority | EARACONNECT-FRONTEND-DEPLOY4-main/src/services/commissionerService.js:654-663 | high exactly for 90% or more reviewed within 24 hours; medium exactly for 80% or more otherwise; urgent exactly for less than 80% reviewed more than 48 hours ago; normal otherwise; a missing review time (NaN age) satisfies no time bound, an explicit null counts from the epoch |
| CommissionerClient.WellPerformingNeverUrgent | EARACONNECT-FRONTEND-DEPLOY4-main/src/services/commissionerService.js:659-661 | a report at 80% or more is high or medium, never urgent, however long it has waited |
| CommissionerClient.MissingReviewTimeNeverFlagged | EARACONNECT-FRONTEND-DEPLOY4-main/src/services/commissionerService.js:654-663 | a report whose hodReviewedAt is missing from the JSON is medium from 80% and normal below, never high or urgent |
| CommissionerClient.NullReviewTimeIsEpoch | EARACONNECT-FRONTEND-DEPLOY4-main/src/services/commissionerService.js:654-657 | an explicit null review time is treated as the epoch |
| CommissionerClient.CommissionerSortKey | EARACONNECT-FRONTEND-DEPLOY4-main/src/services/commissionerService.js:622-641 | the sort keys known are review time, performance, resolution title and chair name; anything else leaves the order alone, and the submission time is not a key |
| CommissionerClient.CommissionerSortByReview | EARACONNECT-FRONTEND-DEPLOY4-main/src/services/commissionerService.js:618-649 | sorting by review time gives a permutation of the reports ordered by review time, ascending or descending as asked |
| CommissionerClient.ReviewTimeFallsBack | EARACONNECT-FRONTEND-DEPLOY4-main/src/services/commissionerService.js:624-626 | a report not yet reviewed sorts by its submission time, a reviewed one by its review time |
| FrontendConstants.LabelAndColorFollowBands | EARACONNECT-FRONTEND-DEPLOY4-main/src/utils/constants.js:56-88 | the label and the colour class of a percentage are those of its band from the backend dashboard, and the label's rank is the band's rank |
| FrontendConstants.BandNamesDistinct | EARACONNECT-FRONTEND-DEPLOY4-main/src/utils/constants.js:56-62 | different bands have different labels and different colour classes |
| FrontendConstants.LabelAndColorAgree | EARACONNECT-FRONTEND-DEPLOY4-main/src/utils/constants.js:73-88 | two percentages get the same label, and the same colour class, exactly when they fall in the same band |
| FrontendConstants.PerformanceLabelMonotone | EARACONNECT-FRONTEND-DEPLOY4-main/src/utils/constants.js:82-88 | a higher percentage never gets a worse label |
| FrontendConstants.TruncateText | EARACONNECT-FRONTEND-DEPLOY4-main/src/utils/constants.js:315-318 | missing, empty or short enough text is returned as it is; longer text keeps its first maxLength characters (none for a negative limit) followed by "..." |
| FrontendConstants.TruncateIdempotent | EARACONNECT-FRONTEND-DEPLOY4-main/src/utils/constants.js:315-318 | truncating twice with the same limit is truncating once |
| FrontendConstants.ValidateContactNumber | EARACONNECT-FRONTEND-DEPLOY4-main/src/utils/constants.js:153-156 | a number is accepted exactly when it is missing, empty or matches the contact pattern; an accepted number has at least ten characters |
| FrontendConstants.ContactNumberExamples | EARACONNECT-FRONTEND-DEPLOY4-main/src/utils/constants.js:324-326 | examples: a ten-digit number passes; a lone "+" and a number with a letter are refused |
| FrontendConstants.AgeBucket | EARACONNECT-FRONTEND-DEPLOY4-main/src/utils/constants.js:300-313 | minutes below an hour, whole hours from one to 23 below a day, the calendar date after that; the minutes and hours are the floor of the age |
| FrontendConstants.RelativeTimeOfFutureDate | EARACONNECT-FRONTEND-DEPLOY4-main/src/utils/constants.js:300-308 | example, for any current time: five minutes ago reads "5 minutes ago", and five minutes ahead reads "-5 minutes ago" |
| HodClient.ValidateReportReview | EARACONNECT-FRONTEND-DEPLOY4-main/src/services/hodService.js:476-488 | "comments required" exactly when rejecting without non-blank comments; "too short" exactly for comments of one to nine characters; no error exactly when neither applies |
| HodClient.ApprovalCommentRules | EARACONNECT-FRONTEND-DEPLOY4-main/src/services/hodService.js:476-488 | approving needs no comment, but a short comment is still refused |
| HodClient.ApprovalRate | EARACONNECT-FRONTEND-DEPLOY4-main/src/services/hodService.js:556-560 | 0 when nothing was reviewed; otherwise the approved share as a percentage, the exact quotient rounded half up, always within 0..100 |
| HodClient.ApprovalRateExtremes | EARACONNECT-FRONTEND-DEPLOY4-main/src/services/hodService.js:556-560 | only approvals give 100, no approvals give 0 |
| HodClient.ReportUrgency | EARACONNECT-FRONTEND-DEPLOY4-main/src/services/hodService.js:565-574 | overdue exactly after 72 hours, urgent exactly after 48 up to 72, warning exactly after 24 up to 48, normal up to 24 hours |
| HodClient.ReportUrgencyMonotone | EARACONNECT-FRONTEND-DEPLOY4-main/src/services/hodService.js:565-574 | an older report is never less urgent |
| HodClient.HodSortKey | EARACONNECT-FRONTEND-DEPLOY4-main/src/services/hodService.js:601-620 | the sort keys known are submission time, performance, resolution title and chair name; the review time is not one of them |
| HodClient.HodSortReports | EARACONNECT-FRONTEND-DEPLOY4-main/src/services/hodService.js:597-628 | sorting always gives a permutation of the reports, and asking for the review time leaves the order alone |
| HodPermissionClient.ShippedTestCasesForPrivilege | EARACONNECT-FRONTEND-DEPLOY4-main/src/utils/testHODPermissions.js:12-79 | the privilege verdicts the shipped test cases expect: chair and vice chair of the Head of Delegation group have the privilege, a chair of another group, an HOD role, a secretary and a chair without group do not |
| HodPermissionClient.BackendPrivilegeImpliesClient | EARACONNECT-FRONTEND-DEPLOY4-main/src/services/hodPermissionService.js:16-39 | every user the backend grants the HOD privilege to has it in the client too |
| HodPermissionClient.ClientAcceptsOtherLetterCase | EARACONNECT-FRONTEND-DEPLOY4-main/src/services/hodPermissionService.js:33-39 | a chair of a group named "HEAD OF DELEGATION" is privileged in the client but not in the backend, which compares the name exactly |
| HodPermissionClient.DashboardRoute | EARACONNECT-FRONTEND-DEPLOY4-main/src/services/hodPermissionService.js:46-72 | a privileged user goes to the HOD dashboard; no user goes to "/dashboard" |
| HodPermissionClient.HodDashboardIffPrivileged | EARACONNECT-FRONTEND-DEPLOY4-main/src/services/hodPermissionService.js:46-72 | the HOD dashboard is the route exactly for privileged users |
| HodPermissionClient.ShippedRouteExpectationsDisagree | EARACONNECT-FRONTEND-DEPLOY4-main/src/utils/testHODPermissions.js:98-101 | the route the shipped test expects for unprivileged users ("/chair/dashboard") differs from what the service gives an HOD role, a secretary and a chair of another group |
| HodPermissionClient.RoleDisplay | EARACONNECT-FRONTEND-DEPLOY4-main/src/services/hodPermissionService.js:78-111 | a privileged user and the HOD role are shown as "Head of Delegation"; no user is "Unknown" |
| HodPermissionClient.RoleDisplayOfHead | EARACONNECT-FRONTEND-DEPLOY4-main/src/services/hodPermissionService.js:78-111 | "Head of Delegation" is shown exactly for privileged users, the HOD role and a role literally named so |
| HodPermissionClient.HodNavigationItems | EARACONNECT-FRONTEND-DEPLOY4-main/src/services/hodPermissionService.js:135-173 | the five HOD pages, the first the HOD dashboard and every one under "/hod/", exactly for privileged users; nothing otherwise |
| HodPermissionClient.HodAccessAgrees | EARACONNECT-FRONTEND-DEPLOY4-main/src/services/hodPermissionService.js:117-173 | reviewing reports, the HOD dashboard, the navigation items and the dashboard route all agree on who is privileged |
| HodContext.ReplaceReport | EARACONNECT-FRONTEND-DEPLOY4-main/src/context/HODContext.js:56-62 | the reports keep their order and length; each report with the payload's id becomes the payload and the others are unchanged |
| HodContext.MarkIdRead | EARACONNECT-FRONTEND-DEPLOY4-main/src/context/HODContext.js:64-73 | the notifications keep their order and length; those with the id are marked read and the others unchanged |
| HodContext.MarkEveryRead | EARACONNECT-FRONTEND-DEPLOY4-main/src/context/HODContext.js:75-83 | every notification is marked read, order and length kept |
| HodContext.Reduce | EARACONNECT-FRONTEND-DEPLOY4-main/src/context/HODContext.js:32-98 | SET_ERROR stores the error and stops loading; an unknown action changes nothing; UPDATE_REPORT touches only the reports; SET_NOTIFICATIONS and MARK_ALL leave the counter equal to the unread notifications; its MARK_NOTIFICATION_READ is the corrected MarkRead, the reducer as written being HodContext.MarkReadAsWritten |
| HodContext.MarkEveryReadLeavesNone | EARACONNECT-FRONTEND-DEPLOY4-main/src/context/HODContext.js:75-83 | after marking every notification read none is unread |
| HodContext.MarkIdReadCount | EARACONNECT-FRONTEND-DEPLOY4-main/src/context/HODContext.js:64-73 | marking an id read removes exactly the unread notifications with that id from the unread count |
| HodContext.ReduceKeepsCounter | EARACONNECT-FRONTEND-DEPLOY4-main/src/context/HODContext.js:32-98 | every action but UPDATE_UNREAD_COUNT keeps an accurate counter accurate, given that added notifications arrive unread |
| HodContext.CountMonotoneUnread | EARACONNECT-FRONTEND-DEPLOY4-main/src/context/HODContext.js:64-73 | the unread notifications with one id are at most all unread notifications |
| HodContext.RunKeepsCounter | EARACONNECT-FRONTEND-DEPLOY4-main/src/context/HODContext.js:6-98 | from an accurate state, any run of such actions keeps the counter equal to the unread notifications |
| HodContext.MarkReadAsWrittenDrifts | EARACONNECT-FRONTEND-DEPLOY4-main/src/context/HODContext.js:64-73 | marking the same notification read twice, as written, leaves the counter below the unread notifications; the corrected reducer stays accurate |
| HodContext.UpdateReportReplacesOnlyMatching | EARACONNECT-FRONTEND-DEPLOY4-main/src/context/HODContext.js:56-62 | UPDATE_REPORT replaces exactly the reports with the payload's id and leaves the rest, the notifications and the counter alone |
| HodContext.AddNotificationPrepends | EARACONNECT-FRONTEND-DEPLOY4-main/src/context/HODContext.js:85-90 | ADD_NOTIFICATION puts the notification first and adds one to the counter |
| HttpClient.TrimTrailingSlash | EARACONNECT-FRONTEND-DEPLOY4-main/src/services/http.js:7 | the base with at most one trailing slash removed |
| HttpClient.NormalizeUrl | EARACONNECT-FRONTEND-DEPLOY4-main/src/services/http.js:3-20 | no URL gives the API base; an absolute http(s) URL is kept; anything else becomes the base without its trailing slash followed by a path starting with "/" |
| HttpClient.ApiPrefixNotDoubled | EARACONNECT-FRONTEND-DEPLOY4-main/src/services/http.js:10-13 | behind a base ending in "/api", a path "/api/…" is sent as the same URL as "/…", never as "/api/api/…" |
| HttpClient.RootedNotAbsolute | EARACONNECT-FRONTEND-DEPLOY4-main/src/services/http.js:5 | a path starting with "/" is never taken for an absolute URL |
| HttpClient.OtherPathsKept | EARACONNECT-FRONTEND-DEPLOY4-main/src/services/http.js:15-19 | a rooted path without the "/api" prefix is appended to the base as it is |
| HttpClient.NormalizedIsAbsolute | EARACONNECT-FRONTEND-DEPLOY4-main/src/services/http.js:3-20 | with an absolute base, every normalised URL is absolute |
| HttpClient.NormalizeIdempotent | EARACONNECT-FRONTEND-DEPLOY4-main/src/services/http.js:3-20 | with an absolute base, normalising a normalised URL changes nothing |
| HttpClient.WithQuery | EARACONNECT-FRONTEND-DEPLOY4-main/src/services/http.js:54-59 | no parameters leave the URL alone; otherwise the query follows "?", or "&" when the URL already has a "?" |
| HttpClient.QueryMarkedOnce | EARACONNECT-FRONTEND-DEPLOY4-main/src/services/http.js:54-59 | on a URL and query without "?", the result has exactly one "?", right after the URL |
| HttpClient.QueryAppended | EARACONNECT-FRONTEND-DEPLOY4-main/src/services/http.js:57-58 | on a URL that already has a query, the new one is joined with "&" |
| HttpClient.WithDefaultKeeps | EARACONNECT-FRONTEND-DEPLOY4-main/src/services/http.js:66-67 | a default header is added only when the caller left it unset; every header the caller set is kept |
| HttpClient.RequestHeaderRules | EARACONNECT-FRONTEND-DEPLOY4-main/src/services/http.js:61-83 | the caller's headers override the authorisation header; the headers are those of authorisation, caller, HOD defaults and content type; an HOD route gets both HOD headers; a text or object body gets a content type; without the caller's own, a token gives "Bearer" and the token |
| HttpClient.HodHeadersDefault | EARACONNECT-FRONTEND-DEPLOY4-main/src/services/http.js:63-68 | on an HOD route without the caller's own values the role header is "HOD" and the source header "HOD-Dashboard" |
| HttpClient.EncodeBody | EARACONNECT-FRONTEND-DEPLOY4-main/src/services/http.js:70-84 | no body is sent exactly when none is given; form data is sent as it is; an object is sent as its JSON text |
| HttpClient.BuildRequest | EARACONNECT-FRONTEND-DEPLOY4-main/src/services/http.js:51-88 | the request keeps the verb, goes to the normalised URL with the query, carries the encoded body and sends credentials as given, "include" by default |
| HttpClient.FormDataKeepsCallerContentType | EARACONNECT-FRONTEND-DEPLOY4-main/src/services/http.js:70-72 | form data never gets a content type of the client's making, so the browser sets the multipart boundary |
| MemberClient.TaskProgress | EARACONNECT-FRONTEND-DEPLOY4-main/src/services/memberService.js:435-444 | a progress within 0..100, 100 exactly for COMPLETED |
| MemberClient.TaskProgressFollowsLifecycle | EARACONNECT-FRONTEND-DEPLOY4-main/src/services/memberService.js:435-444 | for each of the four statuses: assigned tasks show 10, in-progress 65, completed 100 and cancelled 0 |
| MemberClient.UpcomingDeadlines | EARACONNECT-FRONTEND-DEPLOY4-main/src/services/memberService.js:389-397 | the tasks kept are exactly those whose deadline falls from now to the given number of days ahead |
| MemberClient.UpcomingDeadlinesProperties | EARACONNECT-FRONTEND-DEPLOY4-main/src/services/memberService.js:389-397 | the upcoming tasks keep their order, and a longer window keeps every task of a shorter one |
| MemberClient.TaskDurationUnits | EARACONNECT-FRONTEND-DEPLOY4-main/src/services/memberService.js:420-430 | from 7 to 29 days the duration is the number of weeks rounded up; from 30 days the number of months of 30 days rounded up; exactly seven days reads "1 weeks" |
| MemberClient.SortNotifications | EARACONNECT-FRONTEND-DEPLOY4-main/src/services/memberService.js:378-384 | the sorted copy holds the same notifications |
| MemberClient.SortNotificationsProperties | EARACONNECT-FRONTEND-DEPLOY4-main/src/services/memberService.js:378-384 | the copy has the same length and is ordered by creation time, newest first for "desc" and oldest first otherwise |
| MemberClient.FilterNotifications | EARACONNECT-FRONTEND-DEPLOY4-main/src/services/memberService.js:370-373 | no type keeps every notification; otherwise exactly the notifications of that type |
| ClientNotifications.BumpProperties | EARACONNECT-FRONTEND-DEPLOY4-main/src/services/notificationService.js:224-230 | counting one more notification adds its type if new, adds one to that type's count and to the total, and keeps the types distinct |
| ClientNotifications.GroupByTypeCounts | EARACONNECT-FRONTEND-DEPLOY4-main/src/services/notificationService.js:224-230 | the counts add up to the number of notifications, each type appears once with the number of its notifications, and exactly the types that occur appear |
| ClientNotifications.FilterByType | EARACONNECT-FRONTEND-DEPLOY4-main/src/services/notificationService.js:245-248 | "all" keeps every notification; any other type keeps those of that type |
| ClientNotifications.FilterByTypeProperties | EARACONNECT-FRONTEND-DEPLOY4-main/src/services/notificationService.js:245-248 | the filtered notifications keep their order, are exactly those of the type, and are as many as the type's count in the grouping |
| ClientNotifications.FilterByReadStatus | EARACONNECT-FRONTEND-DEPLOY4-main/src/services/notificationService.js:253-255 | exactly the notifications whose read flag equals the one asked for |
| ClientNotifications.ReadStatusPartition | EARACONNECT-FRONTEND-DEPLOY4-main/src/services/notificationService.js:253-255 | read and unread filters never share a notification and together hold every notification with a read flag |
| ClientNotifications.ReadCounts | EARACONNECT-FRONTEND-DEPLOY4-main/src/services/notificationService.js:253-255 | the read and the unread notifications add up to those with a read flag |
| ClientNotifications.SortByDate | EARACONNECT-FRONTEND-DEPLOY4-main/src/services/notificationService.js:260-266 | the list is sorted in place: the same notifications, ordered by creation time, oldest first when ascending and newest first otherwise |
| ClientNotifications.InsertBackwards | EARACONNECT-FRONTEND-DEPLOY4-main/src/services/notificationService.js:260-266 | one step of the in-place sort: the prefix grows by one element, still sorted and a permutation |
| ClientNotifications.Swap | EARACONNECT-FRONTEND-DEPLOY4-main/src/services/notificationService.js:260-266 | exchanging two elements changes only those two |
| ClientNotifications.FormatDateBuckets | EARACONNECT-FRONTEND-DEPLOY4-main/src/services/notificationService.js:147-169 | under a minute "Just now"; then whole minutes, hours or days ago, with a plural "s" above one; from a week the calendar date |
| ClientNotifications.SingularForOne | EARACONNECT-FRONTEND-DEPLOY4-main/src/services/notificationService.js:158-163 | the plural "s" is left out exactly for counts up to one |
| ClientNotifications.NotificationAction | EARACONNECT-FRONTEND-DEPLOY4-main/src/services/notificationService.js:271-307 | every link is a site path; the text is "View" exactly for a type not among the seven known ones, which links to the notifications page |
| ClientNotifications.ReportActionsLinkTheReport | EARACONNECT-FRONTEND-DEPLOY4-main/src/services/notificationService.js:280-291 | a report submission, approval or rejection links to that report |
| ProfileClient.FullPictureUrl | EARACONNECT-FRONTEND-DEPLOY4-main/src/services/profileService.js:154-170 | nothing exactly for a missing or empty address; an address not starting with "/" is kept; a rooted path stays at the end of the full address |
| ProfileClient.ReplaceKeepsHttp | EARACONNECT-FRONTEND-DEPLOY4-main/src/services/profileService.js:163-166 | removing the first "/api" from a base starting with "http" leaves it starting with "http" |
| ProfileClient.FullPictureUrlIdempotent | EARACONNECT-FRONTEND-DEPLOY4-main/src/services/profileService.js:154-170 | with a base starting with "http", making a full address full again changes nothing |
| ProfileClient.UploadedPictureAddress | EARACONNECT-FRONTEND-DEPLOY4-main/src/services/profileService.js:154-170 | the address the backend stores for an upload becomes the host followed by that address, behind a base of the form host + "/api" |
| ProfileClient.ValidateProfilePictureFile | EARACONNECT-FRONTEND-DEPLOY4-main/src/services/profileService.js:177-204 | valid exactly when no message is given; no file gives "Please select a file"; a valid file is at most 5 MiB and has an image extension |
| ProfileClient.LowerExtension | EARACONNECT-FRONTEND-DEPLOY4-main/src/services/profileService.js:196-199 | the extension of the lower-cased name is the lower-cased extension |
| ProfileClient.EndsWithExtension | EARACONNECT-FRONTEND-DEPLOY4-main/src/services/profileService.js:196-199 | for an extension with one leading dot, ending with it and having it as the extension are the same |
| ProfileClient.ExtensionChecksAgree | EARACONNECT-FRONTEND-DEPLOY4-main/src/services/profileService.js:196-199 | the client's and the backend's extension tests agree on every name |
| ProfileClient.ClientAgreesWithBackend | EARACONNECT-FRONTEND-DEPLOY4-main/src/services/profileService.js:177-204 | for a non-empty file the client and the backend accept exactly the same pictures |
| ProfileClient.EmptyPictureOnlyRefusedByBackend | EARACONNECT-FRONTEND-DEPLOY4-main/src/services/profileService.js:177-204 | an empty image passes the client and is refused by the backend as empty |
| ClientReports.FilterReports | EARACONNECT-FRONTEND-DEPLOY4-main/src/services/hodService.js:579-592 | the reports kept are exactly those passing every filter that is set |
| ClientReports.FilterReportsProperties | EARACONNECT-FRONTEND-DEPLOY4-main/src/services/commissionerService.js:600-613 | the filtered reports keep their order and are as many as the passing reports; with no filter set every report is kept |
| ClientReports.CompareOnAntisymmetric | EARACONNECT-FRONTEND-DEPLOY4-main/src/services/hodService.js:597-628 | comparing two reports one way is the opposite of comparing them the other way |
| ClientReports.CompareOnTransitive | EARACONNECT-FRONTEND-DEPLOY4-main/src/services/hodService.js:597-628 | the comparison on one key is transitive |
| ClientReports.ComparatorIsTotalPreorder | EARACONNECT-FRONTEND-DEPLOY4-main/src/services/hodService.js:597-628 | the comparator handed to the sort is a total preorder, in both directions |
| ClientReports.SortReports | EARACONNECT-FRONTEND-DEPLOY4-main/src/services/hodService.js:597-628 | the sorted copy holds the same reports |
| ClientReports.SortReportsProperties | EARACONNECT-FRONTEND-DEPLOY4-main/src/services/hodService.js:597-628 | the sorted copy is a permutation ordered on the key, ascending or descending as asked; a key the service does not know keeps the original order |
| ClientReports.ReviewColorFollowsBands | EARACONNECT-FRONTEND-DEPLOY4-main/src/services/hodService.js:533-539 | the review pages' colour of a percentage is the colour of its band from the backend dashboard |
| ClientReports.BandColorsDistinct | EARACONNECT-FRONTEND-DEPLOY4-main/src/services/commissionerService.js:562-568 | different bands have different colours |
| ClientShared.DaysUntil | EARACONNECT-FRONTEND-DEPLOY4-main/src/services/memberService.js:335-340 | the days to a deadline are the time left divided by a day, rounded up |
| ClientShared.DeadlineUrgency | EARACONNECT-FRONTEND-DEPLOY4-main/src/services/memberService.js:346-352 | overdue exactly for a negative day count, urgent from 0 to 3, warning from 4 to 7, normal after that |
| ClientShared.DeadlineUrgencyMonotone | EARACONNECT-FRONTEND-DEPLOY4-main/src/services/chairService.js:477-483 | a nearer deadline is never less urgent |
| ClientShared.DeadlineUrgencyInTime | EARACONNECT-FRONTEND-DEPLOY4-main/src/services/chairService.js:456-483 | in time left: overdue once a whole day late, urgent up to three days, warning up to seven, normal after that |
| SubmemberClient.ListQueryAsksPreviousPage | EARACONNECT-FRONTEND-DEPLOY4-main/src/services/SubmemberService.js:3-4 | the one-based page the caller asks for is sent as the zero-based page before it |
| SubmemberClient.FirstPageIsPageZero | EARACONNECT-FRONTEND-DEPLOY4-main/src/services/SubmemberService.js:3-4 | the default first page is requested as page 0 |
| SubmemberClient.MembersUrl | EARACONNECT-FRONTEND-DEPLOY4-main/src/services/SubmemberService.js:3-8 | without a search term the list query alone; with one, the list query followed by the encoded name filter |
| SubmemberClient.FromBackend | EARACONNECT-FRONTEND-DEPLOY4-main/src/services/SubmemberService.js:78-86 | a member read from the backend keeps every field and gets its form flags from the role flags |
| SubmemberClient.Unmapped | EARACONNECT-FRONTEND-DEPLOY4-main/src/services/SubmemberService.js:39-47 | the members of a bare array are kept as they are, without form flags |
| SubmemberClient.Mapped | EARACONNECT-FRONTEND-DEPLOY4-main/src/services/SubmemberService.js:50-58 | each member of a page gets its form flags, order kept |
| SubmemberClient.ReadMembersAsWritten | EARACONNECT-FRONTEND-DEPLOY4-main/src/services/SubmemberService.js:33-64 | a bare array is wrapped as one page of unmapped members carrying the requested page as `currentPage`; a page's content is mapped and it keeps the backend's `number`; not an object, or a page without content, is an error |
| SubmemberClient.BareArrayLosesFlags | EARACONNECT-FRONTEND-DEPLOY4-main/src/services/SubmemberService.js:39-47 | a chair delivered in a bare array is returned without the form flags a paged reply's members get, so its chair form flag reads as unset |
| SubmemberClient.ReadMembers | EARACONNECT-FRONTEND-DEPLOY4-main/src/services/SubmemberService.js:33-64 | the same errors as written, but every member read, from a bare array too, carries its form flags |
| SubmemberClient.BareArrayIsOnePage | EARACONNECT-FRONTEND-DEPLOY4-main/src/services/SubmemberService.js:39-47 | a bare array is read as one page holding every member, in order, with the requested page under `currentPage` and no backend `number` |
| SubmemberClient.IdRef | EARACONNECT-FRONTEND-DEPLOY4-main/src/services/SubmemberService.js:98-99 | a reference only for an id that is present and not 0, and then that id |
| SubmemberClient.ToMemberObject | EARACONNECT-FRONTEND-DEPLOY4-main/src/services/SubmemberService.js:93-106 | the member object carries the country and subcommittee only when their ids are set, and each role flag exactly when the form's flag is true |
| SubmemberClient.Parts | EARACONNECT-FRONTEND-DEPLOY4-main/src/services/SubmemberService.js:109-114 | the member object first, then the appointment letter only when one is attached |
| SubmemberClient.CreateMember | EARACONNECT-FRONTEND-DEPLOY4-main/src/services/SubmemberService.js:89-127 | a POST to the list address |
| SubmemberClient.UpdateMember | EARACONNECT-FRONTEND-DEPLOY4-main/src/services/SubmemberService.js:129-167 | a PUT to the member's own address |
| SubmemberClient.CreateAndUpdateSendSameMember | EARACONNECT-FRONTEND-DEPLOY4-main/src/services/SubmemberService.js:89-167 | create and update send the same parts and differ in the verb |
| SubmemberClient.ReadThenWriteKeepsFlags | EARACONNECT-FRONTEND-DEPLOY4-main/src/services/SubmemberService.js:71-106 | reading a member with every role flag set and saving the form writes back the same flags, country and subcommittee |
| SubmemberClient.WriteThenReadFlags | EARACONNECT-FRONTEND-DEPLOY4-main/src/services/SubmemberService.js:71-106 | a chair flag written from the form reads back as the same flag |
| UserManagementClient.ValidateUserData | EARACONNECT-FRONTEND-DEPLOY4-main/src/services/userManagementService.js:148-175 | each message appears exactly in its case (missing email, malformed email, missing name, missing role, a secretary without a country, a chair or subcommittee member without a subcommittee), and no message exactly when the form is complete |
| UserManagementClient.EmailErrorsExclusive | EARACONNECT-FRONTEND-DEPLOY4-main/src/services/userManagementService.js:151-155 | the missing-email and malformed-email messages never come together |
| UserManagementClient.CreateUserPrecheck | EARACONNECT-FRONTEND-DEPLOY4-main/src/services/userManagementService.js:55-69 | the form is posted, unchanged, exactly when email, name and role are present and the role's country and subcommittee are set |
| UserManagementClient.ValidFormIsPosted | EARACONNECT-FRONTEND-DEPLOY4-main/src/services/userManagementService.js:55-175 | every form the validator passes is posted, but a blank name passes the pre-check the validator refuses |
| UserManagementClient.RoleRulesAgainstBackend | EARACONNECT-FRONTEND-DEPLOY4-main/src/services/userManagementService.js:166-172 | the client demands a subcommittee for exactly the roles the backend does, and a country only for the secretary, where the backend also demands one for committee and delegation secretaries |
| UserManagementClient.RoleDisplayName | EARACONNECT-FRONTEND-DEPLOY4-main/src/services/userManagementService.js:177-187 | a role without a display name is shown as it is |
| UserManagementClient.AvailableRoles | EARACONNECT-FRONTEND-DEPLOY4-main/src/services/userManagementService.js:189-197 | five roles, never the administrator, each captioned with its display name |
| AppAccess.RolePermissions | EARACONNECT-FRONTEND-DEPLOY4-main/src/App.js:130-194 | a role has permissions exactly when it is one of the nine known roles; the HOD role has none |
| AppAccess.PermissionsConsistent | EARACONNECT-FRONTEND-DEPLOY4-main/src/App.js:130-194 | every known role has a dashboard, may open each of its dashboards and may open "/dashboard" |
| AppAccess.CurrentUser | EARACONNECT-FRONTEND-DEPLOY4-main/src/App.js:109-121 | a current user exactly when the authenticated entry is "true", a user entry is stored and it parses; then the parsed user |
| AppAccess.LoggedOutIsNotAuthenticated | EARACONNECT-FRONTEND-DEPLOY4-main/src/App.js:109-126 | once both entries are removed nobody is authenticated |
| AppAccess.ProtectedRoute | EARACONNECT-FRONTEND-DEPLOY4-main/src/App.js:197-223 | to the login page exactly without a session or a known role; the page exactly with both and, when permissions are required, one granted by a route equal to or extending it; otherwise back to "/dashboard" |
| AppAccess.HodRoleSentToLogin | EARACONNECT-FRONTEND-DEPLOY4-main/src/App.js:198-207 | a user holding only the HOD role is sent to the login page from every protected page |
| AppAccess.PrefixPermission | EARACONNECT-FRONTEND-DEPLOY4-main/src/App.js:210-215 | example: a required "/hod" is granted to a chair through the route "/hod/dashboard" |
| AppAccess.MemberRefusedHodPages | EARACONNECT-FRONTEND-DEPLOY4-main/src/App.js:210-221 | example: a subcommittee member is sent back to "/dashboard" from a page requiring "/hod" |
| AppAccess.DefaultDashboard | EARACONNECT-FRONTEND-DEPLOY4-main/src/App.js:227-235 | the HOD dashboard for a privileged user; "/dashboard" for an unprivileged user without a known role |
| AppAccess.DefaultDashboardIsOpen | EARACONNECT-FRONTEND-DEPLOY4-main/src/App.js:197-235 | a signed-in user with a known role is let into the dashboard they are sent to |
| AppAccess.DashboardAgreesWithPermissionService | EARACONNECT-FRONTEND-DEPLOY4-main/src/App.js:227-235 | the application shell and the HOD permission service send every user to the same dashboard |

## Left out

- User interface: React pages, modals, forms and the hooks around them are not modelled. Polling and WebSocket code is not modelled either. Only the helpers they call are.
- Transport: the controllers and the client's thin fetch wrappers are not modelled. `fetch` itself, response parsing and the redirect handling in `http.js` are not modelled. The verb wrappers `get`, `post`, `put` and `delete` in `http.js` are not modelled. A request is modelled up to the URL, headers and body it would send.
- Mail and stored notifications: `EmailService` and `NotificationService` are reduced to an outcome per recipient. That outcome is a parameter, and a failure is swallowed where the source swallows it. Invitation mails are not modelled at all, because their failures never change a result. For the same reason the bulk path's mail counters are not modelled.
- Files: the file system operations of `DocumentService` and `ProfilePictureService` are not modelled. Only their checks, stored names and URLs are. `StringUtils.cleanPath` is not modelled; an upload's name is taken as already cleaned.
- Persistence: repositories are maps keyed by id. Their finders are functions over those maps. Transactions are modelled only as far as they decide what a failure leaves behind.
- `DatabaseFixService.autoFixMissingData` and the migration configuration run raw SQL and are not modelled. `DataInitializer` and the diagnostic services are not modelled either.
- `SubCommitteeService`, `RevenueAuthorityService` and `AttendanceService` are thin CRUD wrappers and are not modelled. Revenue authorities appear only where a country is deleted.
- `DashboardService` averages, rates rounded through doubles, sample data and month windows are not modelled. Floating point is not part of this model.
- `ResolutionService.getResolutionProgress` is modelled as overallProgress times 100: the sum of the `int` products performance × weight, each wrapped at 32 bits as Java does. The division by `100.0` and the `double` sum are left out, so their rounding is not modelled.
- Resolutions.ProgressBounds: requires every weight to be at most 21474836, so that 100 × weight stays within 32 bits. A larger weight, which the replace path stores unchecked, makes the product wrap and the bound fail (`Resolutions.ProgressWrapsExample`).
- Resolutions.NoticesFor: the subject and body of the assignment mail and the notification's message text are not modelled. A notification records its recipient, title, resolution, subcommittee, weight and whether its mail went out.
- CommissionerClient.CompletionRate: rounds the exact quotient. JavaScript's `Math.round((completed / total) * 100)` works in doubles and can fall just below a half: 29 of 200 gives 14 there and 15 here, 23 of 40 gives 57 there and 58 here (not executed).
- HodClient.ApprovalRate: rounds the exact quotient. JavaScript's `Math.round((approved / total) * 100)` works in doubles: 29 approved of 200 reviewed gives 14 there and 15 here, 23 of 40 gives 57 there and 58 here (not executed).
- Users.UserStore.CreateUser: a failed credentials mail gives the message's prefix `Failed to send credentials email: `; the mail exception's own message that follows it is not modelled.
- Users.UserStore.ResendCredentials: the same prefix stands for the failed mail's message, without the exception's text.
- NOT NULL columns are checked only where the model lets them be null: a report's performance percentage, a meeting's hosting country and creator, and an assignment's columns. The NOT NULL columns of `users` (email, password, name and role, User.java:19-33) and a report's resolution, subcommittee and submitter (Report.java:21-33) are not checked on save. The model's ids and strings are never null. `createUser` refuses a missing role, and rows already stored without one are taken as given.
- CommitteeMembers.MemberRegistry.Update: deleting the previous letter's document before the new one is stored is not modelled, because the document table is not part of this model; an accepted letter is given the document id passed in.
- Clock, randomness and platform functions are parameters, not computed. This covers `LocalDateTime.now()`, `Date.now()`, `UUID.randomUUID()` and `java.util.Random`. It also covers `toLocaleDateString`, `encodeURIComponent`, `JSON.stringify` and `URLSearchParams`.
- Dates in the client are milliseconds. A date string that `new Date` cannot parse, which would also give an invalid date, is not modelled.
- Strings: upper and lower case are ASCII only, and whitespace is the ASCII set. JavaScript's Unicode case mapping and `trim` are not modelled.
- Ids and numbers: ids are natural numbers. A `parseInt` that yields `NaN` is not modelled, because form fields hold numbers.
- A missing or non-numeric `subcommitteeId` in a resolution-assignment request is not modelled: the id is a natural number, so the `NullPointerException` or `NumberFormatException` of `Long.valueOf(...toString())` cannot arise.
- Resolutions.ReplaceError: the persistence layer's exception text for a null NOT NULL column is not modelled; the error only names the column.
- Concurrency is not modelled: concurrent reviews, resubmissions and invitation answers are out of scope.
- `hodPermissionService.verifyHODPrivileges` asks the backend over the network and is not modelled. `validateEmail` in `utils/constants.js` tests a configured regular expression and is not modelled.
- `memberService.calculateTaskCompletion` is not modelled separately. It is the same computation as `CommissionerClient.CompletionRate`.
- HodContext.ReduceKeepsCounter: the counter invariant is proved only for runs without `UPDATE_UNREAD_COUNT`, which sets the counter to any value. It also assumes that `ADD_NOTIFICATION` payloads arrive unread, because the reducer counts every added notification as unread.

## Findings

| source | as written | input that shows it | evidently intended | confidence | as-written member | corrected member |
|---|---|---|---|---|---|---|
| EARACONNECT-FRONTEND-DEPLOY4-main/src/context/HODContext.js:64-73 | MARK_NOTIFICATION_READ lowers the unread counter by one even when the notification was already read or the id is unknown | two unread notifications with counter 2; mark id 1 read twice: the counter is 0 while one notification is unread | lower the counter by the number of notifications this action actually turns from unread to read | high; not executed | HodContext.MarkReadAsWrittenDrifts | HodContext.ReduceKeepsCounter |
| EARACONNECT-FRONTEND-DEPLOY4-main/src/services/SubmemberService.js:39-47 | a reply that is a bare array is wrapped into a page but its members are not given the form's role flags, unlike a paged reply (lines 50-58) | a bare array holding a member with `isChair` true: `fetchMembers` returns that member without the form's `chair` flag that a paged reply's member carries; no effect on a page is claimed | map every member's `isX` flags to the form's flags on both reply shapes | medium; not executed | SubmemberClient.BareArrayLosesFlags | SubmemberClient.BareArrayIsOnePage |

=== FILE: attendance.dfy ===
/**
 * The attendance table and MeetingService.recordAttendance: one row per
 * (meeting, user) pair, updated in place when the pair already has one. The
 * records are applied in order and the first failing record aborts the
 * rest, with the earlier ones kept (the service is not transactional).
 */
module MeetingAttendance {
  import opened Common
  import opened Domain

  /** `Attendance.AttendanceStatus`. */
  datatype AttendanceStatus = Present | Absent | Late | Excused

  function AttendanceName(s: AttendanceStatus): string
  {
    match s
    case Present => "PRESENT"
    case Absent => "ABSENT"
    case Late => "LATE"
    case Excused => "EXCUSED"
  }

  /** `AttendanceStatus.valueOf(status.toUpperCase())`: a null status and an unknown name both throw. */
  function ParseAttendance(status: Option<string>): Result<AttendanceStatus, string>
  {
    if status.None? then Err("NullPointerException")
    else
      var u := Upper(status.value);
      if u == "PRESENT" then Ok(Present)
      else if u == "ABSENT" then Ok(Absent)
      else if u == "LATE" then Ok(Late)
      else if u == "EXCUSED" then Ok(Excused)
      else Err("No enum constant com.earacg.earaconnect.model.Attendance.AttendanceStatus." + u)
  }

  /** A status parses exactly when its upper-cased form is the name of a constant, and then to that constant. */
  lemma ParseAttendanceNames(status: Option<string>)
    ensures ParseAttendance(status).Ok? ==> status.Some? && AttendanceName(ParseAttendance(status).value) == Upper(status.value)
    ensures ParseAttendance(status).Err? <==> status.None? || forall s: AttendanceStatus :: AttendanceName(s) != Upper(status.value)
  {
  }

  /** A row of `attendance`, with the meeting and the user kept by id. */
  datatype Attendance = Attendance(id: nat, meetingId: nat, userId: nat, status: AttendanceStatus,
                                   notes: Option<string>, recordedAt: int)

  /** One entry of the request: the user, the status name and the notes. */
  datatype AttendanceRecord = AttendanceRecord(userId: nat, status: Option<string>, notes: Option<string>)

  /** The contents of the attendance table: its rows by id and the id the next new row gets. */
  datatype AttendanceRows = AttendanceRows(rows: map<nat, Attendance>, nextId: nat)

  ghost predicate RowsValid(t: AttendanceRows)
  {
    forall id :: id in t.rows ==> t.rows[id].id == id && id < t.nextId
  }

  /** The rows of one (meeting, user) pair. */
  function AttendanceIds(rows: map<nat, Attendance>, meetingId: nat, userId: nat): set<nat>
  {
    set id | id in rows && rows[id].meetingId == meetingId && rows[id].userId == userId
  }

  /**
   * One record: the user must exist, the pair's lookup must be unique and
   * the status must parse; the pair's row is then updated, or a new row
   * inserted.
   */
  function RecordOne(t: AttendanceRows, users: map<nat, User>, meetingId: nat, rec: AttendanceRecord, now: int)
    : Result<AttendanceRows, string>
  {
    if rec.userId !in users then Err("User not found with ID: " + NatToString(rec.userId))
    else match UniqueRow(AttendanceIds(t.rows, meetingId, rec.userId))
      case Err(e) => Err(e)
      case Ok(found) =>
        match ParseAttendance(rec.status)
        case Err(e) => Err(e)
        case Ok(status) =>
          if found.Some? then
            var row := t.rows[found.value].(status := status, notes := rec.notes, recordedAt := now);
            Ok(t.(rows := t.rows[found.value := row]))
          else
            Ok(AttendanceRows(t.rows[t.nextId := Attendance(t.nextId, meetingId, rec.userId, status, rec.notes, now)],
                              t.nextId + 1))
  }

  /** A record fails for an unknown user, for a pair with several rows and for a status that does not parse, and otherwise succeeds. */
  lemma RecordOneOutcome(t: AttendanceRows, users: map<nat, User>, meetingId: nat, rec: AttendanceRecord, now: int)
    ensures rec.userId !in users ==> RecordOne(t, users, meetingId, rec, now) == Err("User not found with ID: " + NatToString(rec.userId))
    ensures RecordOne(t, users, meetingId, rec, now).Ok? <==>
      (rec.userId in users && |AttendanceIds(t.rows, meetingId, rec.userId)| <= 1 && ParseAttendance(rec.status).Ok?)
  {
  }

  /** One record as the loop sees it: the new table and no error, or the table as it was and the error. */
  function Apply(t: AttendanceRows, users: map<nat, User>, meetingId: nat, rec: AttendanceRecord, now: int)
    : (AttendanceRows, Option<string>)
  {
    match RecordOne(t, users, meetingId, rec, now)
    case Err(e) => (t, Some(e))
    case Ok(t') => (t', None)
  }

  /** The records applied in order; the first error stops the fold and is reported with the state reached. */
  function RecordAll(t: AttendanceRows, users: map<nat, User>, meetingId: nat, recs: seq<AttendanceRecord>, now: int)
    : (AttendanceRows, Option<string>)
    decreases |recs|
  {
    if recs == [] then (t, None)
    else
      var prev := RecordAll(t, users, meetingId, recs[..|recs| - 1], now);
      if prev.1.Some? then prev
      else Apply(prev.0, users, meetingId, recs[|recs| - 1], now)
  }

  /**
   * What one successful record does to the table: no row is removed, a kept
   * row keeps its pair, rows of other pairs are untouched, and a new row
   * belongs to the record's pair.
   */
  lemma RecordOneFrame(t: AttendanceRows, users: map<nat, User>, m: nat, rec: AttendanceRecord, now: int)
    requires RowsValid(t) && RecordOne(t, users, m, rec, now).Ok?
    ensures var t' := RecordOne(t, users, m, rec, now).value;
      RowsValid(t') && t.nextId <= t'.nextId &&
      (forall id :: id in t.rows ==> (id in t'.rows && t'.rows[id].meetingId == t.rows[id].meetingId &&
                                      t'.rows[id].userId == t.rows[id].userId)) &&
      (forall id :: id in t.rows && (t.rows[id].meetingId != m || t.rows[id].userId != rec.userId) ==>
         t'.rows[id] == t.rows[id]) &&
      (forall id :: id in t'.rows && id !in t.rows ==>
         t'.rows[id].meetingId == m && t'.rows[id].userId == rec.userId)
  {
  }

  /** After a successful record its pair holds exactly one row, carrying the record's status and notes. */
  lemma RecordOneSets(t: AttendanceRows, users: map<nat, User>, m: nat, rec: AttendanceRecord, now: int)
    requires RowsValid(t) && RecordOne(t, users, m, rec, now).Ok?
    ensures RecordedAs(RecordOne(t, users, m, rec, now).value, m, rec.userId, ParseAttendance(rec.status), rec.notes,
                       now)
  {
    var t' := RecordOne(t, users, m, rec, now).value;
    var found := UniqueRow(AttendanceIds(t.rows, m, rec.userId)).value;
    if found.Some? {
      assert AttendanceIds(t'.rows, m, rec.userId) == {found.value};
    } else {
      assert AttendanceIds(t'.rows, m, rec.userId) == {t.nextId};
    }
  }

  /** A successful record leaves the rows of every other user's pair as they were. */
  lemma RecordOneOthers(t: AttendanceRows, users: map<nat, User>, m: nat, rec: AttendanceRecord, now: int, u: nat)
    requires RowsValid(t) && RecordOne(t, users, m, rec, now).Ok? && u != rec.userId
    ensures var t' := RecordOne(t, users, m, rec, now).value;
      AttendanceIds(t'.rows, m, u) == AttendanceIds(t.rows, m, u) &&
      forall id :: id in AttendanceIds(t.rows, m, u) ==> t'.rows[id] == t.rows[id]
  {
    RecordOneFrame(t, users, m, rec, now);
  }

  /** The table stays well formed whatever the records. */
  lemma {:induction false} RecordAllValid(t: AttendanceRows, users: map<nat, User>, m: nat,
                                          recs: seq<AttendanceRecord>, now: int)
    requires RowsValid(t)
    ensures RowsValid(RecordAll(t, users, m, recs, now).0)
    decreases |recs|
  {
    if recs != [] {
      var n := |recs| - 1;
      RecordAllValid(t, users, m, recs[..n], now);
      var prev := RecordAll(t, users, m, recs[..n], now);
      if prev.1.None? && RecordOne(prev.0, users, m, recs[n], now).Ok? {
        RecordOneFrame(prev.0, users, m, recs[n], now);
      }
    }
  }

  /** Every row outside the pairs the records name is left as it was, and no row is removed. */
  lemma {:induction false} RecordAllFrame(t: AttendanceRows, users: map<nat, User>, m: nat,
                                          recs: seq<AttendanceRecord>, now: int)
    requires RowsValid(t)
    ensures var t' := RecordAll(t, users, m, recs, now).0;
      RowsValid(t') && t.nextId <= t'.nextId &&
      (forall id :: id in t.rows ==> id in t'.rows) &&
      (forall id :: id in t.rows && (t.rows[id].meetingId != m || forall k :: 0 <= k < |recs| ==> recs[k].userId != t.rows[id].userId) ==>
         t'.rows[id] == t.rows[id]) &&
      (forall id :: id in t'.rows && id !in t.rows ==>
         t'.rows[id].meetingId == m && exists k :: 0 <= k < |recs| && recs[k].userId == t'.rows[id].userId)
    decreases |recs|
  {
    if recs != [] {
      var n := |recs| - 1;
      RecordAllFrame(t, users, m, recs[..n], now);
      var prev := RecordAll(t, users, m, recs[..n], now);
      var t' := RecordAll(t, users, m, recs, now).0;
      if prev.1.None? && RecordOne(prev.0, users, m, recs[n], now).Ok? {
        RecordOneFrame(prev.0, users, m, recs[n], now);
        forall id | id in t'.rows && id !in t.rows
          ensures t'.rows[id].meetingId == m && exists k :: 0 <= k < |recs| && recs[k].userId == t'.rows[id].userId
        {
          if id in prev.0.rows {
            var k :| 0 <= k < n && recs[..n][k].userId == prev.0.rows[id].userId;
            assert recs[k].userId == t'.rows[id].userId;
          } else {
            assert recs[n].userId == t'.rows[id].userId;
          }
        }
        forall id | id in t.rows && (t.rows[id].meetingId != m || forall k :: 0 <= k < |recs| ==> recs[k].userId != t.rows[id].userId)
          ensures t'.rows[id] == t.rows[id]
        {
          assert forall k :: 0 <= k < n ==> recs[..n][k] == recs[k];
        }
      } else {
        forall id | id in t.rows && (t.rows[id].meetingId != m || forall k :: 0 <= k < |recs| ==> recs[k].userId != t.rows[id].userId)
          ensures t'.rows[id] == t.rows[id]
        {
          assert forall k :: 0 <= k < n ==> recs[..n][k] == recs[k];
        }
        forall id | id in t'.rows && id !in t.rows
          ensures t'.rows[id].meetingId == m && exists k :: 0 <= k < |recs| && recs[k].userId == t'.rows[id].userId
        {
          var k :| 0 <= k < n && recs[..n][k].userId == t'.rows[id].userId;
          assert recs[k].userId == t'.rows[id].userId;
        }
      }
    }
  }

  /** While no record has failed, the fold over one more record is one more step. */
  lemma RecordAllSnoc(t: AttendanceRows, users: map<nat, User>, m: nat, recs: seq<AttendanceRecord>, i: nat, now: int)
    requires i < |recs| && RecordAll(t, users, m, recs[..i], now).1.None?
    ensures RecordAll(t, users, m, recs[..i + 1], now) == Apply(RecordAll(t, users, m, recs[..i], now).0, users, m, recs[i], now)
  {
    assert recs[..i + 1][..i] == recs[..i];
  }

  /** Once a record has failed, later records change nothing. */
  lemma {:induction false} RecordAllStops(t: AttendanceRows, users: map<nat, User>, m: nat,
                                          recs: seq<AttendanceRecord>, more: seq<AttendanceRecord>, now: int)
    requires RecordAll(t, users, m, recs, now).1.Some?
    ensures RecordAll(t, users, m, recs + more, now) == RecordAll(t, users, m, recs, now)
    decreases |more|
  {
    if more != [] {
      var n := |more| - 1;
      assert (recs + more)[..|recs + more| - 1] == recs + more[..n];
      RecordAllStops(t, users, m, recs, more[..n], now);
      assert recs + more != [];
      assert RecordAll(t, users, m, recs + more[..n], now).1.Some?;
    } else {
      assert recs + more == recs;
    }
  }

  /** A run whose first `k` records already failed ends where those `k` left it. */
  lemma RecordAllStopsAt(t: AttendanceRows, users: map<nat, User>, m: nat, recs: seq<AttendanceRecord>, k: nat, now: int)
    requires k <= |recs| && RecordAll(t, users, m, recs[..k], now).1.Some?
    ensures RecordAll(t, users, m, recs, now) == RecordAll(t, users, m, recs[..k], now)
  {
    assert recs == recs[..k] + recs[k..];
    RecordAllStops(t, users, m, recs[..k], recs[k..], now);
  }

  /**
   * A failing run applied exactly the records before the first failing one:
   * the state is that of the successful prefix, and the record at the cut
   * is the one that fails on it.
   */
  lemma {:induction false} RecordAllAborts(t: AttendanceRows, users: map<nat, User>, m: nat,
                                           recs: seq<AttendanceRecord>, now: int)
    requires RecordAll(t, users, m, recs, now).1.Some?
    ensures var (t', err) := RecordAll(t, users, m, recs, now);
      exists k :: (0 <= k < |recs| && RecordAll(t, users, m, recs[..k], now) == (t', None) &&
                   RecordOne(t', users, m, recs[k], now) == Err(err.value))
    decreases |recs|
  {
    var n := |recs| - 1;
    var prev := RecordAll(t, users, m, recs[..n], now);
    if prev.1.Some? {
      RecordAllAborts(t, users, m, recs[..n], now);
      var k :| 0 <= k < n && RecordAll(t, users, m, recs[..n][..k], now) == (prev.0, None) &&
               RecordOne(prev.0, users, m, recs[..n][k], now) == Err(prev.1.value);
      assert recs[..n][..k] == recs[..k];
    } else {
      assert recs[..n] == recs[..n];
    }
  }

  /** A run with no error had every user known and every status valid. */
  lemma {:induction false} RecordAllSucceeded(t: AttendanceRows, users: map<nat, User>, m: nat,
                                              recs: seq<AttendanceRecord>, now: int)
    requires RecordAll(t, users, m, recs, now).1.None?
    ensures forall k :: 0 <= k < |recs| ==> recs[k].userId in users && ParseAttendance(recs[k].status).Ok?
    decreases |recs|
  {
    if recs != [] {
      var n := |recs| - 1;
      RecordAllSucceeded(t, users, m, recs[..n], now);
      RecordOneOutcome(RecordAll(t, users, m, recs[..n], now).0, users, m, recs[n], now);
      assert forall k :: 0 <= k < n ==> recs[..n][k] == recs[k];
    }
  }

  /** The pair of `u` holds exactly one row, with this status, these notes and this time. */
  ghost predicate RecordedAs(t: AttendanceRows, m: nat, u: nat, status: Result<AttendanceStatus, string>,
                             notes: Option<string>, now: int)
  {
    exists id :: (AttendanceIds(t.rows, m, u) == {id} &&
                  status == Ok(t.rows[id].status) && t.rows[id].notes == notes && t.rows[id].recordedAt == now)
  }

  /**
   * Upsert, last record wins: after a run with no error, a user's pair
   * holds one row, carrying the status and notes of that user's last record.
   */
  lemma {:induction false} RecordAllLastWins(t: AttendanceRows, users: map<nat, User>, m: nat,
                                             recs: seq<AttendanceRecord>, now: int, j: nat)
    requires RowsValid(t) && RecordAll(t, users, m, recs, now).1.None?
    requires j < |recs| && forall k :: j < k < |recs| ==> recs[k].userId != recs[j].userId
    ensures RecordedAs(RecordAll(t, users, m, recs, now).0, m, recs[j].userId, ParseAttendance(recs[j].status),
                       recs[j].notes, now)
    decreases |recs|
  {
    var n := |recs| - 1;
    var prev := RecordAll(t, users, m, recs[..n], now);
    assert prev.1.None? && RecordOne(prev.0, users, m, recs[n], now).Ok?;
    var t' := RecordOne(prev.0, users, m, recs[n], now).value;
    assert RecordAll(t, users, m, recs, now).0 == t';
    RecordAllValid(t, users, m, recs[..n], now);
    if j < n {
      var u := recs[j].userId;
      assert recs[..n][j] == recs[j];
      assert forall k :: j < k < n ==> recs[..n][k].userId != u;
      RecordAllLastWins(t, users, m, recs[..n], now, j);
      var id :| AttendanceIds(prev.0.rows, m, u) == {id} && ParseAttendance(recs[j].status) == Ok(prev.0.rows[id].status) &&
                prev.0.rows[id].notes == recs[j].notes && prev.0.rows[id].recordedAt == now;
      RecordOneOthers(prev.0, users, m, recs[n], now, u);
      assert AttendanceIds(t'.rows, m, u) == {id} && t'.rows[id] == prev.0.rows[id];
    } else {
      RecordOneSets(prev.0, users, m, recs[n], now);
    }
  }

  class AttendanceTable {
    var rows: map<nat, Attendance>
    var nextId: nat

    function State(): AttendanceRows
      reads this
    {
      AttendanceRows(rows, nextId)
    }

    ghost predicate Valid()
      reads this
    {
      RowsValid(State())
    }

    constructor ()
      ensures Valid() && rows == map[]
    {
      rows := map[];
      nextId := 1;
    }

    /** One record on the table itself. */
    method Record(users: map<nat, User>, meetingId: nat, rec: AttendanceRecord, now: int) returns (err: Option<string>)
      requires Valid()
      modifies this
      ensures Valid()
      ensures (State(), err) == Apply(old(State()), users, meetingId, rec, now)
    {
      if rec.userId !in users {
        return Some("User not found with ID: " + NatToString(rec.userId));
      }
      var found := UniqueRow(AttendanceIds(rows, meetingId, rec.userId));
      if found.Err? {
        return Some(found.error);
      }
      var status := ParseAttendance(rec.status);
      if status.Err? {
        return Some(status.error);
      }
      if found.value.Some? {
        var id := found.value.value;
        rows := rows[id := rows[id].(status := status.value, notes := rec.notes, recordedAt := now)];
      } else {
        rows := rows[nextId := Attendance(nextId, meetingId, rec.userId, status.value, rec.notes, now)];
        nextId := nextId + 1;
      }
      err := None;
    }

    /** recordAttendance: an unknown meeting throws before any record; otherwise `RecordAll`. */
    method RecordAttendance(meetings: map<nat, Meeting>, users: map<nat, User>, meetingId: nat,
                            recs: seq<AttendanceRecord>, now: int)
      returns (err: Option<string>)
      requires Valid()
      modifies this
      ensures Valid()
      ensures meetingId !in meetings ==> err == Some("Meeting not found") && State() == old(State())
      ensures meetingId in meetings ==> (State(), err) == RecordAll(old(State()), users, meetingId, recs, now)
    {
      if meetingId !in meetings {
        return Some("Meeting not found");
      }
      err := RecordEach(users, meetingId, recs, now);
    }

    /** The records one after the other, stopping at the first that fails. */
    method RecordEach(users: map<nat, User>, meetingId: nat, recs: seq<AttendanceRecord>, now: int)
      returns (err: Option<string>)
      requires Valid()
      modifies this
      ensures Valid()
      ensures (State(), err) == RecordAll(old(State()), users, meetingId, recs, now)
    {
      ghost var start := State();
      var i := 0;
      while i < |recs|
        invariant 0 <= i <= |recs|
        invariant Valid()
        invariant (State(), None) == RecordAll(start, users, meetingId, recs[..i], now)
      {
        RecordAllSnoc(start, users, meetingId, recs, i, now);
        err := Record(users, meetingId, recs[i], now);
        if err.Some? {
          RecordAllStopsAt(start, users, meetingId, recs, i + 1, now);
          return;
        }
        i := i + 1;
      }
      assert recs[..i] == recs;
      err := None;
    }
  }
}

=== FILE: chair_validation.dfy ===
/**
 * What a chair may do: see the resolutions assigned to their subcommittee,
 * submit a report while the resolution is still open, and resubmit their own
 * report until the HOD approves it. The repositories are maps keyed by id;
 * a resolution's assignment list is the assignment rows that point at it.
 */
module ChairValidation {
  import opened Common
  import opened Domain

  /** isChair(userId): an existing user whose role is CHAIR or VICE_CHAIR. */
  function IsChair(users: map<nat, User>, userId: nat): (b: bool)
    ensures b <==> userId in users && users[userId].role in {Some(Chair), Some(ViceChair)}
  {
    userId in users && (users[userId].role == Some(Chair) || users[userId].role == Some(ViceChair))
  }

  /** Some row of `assignments` assigns this resolution to this subcommittee. */
  predicate AssignedTo(assignments: seq<Assignment>, resolutionId: nat, subcommitteeId: nat)
  {
    exists i :: 0 <= i < |assignments| && assignments[i].resolutionId == resolutionId
                && assignments[i].subcommitteeId == subcommitteeId
  }

  /** The resolution has at least one assignment row. */
  predicate HasAssignments(assignments: seq<Assignment>, resolutionId: nat)
  {
    exists i :: 0 <= i < |assignments| && assignments[i].resolutionId == resolutionId
  }

  /**
   * canAccessResolution. The `anyMatch` reads the chair's subcommittee for the
   * first assignment it looks at, so a chair without a subcommittee throws a
   * NullPointerException as soon as the resolution has any assignment.
   */
  function CanAccessResolution(users: map<nat, User>, resolutions: map<nat, Resolution>,
                               assignments: seq<Assignment>, chairId: nat, resolutionId: nat)
    : (r: Result<bool, string>)
    ensures r.Err? <==> chairId in users && resolutionId in resolutions
                        && users[chairId].subcommittee.None?
                        && HasAssignments(assignments, resolutionId)
    ensures r == Ok(true) <==> chairId in users && resolutionId in resolutions
                               && users[chairId].subcommittee.Some?
                               && AssignedTo(assignments, resolutionId, users[chairId].subcommittee.value.id)
  {
    if chairId !in users || resolutionId !in resolutions then Ok(false)
    else if !HasAssignments(assignments, resolutionId) then Ok(false)
    else if users[chairId].subcommittee.None? then Err("NullPointerException")
    else Ok(AssignedTo(assignments, resolutionId, users[chairId].subcommittee.value.id))
  }

  /**
   * canSubmitReport: a chair, with access to the resolution, while the
   * resolution is ASSIGNED or IN_PROGRESS. The access check can throw.
   */
  function CanSubmitReport(users: map<nat, User>, resolutions: map<nat, Resolution>,
                           assignments: seq<Assignment>, chairId: nat, resolutionId: nat)
    : (r: Result<bool, string>)
    ensures r == Ok(true) <==>
      IsChair(users, chairId) &&
      CanAccessResolution(users, resolutions, assignments, chairId, resolutionId) == Ok(true) &&
      resolutions[resolutionId].status in {ResolutionStatus.Assigned, ResolutionStatus.InProgress}
    ensures !IsChair(users, chairId) ==> r == Ok(false)
  {
    if !IsChair(users, chairId) then Ok(false)
    else
      match CanAccessResolution(users, resolutions, assignments, chairId, resolutionId)
      case Err(e) => Err(e)
      case Ok(false) => Ok(false)
      case Ok(true) =>
        var st := resolutions[resolutionId].status;
        Ok(st == ResolutionStatus.Assigned || st == ResolutionStatus.InProgress)
  }

  /** A completed or cancelled resolution never accepts a report. */
  lemma ClosedResolutionRejectsReports(users: map<nat, User>, resolutions: map<nat, Resolution>,
                                       assignments: seq<Assignment>, chairId: nat, resolutionId: nat)
    requires resolutionId in resolutions
    requires resolutions[resolutionId].status in {ResolutionStatus.Completed, ResolutionStatus.Cancelled}
    ensures CanSubmitReport(users, resolutions, assignments, chairId, resolutionId) != Ok(true)
  {
  }

  /** The fields of a report that validateReportData reads; `None` is null. */
  datatype ReportDraft = ReportDraft(
    progressDetails: Option<string>,
    performancePercentage: Option<int>,
    resolutionId: Option<nat>,
    subcommitteeId: Option<nat>)

  /** The rules validateReportData can report, one constructor per message. */
  datatype ReportDataError =
    | ProgressRequired
    | ProgressTooShort
    | PerformanceRequired
    | PerformanceOutOfRange
    | ResolutionRequired
    | SubcommitteeRequired

  function ErrorMessage(e: ReportDataError): string
  {
    match e
    case ProgressRequired => "Progress details are required"
    case ProgressTooShort => "Progress details must be at least 10 characters long"
    case PerformanceRequired => "Performance percentage is required"
    case PerformanceOutOfRange => "Performance percentage must be between 0 and 100"
    case ResolutionRequired => "Resolution is required"
    case SubcommitteeRequired => "Subcommittee is required"
  }

  /** Progress details: blank is "required"; only otherwise does a short trimmed text fail. */
  function ProgressErrors(progress: Option<string>): (errs: seq<ReportDataError>)
    ensures |errs| <= 1
    ensures ProgressRequired in errs <==> progress.None? || IsBlank(progress.value)
    ensures ProgressTooShort in errs <==> progress.Some? && 1 <= |Trim(progress.value)| < 10
    ensures errs == [] <==> progress.Some? && |Trim(progress.value)| >= 10
  {
    if progress.None? then [ProgressRequired]
    else
      TrimEmptyIffBlank(progress.value);
      if Trim(progress.value) == [] then [ProgressRequired]
      else if |Trim(progress.value)| < 10 then [ProgressTooShort]
      else []
  }

  /** Performance: null is "required"; only otherwise does a value outside 0..100 fail. */
  function PerformanceErrors(performance: Option<int>): (errs: seq<ReportDataError>)
    ensures |errs| <= 1
    ensures PerformanceRequired in errs <==> performance.None?
    ensures PerformanceOutOfRange in errs <==> performance.Some? && !(0 <= performance.value <= 100)
  {
    if performance.None? then [PerformanceRequired]
    else if performance.value < 0 || performance.value > 100 then [PerformanceOutOfRange]
    else []
  }

  /** The report data a submission needs: ten characters once trimmed, a percentage in 0..100, both references. */
  predicate AcceptableDraft(d: ReportDraft)
  {
    d.progressDetails.Some? && |Trim(d.progressDetails.value)| >= 10 &&
    d.performancePercentage.Some? && 0 <= d.performancePercentage.value <= 100 &&
    d.resolutionId.Some? && d.subcommitteeId.Some?
  }

  /** validateReportData: every violated rule, in field order, at most one per field. */
  function ValidateReportData(d: ReportDraft): (errs: seq<ReportDataError>)
    ensures |errs| <= 4
    ensures errs == [] <==> AcceptableDraft(d)
    ensures ProgressRequired in errs <==> d.progressDetails.None? || IsBlank(d.progressDetails.value)
    ensures PerformanceRequired in errs <==> d.performancePercentage.None?
    ensures PerformanceOutOfRange in errs <==>
            d.performancePercentage.Some? && !(0 <= d.performancePercentage.value <= 100)
    ensures ResolutionRequired in errs <==> d.resolutionId.None?
    ensures SubcommitteeRequired in errs <==> d.subcommitteeId.None?
    ensures !(ProgressRequired in errs && ProgressTooShort in errs)
    ensures !(PerformanceRequired in errs && PerformanceOutOfRange in errs)
  {
    var p := ProgressErrors(d.progressDetails);
    var q := PerformanceErrors(d.performancePercentage);
    var r := if d.resolutionId.None? then [ResolutionRequired] else [];
    var s := if d.subcommitteeId.None? then [SubcommitteeRequired] else [];
    assert forall e :: e in p + q + r + s <==> e in p || e in q || e in r || e in s;
    p + q + r + s
  }

  /**
   * getAssignedResolutions: the ids of the resolutions assigned to the chair's
   * subcommittee; nothing for an unknown chair or one without a subcommittee.
   */
  function AssignedResolutions(users: map<nat, User>, resolutions: map<nat, Resolution>,
                               assignments: seq<Assignment>, chairId: nat): (ids: set<nat>)
    ensures chairId !in users || users[chairId].subcommittee.None? ==> ids == {}
    ensures chairId in users && users[chairId].subcommittee.Some? ==>
      forall rid :: rid in ids <==>
        rid in resolutions && AssignedTo(assignments, rid, users[chairId].subcommittee.value.id)
  {
    if chairId !in users || users[chairId].subcommittee.None? then {}
    else
      var sid := users[chairId].subcommittee.value.id;
      set rid | rid in resolutions && AssignedTo(assignments, rid, sid)
  }

  /** A chair with a subcommittee can access exactly the resolutions listed for them. */
  lemma AssignedIffAccessible(users: map<nat, User>, resolutions: map<nat, Resolution>,
                              assignments: seq<Assignment>, chairId: nat, resolutionId: nat)
    requires chairId in users && users[chairId].subcommittee.Some?
    ensures resolutionId in AssignedResolutions(users, resolutions, assignments, chairId) <==>
            CanAccessResolution(users, resolutions, assignments, chairId, resolutionId) == Ok(true)
  {
  }

  /**
   * canUpdateReport: the report exists, the chair submitted it, and it is
   * SUBMITTED or REJECTED_BY_HOD; a commissioner rejection is final.
   */
  function CanUpdateReport(reports: map<nat, Report>, chairId: nat, reportId: nat): (b: bool)
    ensures b <==> reportId in reports && reports[reportId].submittedBy == chairId &&
                   reports[reportId].status in {Submitted, RejectedByHod}
  {
    reportId in reports && reports[reportId].submittedBy == chairId &&
    (reports[reportId].status == Submitted || reports[reportId].status == RejectedByHod)
  }

  /** Reports past the HOD stage, or rejected by the commissioner, cannot be updated. */
  lemma FinalisedReportsLocked(reports: map<nat, Report>, chairId: nat, reportId: nat)
    requires reportId in reports
    requires reports[reportId].status in {ApprovedByHod, ApprovedByCommissioner, RejectedByCommissioner}
    ensures !CanUpdateReport(reports, chairId, reportId)
  {
  }
}

=== FILE: client_app.dfy ===
/**
 * Access control in the web client's application shell: the routes and
 * dashboards each role may open, the session kept in browser storage, the
 * guard around protected pages and the dashboard a signed-in user is sent
 * to. Browser storage and `JSON.parse` are parameters: a stored user is
 * given already parsed, `None` standing for a parse failure or `null`.
 */
module AppAccess {
  import opened Common
  import opened HodPermissionClient

  /** A role's entry in ROLE_PERMISSIONS. */
  datatype Permissions = Permissions(dashboards: seq<string>, routes: seq<string>)

  const MemberRoutes: seq<string> := ["/dashboard", "/member/dashboard", "/committees", "/notifications", "/reports", "/meetings", "/countries"]
  const SecretaryMemberRoutes: seq<string> := ["/dashboard", "/member/dashboard", "/committees", "/members",
    "/sub-committee-members", "/meetings", "/invitations", "/notifications", "/reports", "/countries"]
  const ChairRoutes: seq<string> := ["/dashboard", "/chair/dashboard", "/hod/dashboard", "/committees", "/members",
    "/sub-committee-members", "/meetings", "/invitations", "/notifications",
    "/reports", "/resolutions", "/hod/reports", "/hod/profile", "/hod/notifications", "/countries"]

  /** ROLE_PERMISSIONS: the known roles; the HOD role has no entry. */
  function RolePermissions(role: string): (p: Option<Permissions>)
    ensures p.Some? <==> role in {"ADMIN", "SECRETARY", "CHAIR", "VICE_CHAIR", "COMMISSIONER_GENERAL",
      "SUBCOMMITTEE_MEMBER", "COMMITTEE_MEMBER", "COMMITTEE_SECRETARY", "DELEGATION_SECRETARY"}
  {
    if role == "ADMIN" then Some(Permissions(["/admin/dashboard"],
      ["/dashboard", "/admin/dashboard", "/committees", "/countries", "/members", "/sub-committee-members",
       "/meetings", "/invitations", "/notifications", "/resolutions", "/reports"]))
    else if role == "SECRETARY" then Some(Permissions(["/secretary/dashboard"],
      ["/dashboard", "/secretary/dashboard", "/committees", "/countries", "/members", "/sub-committee-members",
       "/meetings", "/minutes", "/resolutions", "/invitations", "/notifications", "/meetings/archive"]))
    else if role == "CHAIR" || role == "VICE_CHAIR" then Some(Permissions(["/chair/dashboard", "/hod/dashboard"], ChairRoutes))
    else if role == "COMMISSIONER_GENERAL" then Some(Permissions(["/commissioner/dashboard"],
      ["/dashboard", "/commissioner/dashboard", "/committees", "/countries", "/members", "/sub-committee-members",
       "/meetings", "/invitations", "/notifications", "/reports", "/resolutions"]))
    else if role == "SUBCOMMITTEE_MEMBER" || role == "COMMITTEE_MEMBER" then Some(Permissions(["/member/dashboard"], MemberRoutes))
    else if role == "COMMITTEE_SECRETARY" || role == "DELEGATION_SECRETARY" then
      Some(Permissions(["/member/dashboard"], SecretaryMemberRoutes))
    else None
  }

  /** Every known role has a dashboard, may open each of its dashboards, and may open "/dashboard". */
  lemma PermissionsConsistent(role: string)
    requires RolePermissions(role).Some?
    ensures var p := RolePermissions(role).value;
      p.dashboards != [] && (forall d :: d in p.dashboards ==> d in p.routes) && "/dashboard" in p.routes
  {
  }

  // ---------------------------------------------------------------------
  // The session

  /** A signed-in user as stored: the id (0 when missing) and what the privilege test reads. */
  datatype SessionUser = SessionUser(id: nat, profile: ClientUser)

  /**
   * getCurrentUser: the stored user, but only when the 'isAuthenticated'
   * entry is exactly "true" and a user entry is stored; `parsed` is what
   * `JSON.parse` makes of that entry.
   */
  function CurrentUser(userEntry: Option<string>, authEntry: Option<string>, parsed: Option<SessionUser>): (u: Option<SessionUser>)
    ensures u.Some? <==> authEntry == Some("true") && userEntry.Some? && userEntry.value != [] && parsed.Some?
    ensures u.Some? ==> u == parsed
  {
    if authEntry == Some("true") && userEntry.Some? && userEntry.value != [] then parsed else None
  }

  /** isAuthenticated: a current user with a non-zero id. */
  predicate IsAuthenticated(current: Option<SessionUser>)
  {
    current.Some? && current.value.id != 0
  }

  /** Signing out removes both entries, after which nobody is authenticated, whatever the parser would say. */
  lemma LoggedOutIsNotAuthenticated(parsed: Option<SessionUser>)
    ensures !IsAuthenticated(CurrentUser(None, None, parsed))
  {
  }

  // ---------------------------------------------------------------------
  // The guard

  /** What ProtectedRoute renders. */
  datatype Guard = RedirectToLogin | RedirectToDashboard | RenderPage

  /** `some(p => routes.some(r => r === p || r.startsWith(p)))`: some route equals or extends some required prefix. */
  predicate Grants(routes: seq<string>, required: seq<string>)
  {
    exists i, j :: 0 <= i < |required| && 0 <= j < |routes| && (routes[j] == required[i] || StartsWith(routes[j], required[i]))
  }

  /** A role that the user prop names and ROLE_PERMISSIONS knows. */
  predicate KnownRole(user: Option<ClientUser>)
  {
    user.Some? && user.value.role.Some? && user.value.role.value != [] && RolePermissions(user.value.role.value).Some?
  }

  /**
   * ProtectedRoute: to the login page without a session, without a role or
   * with a role ROLE_PERMISSIONS does not know; to "/dashboard" when
   * permissions are required and none is granted; otherwise the page.
   */
  function ProtectedRoute(authenticated: bool, user: Option<ClientUser>, required: seq<string>): (g: Guard)
    ensures g == RedirectToLogin <==> !authenticated || !KnownRole(user)
    ensures g == RenderPage <==>
      (authenticated && KnownRole(user) && (required == [] || Grants(RolePermissions(user.value.role.value).value.routes, required)))
  {
    if !authenticated || user.None? || user.value.role.None? || user.value.role.value == [] then RedirectToLogin
    else
      var perms := RolePermissions(user.value.role.value);
      if perms.None? then RedirectToLogin
      else if |required| > 0 && !Grants(perms.value.routes, required) then RedirectToDashboard
      else RenderPage
  }

  /** The HOD role has no entry, so a user who holds only it is sent to the login page. */
  lemma HodRoleSentToLogin(required: seq<string>, group: Option<ClientGroup>)
    ensures ProtectedRoute(true, Some(ClientUser(Some("HOD"), group)), required) == RedirectToLogin
  {
  }

  /** Example: a required permission is met by a route it is a prefix of, so "/hod" admits a chair through "/hod/dashboard". */
  lemma PrefixPermission()
    ensures ProtectedRoute(true, Some(ClientUser(Some("CHAIR"), None)), ["/hod"]) == RenderPage
  {
    var chair := ChairRoutes;
    var required: seq<string> := ["/hod"];
    assert chair[2][..4] == required[0];
    assert StartsWith(chair[2], required[0]);
    assert Grants(chair, required);
  }

  /** Example: a member, whose routes have no "/hod" prefix, is sent back to "/dashboard" from a page requiring "/hod". */
  lemma MemberRefusedHodPages()
    ensures ProtectedRoute(true, Some(ClientUser(Some("SUBCOMMITTEE_MEMBER"), None)), ["/hod"]) == RedirectToDashboard
  {
    var member := MemberRoutes;
    forall j | 0 <= j < |member|
      ensures !StartsWith(member[j], "/hod")
    {
      assert member[j][1] != 'h';
    }
  }

  // ---------------------------------------------------------------------
  // The default dashboard

  /** getDefaultDashboard: the HOD dashboard when privileged, else the role's first dashboard, else "/dashboard". */
  function DefaultDashboard(user: ClientUser): (route: string)
    ensures HasHodPrivileges(Some(user)) ==> route == "/hod/dashboard"
    ensures !HasHodPrivileges(Some(user)) && (user.role.None? || RolePermissions(user.role.value).None?) ==> route == "/dashboard"
  {
    if HasHodPrivileges(Some(user)) then "/hod/dashboard"
    else if user.role.None? then "/dashboard"
    else match RolePermissions(user.role.value)
      case None => "/dashboard"
      case Some(p) => p.dashboards[0]
  }

  /** A signed-in user with a known role is let into the dashboard they are sent to. */
  lemma DefaultDashboardIsOpen(user: ClientUser)
    requires KnownRole(Some(user))
    ensures ProtectedRoute(true, Some(user), [DefaultDashboard(user)]) == RenderPage
  {
    var perms := RolePermissions(user.role.value).value;
    PermissionsConsistent(user.role.value);
    var d := DefaultDashboard(user);
    assert d in perms.routes;
    var j :| 0 <= j < |perms.routes| && perms.routes[j] == d;
    assert [d][0] == d;
  }

  /** The shell and the HOD permission service send every user to the same dashboard. */
  lemma DashboardAgreesWithPermissionService(user: ClientUser)
    ensures DefaultDashboard(user) == HodPermissionClient.DashboardRoute(Some(user))
  {
  }
}

=== FILE: client_assignments.dfy ===
/**
 * The client side of weighted assignment: the validator the web client runs
 * before it posts an assignment (`ResolutionAssignmentService`), the running
 * total and remaining share the assignment form shows, and the form's
 * "auto-distribute" button. Weights are whole percentages.
 */
module AssignmentClient {
  import opened Common
  import Resolutions

  /**
   * One row of the assignment form. `subcommitteeId` is `None` when unset,
   * and 0 is as falsy as unset; `weight` is `parseInt(contributionPercentage || 0)`,
   * with `None` for an empty field.
   */
  datatype FormAssignment = FormAssignment(id: nat, subcommitteeId: Option<nat>, weight: Option<int>)

  function WeightOf(a: FormAssignment): int
  {
    if a.weight.Some? then a.weight.value else 0
  }

  predicate HasSubcommittee(a: FormAssignment)
  {
    a.subcommitteeId.Some? && a.subcommitteeId.value != 0
  }

  /** The reduce both the service and the form use: the sum of the parsed weights. */
  function TotalPercentage(rows: seq<FormAssignment>): int
  {
    if rows == [] then 0 else WeightOf(rows[0]) + TotalPercentage(rows[1..])
  }

  /** The subcommittee ids of the rows, as `new Set(ids)` collects them. */
  function SubcommitteeIds(rows: seq<FormAssignment>): set<Option<nat>>
  {
    set i | 0 <= i < |rows| :: rows[i].subcommitteeId
  }

  /** No two rows name the same subcommittee. */
  predicate DistinctIds(rows: seq<FormAssignment>)
  {
    forall i, j :: 0 <= i < j < |rows| ==> rows[i].subcommitteeId != rows[j].subcommitteeId
  }

  /** The ids of a list are its first row's id and the ids of the rest. */
  lemma IdsCons(rows: seq<FormAssignment>)
    requires rows != []
    ensures SubcommitteeIds(rows) == {rows[0].subcommitteeId} + SubcommitteeIds(rows[1..])
  {
    var tail := rows[1..];
    forall y | y in SubcommitteeIds(rows) ensures y in {rows[0].subcommitteeId} + SubcommitteeIds(tail) {
      var i :| 0 <= i < |rows| && rows[i].subcommitteeId == y;
      if i > 0 {
        assert tail[i - 1].subcommitteeId == y;
      }
    }
    forall y | y in SubcommitteeIds(tail) ensures y in SubcommitteeIds(rows) {
      var i :| 0 <= i < |tail| && tail[i].subcommitteeId == y;
      assert rows[i + 1].subcommitteeId == y;
    }
  }

  /** A list has distinct ids exactly when its rest does and its first id is not among the rest's. */
  lemma DistinctCons(rows: seq<FormAssignment>)
    requires rows != []
    ensures DistinctIds(rows) <==> DistinctIds(rows[1..]) && rows[0].subcommitteeId !in SubcommitteeIds(rows[1..])
  {
    var tail := rows[1..];
    if DistinctIds(rows) {
      forall i, j | 0 <= i < j < |tail| ensures tail[i].subcommitteeId != tail[j].subcommitteeId {
        assert tail[i] == rows[i + 1] && tail[j] == rows[j + 1];
      }
      forall k | 0 <= k < |tail| ensures tail[k].subcommitteeId != rows[0].subcommitteeId {
        assert tail[k] == rows[k + 1];
      }
    }
    if DistinctIds(tail) && rows[0].subcommitteeId !in SubcommitteeIds(tail) {
      forall i, j | 0 <= i < j < |rows| ensures rows[i].subcommitteeId != rows[j].subcommitteeId {
        assert tail[j - 1] == rows[j];
        if i > 0 {
          assert tail[i - 1] == rows[i];
        }
      }
    }
  }

  /** The set has fewer members than the list exactly when two rows share an id. */
  lemma {:induction false} DistinctIdsCount(rows: seq<FormAssignment>)
    ensures |SubcommitteeIds(rows)| <= |rows|
    ensures |SubcommitteeIds(rows)| == |rows| <==> DistinctIds(rows)
  {
    if rows != [] {
      DistinctIdsCount(rows[1..]);
      IdsCons(rows);
      DistinctCons(rows);
    }
  }

  const EmptyListError: string := "At least one assignment is required"
  const DuplicateError: string := "Cannot assign the same subcommittee multiple times"

  function TotalError(total: int): string
  {
    "Total contribution must equal 100%. Current total: " + IntToString(total) + "%"
  }

  /** The two per-row checks, with the 1-based position in the message. */
  function RowErrors(a: FormAssignment, position: nat): (errors: seq<string>)
    ensures errors == [] <==> HasSubcommittee(a) && 1 <= WeightOf(a) <= 100
    ensures |errors| <= 2
  {
    (if !HasSubcommittee(a) then ["Assignment " + NatToString(position) + ": Subcommittee is required"] else [])
    + (if WeightOf(a) <= 0 || WeightOf(a) > 100
       then ["Assignment " + NatToString(position) + ": Contribution percentage must be between 1 and 100"]
       else [])
  }

  /** The forEach over the rows, `firstPosition` being the position of `rows[0]`. */
  function EachRowErrors(rows: seq<FormAssignment>, firstPosition: nat): (errors: seq<string>)
    ensures errors == [] <==> forall i :: 0 <= i < |rows| ==> HasSubcommittee(rows[i]) && 1 <= WeightOf(rows[i]) <= 100
  {
    if rows == [] then []
    else RowErrors(rows[0], firstPosition) + EachRowErrors(rows[1..], firstPosition + 1)
  }

  /**
   * validateAssignments: a missing or empty list gets only the empty-list
   * error; otherwise the total, the duplicate check and every row's checks
   * each add their own message.
   */
  function ValidateAssignments(rows: Option<seq<FormAssignment>>): (errors: seq<string>)
    ensures rows.None? || rows.value == [] ==> errors == [EmptyListError]
    ensures rows.Some? && rows.value != [] && TotalPercentage(rows.value) != 100 ==>
      errors != [] && errors[0] == TotalError(TotalPercentage(rows.value))
  {
    if rows.None? || rows.value == [] then [EmptyListError]
    else
      var total := TotalPercentage(rows.value);
      (if total != 100 then [TotalError(total)] else [])
      + (if |rows.value| != |SubcommitteeIds(rows.value)| then [DuplicateError] else [])
      + EachRowErrors(rows.value, 1)
  }

  /**
   * The list passes exactly when it is non-empty, its weights sum to 100,
   * no subcommittee appears twice, and every row names a subcommittee with
   * a weight from 1 to 100.
   */
  lemma ValidationPassesIff(rows: Option<seq<FormAssignment>>)
    ensures ValidateAssignments(rows) == [] <==>
      rows.Some? && rows.value != [] && TotalPercentage(rows.value) == 100
      && (forall i, j :: 0 <= i < j < |rows.value| ==> rows.value[i].subcommitteeId != rows.value[j].subcommitteeId)
      && (forall i :: 0 <= i < |rows.value| ==> HasSubcommittee(rows.value[i]) && 1 <= WeightOf(rows.value[i]) <= 100)
  {
    if rows.Some? && rows.value != [] {
      DistinctIdsCount(rows.value);
    }
  }

  /** A duplicated subcommittee is always reported. */
  lemma DuplicateReported(rows: seq<FormAssignment>, i: nat, j: nat)
    requires i < j < |rows| && rows[i].subcommitteeId == rows[j].subcommitteeId
    ensures DuplicateError in ValidateAssignments(Some(rows))
  {
    DistinctIdsCount(rows);
    var total := TotalPercentage(rows);
    var errors := ValidateAssignments(Some(rows));
    var head := if total != 100 then [TotalError(total)] else [];
    assert errors == head + [DuplicateError] + EachRowErrors(rows, 1);
    assert errors[|head|] == DuplicateError;
  }

  /** The request the client posts, one entry per row; only meaningful once every row has a subcommittee. */
  function AsRequests(rows: seq<FormAssignment>): (reqs: seq<Resolutions.AssignmentRequest>)
    requires forall i :: 0 <= i < |rows| ==> rows[i].subcommitteeId.Some?
    ensures |reqs| == |rows|
  {
    if rows == [] then []
    else [Resolutions.AssignmentRequest(rows[0].subcommitteeId.value, Some(WeightOf(rows[0])), None)] + AsRequests(rows[1..])
  }

  lemma {:induction false} AsRequestsTotal(rows: seq<FormAssignment>)
    requires forall i :: 0 <= i < |rows| ==> rows[i].subcommitteeId.Some?
    ensures Resolutions.TotalWeight(AsRequests(rows)) == TotalPercentage(rows)
  {
    if rows != [] {
      AsRequestsTotal(rows[1..]);
    }
  }

  /** Weights from 1 to 100 reach the backend as `Integer`s, so none of them fails to unbox. */
  lemma {:induction false} AsRequestsUnbox(rows: seq<FormAssignment>)
    requires forall i :: 0 <= i < |rows| ==> rows[i].subcommitteeId.Some? && 1 <= WeightOf(rows[i]) <= 100
    ensures Resolutions.FirstBadWeight(AsRequests(rows)) == |rows|
  {
    if rows != [] {
      assert AsRequests(rows)[1..] == AsRequests(rows[1..]);
      AsRequestsUnbox(rows[1..]);
    }
  }

  /** Every row of an accepted list names a subcommittee and carries a weight from 1 to 100, and they total 100. */
  lemma AcceptedRows(rows: seq<FormAssignment>)
    requires ValidateAssignments(Some(rows)) == []
    ensures TotalPercentage(rows) == 100
    ensures forall i :: 0 <= i < |rows| ==> rows[i].subcommitteeId.Some? && 1 <= WeightOf(rows[i]) <= 100
  {
    ValidationPassesIff(Some(rows));
    forall i | 0 <= i < |rows| ensures rows[i].subcommitteeId.Some? && 1 <= WeightOf(rows[i]) <= 100 {
      assert HasSubcommittee(rows[i]);
    }
  }

  /**
   * A list the client accepts also passes the backend's unboxing and its
   * sum-to-100 check, and the sum is exact: no wrap-around is involved.
   */
  lemma ClientValidationImpliesBackendSum(rows: seq<FormAssignment>)
    requires ValidateAssignments(Some(rows)) == []
    ensures forall i :: 0 <= i < |rows| ==> rows[i].subcommitteeId.Some?
    ensures Resolutions.FirstBadWeight(AsRequests(rows)) == |rows|
    ensures Resolutions.TotalWeight(AsRequests(rows)) == 100
    ensures Resolutions.Wrap32(Resolutions.TotalWeight(AsRequests(rows))) == 100
  {
    AcceptedRows(rows);
    AsRequestsTotal(rows);
    AsRequestsUnbox(rows);
    Resolutions.Wrap32Small(100);
  }

  /** `errors.join('. ')`. */
  function Join(parts: seq<string>, sep: string): string
  {
    if parts == [] then [] else if |parts| == 1 then parts[0] else parts[0] + sep + Join(parts[1..], sep)
  }

  /**
   * assignResolution up to the network call: a list that fails validation
   * throws with the joined messages before any request is built; otherwise
   * the body it posts.
   */
  function AssignResolutionRequest(rows: seq<FormAssignment>): (r: Result<seq<(Option<nat>, int)>, string>)
    ensures r.Err? <==> ValidateAssignments(Some(rows)) != []
    ensures r.Err? ==> r.error == Join(ValidateAssignments(Some(rows)), ". ")
    ensures r.Ok? ==> |r.value| == |rows| && forall i :: 0 <= i < |rows| ==> r.value[i] == (rows[i].subcommitteeId, WeightOf(rows[i]))
  {
    var errors := ValidateAssignments(Some(rows));
    if errors != [] then Err(Join(errors, ". "))
    else Ok(seq(|rows|, i requires 0 <= i < |rows| => (rows[i].subcommitteeId, WeightOf(rows[i]))))
  }

  /** calculateRemainingPercentage (and the form's getRemainingPercentage): `max(0, 100 - total)`. */
  function RemainingPercentage(rows: seq<FormAssignment>): (r: int)
    ensures r >= 0
    ensures r == 0 <==> TotalPercentage(rows) >= 100
    ensures TotalPercentage(rows) <= 100 ==> r + TotalPercentage(rows) == 100
  {
    var total := TotalPercentage(rows);
    if 100 - total > 0 then 100 - total else 0
  }

  // ---------------------------------------------------------------------
  // Auto-distribute

  /** The weight auto-distribute gives position `i` of `n`: ⌊100/n⌋, plus one for the first 100 mod n. */
  function ShareAt(i: nat, n: nat): int
    requires n > 0
  {
    100 / n + (if i < 100 % n then 1 else 0)
  }

  /** handleAutoDistribute: an empty list is left alone; otherwise each row gets its share, all else kept. */
  function AutoDistribute(rows: seq<FormAssignment>): (r: seq<FormAssignment>)
    ensures |r| == |rows|
    ensures rows == [] ==> r == rows
    ensures forall i :: 0 <= i < |r| ==>
      r[i] == rows[i].(weight := Some(ShareAt(i, |rows|)))
  {
    if rows == [] then rows
    else seq(|rows|, i requires 0 <= i < |rows| => rows[i].(weight := Some(ShareAt(i, |rows|))))
  }

  /** How many of the `len` positions from `from` on lie below `m`. */
  function PositionsBelow(from: nat, len: nat, m: nat): nat
  {
    if from >= m then 0 else if from + len <= m then len else m - from
  }

  /**
   * The sum of the shares from position `from` on, when each is `q` plus one
   * for the positions below `m`: `q` per row plus the positions below `m`.
   */
  lemma {:induction false} SharesSum(rows: seq<FormAssignment>, from: nat, q: int, m: nat)
    requires forall i :: 0 <= i < |rows| ==> WeightOf(rows[i]) == q + (if from + i < m then 1 else 0)
    ensures TotalPercentage(rows) == q * |rows| + PositionsBelow(from, |rows|, m)
    decreases |rows|
  {
    if rows != [] {
      var tail := rows[1..];
      forall i | 0 <= i < |tail| ensures WeightOf(tail[i]) == q + (if from + 1 + i < m then 1 else 0) {
        assert tail[i] == rows[i + 1];
      }
      SharesSum(tail, from + 1, q, m);
      assert q * |rows| == q + q * |tail|;
    }
  }

  /**
   * For every non-empty list the distributed weights sum to exactly 100,
   * even with more than 100 rows, and each is ⌊100/n⌋ or one more.
   */
  lemma AutoDistributeSumsToHundred(rows: seq<FormAssignment>)
    requires rows != []
    ensures TotalPercentage(AutoDistribute(rows)) == 100
    ensures forall i :: 0 <= i < |rows| ==>
      WeightOf(AutoDistribute(rows)[i]) in {100 / |rows|, 100 / |rows| + 1}
  {
    var n := |rows|;
    var r := AutoDistribute(rows);
    var q, m := 100 / n, 100 % n;
    SharesSum(r, 0, q, m);
    assert m < n && q * n + m == 100;
  }

  /** The distributed list always passes the total check; the remaining share drops to zero. */
  lemma AutoDistributeLeavesNothing(rows: seq<FormAssignment>)
    requires rows != []
    ensures RemainingPercentage(AutoDistribute(rows)) == 0
  {
    AutoDistributeSumsToHundred(rows);
  }
}

=== FILE: client_chair.dfy ===
/**
 * The checks `ChairService.validateReportData` runs in the web client before
 * a chair submits a progress report, and the colour it gives a performance
 * percentage. The client reuses the backend's messages but tests the
 * untrimmed length of the progress details, accepts a performance of 0 and
 * never looks at the resolution or subcommittee references.
 */
module ChairClient {
  import opened Common
  import opened ChairValidation

  /**
   * Progress details: a missing or blank text is "required"; any non-empty
   * text shorter than ten characters, counted before trimming, is "too short".
   */
  function ClientProgressErrors(progress: Option<string>): (errs: seq<ReportDataError>)
    ensures ProgressRequired in errs <==> progress.None? || JsBlank(progress.value)
    ensures ProgressTooShort in errs <==> progress.Some? && 1 <= |progress.value| < 10
    ensures errs == [] <==> progress.Some? && |progress.value| >= 10 && !JsBlank(progress.value)
  {
    (if progress.None? || JsBlank(progress.value) then [ProgressRequired] else [])
    + (if progress.Some? && progress.value != [] && |progress.value| < 10 then [ProgressTooShort] else [])
  }

  /** Performance: only a missing value is "required" (0 passes); a value outside 0..100 is out of range. */
  function ClientPerformanceErrors(performance: Option<int>): (errs: seq<ReportDataError>)
    ensures PerformanceRequired in errs <==> performance.None?
    ensures PerformanceOutOfRange in errs <==> performance.Some? && !(0 <= performance.value <= 100)
    ensures errs == [] <==> performance.Some? && 0 <= performance.value <= 100
  {
    if performance.None? then [PerformanceRequired]
    else if performance.value < 0 || performance.value > 100 then [PerformanceOutOfRange]
    else []
  }

  /** What the client lets through: ten characters of progress that are not all blank, and a percentage in 0..100. */
  predicate ClientAcceptable(d: ReportDraft)
  {
    d.progressDetails.Some? && |d.progressDetails.value| >= 10 && !JsBlank(d.progressDetails.value)
    && d.performancePercentage.Some? && 0 <= d.performancePercentage.value <= 100
  }

  /** validateReportData in the client: the progress errors, then the performance errors. */
  function ClientValidateReportData(d: ReportDraft): (errs: seq<ReportDataError>)
    ensures errs == [] <==> ClientAcceptable(d)
    ensures ResolutionRequired !in errs && SubcommitteeRequired !in errs
  {
    var p := ClientProgressErrors(d.progressDetails);
    var q := ClientPerformanceErrors(d.performancePercentage);
    assert forall e :: e in p + q <==> e in p || e in q;
    p + q
  }

  /** Both progress errors appear together exactly for a non-empty blank text shorter than ten characters. */
  lemma BothProgressErrors(d: ReportDraft)
    ensures (ProgressRequired in ClientValidateReportData(d) && ProgressTooShort in ClientValidateReportData(d)) <==>
      d.progressDetails.Some? && 1 <= |d.progressDetails.value| < 10 && JsBlank(d.progressDetails.value)
  {
    var p := ClientProgressErrors(d.progressDetails);
    var q := ClientPerformanceErrors(d.performancePercentage);
    assert ClientValidateReportData(d) == p + q;
    assert ProgressRequired !in q && ProgressTooShort !in q;
    assert forall e :: e in p + q <==> e in p || e in q;
  }

  /** The references to the resolution and the subcommittee play no part. */
  lemma ClientIgnoresReferences(d: ReportDraft, resolutionId: Option<nat>, subcommitteeId: Option<nat>)
    ensures ClientValidateReportData(d.(resolutionId := resolutionId, subcommitteeId := subcommitteeId))
         == ClientValidateReportData(d)
  {
  }

  /** Everything the backend accepts, the client accepts too. */
  lemma BackendAcceptedPassesClient(d: ReportDraft)
    requires AcceptableDraft(d)
    ensures ClientValidateReportData(d) == []
  {
    TrimmedTextNotBlank(d.progressDetails.value);
  }

  /** Text that keeps ten characters after Java's trim is long enough and not blank for the client. */
  lemma TrimmedTextNotBlank(p: string)
    requires |Trim(p)| >= 10
    ensures |p| >= 10 && !JsBlank(p)
  {
    TrimEmptyIffBlank(p);
    JsBlankIsBlank(p);
  }

  /** JavaScript's white space is white space to Java's trim too. */
  lemma JsBlankIsBlank(p: string)
    ensures JsBlank(p) ==> IsBlank(p)
  {
    if JsBlank(p) {
      forall i | 0 <= i < |p| ensures IsSpace(p[i]) {
        assert JsSpace(p[i]);
      }
    }
  }

  /**
   * The converse fails: progress padded with blanks to ten characters passes
   * the client but fails the backend, which measures the trimmed text.
   */
  lemma PaddedProgressPassesOnlyClient()
    ensures var d := ReportDraft(Some("abc       "), Some(0), Some(1), Some(1));
      ClientValidateReportData(d) == [] && ValidateReportData(d) == [ProgressTooShort]
  {
    var p: string := "abc       ";
    assert !IsSpace(p[0]);
    assert Trim(p) == "abc" by {
      assert TrimStart(p) == p;
      var e := TrimEnd(p);
      assert !IsSpace(p[2]) && IsSpace(p[9]);
      assert e == p[..3];
    }
  }

  /** getPerformanceColor of the chair pages: green from 80, orange from 60, yellow from 40, red below. */
  function ChairPerformanceColor(percentage: int): (color: string)
    ensures color == "#16a34a" <==> percentage >= 80
    ensures color == "#d97706" <==> 60 <= percentage < 80
    ensures color == "#f59e0b" <==> 40 <= percentage < 60
    ensures color == "#dc2626" <==> percentage < 40
  {
    if percentage >= 80 then "#16a34a"
    else if percentage >= 60 then "#d97706"
    else if percentage >= 40 then "#f59e0b"
    else "#dc2626"
  }

  /** The colours from worst (0) to best (3). */
  function ChairColorRank(color: string): nat
  {
    if color == "#16a34a" then 3
    else if color == "#d97706" then 2
    else if color == "#f59e0b" then 1
    else 0
  }

  /** A higher percentage never gets a worse colour. */
  lemma ChairColorMonotone(p: int, q: int)
    requires p <= q
    ensures ChairColorRank(ChairPerformanceColor(p)) <= ChairColorRank(ChairPerformanceColor(q))
  {
  }
}

=== FILE: client_commissioner.dfy ===
/**
 * The pure helpers of the web client's `CommissionerService`: the completion
 * rate, the priority of a report by its HOD review time, and the report
 * list's sort keys, where the HOD review time stands in for itself or, when
 * absent, for the submission time.
 */
module CommissionerClient {
  import opened Common
  import opened ClientShared
  import opened ClientReports

  /** calculateCompletionRate: completed as a rounded percentage of the total, 0 for an empty total. */
  function CompletionRate(completed: nat, total: nat): (rate: int)
    ensures total == 0 ==> rate == 0
    ensures completed <= total ==> 0 <= rate <= 100
    ensures total > 0 ==> rate * 2 * total <= 200 * completed + total < (rate + 1) * 2 * total
  {
    if completed <= total then
      RoundedPercentBounds(completed, total);
      RoundedPercent(completed, total)
    else RoundedPercent(completed, total)
  }

  datatype Priority = High | Medium | UrgentPriority | NormalPriority

  function PriorityName(p: Priority): string
  {
    match p
    case High => "high"
    case Medium => "medium"
    case UrgentPriority => "urgent"
    case NormalPriority => "normal"
  }

  /**
   * The `hodReviewedAt` field of a report as the page hands it over: missing
   * (the backend's mapper leaves null fields out of its JSON), an explicit
   * null, or a review time in milliseconds.
   */
  datatype ReviewStamp = Missing | NullStamp | ReviewedAt(ms: int)

  /**
   * `now - new Date(hodReviewedAt)` in milliseconds: `new Date(undefined)` is
   * an invalid date, whose difference is NaN (`None`); `new Date(null)` is
   * the epoch.
   */
  function ReviewAge(stamp: ReviewStamp, now: int): Option<int>
  {
    match stamp
    case Missing => None
    case NullStamp => Some(now)
    case ReviewedAt(ms) => Some(now - ms)
  }

  /** `hoursAgo <= hours`; false for NaN. */
  predicate ReviewedWithin(stamp: ReviewStamp, now: int, hours: int)
  {
    var age := ReviewAge(stamp, now);
    age.Some? && age.value <= hours * HourMs
  }

  /** `hoursAgo > hours`; false for NaN. */
  predicate ReviewedBefore(stamp: ReviewStamp, now: int, hours: int)
  {
    var age := ReviewAge(stamp, now);
    age.Some? && age.value > hours * HourMs
  }

  /**
   * getReportPriority, the first rule that applies: 90% or more and reviewed
   * within 24 hours is high, 80% or more medium, reviewed more than 48 hours
   * ago urgent, anything else normal. A missing review time makes every
   * comparison of the age false.
   */
  function ReportPriority(performance: int, hodReviewedAt: ReviewStamp, now: int): (p: Priority)
    ensures p == High <==> performance >= 90 && ReviewedWithin(hodReviewedAt, now, 24)
    ensures p == Medium <==> performance >= 80 && !(performance >= 90 && ReviewedWithin(hodReviewedAt, now, 24))
    ensures p == UrgentPriority <==> performance < 80 && ReviewedBefore(hodReviewedAt, now, 48)
    ensures p == NormalPriority <==> performance < 80 && !ReviewedBefore(hodReviewedAt, now, 48)
  {
    if performance >= 90 && ReviewedWithin(hodReviewedAt, now, 24) then High
    else if performance >= 80 then Medium
    else if ReviewedBefore(hodReviewedAt, now, 48) then UrgentPriority
    else NormalPriority
  }

  /** A well-performing report is never flagged urgent, however long it has waited. */
  lemma WellPerformingNeverUrgent(performance: int, hodReviewedAt: ReviewStamp, now: int)
    requires performance >= 80
    ensures ReportPriority(performance, hodReviewedAt, now) in {High, Medium}
  {
  }

  /**
   * A report whose review time is missing is neither high nor urgent: it is
   * medium from 80% and normal below, however old it is.
   */
  lemma MissingReviewTimeNeverFlagged(performance: int, now: int)
    ensures ReportPriority(performance, Missing, now) == (if performance >= 80 then Medium else NormalPriority)
  {
  }

  /** An explicit null review time counts from the epoch. */
  lemma NullReviewTimeIsEpoch(performance: int, now: int)
    ensures ReportPriority(performance, NullStamp, now) == ReportPriority(performance, ReviewedAt(0), now)
  {
  }

  /** The keys sortReports knows on the Commissioner pages; the submission time is not one of them. */
  function CommissionerSortKey(sortBy: string): (key: SortKey)
    ensures key != BySubmittedAt
    ensures key == Unsorted <==>
      sortBy !in {"hodReviewedAt", "performancePercentage", "resolutionTitle", "chairName"}
  {
    if sortBy == "hodReviewedAt" then ByHodReviewedAt
    else if sortBy == "performancePercentage" then ByPerformance
    else if sortBy == "resolutionTitle" then ByTitle
    else if sortBy == "chairName" then ByChairName
    else Unsorted
  }

  /**
   * sortReports on the Commissioner pages: a sorted copy of the same
   * reports, ordered by review time with the submission time standing in
   * for a missing review.
   */
  lemma CommissionerSortByReview(reports: seq<ClientReport>, ascending: bool)
    ensures var s := SortReports(reports, CommissionerSortKey("hodReviewedAt"), ascending);
      multiset(s) == multiset(reports)
      && forall i :: 0 <= i < |reports| - 1 ==>
           if ascending then ReviewTime(s[i]) <= ReviewTime(s[i + 1]) else ReviewTime(s[i]) >= ReviewTime(s[i + 1])
  {
    SortReportsProperties(reports, ByHodReviewedAt, ascending);
  }

  /** A report the HOD has not reviewed sorts by its submission time. */
  lemma ReviewTimeFallsBack(r: ClientReport)
    ensures r.hodReviewedAt.None? ==> ReviewTime(r) == r.submittedAt
    ensures r.hodReviewedAt.Some? && r.hodReviewedAt.value != 0 ==> ReviewTime(r) == r.hodReviewedAt.value
  {
  }
}

=== FILE: client_constants.dfy ===
/**
 * The helper functions of the web client's shared constants module: the
 * performance label and colour class of a percentage, the truncation of
 * long texts, the contact-number check and the relative time of a date.
 * Percentages are whole numbers; the current time is a parameter, and the
 * locale's rendering of a calendar date is passed in as text.
 */
module FrontendConstants {
  import opened Common
  import opened ClientShared
  import Dashboard

  // ---------------------------------------------------------------------
  // Performance labels and colours

  /** getPerformanceColor: the badge classes for 90, 80, 70 and 60 percent and above, or below 60. */
  function PerformanceColorClass(percentage: int): string
  {
    if percentage >= 90 then "bg-green-100 text-green-800"
    else if percentage >= 80 then "bg-blue-100 text-blue-800"
    else if percentage >= 70 then "bg-yellow-100 text-yellow-800"
    else if percentage >= 60 then "bg-orange-100 text-orange-800"
    else "bg-red-100 text-red-800"
  }

  /** getPerformanceLabel: the same thresholds, named. */
  function PerformanceLabel(percentage: int): string
  {
    if percentage >= 90 then "Excellent"
    else if percentage >= 80 then "Very Good"
    else if percentage >= 70 then "Good"
    else if percentage >= 60 then "Satisfactory"
    else "Poor"
  }

  /** The label of each of the backend's performance bands. */
  function BandLabel(b: Dashboard.Band): string
  {
    match b
    case Excellent => "Excellent"
    case VeryGood => "Very Good"
    case Good => "Good"
    case Satisfactory => "Satisfactory"
    case Poor => "Poor"
  }

  /** The badge classes of each band. */
  function BandColorClass(b: Dashboard.Band): string
  {
    match b
    case Excellent => "bg-green-100 text-green-800"
    case VeryGood => "bg-blue-100 text-blue-800"
    case Good => "bg-yellow-100 text-yellow-800"
    case Satisfactory => "bg-orange-100 text-orange-800"
    case Poor => "bg-red-100 text-red-800"
  }

  /** Labels ranked from best (4) to worst (0); a text that is no label ranks 0. */
  function LabelRank(name: string): nat
  {
    if name == "Excellent" then 4
    else if name == "Very Good" then 3
    else if name == "Good" then 2
    else if name == "Satisfactory" then 1
    else 0
  }

  /** Both helpers read the percentage through the backend dashboard's five bands. */
  lemma LabelAndColorFollowBands(percentage: int)
    ensures PerformanceLabel(percentage) == BandLabel(Dashboard.BandOf(percentage))
    ensures PerformanceColorClass(percentage) == BandColorClass(Dashboard.BandOf(percentage))
    ensures LabelRank(PerformanceLabel(percentage)) == Dashboard.BandRank(Dashboard.BandOf(percentage))
  {
  }

  /** Different bands have different labels and different classes. */
  lemma BandNamesDistinct(b1: Dashboard.Band, b2: Dashboard.Band)
    ensures BandLabel(b1) == BandLabel(b2) <==> b1 == b2
    ensures BandColorClass(b1) == BandColorClass(b2) <==> b1 == b2
  {
    if b1 != b2 {
      var l1, l2 := BandLabel(b1), BandLabel(b2);
      assert l1[0] != l2[0];
      var c1, c2 := BandColorClass(b1), BandColorClass(b2);
      assert c1[3] != c2[3];
    }
  }

  /** The label and the colour always pick the same bucket: two percentages share one exactly when they share the other. */
  lemma LabelAndColorAgree(p: int, q: int)
    ensures PerformanceLabel(p) == PerformanceLabel(q) <==> Dashboard.BandOf(p) == Dashboard.BandOf(q)
    ensures PerformanceColorClass(p) == PerformanceColorClass(q) <==> Dashboard.BandOf(p) == Dashboard.BandOf(q)
  {
    LabelAndColorFollowBands(p);
    LabelAndColorFollowBands(q);
    BandNamesDistinct(Dashboard.BandOf(p), Dashboard.BandOf(q));
  }

  /** A higher percentage never gets a worse label. */
  lemma PerformanceLabelMonotone(p: int, q: int)
    requires p <= q
    ensures LabelRank(PerformanceLabel(p)) <= LabelRank(PerformanceLabel(q))
  {
    LabelAndColorFollowBands(p);
    LabelAndColorFollowBands(q);
    Dashboard.BandMonotone(p, q);
  }

  // ---------------------------------------------------------------------
  // Truncation

  const DefaultTruncateLength: int := 100

  /**
   * truncateText: a missing or empty text, or one no longer than the limit,
   * comes back as it is; a longer one is cut to the limit (a negative limit
   * cuts everything, as `substring` does) and gets "..." appended.
   */
  function TruncateText(text: Option<string>, maxLength: int): (r: Option<string>)
    ensures r.None? <==> text.None?
    ensures text.None? || text.value == [] || |text.value| <= maxLength ==> r == text
    ensures text.Some? && text.value != [] && |text.value| > maxLength ==>
      var keep := if maxLength < 0 then 0 else maxLength;
      |r.value| == keep + 3 && r.value[..keep] == text.value[..keep] && EndsWith(r.value, "...")
  {
    if text.None? || text.value == [] || |text.value| <= maxLength then text
    else
      var keep := if maxLength < 0 then 0 else maxLength;
      Some(text.value[..keep] + "...")
  }

  /** Truncating twice with the same limit is truncating once. */
  lemma TruncateIdempotent(text: Option<string>, maxLength: int)
    ensures TruncateText(TruncateText(text, maxLength), maxLength) == TruncateText(text, maxLength)
  {
    var once := TruncateText(text, maxLength);
    if text.Some? && text.value != [] && |text.value| > maxLength {
      var keep := if maxLength < 0 then 0 else maxLength;
      assert once.value[..keep] == text.value[..keep];
    }
  }

  // ---------------------------------------------------------------------
  // Contact numbers

  /** `[0-9\-\(\)\s]`: a digit, a dash, a parenthesis or white space. */
  predicate ContactChar(c: char)
  {
    '0' <= c <= '9' || c == '-' || c == '(' || c == ')' || JsSpace(c)
  }

  /** What `^[\+]?[0-9\-\(\)\s]{10,}$` matches: an optional '+' and then ten or more contact characters. */
  predicate MatchesContactPattern(s: string)
  {
    ContactRun(s) || (s != [] && s[0] == '+' && ContactRun(s[1..]))
  }

  /** `[0-9\-\(\)\s]{10,}` on its own. */
  predicate ContactRun(s: string)
  {
    |s| >= 10 && forall i :: 0 <= i < |s| ==> ContactChar(s[i])
  }

  /** validateContactNumber: a missing or empty number is accepted, any other must match the pattern. */
  function ValidateContactNumber(number: Option<string>): (ok: bool)
    ensures ok <==> number.None? || number.value == [] || MatchesContactPattern(number.value)
    ensures ok && number.Some? && number.value != [] ==> |number.value| >= 10
  {
    if number.None? || number.value == [] then true
    else
      var s := number.value;
      var start := if s[0] == '+' then 1 else 0;
      ContactRun(s[start..])
  }

  /** Examples: a plain ten-digit number passes, a '+' alone or a number with a letter does not. */
  lemma ContactNumberExamples()
    ensures ValidateContactNumber(Some("0712345678"))
    ensures !ValidateContactNumber(Some("+"))
    ensures !ValidateContactNumber(Some("071234567x"))
  {
    var digits: string := "0712345678";
    assert ContactChar(digits[0]) && ContactChar(digits[9]);
    var letter: string := "071234567x";
    assert !ContactChar(letter[9]);
  }

  // ---------------------------------------------------------------------
  // Relative time

  /** The unit formatRelativeTime picks, with its rounded-down count. */
  datatype RelativeAge = Minutes(n: int) | Hours(n: int) | CalendarDate

  /**
   * The age bucket of a date `diff` milliseconds in the past: minutes below
   * an hour, whole hours below a day, the date itself after that. A date in
   * the future has a negative age and lands in the minutes bucket.
   */
  function AgeBucket(diff: int): (a: RelativeAge)
    ensures a.Minutes? <==> diff < HourMs
    ensures a.Hours? <==> HourMs <= diff < DayMs
    ensures a.Minutes? ==> a.n * MinuteMs <= diff < (a.n + 1) * MinuteMs && a.n < 60
    ensures a.Hours? ==> a.n * HourMs <= diff < (a.n + 1) * HourMs && 1 <= a.n <= 23
  {
    if diff < HourMs then
      FloorDivBounds(diff, MinuteMs);
      FloorDivBelow(diff, MinuteMs, 60);
      Minutes(diff / MinuteMs)
    else if diff < DayMs then
      FloorDivBounds(diff, HourMs);
      FloorDivBelow(diff, HourMs, 1);
      FloorDivBelow(diff, HourMs, 24);
      Hours(diff / HourMs)
    else CalendarDate
  }

  /** formatRelativeTime: "n minutes ago", "n hours ago" or the calendar date. */
  function FormatRelativeTime(createdAt: int, now: int, calendarDate: string): string
  {
    match AgeBucket(now - createdAt)
    case Minutes(n) => IntToString(n) + " minutes ago"
    case Hours(n) => IntToString(n) + " hours ago"
    case CalendarDate => calendarDate
  }

  /** Example: five minutes ago reads "5 minutes ago"; five minutes ahead reads "-5 minutes ago". */
  lemma RelativeTimeOfFutureDate(now: int)
    ensures FormatRelativeTime(now - 5 * MinuteMs, now, "") == "5 minutes ago"
    ensures FormatRelativeTime(now + 5 * MinuteMs, now, "") == "-5 minutes ago"
  {
    assert now - (now - 5 * MinuteMs) == 300000 && now - (now + 5 * MinuteMs) == -300000;
    assert 300000 / MinuteMs == 5 && -300000 / MinuteMs == -5;
    assert AgeBucket(300000) == Minutes(5);
    assert AgeBucket(-300000) == Minutes(-5);
    assert IntToString(5) == "5" && IntToString(-5) == "-5";
  }
}

=== FILE: client_hod.dfy ===
/**
 * The pure helpers of the web client's `HODService`: the check on a review
 * before it is sent, the approval rate, how urgent a pending report is, and
 * the report list's sort keys.
 */
module HodClient {
  import opened Common
  import opened ClientShared
  import opened ClientReports

  const CommentsRequired: string := "Comments are required when rejecting a report"
  const CommentsTooShort: string := "Comments must be at least 10 characters long"

  /**
   * validateReportReview: a rejection needs a comment that is not blank, and
   * any non-empty comment, on approval as well, needs ten characters counted
   * before trimming.
   */
  function ValidateReportReview(approved: bool, comments: Option<string>): (errs: seq<string>)
    ensures CommentsRequired in errs <==> !approved && (comments.None? || JsBlank(comments.value))
    ensures CommentsTooShort in errs <==> comments.Some? && 1 <= |comments.value| < 10
    ensures errs == [] <==>
      (approved || (comments.Some? && !JsBlank(comments.value)))
      && (comments.None? || comments.value == [] || |comments.value| >= 10)
  {
    (if !approved && (comments.None? || JsBlank(comments.value)) then [CommentsRequired] else [])
    + (if comments.Some? && comments.value != [] && |comments.value| < 10 then [CommentsTooShort] else [])
  }

  /** An approval may carry no comment, but a short one is refused even then. */
  lemma ApprovalCommentRules(comments: string)
    ensures ValidateReportReview(true, None) == []
    ensures ValidateReportReview(true, Some("")) == []
    ensures 1 <= |comments| < 10 ==> ValidateReportReview(true, Some(comments)) == [CommentsTooShort]
  {
  }

  /** calculateApprovalRate: approvals as a rounded percentage of the decided reports, 0 when none is decided. */
  function ApprovalRate(approved: nat, rejected: nat): (rate: int)
    ensures approved + rejected == 0 ==> rate == 0
    ensures 0 <= rate <= 100
    ensures approved + rejected > 0 ==>
      rate * 2 * (approved + rejected) <= 200 * approved + (approved + rejected) < (rate + 1) * 2 * (approved + rejected)
  {
    RoundedPercentBounds(approved, approved + rejected);
    RoundedPercent(approved, approved + rejected)
  }

  /** Only rejections give 0, only approvals 100. */
  lemma ApprovalRateExtremes(approved: nat, rejected: nat)
    ensures approved > 0 && rejected == 0 ==> ApprovalRate(approved, rejected) == 100
    ensures approved == 0 ==> ApprovalRate(approved, rejected) == 0
  {
    RoundedPercentBounds(approved, approved + rejected);
  }

  /**
   * getReportUrgency on the age of a report in milliseconds: more than 72
   * hours overdue, more than 48 urgent, more than 24 a warning. Dividing the
   * age by an hour before comparing, as the client does, keeps every
   * comparison the same.
   */
  function ReportUrgency(ageMs: int): (u: Urgency)
    ensures u == Overdue <==> ageMs > 72 * HourMs
    ensures u == Urgent <==> 48 * HourMs < ageMs <= 72 * HourMs
    ensures u == Warning <==> 24 * HourMs < ageMs <= 48 * HourMs
    ensures u == Normal <==> ageMs <= 24 * HourMs
  {
    if ageMs > 72 * HourMs then Overdue
    else if ageMs > 48 * HourMs then Urgent
    else if ageMs > 24 * HourMs then Warning
    else Normal
  }

  /** A report that has waited longer is never less urgent. */
  lemma ReportUrgencyMonotone(age1: int, age2: int)
    requires age1 <= age2
    ensures UrgencyRank(ReportUrgency(age1)) <= UrgencyRank(ReportUrgency(age2))
  {
  }

  /** The keys sortReports knows on the HOD pages; the HOD review time is not one of them. */
  function HodSortKey(sortBy: string): (key: SortKey)
    ensures key != ByHodReviewedAt
    ensures key == Unsorted <==>
      sortBy !in {"submittedAt", "performancePercentage", "resolutionTitle", "chairName"}
  {
    if sortBy == "submittedAt" then BySubmittedAt
    else if sortBy == "performancePercentage" then ByPerformance
    else if sortBy == "resolutionTitle" then ByTitle
    else if sortBy == "chairName" then ByChairName
    else Unsorted
  }

  /** sortReports on the HOD pages: a sorted copy; a key it does not know leaves the order alone. */
  lemma HodSortReports(reports: seq<ClientReport>, sortBy: string, ascending: bool)
    ensures multiset(SortReports(reports, HodSortKey(sortBy), ascending)) == multiset(reports)
    ensures sortBy == "hodReviewedAt" ==> SortReports(reports, HodSortKey(sortBy), ascending) == reports
  {
    SortReportsProperties(reports, HodSortKey(sortBy), ascending);
  }
}

=== FILE: client_hod_context.dfy ===
/**
 * The state reducer behind the web client's HOD context: the reports,
 * notifications, loading flag, error and unread counter the HOD pages
 * share, and how each action produces the next state. The unread counter
 * is meant to equal the number of unread notifications; the lemmas below
 * say which actions keep it so.
 */
module HodContext {
  import opened Common

  /** A report as the HOD pages hold it; only its id matters to the reducer. */
  datatype ReportItem = ReportItem(id: nat, content: string)

  /** A notification; `isRead` is `None` when the field is missing. */
  datatype Note = Note(id: nat, isRead: Option<bool>, content: string)

  /** The shared state; the user and the dashboard data are kept as the reducer receives them. */
  datatype HodState = HodState(
    user: Option<string>,
    reports: seq<ReportItem>,
    notifications: seq<Note>,
    dashboardData: Option<string>,
    loading: bool,
    error: Option<string>,
    unreadCount: int)

  /** The state the provider starts from. */
  const InitialState: HodState := HodState(None, [], [], None, false, None, 0)

  datatype Action =
    | SetLoading(loading: bool)
    | SetError(error: Option<string>)
    | SetUser(user: Option<string>)
    | SetReports(reports: seq<ReportItem>)
    | SetNotifications(notes: seq<Note>)
    | SetDashboardData(data: Option<string>)
    | UpdateReport(report: ReportItem)
    | MarkNotificationRead(noteId: nat)
    | MarkAllNotificationsRead
    | AddNotification(note: Note)
    | UpdateUnreadCount(count: int)
    | UnknownAction(name: string)

  /** `!n.isRead`: a notification that is not marked read. */
  predicate IsUnread(n: Note)
  {
    n.isRead != Some(true)
  }

  /** An unread notification with the given id. */
  function UnreadWithId(id: nat): Note -> bool
  {
    (n: Note) => n.id == id && IsUnread(n)
  }

  /** The counter agrees with the notifications. */
  predicate CounterAccurate(s: HodState)
  {
    s.unreadCount == Count(s.notifications, IsUnread)
  }

  // ---------------------------------------------------------------------
  // The per-action updates

  /** UPDATE_REPORT: every report with the payload's id is replaced by the payload. */
  function ReplaceReport(reports: seq<ReportItem>, report: ReportItem): (r: seq<ReportItem>)
    ensures |r| == |reports|
    ensures forall i :: 0 <= i < |r| ==> r[i] == (if reports[i].id == report.id then report else reports[i])
  {
    if reports == [] then []
    else [if reports[0].id == report.id then report else reports[0]] + ReplaceReport(reports[1..], report)
  }

  /** The notifications with the given id marked read, the others untouched. */
  function MarkIdRead(ns: seq<Note>, id: nat): (r: seq<Note>)
    ensures |r| == |ns|
    ensures forall i :: 0 <= i < |r| ==> r[i] == (if ns[i].id == id then ns[i].(isRead := Some(true)) else ns[i])
  {
    if ns == [] then []
    else [if ns[0].id == id then ns[0].(isRead := Some(true)) else ns[0]] + MarkIdRead(ns[1..], id)
  }

  /** Every notification marked read. */
  function MarkEveryRead(ns: seq<Note>): (r: seq<Note>)
    ensures |r| == |ns|
    ensures forall i :: 0 <= i < |r| ==> r[i] == ns[i].(isRead := Some(true))
  {
    if ns == [] then [] else [ns[0].(isRead := Some(true))] + MarkEveryRead(ns[1..])
  }

  function Max0(x: int): int
  {
    if x < 0 then 0 else x
  }

  /** MARK_NOTIFICATION_READ as the source writes it: the counter drops by one whatever was marked. */
  function MarkReadAsWritten(s: HodState, id: nat): HodState
  {
    s.(notifications := MarkIdRead(s.notifications, id), unreadCount := Max0(s.unreadCount - 1))
  }

  /** MARK_NOTIFICATION_READ with the counter dropped by the number of notifications it actually marks read. */
  function MarkRead(s: HodState, id: nat): HodState
  {
    s.(notifications := MarkIdRead(s.notifications, id),
       unreadCount := Max0(s.unreadCount - Count(s.notifications, UnreadWithId(id))))
  }

  /** hodReducer, with MARK_NOTIFICATION_READ keeping the counter accurate; an unknown action changes nothing. */
  function Reduce(s: HodState, a: Action): (r: HodState)
    ensures a.SetError? ==> r == s.(error := a.error, loading := false)
    ensures a.UnknownAction? ==> r == s
    ensures a.UpdateReport? ==> r.notifications == s.notifications && |r.reports| == |s.reports|
    ensures a.SetNotifications? || a.MarkAllNotificationsRead? ==> CounterAccurate(r)
  {
    match a
    case SetLoading(loading) => s.(loading := loading)
    case SetError(error) => s.(error := error, loading := false)
    case SetUser(user) => s.(user := user)
    case SetReports(reports) => s.(reports := reports)
    case SetNotifications(notes) => s.(notifications := notes, unreadCount := Count(notes, IsUnread))
    case SetDashboardData(data) => s.(dashboardData := data)
    case UpdateReport(report) => s.(reports := ReplaceReport(s.reports, report))
    case MarkNotificationRead(id) => MarkRead(s, id)
    case MarkAllNotificationsRead =>
      MarkEveryReadLeavesNone(s.notifications);
      s.(notifications := MarkEveryRead(s.notifications), unreadCount := 0)
    case AddNotification(note) => s.(notifications := [note] + s.notifications, unreadCount := s.unreadCount + 1)
    case UpdateUnreadCount(count) => s.(unreadCount := count)
    case UnknownAction(_) => s
  }

  // ---------------------------------------------------------------------
  // The counter

  /** After marking every notification read none is unread. */
  lemma {:induction false} MarkEveryReadLeavesNone(ns: seq<Note>)
    ensures Count(MarkEveryRead(ns), IsUnread) == 0
  {
    if ns != [] {
      MarkEveryReadLeavesNone(ns[1..]);
      assert MarkEveryRead(ns)[1..] == MarkEveryRead(ns[1..]);
    }
  }

  /** Marking one id read removes exactly the unread notifications with that id from the unread ones. */
  lemma {:induction false} MarkIdReadCount(ns: seq<Note>, id: nat)
    ensures Count(MarkIdRead(ns, id), IsUnread) == Count(ns, IsUnread) - Count(ns, UnreadWithId(id))
  {
    if ns != [] {
      MarkIdReadCount(ns[1..], id);
      assert MarkIdRead(ns, id)[1..] == MarkIdRead(ns[1..], id);
    }
  }

  /**
   * Every action but UPDATE_UNREAD_COUNT keeps an accurate counter accurate,
   * provided a notification that is added arrives unread.
   */
  lemma ReduceKeepsCounter(s: HodState, a: Action)
    requires CounterAccurate(s)
    requires !a.UpdateUnreadCount?
    requires a.AddNotification? ==> IsUnread(a.note)
    ensures CounterAccurate(Reduce(s, a))
  {
    match a
    case MarkNotificationRead(id) =>
      MarkIdReadCount(s.notifications, id);
      CountMonotoneUnread(s.notifications, id);
    case AddNotification(note) =>
      assert ([note] + s.notifications)[1..] == s.notifications;
    case _ =>
  }

  /** The unread notifications with one id are some of the unread notifications. */
  lemma {:induction false} CountMonotoneUnread(ns: seq<Note>, id: nat)
    ensures Count(ns, UnreadWithId(id)) <= Count(ns, IsUnread)
  {
    if ns != [] {
      CountMonotoneUnread(ns[1..], id);
    }
  }

  /** From the initial state, any run of actions without UPDATE_UNREAD_COUNT and without read additions keeps the counter accurate. */
  lemma {:induction false} RunKeepsCounter(s: HodState, actions: seq<Action>)
    requires CounterAccurate(s)
    requires forall i :: 0 <= i < |actions| ==> !actions[i].UpdateUnreadCount?
    requires forall i :: 0 <= i < |actions| && actions[i].AddNotification? ==> IsUnread(actions[i].note)
    ensures CounterAccurate(Run(s, actions))
    decreases |actions|
  {
    if actions != [] {
      ReduceKeepsCounter(s, actions[0]);
      RunKeepsCounter(Reduce(s, actions[0]), actions[1..]);
    }
  }

  /** The state after dispatching the actions in order. */
  function Run(s: HodState, actions: seq<Action>): HodState
    decreases |actions|
  {
    if actions == [] then s else Run(Reduce(s, actions[0]), actions[1..])
  }

  /** Marking a notification read twice, as written, loses an unread notification from the counter. */
  lemma MarkReadAsWrittenDrifts()
    ensures var s := HodState(None, [], [Note(1, None, ""), Note(2, None, "")], None, false, None, 2);
      CounterAccurate(s)
      && !CounterAccurate(MarkReadAsWritten(MarkReadAsWritten(s, 1), 1))
      && CounterAccurate(MarkRead(MarkRead(s, 1), 1))
  {
    var s := HodState(None, [], [Note(1, None, ""), Note(2, None, "")], None, false, None, 2);
    var once := MarkReadAsWritten(s, 1);
    assert once.notifications == [Note(1, Some(true), ""), Note(2, None, "")];
    assert once.notifications[1..] == [Note(2, None, "")];
    var twice := MarkReadAsWritten(once, 1);
    assert twice.notifications == once.notifications;
    assert twice.unreadCount == 0;
    MarkIdReadCount(s.notifications, 1);
    MarkIdReadCount(MarkRead(s, 1).notifications, 1);
    CountMonotoneUnread(s.notifications, 1);
    CountMonotoneUnread(MarkRead(s, 1).notifications, 1);
  }

  /** UPDATE_REPORT replaces the reports with the payload's id and leaves the others and their order alone. */
  lemma UpdateReportReplacesOnlyMatching(s: HodState, report: ReportItem)
    ensures var r := Reduce(s, UpdateReport(report));
      |r.reports| == |s.reports|
      && (forall i :: 0 <= i < |s.reports| && s.reports[i].id != report.id ==> r.reports[i] == s.reports[i])
      && (forall i :: 0 <= i < |s.reports| && s.reports[i].id == report.id ==> r.reports[i] == report)
      && r.notifications == s.notifications && r.unreadCount == s.unreadCount
  {
  }

  /** ADD_NOTIFICATION puts the notification first and counts it unread. */
  lemma AddNotificationPrepends(s: HodState, note: Note)
    ensures var r := Reduce(s, AddNotification(note));
      r.notifications == [note] + s.notifications && r.unreadCount == s.unreadCount + 1
  {
  }
}

=== FILE: client_hod_permission.dfy ===
/**
 * The frontend's view of Head of Delegation privileges
 * (`HODPermissionService` in the web client). The user object is the JSON
 * the backend sent: its role is a plain string and its subcommittee an
 * object with an optional name. Unlike the backend, the client compares the
 * subcommittee name ignoring case.
 */
module HodPermissionClient {
  import opened Common
  import opened Domain
  import HodPermission

  /** `user.subcommittee`: an id and a name, either of which may be missing. */
  datatype ClientGroup = ClientGroup(id: Option<nat>, name: Option<string>)

  /** The signed-in user as the client stores it; `None` fields are `undefined` or `null`. */
  datatype ClientUser = ClientUser(role: Option<string>, subcommittee: Option<ClientGroup>)

  const HodDashboard: string := "/hod/dashboard"

  /** isHeadOfDelegationSubcommittee: a present, non-empty name equal to "head of delegation" once lower-cased. */
  predicate IsHeadOfDelegationGroup(group: Option<ClientGroup>)
  {
    group.Some? && group.value.name.Some? && group.value.name.value != []
    && Lower(group.value.name.value) == "head of delegation"
  }

  /** hasHODPrivileges: a CHAIR or VICE_CHAIR whose subcommittee passes the name test. */
  predicate HasHodPrivileges(user: Option<ClientUser>)
  {
    user.Some? && (user.value.role == Some("CHAIR") || user.value.role == Some("VICE_CHAIR"))
    && user.value.subcommittee.Some? && IsHeadOfDelegationGroup(user.value.subcommittee)
  }

  /** The backend's spelling lower-cases to the name the client compares with. */
  lemma LowerBackendHodName()
    ensures Lower(HodPermission.HeadOfDelegationName) == "head of delegation"
  {
  }

  /** So does the name written in capitals. */
  lemma LowerCapitalHodName()
    ensures Lower("HEAD OF DELEGATION") == "head of delegation"
  {
  }

  /** The test cases the client ships with: the two officers of the group are privileged, the others are not. */
  lemma ShippedTestCasesForPrivilege()
    ensures HasHodPrivileges(Some(ClientUser(Some("CHAIR"), Some(ClientGroup(Some(1), Some("Head Of Delegation"))))))
    ensures HasHodPrivileges(Some(ClientUser(Some("VICE_CHAIR"), Some(ClientGroup(Some(1), Some("Head Of Delegation"))))))
    ensures !HasHodPrivileges(Some(ClientUser(Some("CHAIR"), Some(ClientGroup(Some(2), Some("IT Sub Committee"))))))
    ensures !HasHodPrivileges(Some(ClientUser(Some("HOD"), None)))
    ensures !HasHodPrivileges(Some(ClientUser(Some("SECRETARY"), None)))
    ensures !HasHodPrivileges(Some(ClientUser(Some("CHAIR"), None)))
  {
    LowerBackendHodName();
    var it: string := "IT Sub Committee";
    assert Lower(it)[0] == 'i';
  }

  /** The user object the backend's JSON gives the client for a stored user. */
  function AsClientUser(u: User): ClientUser
  {
    ClientUser(
      if u.role.Some? then Some(RoleName(u.role.value)) else None,
      if u.subcommittee.Some? then Some(ClientGroup(Some(u.subcommittee.value.id), Some(u.subcommittee.value.name))) else None)
  }

  /**
   * Every user the backend treats as privileged is privileged in the client
   * too; the converse fails, because the client also accepts the name in any
   * letter case.
   */
  lemma BackendPrivilegeImpliesClient(u: User)
    ensures HodPermission.HasHodPrivileges(Some(u)) ==> HasHodPrivileges(Some(AsClientUser(u)))
  {
    LowerBackendHodName();
  }

  lemma ClientAcceptsOtherLetterCase(sid: nat)
    ensures var u := User(sid, "c@eara.org", "pw", "Chair", None, Some(Chair), None,
      Some(SubCommitteeRef(sid, "HEAD OF DELEGATION")), true, None, Some(true), Some(false), None, None, None, None);
      HasHodPrivileges(Some(AsClientUser(u))) && !HodPermission.HasHodPrivileges(Some(u))
  {
    var upper: string := "HEAD OF DELEGATION";
    LowerCapitalHodName();
    assert upper[1] != HodPermission.HeadOfDelegationName[1];
  }

  /** getDashboardRoute: the HOD dashboard for any privileged user, otherwise the role's own dashboard. */
  function DashboardRoute(user: Option<ClientUser>): (route: string)
    ensures HasHodPrivileges(user) ==> route == HodDashboard
    ensures user.None? ==> route == "/dashboard"
  {
    if user.None? then "/dashboard"
    else if HasHodPrivileges(user) then HodDashboard
    else match user.value.role
      case Some(r) =>
        if r == "ADMIN" then "/admin/dashboard"
        else if r == "SECRETARY" then "/secretary/dashboard"
        else if r == "CHAIR" || r == "VICE_CHAIR" then "/chair/dashboard"
        else if r == "COMMISSIONER_GENERAL" then "/commissioner/dashboard"
        else if r == "SUBCOMMITTEE_MEMBER" || r == "COMMITTEE_MEMBER" || r == "COMMITTEE_SECRETARY"
                || r == "DELEGATION_SECRETARY" then "/member/dashboard"
        else "/dashboard"
      case None => "/dashboard"
  }

  /** Only a privileged user is sent to the HOD dashboard. */
  lemma HodDashboardIffPrivileged(user: Option<ClientUser>)
    ensures DashboardRoute(user) == HodDashboard <==> HasHodPrivileges(user)
  {
    if !HasHodPrivileges(user) {
      var route := DashboardRoute(user);
      assert route[1] != HodDashboard[1] || route[2] != HodDashboard[2];
    }
  }

  /**
   * The shipped test expects '/chair/dashboard' for every unprivileged case,
   * but the HOD-role user is routed to '/dashboard' and the secretary to
   * '/secretary/dashboard'.
   */
  lemma ShippedRouteExpectationsDisagree()
    ensures DashboardRoute(Some(ClientUser(Some("HOD"), None))) == "/dashboard"
    ensures DashboardRoute(Some(ClientUser(Some("SECRETARY"), None))) == "/secretary/dashboard"
    ensures DashboardRoute(Some(ClientUser(Some("CHAIR"), Some(ClientGroup(Some(2), Some("IT Sub Committee")))))) == "/chair/dashboard"
  {
    var it: string := "IT Sub Committee";
    assert Lower(it)[0] == 'i';
  }

  /** getUserRoleDisplay: the display name of a role, "Head of Delegation" when privileged. */
  function RoleDisplay(user: Option<ClientUser>): (name: string)
    ensures HasHodPrivileges(user) ==> name == "Head of Delegation"
    ensures user.Some? && user.value.role == Some("HOD") ==> name == "Head of Delegation"
    ensures user.None? ==> name == "Unknown"
  {
    if user.None? then "Unknown"
    else if HasHodPrivileges(user) then "Head of Delegation"
    else match user.value.role
      case None => "Unknown"
      case Some(r) =>
        if r == "ADMIN" then "Administrator"
        else if r == "SECRETARY" then "Secretary"
        else if r == "CHAIR" then "Chair"
        else if r == "VICE_CHAIR" then "Vice Chair"
        else if r == "HOD" then "Head of Delegation"
        else if r == "COMMISSIONER_GENERAL" then "Commissioner General"
        else if r == "SUBCOMMITTEE_MEMBER" then "Subcommittee Member"
        else if r == "COMMITTEE_MEMBER" then "Committee Member"
        else if r == "COMMITTEE_SECRETARY" then "Committee Secretary"
        else if r == "DELEGATION_SECRETARY" then "Delegation Secretary"
        else if r == [] then "Unknown"
        else r
  }

  /**
   * "Head of Delegation" is shown to privileged users and also for the
   * unprivileged 'HOD' role (and for a role string that is that text).
   */
  lemma RoleDisplayOfHead(user: Option<ClientUser>)
    ensures RoleDisplay(user) == "Head of Delegation" <==>
      (HasHodPrivileges(user) || (user.Some? && user.value.role in {Some("HOD"), Some("Head of Delegation")}))
  {
  }

  /** canReviewReports and canAccessHODDashboard: both are the privilege itself. */
  predicate CanReviewReports(user: Option<ClientUser>)
  {
    HasHodPrivileges(user)
  }

  predicate CanAccessHodDashboard(user: Option<ClientUser>)
  {
    HasHodPrivileges(user)
  }

  datatype NavItem = NavItem(id: string, name: string, path: string, icon: string)

  /** getHODNavigationItems: the five HOD pages for a privileged user, nothing otherwise. */
  function HodNavigationItems(user: Option<ClientUser>): (items: seq<NavItem>)
    ensures items == [] <==> !HasHodPrivileges(user)
    ensures items != [] ==> |items| == 5 && items[0].path == HodDashboard
    ensures forall i :: 0 <= i < |items| ==> StartsWith(items[i].path, "/hod/")
  {
    if !HasHodPrivileges(user) then []
    else [
      NavItem("overview", "Dashboard Overview", "/hod/dashboard", "home"),
      NavItem("reports", "Report Review", "/hod/reports", "document"),
      NavItem("performance", "Performance Analytics", "/hod/performance", "chart"),
      NavItem("notifications", "Notifications", "/hod/notifications", "bell"),
      NavItem("profile", "Profile Settings", "/hod/profile", "user")
    ]
  }

  /** Reviewing reports, the HOD dashboard and the HOD menu all go together. */
  lemma HodAccessAgrees(user: Option<ClientUser>)
    ensures CanReviewReports(user) <==> CanAccessHodDashboard(user)
    ensures CanReviewReports(user) <==> HodNavigationItems(user) != []
    ensures CanReviewReports(user) <==> DashboardRoute(user) == HodDashboard
  {
    HodDashboardIffPrivileged(user);
  }
}

=== FILE: client_http.dfy ===
/**
 * The request builder of the web client's fetch wrapper: how a path becomes
 * a URL behind the API base, how query parameters are attached, which
 * headers are sent and how the body is encoded. The API base, the stored
 * token and the serialised forms of the query and of a JSON body are
 * parameters; sending the request and reading the response are not part of
 * this model.
 */
module HttpClient {
  import opened Common

  // ---------------------------------------------------------------------
  // URLs

  /** `/^https?:\/\//i`: the text starts with "http://" or "https://" in any letter case. */
  predicate IsAbsoluteUrl(u: string)
  {
    StartsWith(Lower(u), "http://") || StartsWith(Lower(u), "https://")
  }

  /** A regular-expression word character: a letter, a digit or '_'. */
  predicate WordChar(c: char)
  {
    'a' <= c <= 'z' || 'A' <= c <= 'Z' || '0' <= c <= '9' || c == '_'
  }

  /** `/^\/api\b/`: the path starts with "/api" and no word character follows it. */
  predicate ApiPrefixed(path: string)
  {
    StartsWith(path, "/api") && (|path| == 4 || !WordChar(path[4]))
  }

  /** `/\/api\/?$/`: the base ends in "/api", with or without a slash after it. */
  predicate BaseEndsInApi(base: string)
  {
    EndsWith(base, "/api") || EndsWith(base, "/api/")
  }

  /** `replace(/\/$/, '')`: one trailing slash removed. */
  function TrimTrailingSlash(b: string): (r: string)
    ensures r == b || (b != [] && b[|b| - 1] == '/' && r == b[..|b| - 1])
  {
    if b != [] && b[|b| - 1] == '/' then b[..|b| - 1] else b
  }

  /**
   * normalizeUrl: the API base for a missing or empty input, an absolute
   * URL as it is, and otherwise the base without its trailing slash
   * followed by the path, which starts with '/' and loses a leading "/api"
   * when the base already ends in one.
   */
  function NormalizeUrl(input: Option<string>, apiBase: string): (r: string)
    ensures input.None? || input.value == [] ==> r == apiBase
    ensures input.Some? && IsAbsoluteUrl(input.value) ==> r == input.value
    ensures input.Some? && input.value != [] && !IsAbsoluteUrl(input.value) ==>
      var base := TrimTrailingSlash(apiBase);
      StartsWith(r, base) && |r| > |base| && r[|base|] == '/'
  {
    if input.None? || input.value == [] then apiBase
    else if IsAbsoluteUrl(input.value) then input.value
    else
      var base := TrimTrailingSlash(apiBase);
      var path := if ApiPrefixed(input.value) && BaseEndsInApi(base) then input.value[4..] else input.value;
      var rooted := if StartsWith(path, "/") then path else "/" + path;
      base + rooted
  }

  /**
   * Behind a base ending in "/api", "/api/x" and "/x" name the same URL,
   * so the prefix is never doubled; "/x" must not itself start with "/api".
   */
  lemma ApiPrefixNotDoubled(apiBase: string, rest: string)
    requires EndsWith(TrimTrailingSlash(apiBase), "/api")
    requires !ApiPrefixed("/" + rest)
    ensures NormalizeUrl(Some("/api/" + rest), apiBase) == NormalizeUrl(Some("/" + rest), apiBase)
    ensures NormalizeUrl(Some("/api/" + rest), apiBase) == TrimTrailingSlash(apiBase) + "/" + rest
  {
    var base := TrimTrailingSlash(apiBase);
    var withApi: string := "/api/" + rest;
    var plain: string := "/" + rest;
    RootedNotAbsolute(withApi);
    RootedNotAbsolute(plain);
    assert ApiPrefixed(withApi) && BaseEndsInApi(base) by {
      assert withApi[..4] == "/api" && withApi[4] == '/';
    }
    assert withApi[4..] == plain;
    assert StartsWith(plain, "/");
    assert NormalizeUrl(Some(withApi), apiBase) == base + plain;
    assert NormalizeUrl(Some(plain), apiBase) == base + plain;
  }

  /** A path that starts with '/' is not an absolute URL. */
  lemma RootedNotAbsolute(path: string)
    requires path != [] && path[0] == '/'
    ensures !IsAbsoluteUrl(path)
  {
    assert Lower(path)[0] == '/';
  }

  /** A base ending in "/api" is left alone by a path that does not start with "/api". */
  lemma OtherPathsKept(apiBase: string, path: string)
    requires StartsWith(path, "/") && !ApiPrefixed(path) && !IsAbsoluteUrl(path)
    ensures NormalizeUrl(Some(path), apiBase) == TrimTrailingSlash(apiBase) + path
  {
  }

  /** A base that is itself absolute makes every normalised URL absolute. */
  lemma NormalizedIsAbsolute(input: Option<string>, apiBase: string)
    requires IsAbsoluteUrl(apiBase)
    ensures IsAbsoluteUrl(NormalizeUrl(input, apiBase))
  {
    if input.Some? && input.value != [] && !IsAbsoluteUrl(input.value) {
      var r := NormalizeUrl(input, apiBase);
      var base := TrimTrailingSlash(apiBase);
      var n := if StartsWith(Lower(apiBase), "http://") then 7 else 8;
      assert Lower(apiBase)[..n] == Lower(r)[..n] by {
        forall i | 0 <= i < n
          ensures Lower(apiBase)[i] == Lower(r)[i]
        {
          if i < |base| {
            assert r[i] == base[i] == apiBase[i];
          } else {
            assert i == |base| && apiBase[i] == '/' && r[i] == '/';
          }
        }
      }
    }
  }

  /** With an absolute API base, normalising a normalised URL changes nothing. */
  lemma NormalizeIdempotent(input: Option<string>, apiBase: string)
    requires IsAbsoluteUrl(apiBase)
    ensures NormalizeUrl(Some(NormalizeUrl(input, apiBase)), apiBase) == NormalizeUrl(input, apiBase)
  {
    NormalizedIsAbsolute(input, apiBase);
  }

  /**
   * The final URL: the serialised query, when there are parameters, after a
   * '?' or, when the URL already has one, after a '&'.
   */
  function WithQuery(url: string, query: Option<string>): (r: string)
    ensures query.None? ==> r == url
    ensures query.Some? ==> r == url + [if '?' in url then '&' else '?'] + query.value
  {
    match query
    case None => url
    case Some(q) => url + [if '?' in url then '&' else '?'] + q
  }

  /** A URL without a query gets exactly one '?', right before the parameters, which are encoded without one. */
  lemma QueryMarkedOnce(url: string, query: string)
    requires '?' !in url && '?' !in query
    ensures var r := WithQuery(url, Some(query));
      r[|url|] == '?' && forall i :: 0 <= i < |r| && r[i] == '?' ==> i == |url|
  {
    var r := WithQuery(url, Some(query));
    forall i | 0 <= i < |r| && i != |url|
      ensures r[i] != '?'
    {
      if i < |url| {
        assert r[i] == url[i];
      } else {
        assert r[i] == query[i - |url| - 1];
      }
    }
  }

  /** A URL that has a query already keeps it and gets the parameters after a '&'. */
  lemma QueryAppended(url: string, query: string)
    requires '?' in url
    ensures WithQuery(url, Some(query)) == url + "&" + query
  {
  }

  // ---------------------------------------------------------------------
  // Headers and body

  type Headers = map<string, string>

  /** A request body as the caller passes it; an object arrives as the text `JSON.stringify` makes of it. */
  datatype Body = NoBody | FormDataBody(fields: seq<(string, string)>) | TextBody(text: string) | ObjectBody(json: string)

  /** The body fetch is given. */
  datatype SentBody = NothingSent | SentForm(fields: seq<(string, string)>) | SentText(text: string)

  /** The options a caller passes; `None` where the option is left out. */
  datatype RequestOptions = RequestOptions(
    headers: Headers,
    params: Option<string>,
    body: Body,
    credentials: Option<string>)

  /** What fetch is called with. */
  datatype RequestInit = RequestInit(verb: string, url: string, headers: Headers, body: SentBody, credentials: string)

  /** `/\/hod\//i`: the text contains "/hod/" in any letter case. */
  predicate HodPath(s: string)
  {
    Contains(Lower(s), "/hod/")
  }

  /** The request goes to a HOD route: the path as given or the final URL names one. */
  predicate HodRoute(url: Option<string>, finalUrl: string)
  {
    (url.Some? && HodPath(url.value)) || HodPath(finalUrl)
  }

  /** A header that is set to a non-empty value, which is what `!init.headers[k]` tests. */
  predicate HeaderSet(h: Headers, key: string)
  {
    key in h && h[key] != []
  }

  /** Set the header unless it is already set. */
  function WithDefault(h: Headers, key: string, value: string): Headers
  {
    if HeaderSet(h, key) then h else h[key := value]
  }

  /** Defaults never override a header that is set, and add only their own key. */
  lemma WithDefaultKeeps(h: Headers, key: string, value: string)
    requires value != []
    ensures forall k :: k in WithDefault(h, key, value) <==> k in h || k == key
    ensures forall k :: HeaderSet(h, k) ==> WithDefault(h, key, value)[k] == h[k]
    ensures forall k :: k != key && k in h ==> WithDefault(h, key, value)[k] == h[k]
    ensures HeaderSet(WithDefault(h, key, value), key)
    ensures !HeaderSet(h, key) ==> WithDefault(h, key, value)[key] == value
  {
  }

  /** getAuthHeaders: a bearer token when one is stored. */
  function AuthHeaders(token: Option<string>): Headers
  {
    if token.Some? && token.value != [] then map["Authorization" := "Bearer " + token.value] else map[]
  }

  /** The HOD headers, added when the request goes to a HOD route. */
  function WithHodHeaders(h: Headers, hod: bool): Headers
  {
    if hod then WithDefault(WithDefault(h, "X-User-Role", "HOD"), "X-Request-Source", "HOD-Dashboard") else h
  }

  /** The JSON content type, added for a text or object body. */
  function WithJsonType(h: Headers, body: Body): Headers
  {
    if body.TextBody? || body.ObjectBody? then WithDefault(h, "Content-Type", "application/json") else h
  }

  /**
   * The headers of a request: the token's, overridden by the caller's; the
   * two HOD headers when the path or the URL names a HOD route and the
   * caller did not set them; and a JSON content type for a text or object
   * body unless one is set.
   */
  function RequestHeaders(token: Option<string>, caller: Headers, url: Option<string>, finalUrl: string, body: Body): Headers
  {
    WithJsonType(WithHodHeaders(AuthHeaders(token) + caller, HodRoute(url, finalUrl)), body)
  }

  /**
   * What the caller set is sent as set; the token fills in Authorization;
   * the HOD headers appear exactly on HOD routes and Content-Type exactly
   * for text and object bodies, unless the caller or the token brought them.
   */
  lemma RequestHeaderRules(token: Option<string>, caller: Headers, url: Option<string>, finalUrl: string, body: Body)
    ensures var r := RequestHeaders(token, caller, url, finalUrl, body);
      && (forall k :: HeaderSet(caller, k) ==> k in r && r[k] == caller[k])
      && (forall k :: k in r <==>
            (k in AuthHeaders(token) || k in caller
             || ((k == "X-User-Role" || k == "X-Request-Source") && HodRoute(url, finalUrl))
             || (k == "Content-Type" && (body.TextBody? || body.ObjectBody?))))
      && (HodRoute(url, finalUrl) ==> HeaderSet(r, "X-User-Role") && HeaderSet(r, "X-Request-Source"))
      && (body.TextBody? || body.ObjectBody? ==> HeaderSet(r, "Content-Type"))
      && ("Authorization" !in caller && token.Some? && token.value != [] ==> r["Authorization"] == "Bearer " + token.value)
  {
    var merged := AuthHeaders(token) + caller;
    var hod := WithHodHeaders(merged, HodRoute(url, finalUrl));
    if HodRoute(url, finalUrl) {
      WithDefaultKeeps(merged, "X-User-Role", "HOD");
      WithDefaultKeeps(WithDefault(merged, "X-User-Role", "HOD"), "X-Request-Source", "HOD-Dashboard");
    }
    if body.TextBody? || body.ObjectBody? {
      WithDefaultKeeps(hod, "Content-Type", "application/json");
    }
  }

  /** The HOD headers take their fixed values when a HOD route is called and the caller left them unset. */
  lemma HodHeadersDefault(token: Option<string>, caller: Headers, url: Option<string>, finalUrl: string, body: Body)
    requires HodRoute(url, finalUrl)
    requires !HeaderSet(caller, "X-User-Role") && !HeaderSet(caller, "X-Request-Source")
    ensures RequestHeaders(token, caller, url, finalUrl, body)["X-User-Role"] == "HOD"
    ensures RequestHeaders(token, caller, url, finalUrl, body)["X-Request-Source"] == "HOD-Dashboard"
  {
    var merged := AuthHeaders(token) + caller;
    assert !HeaderSet(merged, "X-User-Role") && !HeaderSet(merged, "X-Request-Source");
    WithDefaultKeeps(merged, "X-User-Role", "HOD");
    var withRole := WithDefault(merged, "X-User-Role", "HOD");
    WithDefaultKeeps(withRole, "X-Request-Source", "HOD-Dashboard");
    var hod := WithHodHeaders(merged, true);
    if body.TextBody? || body.ObjectBody? {
      WithDefaultKeeps(hod, "Content-Type", "application/json");
    }
  }

  /** Form data goes out untouched, text as it is, an object as its JSON text. */
  function EncodeBody(b: Body): (s: SentBody)
    ensures b.NoBody? <==> s.NothingSent?
    ensures b.FormDataBody? ==> s == SentForm(b.fields)
    ensures b.ObjectBody? ==> s == SentText(b.json)
  {
    match b
    case NoBody => NothingSent
    case FormDataBody(fields) => SentForm(fields)
    case TextBody(text) => SentText(text)
    case ObjectBody(json) => SentText(json)
  }

  /** request: the whole fetch call for a verb, a path, the options, the API base and the stored token. */
  function BuildRequest(verb: string, url: Option<string>, opts: RequestOptions, apiBase: string, token: Option<string>): (r: RequestInit)
    ensures r.verb == verb
    ensures r.url == WithQuery(NormalizeUrl(url, apiBase), opts.params)
    ensures r.body == EncodeBody(opts.body)
    ensures r.credentials == (if opts.credentials.Some? && opts.credentials.value != [] then opts.credentials.value else "include")
  {
    var finalUrl := WithQuery(NormalizeUrl(url, apiBase), opts.params);
    RequestInit(
      verb,
      finalUrl,
      RequestHeaders(token, opts.headers, url, finalUrl, opts.body),
      EncodeBody(opts.body),
      if opts.credentials.Some? && opts.credentials.value != [] then opts.credentials.value else "include")
  }

  /** Form data never gets a JSON content type of the wrapper's making. */
  lemma FormDataKeepsCallerContentType(verb: string, url: Option<string>, opts: RequestOptions, apiBase: string, token: Option<string>)
    requires opts.body.FormDataBody? && "Content-Type" !in opts.headers
    ensures "Content-Type" !in BuildRequest(verb, url, opts, apiBase, token).headers
    ensures BuildRequest(verb, url, opts, apiBase, token).body == SentForm(opts.body.fields)
  {
  }
}

=== FILE: client_member.dfy ===
/**
 * The pure helpers of the web client's `MemberService`: a task's progress
 * from its status, the tasks due soon, how long a task runs, and the sort
 * and filter of a member's notifications. The deadline
 * urgency is the helper shared with the chair pages (`ClientShared`).
 */
module MemberClient {
  import opened Common
  import opened Domain
  import opened ClientShared
  import opened ClientNotifications

  /** A task as the member pages receive it; times are milliseconds. */
  datatype ClientTask = ClientTask(id: nat, status: string, deadline: int)

  /** The status string the backend sends for a resolution assignment. */
  function StatusName(s: ResolutionStatus): string
  {
    match s
    case Assigned => "ASSIGNED"
    case InProgress => "IN_PROGRESS"
    case Completed => "COMPLETED"
    case Cancelled => "CANCELLED"
  }

  /** getTaskProgress: a fixed percentage per status, 0 for any other status. */
  function TaskProgress(status: string): (p: nat)
    ensures p <= 100
    ensures p == 100 <==> status == "COMPLETED"
  {
    if status == "COMPLETED" then 100
    else if status == "IN_PROGRESS" then 65
    else if status == "ASSIGNED" then 10
    else 0
  }

  /**
   * On each of the four statuses the backend sends, the progress rises along
   * the lifecycle assigned, in progress, completed, and a cancelled task
   * shows 0.
   */
  lemma TaskProgressFollowsLifecycle()
    ensures TaskProgress(StatusName(ResolutionStatus.Assigned)) == 10
    ensures TaskProgress(StatusName(ResolutionStatus.InProgress)) == 65
    ensures TaskProgress(StatusName(ResolutionStatus.Completed)) == 100
    ensures TaskProgress(StatusName(ResolutionStatus.Cancelled)) == 0
  {
    var cancelled := StatusName(ResolutionStatus.Cancelled);
    assert cancelled[0] == 'C' && cancelled[1] == 'A';
  }

  /** getUpcomingDeadlines: the tasks due from now up to `days` days ahead, bounds included. */
  function UpcomingDeadlines(tasks: seq<ClientTask>, now: int, days: int): (r: seq<ClientTask>)
    ensures forall t :: t in r <==> t in tasks && now <= t.deadline <= now + days * DayMs
  {
    Filter(tasks, (t: ClientTask) => now <= t.deadline <= now + days * DayMs)
  }

  /** The due tasks keep their order, and a longer horizon never drops one. */
  lemma UpcomingDeadlinesProperties(tasks: seq<ClientTask>, now: int, d1: int, d2: int)
    requires d1 <= d2
    ensures IsSubsequence(UpcomingDeadlines(tasks, now, d1), tasks)
    ensures forall t :: t in UpcomingDeadlines(tasks, now, d1) ==> t in UpcomingDeadlines(tasks, now, d2)
  {
    FilterIsSubsequence(tasks, (t: ClientTask) => now <= t.deadline <= now + d1 * DayMs);
    MultiplyMonotone(d1, d2, DayMs);
  }

  /**
   * formatTaskDuration: the days from assignment to deadline, rounded up;
   * one day singular, under a week in days, under thirty days in weeks and
   * otherwise in months, both rounded up.
   */
  function TaskDuration(assignedAt: int, deadline: int): string
  {
    var days := DaysUntil(deadline, assignedAt);
    if days == 1 then "1 day"
    else if days < 7 then IntToString(days) + " days"
    else if days < 30 then IntToString(CeilDiv(days, 7)) + " weeks"
    else IntToString(CeilDiv(days, 30)) + " months"
  }

  /**
   * The counts shown: weeks from 1 to 5 that cover the days, months of at
   * least 1 that cover them; the unit is always plural from a week on, so a
   * task of exactly seven days reads "1 weeks".
   */
  lemma TaskDurationUnits(assignedAt: int, deadline: int)
    ensures var days := DaysUntil(deadline, assignedAt);
      (7 <= days < 30 ==>
         var w := CeilDiv(days, 7);
         1 <= w <= 5 && (w - 1) * 7 < days <= w * 7
         && TaskDuration(assignedAt, deadline) == IntToString(w) + " weeks")
      && (days >= 30 ==>
         var m := CeilDiv(days, 30);
         m >= 1 && (m - 1) * 30 < days <= m * 30
         && TaskDuration(assignedAt, deadline) == IntToString(m) + " months")
    ensures TaskDuration(0, 7 * DayMs) == "1 weeks"
  {
    assert DaysUntil(7 * DayMs, 0) == 7;
    assert CeilDiv(7, 7) == 1;
  }

  /** The comparator sortNotifications hands to `sort`: time differences, newest first unless the order is not 'desc'. */
  function NotificationComparator(order: string): (Notification, Notification) -> int
  {
    (a: Notification, b: Notification) => if order == "desc" then b.createdAt - a.createdAt else a.createdAt - b.createdAt
  }

  /** sortNotifications: a sorted copy of the notifications. */
  function SortNotifications(notifications: seq<Notification>, order: string): (r: seq<Notification>)
    ensures multiset(r) == multiset(notifications)
  {
    SortBy(notifications, NotificationComparator(order))
  }

  /** The copy holds the same notifications, newest first for 'desc' and oldest first otherwise. */
  lemma SortNotificationsProperties(notifications: seq<Notification>, order: string)
    ensures |SortNotifications(notifications, order)| == |notifications|
    ensures forall i :: 0 <= i < |notifications| - 1 ==>
      var s := SortNotifications(notifications, order);
      if order == "desc" then s[i].createdAt >= s[i + 1].createdAt else s[i].createdAt <= s[i + 1].createdAt
  {
    var cmp := NotificationComparator(order);
    assert IsTotalPreorder(cmp);
    SortBySorted(notifications, cmp);
  }

  /** filterNotifications: no type (or an empty one) keeps the list as it is; a type keeps exactly its notifications. */
  function FilterNotifications(notifications: seq<Notification>, kind: Option<string>): (r: seq<Notification>)
    ensures kind.None? || kind.value == [] ==> r == notifications
    ensures kind.Some? && kind.value != [] ==>
      forall n :: n in r <==> n in notifications && n.kind == kind.value
  {
    if kind.None? || kind.value == [] then notifications else Filter(notifications, OfKind(kind.value))
  }
}

=== FILE: client_notifications.dfy ===
/**
 * The pure helpers of the web client's `NotificationService`: the count of
 * notifications per type, the filters by type and by read status, the sort
 * by date (the one helper that reorders its argument in place), the
 * relative time shown beside each notification and the action each type
 * offers. Times are milliseconds; the current time is a parameter.
 */
module ClientNotifications {
  import opened Common
  import opened ClientShared

  /** A notification as the client receives it; `isRead` is `None` when the field is not a boolean. */
  datatype Notification = Notification(id: nat, kind: string, isRead: Option<bool>, createdAt: int, relatedEntityId: nat)

  // ---------------------------------------------------------------------
  // Counting per type

  /** One entry of the object groupNotificationsByType builds: a type and how often it occurs. */
  type TypeCount = (string, nat)

  function OfKind(kind: string): Notification -> bool
  {
    (n: Notification) => n.kind == kind
  }

  /** The count recorded for `kind`, 0 when it has no entry. */
  function Lookup(groups: seq<TypeCount>, kind: string): nat
  {
    if groups == [] then 0 else if groups[0].0 == kind then groups[0].1 else Lookup(groups[1..], kind)
  }

  function Kinds(groups: seq<TypeCount>): set<string>
  {
    if groups == [] then {} else {groups[0].0} + Kinds(groups[1..])
  }

  function SumCounts(groups: seq<TypeCount>): nat
  {
    if groups == [] then 0 else groups[0].1 + SumCounts(groups[1..])
  }

  /** No type has two entries. */
  predicate DistinctKinds(groups: seq<TypeCount>)
  {
    groups == [] || (groups[0].0 !in Kinds(groups[1..]) && DistinctKinds(groups[1..]))
  }

  /** `acc[type] = (acc[type] || 0) + 1`: a new type is added at the end, as object keys keep insertion order. */
  function Bump(groups: seq<TypeCount>, kind: string): seq<TypeCount>
  {
    if groups == [] then [(kind, 1)]
    else if groups[0].0 == kind then [(kind, groups[0].1 + 1)] + groups[1..]
    else [groups[0]] + Bump(groups[1..], kind)
  }

  /** Counting one more notification of `kind` adds one to its entry, or adds an entry, and changes nothing else. */
  lemma {:induction false} BumpProperties(groups: seq<TypeCount>, kind: string)
    ensures Kinds(Bump(groups, kind)) == Kinds(groups) + {kind}
    ensures SumCounts(Bump(groups, kind)) == SumCounts(groups) + 1
    ensures forall k :: Lookup(Bump(groups, kind), k) == Lookup(groups, k) + (if k == kind then 1 else 0)
    ensures DistinctKinds(groups) ==> DistinctKinds(Bump(groups, kind))
  {
    var r := Bump(groups, kind);
    if groups == [] {
      assert r[1..] == [];
    } else if groups[0].0 == kind {
      assert r[1..] == groups[1..];
    } else {
      BumpProperties(groups[1..], kind);
      assert r[1..] == Bump(groups[1..], kind);
    }
  }

  /** groupNotificationsByType: the reduce over the list, one `Bump` per notification. */
  function GroupByType(notifications: seq<Notification>): seq<TypeCount>
  {
    if notifications == [] then []
    else Bump(GroupByType(notifications[..|notifications| - 1]), notifications[|notifications| - 1].kind)
  }

  /**
   * The result has one entry for each type that occurs in the list, holding
   * the number of notifications of that type, and the counts add up to the
   * list's length.
   */
  lemma {:induction false} GroupByTypeCounts(notifications: seq<Notification>)
    ensures SumCounts(GroupByType(notifications)) == |notifications|
    ensures DistinctKinds(GroupByType(notifications))
    ensures forall k :: Lookup(GroupByType(notifications), k) == Count(notifications, OfKind(k))
    ensures forall k :: k in Kinds(GroupByType(notifications)) <==> Count(notifications, OfKind(k)) > 0
  {
    if notifications != [] {
      var init := notifications[..|notifications| - 1];
      var last := notifications[|notifications| - 1];
      GroupByTypeCounts(init);
      BumpProperties(GroupByType(init), last.kind);
      assert notifications == init + [last];
      forall k ensures Count(notifications, OfKind(k)) == Count(init, OfKind(k)) + (if k == last.kind then 1 else 0) {
        CountSnoc(init, last, OfKind(k));
      }
    }
  }

  // ---------------------------------------------------------------------
  // Filters

  /** filterByType: 'all' keeps everything, any other type exactly the notifications of that type. */
  function FilterByType(notifications: seq<Notification>, kind: string): (r: seq<Notification>)
    ensures kind == "all" ==> r == notifications
    ensures kind != "all" ==> r == Filter(notifications, OfKind(kind))
  {
    if kind == "all" then notifications else Filter(notifications, OfKind(kind))
  }

  lemma FilterByTypeProperties(notifications: seq<Notification>, kind: string)
    requires kind != "all"
    ensures IsSubsequence(FilterByType(notifications, kind), notifications)
    ensures |FilterByType(notifications, kind)| == Lookup(GroupByType(notifications), kind)
    ensures forall n :: n in FilterByType(notifications, kind) <==> n in notifications && n.kind == kind
  {
    FilterIsSubsequence(notifications, OfKind(kind));
    GroupByTypeCounts(notifications);
  }

  function ReadIs(isRead: bool): Notification -> bool
  {
    (n: Notification) => n.isRead == Some(isRead)
  }

  /** filterByReadStatus: the notifications whose flag is exactly the boolean asked for. */
  function FilterByReadStatus(notifications: seq<Notification>, isRead: bool): (r: seq<Notification>)
    ensures forall n :: n in r <==> n in notifications && n.isRead == Some(isRead)
  {
    Filter(notifications, ReadIs(isRead))
  }

  function HasReadFlag(n: Notification): bool
  {
    n.isRead.Some?
  }

  /**
   * The read and the unread notifications share none and together are all
   * the notifications that carry a boolean flag.
   */
  lemma ReadStatusPartition(notifications: seq<Notification>)
    ensures |FilterByReadStatus(notifications, true)| + |FilterByReadStatus(notifications, false)|
         == Count(notifications, HasReadFlag)
    ensures forall n :: !(n in FilterByReadStatus(notifications, true) && n in FilterByReadStatus(notifications, false))
  {
    ReadCounts(notifications);
  }

  lemma {:induction false} ReadCounts(notifications: seq<Notification>)
    ensures Count(notifications, ReadIs(true)) + Count(notifications, ReadIs(false)) == Count(notifications, HasReadFlag)
  {
    if notifications != [] {
      var n := notifications[0];
      ReadCounts(notifications[1..]);
      assert ReadIs(true)(n) <==> n.isRead == Some(true);
      assert ReadIs(false)(n) <==> n.isRead == Some(false);
      assert HasReadFlag(n) <==> n.isRead.Some?;
      assert Count(notifications, ReadIs(true)) == (if ReadIs(true)(n) then 1 else 0) + Count(notifications[1..], ReadIs(true));
      assert Count(notifications, ReadIs(false)) == (if ReadIs(false)(n) then 1 else 0) + Count(notifications[1..], ReadIs(false));
      assert Count(notifications, HasReadFlag) == (if HasReadFlag(n) then 1 else 0) + Count(notifications[1..], HasReadFlag);
      if n.isRead.Some? {
        if n.isRead.value {
          assert n.isRead == Some(true);
        } else {
          assert n.isRead == Some(false);
        }
      }
    }
  }

  // ---------------------------------------------------------------------
  // Sort by date, in place

  /** The time a notification is ordered by: newest first by default, oldest first when ascending. */
  function SortTime(n: Notification, ascending: bool): int
  {
    if ascending then n.createdAt else -n.createdAt
  }

  predicate DateSorted(s: seq<Notification>, ascending: bool)
  {
    forall i :: 0 <= i < |s| - 1 ==> SortTime(s[i], ascending) <= SortTime(s[i + 1], ascending)
  }

  /**
   * sortByDate: sorts the array it is given, in place, and returns that same
   * array. Only neighbours that are strictly out of order are swapped, so
   * notifications with the same time keep their order, as the stable
   * `Array.prototype.sort` keeps them.
   */
  method SortByDate(a: array<Notification>, ascending: bool) returns (r: array<Notification>)
    modifies a
    ensures r == a
    ensures multiset(a[..]) == multiset(old(a[..]))
    ensures DateSorted(a[..], ascending)
  {
    r := a;
    if a.Length == 0 {
      return;
    }
    var i := 1;
    while i < a.Length
      invariant 1 <= i <= a.Length
      invariant forall k :: 0 <= k < i - 1 ==> SortTime(a[k], ascending) <= SortTime(a[k + 1], ascending)
      invariant multiset(a[..]) == multiset(old(a[..]))
    {
      InsertBackwards(a, i, ascending);
      i := i + 1;
    }
  }

  /** One step of the insertion sort: moves `a[i]` back past every later-dated neighbour. */
  method InsertBackwards(a: array<Notification>, i: nat, ascending: bool)
    requires 0 < i < a.Length
    requires forall k :: 0 <= k < i - 1 ==> SortTime(a[k], ascending) <= SortTime(a[k + 1], ascending)
    modifies a
    ensures forall k :: 0 <= k < i ==> SortTime(a[k], ascending) <= SortTime(a[k + 1], ascending)
    ensures multiset(a[..]) == multiset(old(a[..]))
  {
    var j := i;
    while j > 0 && SortTime(a[j - 1], ascending) > SortTime(a[j], ascending)
      invariant 0 <= j <= i
      invariant forall k :: 0 <= k < j - 1 ==> SortTime(a[k], ascending) <= SortTime(a[k + 1], ascending)
      invariant forall k :: j <= k < i ==> SortTime(a[k], ascending) <= SortTime(a[k + 1], ascending)
      invariant 0 < j < i ==> SortTime(a[j - 1], ascending) <= SortTime(a[j + 1], ascending)
      invariant multiset(a[..]) == multiset(old(a[..]))
    {
      Swap(a, j - 1, j);
      j := j - 1;
    }
  }

  /** Exchanges two neighbouring entries and nothing else. */
  method Swap(a: array<Notification>, x: nat, y: nat)
    requires x < y < a.Length
    modifies a
    ensures a[x] == old(a[y]) && a[y] == old(a[x])
    ensures forall k :: 0 <= k < a.Length && k != x && k != y ==> a[k] == old(a[k])
    ensures multiset(a[..]) == multiset(old(a[..]))
  {
    ghost var before := a[..];
    a[x], a[y] := a[y], a[x];
    assert a[..] == before[x := before[y]][y := before[x]];
  }

  // ---------------------------------------------------------------------
  // Relative dates and actions

  function Plural(n: int): string
  {
    if n > 1 then "s" else ""
  }

  /**
   * formatDate: under a minute "Just now"; then whole minutes, hours or days
   * ago, each rounded down and singular for exactly one; from a week on the
   * calendar date, which is a parameter here.
   */
  function FormatDate(createdAt: int, now: int, calendarDate: string): string
  {
    var minutes := (now - createdAt) / MinuteMs;
    var hours := minutes / 60;
    var days := hours / 24;
    if minutes < 1 then "Just now"
    else if minutes < 60 then IntToString(minutes) + " minute" + Plural(minutes) + " ago"
    else if hours < 24 then IntToString(hours) + " hour" + Plural(hours) + " ago"
    else if days < 7 then IntToString(days) + " day" + Plural(days) + " ago"
    else calendarDate
  }

  /** The bucket formatDate picks, on the age in milliseconds. */
  lemma FormatDateBuckets(createdAt: int, now: int, calendarDate: string)
    ensures var age := now - createdAt;
      var text := FormatDate(createdAt, now, calendarDate);
      (age < MinuteMs ==> text == "Just now")
      && (MinuteMs <= age < 60 * MinuteMs ==>
            text == IntToString(age / MinuteMs) + " minute" + Plural(age / MinuteMs) + " ago")
      && (60 * MinuteMs <= age < 24 * 60 * MinuteMs ==>
            text == IntToString(age / MinuteMs / 60) + " hour" + Plural(age / MinuteMs / 60) + " ago")
      && (24 * 60 * MinuteMs <= age < 7 * 24 * 60 * MinuteMs ==>
            text == IntToString(age / MinuteMs / 60 / 24) + " day" + Plural(age / MinuteMs / 60 / 24) + " ago")
      && (age >= 7 * 24 * 60 * MinuteMs ==> text == calendarDate)
  {
    var age := now - createdAt;
    var minutes := age / MinuteMs;
    var hours := minutes / 60;
    FloorDivBelow(age, MinuteMs, 1);
    FloorDivBelow(age, MinuteMs, 60);
    FloorDivBelow(age, MinuteMs, 24 * 60);
    FloorDivBelow(age, MinuteMs, 7 * 24 * 60);
    FloorDivBelow(minutes, 60, 24);
    FloorDivBelow(minutes, 60, 7 * 24);
    FloorDivBelow(hours, 24, 7);
  }

  /** One minute, hour or day is singular; any more is plural. */
  lemma SingularForOne(n: int)
    ensures Plural(n) == "" <==> n <= 1
  {
  }

  /** The button getNotificationAction offers: its text and where it leads. */
  datatype Action = Action(text: string, link: string)

  /** getNotificationAction: a fixed text and link for each of the seven known types, "View" otherwise. */
  function NotificationAction(n: Notification): (a: Action)
    ensures StartsWith(a.link, "/")
    ensures a.text == "View" <==> n.kind !in KnownTypes
    ensures n.kind !in KnownTypes ==> a.link == "/notifications"
  {
    var id := NatToString(n.relatedEntityId);
    if n.kind == "MEETING_INVITATION" then Action("View Meeting", "/meetings/" + id)
    else if n.kind == "TASK_ASSIGNMENT" then Action("View Task", "/resolutions/" + id)
    else if n.kind == "REPORT_SUBMISSION" then Action("Review Report", "/reports/" + id)
    else if n.kind == "REPORT_APPROVAL" then Action("View Report", "/reports/" + id)
    else if n.kind == "REPORT_REJECTION" then Action("View Feedback", "/reports/" + id)
    else if n.kind == "CREDENTIALS_SENT" then Action("Login", "/login")
    else if n.kind == "GENERAL_ANNOUNCEMENT" then Action("View Details", "/notifications")
    else Action("View", "/notifications")
  }

  const KnownTypes: set<string> := {"MEETING_INVITATION", "TASK_ASSIGNMENT", "REPORT_SUBMISSION",
    "REPORT_APPROVAL", "REPORT_REJECTION", "CREDENTIALS_SENT", "GENERAL_ANNOUNCEMENT"}

  /** The actions of the report types lead to the report the notification is about. */
  lemma ReportActionsLinkTheReport(n: Notification)
    requires n.kind in {"REPORT_SUBMISSION", "REPORT_APPROVAL", "REPORT_REJECTION"}
    ensures NotificationAction(n).link == "/reports/" + NatToString(n.relatedEntityId)
  {
  }
}

=== FILE: client_profile.dfy ===
/**
 * The pure helpers of the web client's `ProfileService`: the full address
 * of a profile picture and the check a picture passes before it is
 * uploaded. The client's check is compared with the backend's
 * `ProfilePictureService` check.
 */
module ProfileClient {
  import opened Common
  import opened Documents
  import ProfilePictures

  // ---------------------------------------------------------------------
  // Picture addresses

  /**
   * getFullProfilePictureUrl: nothing for a missing or empty address; an
   * address starting with "http" as it is; a path starting with '/' behind
   * the API base with its first "/api" removed; anything else as it is.
   */
  function FullPictureUrl(url: Option<string>, apiBase: string): (r: Option<string>)
    ensures r.None? <==> url.None? || url.value == []
    ensures r.Some? && !StartsWith(url.value, "/") ==> r == url
    ensures r.Some? && StartsWith(url.value, "/") ==> EndsWith(r.value, url.value)
  {
    if url.None? || url.value == [] then None
    else if StartsWith(url.value, "http") then url
    else if StartsWith(url.value, "/") then Some(ReplaceFirst(apiBase, "/api", "") + url.value)
    else url
  }

  /** Removing the first "/api" leaves the first four characters of a base that starts with "http". */
  lemma ReplaceKeepsHttp(apiBase: string)
    requires StartsWith(apiBase, "http")
    ensures StartsWith(ReplaceFirst(apiBase, "/api", ""), "http")
  {
    var found := IndexFrom(apiBase, "/api", 0);
    if found.Some? {
      assert apiBase[..4] == "http";
      assert apiBase[0] == 'h' && apiBase[1] == 't' && apiBase[2] == 't' && apiBase[3] == 'p';
      var k := found.value;
      assert OccursAt(apiBase, "/api", k);
      assert apiBase[k] == apiBase[k..k + 4][0] == '/';
      assert k >= 4;
      assert ReplaceFirst(apiBase, "/api", "")[..4] == apiBase[..4];
    }
  }

  /** With an API base on "http", a full address stays as it is when it is made full again. */
  lemma FullPictureUrlIdempotent(url: Option<string>, apiBase: string)
    requires StartsWith(apiBase, "http")
    ensures FullPictureUrl(FullPictureUrl(url, apiBase), apiBase) == FullPictureUrl(url, apiBase)
  {
    if url.Some? && url.value != [] && !StartsWith(url.value, "http") && StartsWith(url.value, "/") {
      ReplaceKeepsHttp(apiBase);
      var host := ReplaceFirst(apiBase, "/api", "");
      assert (host + url.value)[..4] == host[..4];
    }
  }

  /**
   * The URL the backend stores for an upload, behind a base of the form
   * `host + "/api"` with no "/api" in the host, becomes `host` followed by
   * that URL.
   */
  lemma UploadedPictureAddress(host: string, userId: nat, uuid: string, f: Upload)
    requires !Contains(host, "/api")
    ensures FullPictureUrl(Some(ProfilePictures.PictureUrl(userId, uuid, f)), host + "/api")
      == Some(host + ProfilePictures.PictureUrl(userId, uuid, f))
  {
    var base := host + "/api";
    assert OccursAt(base, "/api", |host|);
    var found := IndexFrom(base, "/api", 0);
    assert found.Some?;
    var k := found.value;
    forall j | 0 <= j < |host|
      ensures !OccursAt(base, "/api", j)
    {
      if j + 4 <= |host| {
        assert base[j..j + 4] == host[j..j + 4];
        assert !OccursAt(host, "/api", j);
      } else if j + 4 <= |base| {
        assert base[j..j + 4][|host| - j] == '/';
        assert "/api"[|host| - j] != '/';
      }
    }
    assert k == |host|;
    assert ReplaceFirst(base, "/api", "") == host;
    var url := ProfilePictures.PictureUrl(userId, uuid, f);
    assert url[0] == '/';
  }

  // ---------------------------------------------------------------------
  // Picture check

  /** A file the browser hands over: its name, its declared type ("" when unknown) and its size. */
  datatype ClientFile = ClientFile(name: string, mimeType: string, size: nat)

  /** The client's answer: `isValid` and the message when not. */
  datatype FileCheck = FileCheck(isValid: bool, error: Option<string>)

  /** `allowedExtensions.some(ext => fileName.endsWith(ext))` on the lower-cased name. */
  predicate HasImageExtension(name: string)
  {
    var lower := Lower(name);
    EndsWith(lower, ".jpg") || EndsWith(lower, ".jpeg") || EndsWith(lower, ".png")
    || EndsWith(lower, ".gif") || EndsWith(lower, ".webp")
  }

  const MaxClientPictureSize: nat := 5 * 1024 * 1024

  /**
   * validateProfilePictureFile: missing file, then a type that is not
   * `image/...`, then more than 5 MiB, then the extension; valid exactly
   * when no message is given.
   */
  function ValidateProfilePictureFile(file: Option<ClientFile>): (r: FileCheck)
    ensures r.isValid <==> r.error.None?
    ensures file.None? ==> r.error == Some("Please select a file")
    ensures r.isValid ==> file.Some? && file.value.size <= MaxClientPictureSize && HasImageExtension(file.value.name)
  {
    if file.None? then FileCheck(false, Some("Please select a file"))
    else if !StartsWith(file.value.mimeType, "image/") then FileCheck(false, Some("Please select a valid image file"))
    else if file.value.size > MaxClientPictureSize then FileCheck(false, Some("Image size must be less than 5MB"))
    else if !HasImageExtension(file.value.name) then
      FileCheck(false, Some("Only JPG, JPEG, PNG, GIF, and WebP files are allowed"))
    else FileCheck(true, None)
  }

  /** The upload the backend receives for a file the client sends. */
  function AsUpload(f: ClientFile): Upload
  {
    Upload(Some(f.name), Some(f.mimeType), f.size)
  }

  /** Lower-casing a name does not move its dots, so the extension of the lower-cased name is the lower-cased extension. */
  lemma LowerExtension(name: string)
    ensures FileExtension(Some(Lower(name))) == Lower(FileExtension(Some(name)))
  {
    var lower := Lower(name);
    assert forall i :: 0 <= i < |name| ==> (lower[i] == '.' <==> name[i] == '.');
    var a, b := LastIndexOf(name, '.'), LastIndexOf(lower, '.');
    if a.Some? && b.Some? {
      assert a.value == b.value;
      assert lower[a.value..] == Lower(name[a.value..]);
    }
  }

  /** For an extension with a single leading dot, ending with it and having it as the extension are the same. */
  lemma EndsWithExtension(s: string, ext: string)
    requires |ext| >= 1 && ext[0] == '.'
    requires forall i :: 0 < i < |ext| ==> ext[i] != '.'
    ensures EndsWith(s, ext) <==> FileExtension(Some(s)) == ext
  {
    if EndsWith(s, ext) {
      var k := |s| - |ext|;
      assert s[k] == '.';
      var last := LastIndexOf(s, '.');
      assert last.Some?;
      assert forall i :: k < i < |s| ==> s[i] == ext[i - k];
      assert last.value == k;
    }
  }

  /** The client's extension test and the backend's agree on every name. */
  lemma ExtensionChecksAgree(name: string)
    ensures HasImageExtension(name) <==> ProfilePictures.ImageExtension(Lower(FileExtension(Some(name))))
  {
    var lower := Lower(name);
    LowerExtension(name);
    EndsWithExtension(lower, ".jpg");
    EndsWithExtension(lower, ".jpeg");
    EndsWithExtension(lower, ".png");
    EndsWithExtension(lower, ".gif");
    EndsWithExtension(lower, ".webp");
  }

  /**
   * For a non-empty file the client and the backend accept the same
   * pictures: the same type test, the same 5 MiB limit and the same
   * extensions.
   */
  lemma ClientAgreesWithBackend(f: ClientFile)
    requires f.size > 0
    ensures ValidateProfilePictureFile(Some(f)).isValid <==> ProfilePictures.ValidatePicture(AsUpload(f)).None?
  {
    ExtensionChecksAgree(f.name);
  }

  /** An empty image passes the client and is refused by the backend. */
  lemma EmptyPictureOnlyRefusedByBackend()
    ensures ValidateProfilePictureFile(Some(ClientFile("a.png", "image/png", 0))).isValid
    ensures ProfilePictures.ValidatePicture(AsUpload(ClientFile("a.png", "image/png", 0)))
      == Some("Profile picture file cannot be empty")
  {
    var name: string := "a.png";
    assert Lower(name)[1..] == ".png";
    var mime: string := "image/png";
    assert mime[..6] == "image/";
  }
}

=== FILE: client_reports.dfy ===
/**
 * The report list helpers the Head of Delegation and the Commissioner
 * General pages share: the filter over status, subcommittee, resolution and
 * a search term, the sort of a copy of the list by one key, and the
 * five-colour performance scale. Both services carry identical copies of the
 * filter and of the colour scale; their sorts differ only in the keys they
 * know, so a key is parsed per service and the sort itself is defined once.
 */
module ClientReports {
  import opened Common
  import Dashboard

  /** A report as the review pages receive it; times are milliseconds, a missing HOD review time is `None`. */
  datatype ClientReport = ClientReport(
    id: nat,
    status: string,
    subcommitteeId: nat,
    resolutionId: nat,
    resolutionTitle: string,
    submitterName: string,
    performancePercentage: int,
    submittedAt: int,
    hodReviewedAt: Option<int>)

  /** The filter form; an empty string, a zero id or `None` is a filter that is not set. */
  datatype ReportFilters = ReportFilters(
    status: Option<string>,
    subcommitteeId: Option<nat>,
    resolutionId: Option<nat>,
    searchTerm: Option<string>)

  predicate StatusSet(f: ReportFilters) { f.status.Some? && f.status.value != [] }
  predicate SubcommitteeSet(f: ReportFilters) { f.subcommitteeId.Some? && f.subcommitteeId.value != 0 }
  predicate ResolutionSet(f: ReportFilters) { f.resolutionId.Some? && f.resolutionId.value != 0 }
  predicate SearchSet(f: ReportFilters) { f.searchTerm.Some? && f.searchTerm.value != [] }

  predicate NoFilters(f: ReportFilters)
  {
    !StatusSet(f) && !SubcommitteeSet(f) && !ResolutionSet(f) && !SearchSet(f)
  }

  /** The search term occurs, ignoring case, in the resolution title or in the submitter's name. */
  predicate SearchMatches(term: string, r: ClientReport)
  {
    Contains(Lower(r.resolutionTitle), Lower(term)) || Contains(Lower(r.submitterName), Lower(term))
  }

  /** A report passes every filter that is set. */
  predicate Matches(f: ReportFilters, r: ClientReport)
  {
    (StatusSet(f) ==> r.status == f.status.value)
    && (SubcommitteeSet(f) ==> r.subcommitteeId == f.subcommitteeId.value)
    && (ResolutionSet(f) ==> r.resolutionId == f.resolutionId.value)
    && (SearchSet(f) ==> SearchMatches(f.searchTerm.value, r))
  }

  /** filterReports: the reports that pass, in their original order. */
  function FilterReports(reports: seq<ClientReport>, f: ReportFilters): (r: seq<ClientReport>)
    ensures forall x :: x in r <==> x in reports && Matches(f, x)
  {
    Filter(reports, x => Matches(f, x))
  }

  /**
   * The result keeps the order of the input and drops exactly the reports
   * that fail a filter; with no filter set it is the input itself.
   */
  lemma FilterReportsProperties(reports: seq<ClientReport>, f: ReportFilters)
    ensures IsSubsequence(FilterReports(reports, f), reports)
    ensures |FilterReports(reports, f)| == Count(reports, x => Matches(f, x))
    ensures NoFilters(f) ==> FilterReports(reports, f) == reports
  {
    FilterIsSubsequence(reports, x => Matches(f, x));
    if NoFilters(f) {
      FilterAll(reports, x => Matches(f, x));
    }
  }

  /** The keys a report list can be sorted by; `Unsorted` is any key the service does not know. */
  datatype SortKey = BySubmittedAt | ByHodReviewedAt | ByPerformance | ByTitle | ByChairName | Unsorted

  function CompareInts(a: int, b: int): int
  {
    if a < b then -1 else if a > b then 1 else 0
  }

  /** The time the Commissioner's list sorts by: the HOD review, or the submission when there is none. */
  function ReviewTime(r: ClientReport): int
  {
    if r.hodReviewedAt.Some? && r.hodReviewedAt.value != 0 then r.hodReviewedAt.value else r.submittedAt
  }

  /** The ascending comparison of two reports on one key: -1, 0 or 1. */
  function CompareOn(key: SortKey, a: ClientReport, b: ClientReport): int
  {
    match key
    case BySubmittedAt => CompareInts(a.submittedAt, b.submittedAt)
    case ByHodReviewedAt => CompareInts(ReviewTime(a), ReviewTime(b))
    case ByPerformance => CompareInts(a.performancePercentage, b.performancePercentage)
    case ByTitle => CompareStrings(Lower(a.resolutionTitle), Lower(b.resolutionTitle))
    case ByChairName => CompareStrings(Lower(a.submitterName), Lower(b.submitterName))
    case Unsorted => 0
  }

  /** The comparator handed to `sort`: the key's order, reversed for a descending sort. */
  function Comparator(key: SortKey, ascending: bool): (ClientReport, ClientReport) -> int
  {
    (a: ClientReport, b: ClientReport) => if ascending then CompareOn(key, a, b) else -CompareOn(key, a, b)
  }

  lemma CompareOnAntisymmetric(key: SortKey, a: ClientReport, b: ClientReport)
    ensures CompareOn(key, a, b) == -CompareOn(key, b, a)
  {
    match key {
      case ByTitle => CompareStringsAntisymmetric(Lower(a.resolutionTitle), Lower(b.resolutionTitle));
      case ByChairName => CompareStringsAntisymmetric(Lower(a.submitterName), Lower(b.submitterName));
      case _ =>
    }
  }

  lemma CompareOnTransitive(key: SortKey, a: ClientReport, b: ClientReport, c: ClientReport)
    requires CompareOn(key, a, b) <= 0 && CompareOn(key, b, c) <= 0
    ensures CompareOn(key, a, c) <= 0
  {
    match key {
      case ByTitle => CompareStringsTransitive(Lower(a.resolutionTitle), Lower(b.resolutionTitle), Lower(c.resolutionTitle));
      case ByChairName => CompareStringsTransitive(Lower(a.submitterName), Lower(b.submitterName), Lower(c.submitterName));
      case _ =>
    }
  }

  /** Every key, in either direction, orders the reports totally, ties allowed. */
  lemma ComparatorIsTotalPreorder(key: SortKey, ascending: bool)
    ensures IsTotalPreorder(Comparator(key, ascending))
  {
    var cmp := Comparator(key, ascending);
    forall a, b ensures cmp(a, b) <= 0 || cmp(b, a) <= 0 {
      CompareOnAntisymmetric(key, a, b);
    }
    forall a, b, c | cmp(a, b) <= 0 && cmp(b, c) <= 0 ensures cmp(a, c) <= 0 {
      if ascending {
        CompareOnTransitive(key, a, b, c);
      } else {
        CompareOnAntisymmetric(key, a, b);
        CompareOnAntisymmetric(key, b, c);
        CompareOnAntisymmetric(key, a, c);
        CompareOnTransitive(key, c, b, a);
      }
    }
  }

  /** sortReports: a sorted copy; the argument itself is a value and is left as it was. */
  function SortReports(reports: seq<ClientReport>, key: SortKey, ascending: bool): (r: seq<ClientReport>)
    ensures multiset(r) == multiset(reports)
  {
    SortBy(reports, Comparator(key, ascending))
  }

  /**
   * The sorted copy holds the same reports, each no later on the key than the
   * next (no earlier, descending); a key the service does not know keeps the
   * original order.
   */
  lemma SortReportsProperties(reports: seq<ClientReport>, key: SortKey, ascending: bool)
    ensures multiset(SortReports(reports, key, ascending)) == multiset(reports)
    ensures forall i :: 0 <= i < |reports| - 1 ==>
      var s := SortReports(reports, key, ascending);
      if ascending then CompareOn(key, s[i], s[i + 1]) <= 0 else CompareOn(key, s[i], s[i + 1]) >= 0
    ensures key == Unsorted ==> SortReports(reports, key, ascending) == reports
  {
    ComparatorIsTotalPreorder(key, ascending);
    SortBySorted(reports, Comparator(key, ascending));
    var s := SortReports(reports, key, ascending);
    assert |s| == |reports| by {
      assert |multiset(s)| == |multiset(reports)|;
    }
    if key == Unsorted {
      SortByKeepsSorted(reports, Comparator(key, ascending));
    }
  }

  /**
   * getPerformanceColor of the HOD and Commissioner pages: green from 90,
   * light green from 80, orange from 70, yellow from 60, red below.
   */
  function ReviewPerformanceColor(percentage: int): (color: string)
  {
    if percentage >= 90 then "#16a34a"
    else if percentage >= 80 then "#65a30d"
    else if percentage >= 70 then "#d97706"
    else if percentage >= 60 then "#f59e0b"
    else "#dc2626"
  }

  /** The colour of each of the backend's performance bands. */
  function BandColor(b: Dashboard.Band): string
  {
    match b
    case Excellent => "#16a34a"
    case VeryGood => "#65a30d"
    case Good => "#d97706"
    case Satisfactory => "#f59e0b"
    case Poor => "#dc2626"
  }

  /** The colour scale uses exactly the backend dashboard's five performance bands. */
  lemma ReviewColorFollowsBands(percentage: int)
    ensures ReviewPerformanceColor(percentage) == BandColor(Dashboard.BandOf(percentage))
  {
  }

  /** Different bands get different colours, so the colour tells the band. */
  lemma BandColorsDistinct(b1: Dashboard.Band, b2: Dashboard.Band)
    ensures BandColor(b1) == BandColor(b2) <==> b1 == b2
  {
    if b1 != b2 {
      var c1 := BandColor(b1);
      var c2 := BandColor(b2);
      assert c1[1] != c2[1] || c1[2] != c2[2];
    }
  }
}

=== FILE: client_shared.dfy ===
/**
 * Helpers the web client's services repeat word for word: the day count to
 * a deadline and the urgency level derived from it (`getDaysUntilDeadline`
 * and `getDeadlineUrgency`, in both the chair and the member service).
 * Times are milliseconds since the epoch; the current time is a parameter.
 */
module ClientShared {
  import opened Common

  const MinuteMs: int := 60 * 1000
  const HourMs: int := 60 * MinuteMs
  const DayMs: int := 24 * HourMs

  /** The urgency levels, named as the client names them. */
  datatype Urgency = Overdue | Urgent | Warning | Normal

  function UrgencyName(u: Urgency): string
  {
    match u
    case Overdue => "overdue"
    case Urgent => "urgent"
    case Warning => "warning"
    case Normal => "normal"
  }

  /** Ranked from least (0) to most pressing (3). */
  function UrgencyRank(u: Urgency): nat
  {
    match u
    case Normal => 0
    case Warning => 1
    case Urgent => 2
    case Overdue => 3
  }

  /** getDaysUntilDeadline: the time left, in days rounded up. */
  function DaysUntil(deadline: int, now: int): (days: int)
    ensures (days - 1) * DayMs < deadline - now <= days * DayMs
  {
    CeilDiv(deadline - now, DayMs)
  }

  /** getDeadlineUrgency on a day count: below zero overdue, up to 3 urgent, up to 7 warning. */
  function DeadlineUrgency(daysLeft: int): (u: Urgency)
    ensures u == Overdue <==> daysLeft < 0
    ensures u == Urgent <==> 0 <= daysLeft <= 3
    ensures u == Warning <==> 3 < daysLeft <= 7
    ensures u == Normal <==> daysLeft > 7
  {
    if daysLeft < 0 then Overdue
    else if daysLeft <= 3 then Urgent
    else if daysLeft <= 7 then Warning
    else Normal
  }

  /** More days left is never more pressing. */
  lemma DeadlineUrgencyMonotone(d1: int, d2: int)
    requires d1 <= d2
    ensures UrgencyRank(DeadlineUrgency(d2)) <= UrgencyRank(DeadlineUrgency(d1))
  {
  }

  /**
   * The urgency of a deadline in milliseconds: because the day count is
   * rounded up, a deadline is only overdue once a whole day has passed, and
   * "urgent" reaches up to exactly three days ahead.
   */
  lemma DeadlineUrgencyInTime(deadline: int, now: int)
    ensures DeadlineUrgency(DaysUntil(deadline, now)) == Overdue <==> deadline - now <= -DayMs
    ensures DeadlineUrgency(DaysUntil(deadline, now)) == Urgent <==> -DayMs < deadline - now <= 3 * DayMs
    ensures DeadlineUrgency(DaysUntil(deadline, now)) == Warning <==> 3 * DayMs < deadline - now <= 7 * DayMs
    ensures DeadlineUrgency(DaysUntil(deadline, now)) == Normal <==> deadline - now > 7 * DayMs
  {
    CeilDivAtMost(deadline - now, DayMs, -1);
    CeilDivAtMost(deadline - now, DayMs, 3);
    CeilDivAtMost(deadline - now, DayMs, 7);
  }
}

=== FILE: client_submember.dfy ===
/**
 * The web client's `SubmemberService` for country committee members: the
 * list query it builds, how it reads the list and a single member (the
 * backend's `isX` role flags become the form's `x` flags), and the member
 * object it sends on create and update. Fetching is not modelled; a reply
 * is a parameter, and `encodeURIComponent` of the search term is passed in.
 */
module SubmemberClient {
  import opened Common

  // ---------------------------------------------------------------------
  // The list query

  /** The start of the list query: the address and the backend's page number, up to the size parameter. */
  function PageQuery(apiUrl: string, page: int): string
  {
    apiUrl + "?page=" + IntToString(page - 1) + "&size="
  }

  /** The query without the name filter: page, size and sort order. */
  function ListQuery(apiUrl: string, page: int, size: int, sortBy: string, sortDirection: string): string
  {
    PageQuery(apiUrl, page) + (IntToString(size) + "&sortBy=" + sortBy + "&sortDirection=" + sortDirection)
  }

  /** The page the user sees counts from 1, the backend's from 0: the query asks for one less. */
  lemma ListQueryAsksPreviousPage(apiUrl: string, page: int, size: int, sortBy: string, sortDirection: string)
    ensures StartsWith(ListQuery(apiUrl, page, size, sortBy, sortDirection), apiUrl + "?page=" + IntToString(page - 1) + "&size=")
  {
    var head := PageQuery(apiUrl, page);
    var tail := IntToString(size) + "&sortBy=" + sortBy + "&sortDirection=" + sortDirection;
    assert (head + tail)[..|head|] == head;
  }

  /** The first page the user sees is the backend's page 0. */
  lemma FirstPageIsPageZero(apiUrl: string)
    ensures StartsWith(ListQuery(apiUrl, 1, 10, "name", "ASC"), apiUrl + "?page=0&size=")
  {
    ListQueryAsksPreviousPage(apiUrl, 1, 10, "name", "ASC");
    assert IntToString(0) == "0";
  }

  /** fetchMembers' URL: the list query, and the name filter only for a non-empty search term. */
  function MembersUrl(apiUrl: string, page: int, size: int, sortBy: string, sortDirection: string,
                      searchTerm: string, encodedTerm: string): (url: string)
    ensures searchTerm == [] ==> url == ListQuery(apiUrl, page, size, sortBy, sortDirection)
    ensures searchTerm != [] ==>
      (StartsWith(url, ListQuery(apiUrl, page, size, sortBy, sortDirection)) && EndsWith(url, "&name=" + encodedTerm))
  {
    var base := ListQuery(apiUrl, page, size, sortBy, sortDirection);
    if searchTerm == [] then base
    else
      var url := base + ("&name=" + encodedTerm);
      assert url[..|base|] == base;
      url
  }

  // ---------------------------------------------------------------------
  // Members and their role flags

  /** The five role flags; `None` where the field is missing. */
  datatype Flags = Flags(
    delegationSecretary: Option<bool>,
    chair: Option<bool>,
    viceChair: Option<bool>,
    committeeSecretary: Option<bool>,
    committeeMember: Option<bool>)

  /** Every flag present. */
  predicate Complete(f: Flags)
  {
    f.delegationSecretary.Some? && f.chair.Some? && f.viceChair.Some?
    && f.committeeSecretary.Some? && f.committeeMember.Some?
  }

  /** A member as the backend sends it, with its `isX` flags. */
  datatype BackendMember = BackendMember(
    id: nat,
    name: Option<string>,
    phone: Option<string>,
    email: Option<string>,
    positionInYourRA: Option<string>,
    countryId: Option<nat>,
    subCommitteeId: Option<nat>,
    appointedDate: Option<string>,
    isFlags: Flags)

  /** `{...member, x: member.isX}`: the backend fields and, beside them, the form's names for the flags. */
  datatype ClientMember = ClientMember(fields: BackendMember, flags: Option<Flags>)

  /** The read path: every `x` takes the value of `isX`. */
  function FromBackend(m: BackendMember): (c: ClientMember)
    ensures c.fields == m && c.flags == Some(m.isFlags)
  {
    ClientMember(m, Some(m.isFlags))
  }

  /** What the form reads as a flag: a missing flag list or flag is `undefined`. */
  function FormFlags(c: ClientMember): Flags
  {
    if c.flags.Some? then c.flags.value else Flags(None, None, None, None, None)
  }

  // ---------------------------------------------------------------------
  // Reading the list

  /** The JSON the list request returns, as far as fetchMembers looks at it. */
  datatype MembersReply =
    | NotAnObject
    | BareArray(items: seq<BackendMember>)
    | PageObject(content: Option<seq<BackendMember>>, totalPages: int, totalElements: int, number: int)

  /**
   * The page fetchMembers returns. A wrapped bare array carries the requested
   * page as `currentPage`; a page object is returned as received, with the
   * backend's own `number` field and no `currentPage`.
   */
  datatype MembersPage = MembersPage(content: seq<ClientMember>, totalPages: int, totalElements: int,
                                     currentPage: Option<int>, number: Option<int>)

  /** The backend members of a page as they arrive, without the flag mapping. */
  function Unmapped(items: seq<BackendMember>): (r: seq<ClientMember>)
    ensures |r| == |items|
    ensures forall i :: 0 <= i < |items| ==> r[i] == ClientMember(items[i], None)
  {
    seq(|items|, i requires 0 <= i < |items| => ClientMember(items[i], None))
  }

  /** The backend members of a page with the flag mapping applied. */
  function Mapped(items: seq<BackendMember>): (r: seq<ClientMember>)
    ensures |r| == |items|
    ensures forall i :: 0 <= i < |items| ==> r[i] == FromBackend(items[i])
  {
    seq(|items|, i requires 0 <= i < |items| => FromBackend(items[i]))
  }

  /**
   * fetchMembers' reading of the reply as the source writes it: a bare
   * array is wrapped as a single page but its members are not mapped; a
   * page object has its content mapped; anything else is an error.
   */
  function ReadMembersAsWritten(reply: MembersReply, page: int): (r: Result<MembersPage, string>)
    ensures reply.BareArray? ==> r == Ok(MembersPage(Unmapped(reply.items), 1, |reply.items|, Some(page), None))
    ensures reply.PageObject? && reply.content.Some? ==>
      r.Ok? && r.value.content == Mapped(reply.content.value) &&
      r.value.number == Some(reply.number) && r.value.currentPage.None?
    ensures r.Err? <==> reply.NotAnObject? || (reply.PageObject? && reply.content.None?)
  {
    match reply
    case NotAnObject => Err("Invalid response format from server")
    case BareArray(items) => Ok(MembersPage(Unmapped(items), 1, |items|, Some(page), None))
    case PageObject(content, totalPages, totalElements, number) =>
      if content.None? then Err("No members data in response")
      else Ok(MembersPage(Mapped(content.value), totalPages, totalElements, None, Some(number)))
  }

  /**
   * A chair that arrives in a bare array is returned without the form's
   * flags that a paged reply's members get, so its `chair` form flag reads
   * as unset.
   */
  lemma BareArrayLosesFlags(m: BackendMember)
    requires m.isFlags.chair == Some(true)
    ensures ReadMembersAsWritten(BareArray([m]), 1).value.content[0].flags.None?
    ensures FormFlags(ReadMembersAsWritten(BareArray([m]), 1).value.content[0]).chair != m.isFlags.chair
  {
  }

  /**
   * fetchMembers with the bare-array members mapped like a page's: every
   * member of every successful reply carries the backend's flags under the
   * form's names.
   */
  function ReadMembers(reply: MembersReply, page: int): (r: Result<MembersPage, string>)
    ensures r.Err? <==> reply.NotAnObject? || (reply.PageObject? && reply.content.None?)
    ensures reply.BareArray? ==> r == Ok(MembersPage(Mapped(reply.items), 1, |reply.items|, Some(page), None))
    ensures r.Ok? ==> forall i :: 0 <= i < |r.value.content| ==>
      r.value.content[i].flags == Some(r.value.content[i].fields.isFlags)
  {
    match reply
    case NotAnObject => Err("Invalid response format from server")
    case BareArray(items) => Ok(MembersPage(Mapped(items), 1, |items|, Some(page), None))
    case PageObject(content, totalPages, totalElements, number) =>
      if content.None? then Err("No members data in response")
      else Ok(MembersPage(Mapped(content.value), totalPages, totalElements, None, Some(number)))
  }

  /** The wrapped bare array is one page holding every member, in order, as the current page. */
  lemma BareArrayIsOnePage(items: seq<BackendMember>, page: int)
    ensures var r := ReadMembers(BareArray(items), page);
      r.Ok? && r.value.totalPages == 1 && r.value.totalElements == |r.value.content| == |items|
      && r.value.currentPage == Some(page) && r.value.number.None?
      && forall i :: 0 <= i < |items| ==> r.value.content[i].fields == items[i]
  {
  }

  // ---------------------------------------------------------------------
  // Writing a member

  /** The member form; the ids are numbers, 0 being as falsy as a missing one. */
  datatype MemberForm = MemberForm(
    name: Option<string>,
    phone: Option<string>,
    email: Option<string>,
    positionInYourRA: Option<string>,
    countryId: Option<nat>,
    subCommitteeId: Option<nat>,
    appointedDate: Option<string>,
    flags: Flags,
    appointmentLetter: Option<string>)

  /** The member object sent as the `member` part; the flags are plain booleans. */
  datatype MemberObject = MemberObject(
    name: Option<string>,
    phone: Option<string>,
    email: Option<string>,
    positionInYourRA: Option<string>,
    country: Option<nat>,
    subCommittee: Option<nat>,
    appointedDate: Option<string>,
    isDelegationSecretary: bool,
    isChair: bool,
    isViceChair: bool,
    isCommitteeSecretary: bool,
    isCommitteeMember: bool)

  /** `x || false`: a missing flag is false. */
  function Flag(b: Option<bool>): bool
  {
    b.Some? && b.value
  }

  /** `{id: parseInt(id)}` for a present, non-zero id, `null` otherwise. */
  function IdRef(id: Option<nat>): (r: Option<nat>)
    ensures r.Some? <==> id.Some? && id.value != 0
    ensures r.Some? ==> r == id
  {
    if id.Some? && id.value != 0 then id else None
  }

  /** The member object createMember and updateMember build from the form. */
  function ToMemberObject(d: MemberForm): (o: MemberObject)
    ensures o.country == IdRef(d.countryId) && o.subCommittee == IdRef(d.subCommitteeId)
    ensures o.isChair <==> d.flags.chair == Some(true)
    ensures o.isViceChair <==> d.flags.viceChair == Some(true)
    ensures o.isDelegationSecretary <==> d.flags.delegationSecretary == Some(true)
    ensures o.isCommitteeSecretary <==> d.flags.committeeSecretary == Some(true)
    ensures o.isCommitteeMember <==> d.flags.committeeMember == Some(true)
  {
    MemberObject(d.name, d.phone, d.email, d.positionInYourRA,
      IdRef(d.countryId), IdRef(d.subCommitteeId), d.appointedDate,
      Flag(d.flags.delegationSecretary), Flag(d.flags.chair), Flag(d.flags.viceChair),
      Flag(d.flags.committeeSecretary), Flag(d.flags.committeeMember))
  }

  /** A part of the multipart body: the member as JSON, then the letter when one is chosen. */
  datatype FormPart = MemberPart(member: MemberObject) | LetterPart(file: string)

  /** The HTTP call: verb, URL and parts. */
  datatype MemberRequest = MemberRequest(verb: string, url: string, parts: seq<FormPart>)

  function Parts(d: MemberForm): (parts: seq<FormPart>)
    ensures |parts| >= 1 && parts[0] == MemberPart(ToMemberObject(d))
    ensures |parts| == (if d.appointmentLetter.Some? && d.appointmentLetter.value != [] then 2 else 1)
  {
    [MemberPart(ToMemberObject(d))]
      + (if d.appointmentLetter.Some? && d.appointmentLetter.value != [] then [LetterPart(d.appointmentLetter.value)] else [])
  }

  /** createMember: a POST to the collection. */
  function CreateMember(apiUrl: string, d: MemberForm): (r: MemberRequest)
    ensures r.verb == "POST" && r.url == apiUrl
  {
    MemberRequest("POST", apiUrl, Parts(d))
  }

  /** updateMember: a PUT to the member's own URL. */
  function UpdateMember(apiUrl: string, id: nat, d: MemberForm): (r: MemberRequest)
    ensures r.verb == "PUT" && r.url == apiUrl + "/" + NatToString(id)
  {
    MemberRequest("PUT", apiUrl + "/" + NatToString(id), Parts(d))
  }

  /** Create and update send the same parts for the same form; only the verb and the URL differ. */
  lemma CreateAndUpdateSendSameMember(apiUrl: string, id: nat, d: MemberForm)
    ensures CreateMember(apiUrl, d).parts == UpdateMember(apiUrl, id, d).parts
    ensures CreateMember(apiUrl, d).verb != UpdateMember(apiUrl, id, d).verb
  {
  }

  /** The edit form filled from a fetched member. */
  function EditForm(c: ClientMember): MemberForm
  {
    MemberForm(c.fields.name, c.fields.phone, c.fields.email, c.fields.positionInYourRA,
      c.fields.countryId, c.fields.subCommitteeId, c.fields.appointedDate, FormFlags(c), None)
  }

  /** The backend's record of the member object it receives, read back with its `isX` flags. */
  function StoredFlags(o: MemberObject): Flags
  {
    Flags(Some(o.isDelegationSecretary), Some(o.isChair), Some(o.isViceChair),
      Some(o.isCommitteeSecretary), Some(o.isCommitteeMember))
  }

  /**
   * Reading a member and saving it unchanged writes back all five flags as
   * they were, and the same country and subcommittee when their ids are
   * non-zero.
   */
  lemma ReadThenWriteKeepsFlags(m: BackendMember)
    requires Complete(m.isFlags)
    ensures StoredFlags(ToMemberObject(EditForm(FromBackend(m)))) == m.isFlags
    ensures m.countryId.Some? && m.countryId.value != 0 ==> ToMemberObject(EditForm(FromBackend(m))).country == m.countryId
    ensures m.subCommitteeId.Some? && m.subCommitteeId.value != 0 ==> ToMemberObject(EditForm(FromBackend(m))).subCommittee == m.subCommitteeId
  {
    var f := m.isFlags;
    assert Some(Flag(f.chair)) == f.chair by {
      if f.chair.value { assert f.chair == Some(true); } else { assert f.chair == Some(false); }
    }
    assert Some(Flag(f.viceChair)) == f.viceChair by {
      if f.viceChair.value { assert f.viceChair == Some(true); } else { assert f.viceChair == Some(false); }
    }
    assert Some(Flag(f.delegationSecretary)) == f.delegationSecretary by {
      if f.delegationSecretary.value { assert f.delegationSecretary == Some(true); } else { assert f.delegationSecretary == Some(false); }
    }
    assert Some(Flag(f.committeeSecretary)) == f.committeeSecretary by {
      if f.committeeSecretary.value { assert f.committeeSecretary == Some(true); } else { assert f.committeeSecretary == Some(false); }
    }
    assert Some(Flag(f.committeeMember)) == f.committeeMember by {
      if f.committeeMember.value { assert f.committeeMember == Some(true); } else { assert f.committeeMember == Some(false); }
    }
  }

  /** Writing a form and reading the member back gives each flag the form set, missing ones as false. */
  lemma WriteThenReadFlags(d: MemberForm, id: nat)
    ensures var o := ToMemberObject(d);
      FormFlags(FromBackend(BackendMember(id, o.name, o.phone, o.email, o.positionInYourRA, o.country,
        o.subCommittee, o.appointedDate, StoredFlags(o)))).chair == Some(d.flags.chair == Some(true))
  {
  }
}

=== FILE: client_users.dfy ===
/**
 * The pure parts of the web client's `UserManagementService`: the form
 * check an administrator's new user passes, the shorter check `createUser`
 * makes before it posts, and the role names the forms show. The client's
 * role requirements are compared with the backend's.
 */
module UserManagementClient {
  import opened Common
  import opened Domain
  import DatabaseFix

  /** The user form; a missing field is `None`, and an id of 0 is as falsy as a missing one. */
  datatype UserForm = UserForm(
    email: Option<string>,
    name: Option<string>,
    role: Option<string>,
    countryId: Option<nat>,
    subcommitteeId: Option<nat>)

  predicate Present(s: Option<string>) { s.Some? && s.value != [] }
  predicate Filled(s: Option<string>) { s.Some? && !JsBlank(s.value) }
  predicate HasId(id: Option<nat>) { id.Some? && id.value != 0 }

  predicate NonSpace(c: char) { !JsSpace(c) }

  /**
   * `/\S+@\S+\.\S+/.test(email)`: somewhere in the text a non-space
   * character, an '@', at least one non-space character, a '.', and one
   * more non-space character follow each other.
   */
  predicate EmailLike(s: string)
  {
    exists atSign, period :: 0 < atSign < |s| && 0 < period < |s| && EmailShapeAt(s, atSign, period)
  }

  /** The '@' at `atSign` and the '.' at `period` delimit the three non-space runs of an address. */
  predicate EmailShapeAt(s: string, atSign: int, period: int)
  {
    1 <= atSign && atSign + 2 <= period && period + 1 < |s|
    && NonSpace(s[atSign - 1]) && s[atSign] == '@' && s[period] == '.' && NonSpace(s[period + 1])
    && forall m :: atSign < m < period ==> NonSpace(s[m])
  }

  /** Whether the role needs a country on the client: only SECRETARY. */
  predicate ClientNeedsCountry(role: Option<string>) { role == Some("SECRETARY") }

  /** Whether the role needs a subcommittee on the client: CHAIR and SUBCOMMITTEE_MEMBER. */
  predicate ClientNeedsSubcommittee(role: Option<string>)
  {
    role == Some("CHAIR") || role == Some("SUBCOMMITTEE_MEMBER")
  }

  const EmailRequired: string := "Email is required"
  const EmailInvalid: string := "Please enter a valid email address"
  const NameRequired: string := "Name is required"
  const RoleRequired: string := "Role is required"
  const CountryRequired: string := "Country is required for Secretary role"
  const SubcommitteeRequired: string := "Subcommittee is required for Chair and Subcommittee Member roles"

  /** validateUserData: every rule the form breaks, in the order email, name, role, country, subcommittee. */
  function ValidateUserData(u: UserForm): (errs: seq<string>)
    ensures EmailRequired in errs <==> !Filled(u.email)
    ensures EmailInvalid in errs <==> Filled(u.email) && !EmailLike(u.email.value)
    ensures NameRequired in errs <==> !Filled(u.name)
    ensures RoleRequired in errs <==> !Present(u.role)
    ensures CountryRequired in errs <==> ClientNeedsCountry(u.role) && !HasId(u.countryId)
    ensures SubcommitteeRequired in errs <==> ClientNeedsSubcommittee(u.role) && !HasId(u.subcommitteeId)
    ensures errs == [] <==>
      Filled(u.email) && EmailLike(u.email.value) && Filled(u.name) && Present(u.role)
      && (ClientNeedsCountry(u.role) ==> HasId(u.countryId))
      && (ClientNeedsSubcommittee(u.role) ==> HasId(u.subcommitteeId))
  {
    var e := if !Filled(u.email) then [EmailRequired] else if !EmailLike(u.email.value) then [EmailInvalid] else [];
    var n := if !Filled(u.name) then [NameRequired] else [];
    var r := if !Present(u.role) then [RoleRequired] else [];
    var c := if ClientNeedsCountry(u.role) && !HasId(u.countryId) then [CountryRequired] else [];
    var s := if ClientNeedsSubcommittee(u.role) && !HasId(u.subcommitteeId) then [SubcommitteeRequired] else [];
    assert forall x :: x in e + n + r + c + s <==> x in e || x in n || x in r || x in c || x in s;
    e + n + r + c + s
  }

  /** The email format is only judged once an email is given, so the two email errors never come together. */
  lemma EmailErrorsExclusive(u: UserForm)
    ensures !(EmailRequired in ValidateUserData(u) && EmailInvalid in ValidateUserData(u))
  {
  }

  /**
   * createUser before its request: missing email, name or role, then the
   * role's country, then its subcommittee; only a form that passes all three
   * is posted.
   */
  function CreateUserPrecheck(u: UserForm): (r: Result<UserForm, string>)
    ensures r.Ok? <==>
      (Present(u.email) && Present(u.name) && Present(u.role)
       && (ClientNeedsCountry(u.role) ==> HasId(u.countryId))
       && (ClientNeedsSubcommittee(u.role) ==> HasId(u.subcommitteeId)))
    ensures r.Ok? ==> r.value == u
  {
    if !Present(u.email) || !Present(u.name) || !Present(u.role) then Err("Email, name, and role are required")
    else if ClientNeedsCountry(u.role) && !HasId(u.countryId) then Err("Country is required for SECRETARY role")
    else if ClientNeedsSubcommittee(u.role) && !HasId(u.subcommitteeId) then
      Err("Subcommittee is required for CHAIR and SUBCOMMITTEE_MEMBER roles")
    else Ok(u)
  }

  /** A form that passes validation is also posted; a blank name, for one, is only caught by validation. */
  lemma ValidFormIsPosted(u: UserForm)
    ensures ValidateUserData(u) == [] ==> CreateUserPrecheck(u).Ok?
    ensures ValidateUserData(UserForm(Some("a@b.cd"), Some(" "), Some("ADMIN"), None, None)) != []
    ensures CreateUserPrecheck(UserForm(Some("a@b.cd"), Some(" "), Some("ADMIN"), None, None)).Ok?
  {
    var blank: string := " ";
    assert JsBlank(blank);
  }

  /**
   * The client's subcommittee rule is the backend's; its country rule covers
   * only SECRETARY, while the backend also asks a country of committee and
   * delegation secretaries.
   */
  lemma RoleRulesAgainstBackend(roleName: string)
    ensures ClientNeedsSubcommittee(Some(roleName)) <==> DatabaseFix.RequiresSubcommittee(ParseRole(roleName))
    ensures ClientNeedsCountry(Some(roleName)) ==> DatabaseFix.RequiresCountry(ParseRole(roleName))
    ensures DatabaseFix.RequiresCountry(ParseRole("COMMITTEE_SECRETARY")) && !ClientNeedsCountry(Some("COMMITTEE_SECRETARY"))
    ensures DatabaseFix.RequiresCountry(ParseRole("DELEGATION_SECRETARY")) && !ClientNeedsCountry(Some("DELEGATION_SECRETARY"))
  {
    if ParseRole(roleName) == Some(Chair) || ParseRole(roleName) == Some(SubcommitteeMember) {
      assert RoleName(ParseRole(roleName).value) == roleName;
    }
  }

  /** getRoleDisplayName: the label of a known role, the role itself otherwise. */
  function RoleDisplayName(role: string): (shown: string)
    ensures role !in {"ADMIN", "SECRETARY", "CHAIR", "HOD", "COMMISSIONER_GENERAL", "SUBCOMMITTEE_MEMBER"} ==> shown == role
  {
    if role == "ADMIN" then "System Administrator"
    else if role == "SECRETARY" then "Secretary"
    else if role == "CHAIR" then "Committee Chair"
    else if role == "HOD" then "Head of Department"
    else if role == "COMMISSIONER_GENERAL" then "Commissioner General"
    else if role == "SUBCOMMITTEE_MEMBER" then "Subcommittee Member"
    else role
  }

  datatype RoleOption = RoleOption(value: string, caption: string)

  /** getAvailableRoles: the roles an administrator may hand out. */
  function AvailableRoles(): (roles: seq<RoleOption>)
    ensures |roles| == 5
    ensures forall i :: 0 <= i < |roles| ==> roles[i].value != "ADMIN"
    ensures forall i :: 0 <= i < |roles| ==> roles[i].caption == RoleDisplayName(roles[i].value)
  {
    [
      RoleOption("SECRETARY", "Secretary"),
      RoleOption("CHAIR", "Committee Chair"),
      RoleOption("HOD", "Head of Department"),
      RoleOption("COMMISSIONER_GENERAL", "Commissioner General"),
      RoleOption("SUBCOMMITTEE_MEMBER", "Subcommittee Member")
    ]
  }
}

=== FILE: committee_members.dfy ===
/**
 * Subcommittee membership records. Five boolean flags say which posts a
 * member holds; the stored user role is derived from them, and every save
 * copies the member into the user table under a role derived by a second,
 * differently ordered rule.
 */
module CommitteeMembers {
  import opened Common
  import opened Domain
  import opened Users
  import opened Documents

  /** The five post flags (`isDelegationSecretary`, `isChair`, `isViceChair`, `isCommitteeSecretary`, `isCommitteeMember`). */
  datatype RoleFlags = RoleFlags(
    delegationSecretary: bool,
    chair: bool,
    viceChair: bool,
    committeeSecretary: bool,
    committeeMember: bool)

  /** The role of the first set flag in `ranking`, or `fallback` when none is set. */
  function FirstSet(ranking: seq<(bool, UserRole)>, fallback: UserRole): (r: UserRole)
    ensures (forall i :: 0 <= i < |ranking| ==> !ranking[i].0) ==> r == fallback
    ensures (exists i :: 0 <= i < |ranking| && ranking[i].0) ==>
            exists i :: 0 <= i < |ranking| && ranking[i].0 && ranking[i].1 == r &&
                        forall j :: 0 <= j < i ==> !ranking[j].0
  {
    if ranking == [] then fallback
    else if ranking[0].0 then ranking[0].1
    else
      var r := FirstSet(ranking[1..], fallback);
      assert forall i :: 1 <= i < |ranking| ==> ranking[i] == ranking[1..][i - 1];
      if exists i :: 0 <= i < |ranking| && ranking[i].0 then
        var k :| 0 <= k < |ranking[1..]| && ranking[1..][k].0 && ranking[1..][k].1 == r &&
                 forall j :: 0 <= j < k ==> !ranking[1..][j].0;
        assert forall j :: 0 <= j < k + 1 ==> !ranking[j].0 by {
          forall j | 0 <= j < k + 1 ensures !ranking[j].0 {
            if j > 0 { assert ranking[j] == ranking[1..][j - 1]; }
          }
        }
        r
      else r
  }

  /** determineUserRole: chair, then committee secretary, delegation secretary, vice chair, committee member. */
  function DetermineUserRole(f: RoleFlags): (r: UserRole)
    ensures r in {Chair, CommitteeSecretary, DelegationSecretary, ViceChair, CommitteeMember, SubcommitteeMember}
    ensures f.chair ==> r == Chair
  {
    if f.chair then Chair
    else if f.committeeSecretary then CommitteeSecretary
    else if f.delegationSecretary then DelegationSecretary
    else if f.viceChair then ViceChair
    else if f.committeeMember then CommitteeMember
    else SubcommitteeMember
  }

  /** The ranking determineUserRole applies. */
  function StoredRoleRanking(f: RoleFlags): seq<(bool, UserRole)>
  {
    [(f.chair, Chair), (f.committeeSecretary, CommitteeSecretary), (f.delegationSecretary, DelegationSecretary),
     (f.viceChair, ViceChair), (f.committeeMember, CommitteeMember)]
  }

  /** determineUserRole picks the highest-ranked post held, SUBCOMMITTEE_MEMBER when none is. */
  lemma {:induction false} DetermineUserRoleIsRanking(f: RoleFlags)
    ensures DetermineUserRole(f) == FirstSet(StoredRoleRanking(f), SubcommitteeMember)
  {
    var rk := StoredRoleRanking(f);
    var d := SubcommitteeMember;
    assert FirstSet(rk[4..], d) == if rk[4].0 then rk[4].1 else FirstSet(rk[5..], d);
    assert FirstSet(rk[3..], d) == if rk[3].0 then rk[3].1 else FirstSet(rk[4..], d) by {
      assert rk[3..][1..] == rk[4..];
    }
    assert FirstSet(rk[2..], d) == if rk[2].0 then rk[2].1 else FirstSet(rk[3..], d) by {
      assert rk[2..][1..] == rk[3..];
    }
    assert FirstSet(rk[1..], d) == if rk[1].0 then rk[1].1 else FirstSet(rk[2..], d) by {
      assert rk[1..][1..] == rk[2..];
    }
    assert rk[5..] == [];
  }

  /** determinePrimaryRole (subcommittee members): chair, vice chair, committee secretary, delegation secretary, committee member. */
  function SyncRole(f: RoleFlags): (r: UserRole)
    ensures r in {Chair, ViceChair, CommitteeSecretary, DelegationSecretary, CommitteeMember, SubcommitteeMember}
    ensures f.chair ==> r == Chair
  {
    if f.chair then Chair
    else if f.viceChair then ViceChair
    else if f.committeeSecretary then CommitteeSecretary
    else if f.delegationSecretary then DelegationSecretary
    else if f.committeeMember then CommitteeMember
    else SubcommitteeMember
  }

  function SyncRoleRanking(f: RoleFlags): seq<(bool, UserRole)>
  {
    [(f.chair, Chair), (f.viceChair, ViceChair), (f.committeeSecretary, CommitteeSecretary),
     (f.delegationSecretary, DelegationSecretary), (f.committeeMember, CommitteeMember)]
  }

  /** determinePrimaryRole picks the highest-ranked post held in its own order. */
  lemma {:induction false} SyncRoleIsRanking(f: RoleFlags)
    ensures SyncRole(f) == FirstSet(SyncRoleRanking(f), SubcommitteeMember)
  {
    var rk := SyncRoleRanking(f);
    var d := SubcommitteeMember;
    assert FirstSet(rk[4..], d) == if rk[4].0 then rk[4].1 else FirstSet(rk[5..], d);
    assert FirstSet(rk[3..], d) == if rk[3].0 then rk[3].1 else FirstSet(rk[4..], d) by {
      assert rk[3..][1..] == rk[4..];
    }
    assert FirstSet(rk[2..], d) == if rk[2].0 then rk[2].1 else FirstSet(rk[3..], d) by {
      assert rk[2..][1..] == rk[3..];
    }
    assert FirstSet(rk[1..], d) == if rk[1].0 then rk[1].1 else FirstSet(rk[2..], d) by {
      assert rk[1..][1..] == rk[2..];
    }
    assert rk[5..] == [];
  }

  /**
   * The two rules disagree exactly when a member who is not chair is vice
   * chair and also a secretary: the member record then says secretary and
   * the user table says vice chair.
   */
  lemma StoredAndSyncedRolesDiffer(f: RoleFlags)
    ensures DetermineUserRole(f) != SyncRole(f) <==>
            !f.chair && f.viceChair && (f.committeeSecretary || f.delegationSecretary)
    ensures !f.chair && f.viceChair && f.committeeSecretary ==>
            DetermineUserRole(f) == CommitteeSecretary && SyncRole(f) == ViceChair
  {
  }

  /** The number of posts held. */
  function RoleCount(f: RoleFlags): (n: nat)
    ensures n <= 5
    ensures n == 0 <==> !f.chair && !f.viceChair && !f.delegationSecretary && !f.committeeSecretary && !f.committeeMember
  {
    (if f.chair then 1 else 0) + (if f.viceChair then 1 else 0) + (if f.delegationSecretary then 1 else 0) +
    (if f.committeeSecretary then 1 else 0) + (if f.committeeMember then 1 else 0)
  }

  const FutureDateError: string :=
    "Appointment date cannot be in the future. Please select a date that is today or in the past."
  const NoRoleError: string := "At least one role must be assigned to the committee member."
  const TooManyRolesError: string := "A maximum of two roles can be assigned to the committee member."

  /**
   * validateAppointmentDate, validateRoleAssignment and validateMaxTwoRoles,
   * in that order. Dates are day numbers; a missing date passes.
   */
  function MemberError(appointedDate: Option<int>, f: RoleFlags, today: int): (err: Option<string>)
    ensures err.None? <==> (appointedDate.None? || appointedDate.value <= today) && 1 <= RoleCount(f) <= 2
    ensures appointedDate.Some? && appointedDate.value > today ==> err == Some(FutureDateError)
  {
    if appointedDate.Some? && appointedDate.value > today then Some(FutureDateError)
    else if RoleCount(f) == 0 then Some(NoRoleError)
    else if RoleCount(f) > 2 then Some(TooManyRolesError)
    else None
  }

  /** A row of the subcommittee member table; the appointment letter is kept by its document id. */
  datatype SubMember = SubMember(
    id: nat,
    name: string,
    phone: Option<string>,
    email: Option<string>,
    positionInRa: Option<string>,
    country: Option<CountryRef>,
    subCommittee: Option<SubCommitteeRef>,
    appointedDate: Option<int>,
    letterDoc: Option<nat>,
    flags: RoleFlags,
    userRole: Option<UserRole>)

  /** The account syncMemberToUser creates for a member not yet in the user table. */
  function NewUserFor(m: SubMember): (u: User)
    requires m.email.Some?
    ensures u.email == m.email.value && u.role == Some(SyncRole(m.flags)) && u.active
    ensures u.country == m.country && u.subcommittee == m.subCommittee
  {
    User(0, m.email.value, "", m.name, m.phone, Some(SyncRole(m.flags)), m.country, m.subCommittee,
         true, None, Some(true), Some(false), None, None, None, None)
  }

  /** What syncing does to an existing account: role, name, email and subcommittee, nothing else. */
  function SyncedUser(u: User, m: SubMember): (r: User)
    requires m.email.Some?
    ensures r.id == u.id && r.password == u.password && r.country == u.country && r.active == u.active
    ensures r.role == Some(SyncRole(m.flags)) && r.name == m.name && r.email == m.email.value
    ensures r.subcommittee == m.subCommittee
  {
    u.(role := Some(SyncRole(m.flags)), name := m.name, email := m.email.value, subcommittee := m.subCommittee)
  }

  /** createUser returns normally: the references resolve, the role's fields are present and the mail goes out. */
  predicate CreateSucceeds(u: User, countries: map<nat, CountryRef>, subcommittees: map<nat, SubCommitteeRef>,
                           mailFails: bool)
  {
    ResolveReferences(u, countries, subcommittees).Ok? &&
    RoleRequirementsMet(ResolveReferences(u, countries, subcommittees).value) && !mailFails
  }

  /**
   * The existing account after syncing: `updateUser` receives the account
   * object itself, so its field copy changes nothing and only its reference
   * resolution acts, and may fail.
   */
  function SyncedAccount(u: User, m: SubMember, countries: map<nat, CountryRef>,
                         subcommittees: map<nat, SubCommitteeRef>): (r: Result<User, string>)
    requires m.email.Some?
    ensures r.Ok? <==> (u.country.Some? ==> u.country.value.id in countries) &&
                       (m.subCommittee.Some? ==> m.subCommittee.value.id in subcommittees)
    ensures r.Ok? ==> r.value.id == u.id && r.value.password == u.password && r.value.email == m.email.value &&
                      r.value.role == Some(SyncRole(m.flags)) && r.value.name == m.name
    ensures r.Ok? ==> r.value.subcommittee == (if m.subCommittee.None? then None
                                              else Some(subcommittees[m.subCommittee.value.id]))
  {
    ResolveReferences(SyncedUser(u, m), countries, subcommittees)
  }

  /** syncMemberToUser returns normally for this member against this user table. */
  ghost predicate SyncSucceeds(m: SubMember, users: map<nat, User>, countries: map<nat, CountryRef>,
                               subcommittees: map<nat, SubCommitteeRef>, mailFails: bool)
    requires UniqueEmails(users)
  {
    m.email.None? || m.email.value == [] ||
    match LookupEmail(users, m.email.value)
    case Some(id) => SyncedAccount(users[id], m, countries, subcommittees).Ok?
    case None => CreateSucceeds(NewUserFor(m), countries, subcommittees, mailFails)
  }

  /** The user table after a successful sync of `m`: the account updated in place, or the new one added. */
  ghost function SyncedUsers(m: SubMember, users: map<nat, User>, nextId: nat, countries: map<nat, CountryRef>,
                             subcommittees: map<nat, SubCommitteeRef>, uuid: string): map<nat, User>
    requires UniqueEmails(users) && |uuid| == 36
    requires SyncSucceeds(m, users, countries, subcommittees, false)
  {
    if m.email.None? || m.email.value == [] then users
    else match LookupEmail(users, m.email.value)
      case Some(id) => users[id := SyncedAccount(users[id], m, countries, subcommittees).value]
      case None =>
        users[nextId := ResolveReferences(NewUserFor(m), countries, subcommittees).value.(id := nextId,
                                                                                        password := PasswordFromUuid(uuid))]
  }

  /** The credentials mail a successful sync queues: one for a newly created account, none otherwise. */
  ghost function SyncedMails(m: SubMember, users: map<nat, User>, uuid: string): (r: seq<Mail>)
    requires UniqueEmails(users) && |uuid| == 36
    ensures |r| <= 1
    ensures r != [] <==> m.email.Some? && m.email.value != [] && LookupEmail(users, m.email.value).None?
  {
    if m.email.None? || m.email.value == [] || LookupEmail(users, m.email.value).Some? then []
    else [Mail(m.email.value, m.name, PasswordFromUuid(uuid))]
  }

  /**
   * After a successful sync the member's email names exactly one account,
   * and that account holds the synced role and the stored subcommittee the
   * member refers to.
   */
  lemma SyncedAccountCarriesRole(m: SubMember, users: map<nat, User>, nextId: nat, countries: map<nat, CountryRef>,
                                 subcommittees: map<nat, SubCommitteeRef>, uuid: string)
    requires UniqueEmails(users) && |uuid| == 36 && forall id :: id in users ==> id < nextId
    requires SyncSucceeds(m, users, countries, subcommittees, false)
    requires m.email.Some? && m.email.value != []
    ensures UniqueEmails(SyncedUsers(m, users, nextId, countries, subcommittees, uuid))
    ensures var after := SyncedUsers(m, users, nextId, countries, subcommittees, uuid);
            var id := LookupEmail(after, m.email.value);
            id.Some? && after[id.value].role == Some(SyncRole(m.flags)) &&
            after[id.value].subcommittee == (if m.subCommittee.None? then None
                                             else Some(subcommittees[m.subCommittee.value.id]))
    ensures var after := SyncedUsers(m, users, nextId, countries, subcommittees, uuid);
            var mails := SyncedMails(m, users, uuid);
            mails != [] ==> mails[0].to == m.email.value &&
                            mails[0].password == after[LookupEmail(after, m.email.value).value].password
  {
    var after := SyncedUsers(m, users, nextId, countries, subcommittees, uuid);
    var email := m.email.value;
    match LookupEmail(users, email)
    case Some(id) =>
      assert after[id].email == email;
    case None =>
      var u := ResolveReferences(NewUserFor(m), countries, subcommittees).value;
      assert u.email == email && u.role == Some(SyncRole(m.flags));
      assert after == users[nextId := u.(id := nextId, password := PasswordFromUuid(uuid))];
      assert nextId !in users;
      assert after[nextId].email == email;
  }

  /**
   * The appointment letter create and update attach: none when no file or an
   * empty one was sent; otherwise storeFile's validation decides, and an
   * accepted file becomes the document `docId`.
   */
  function StoredLetter(letter: Option<Upload>, docId: nat): (r: Result<Option<nat>, string>)
    ensures r == Ok(None) <==> letter.None? || letter.value.size == 0
    ensures r == Ok(Some(docId)) <==> letter.Some? && DocumentAcceptable(letter.value)
    ensures r.Err? ==> letter.Some? && letter.value.size > 0 && Some(r.error) == ValidateFile(letter.value)
  {
    if letter.None? || letter.value.size == 0 then Ok(None)
    else match ValidateFile(letter.value)
      case Some(e) => Err(e)
      case None => Ok(Some(docId))
  }

  /** The record create saves: the stored letter if one was uploaded, and the role derived from the flags. */
  function Prepared(m: SubMember, storedLetter: Option<nat>): (r: SubMember)
    ensures r.userRole == Some(DetermineUserRole(m.flags)) && r.flags == m.flags
    ensures r.letterDoc == (if storedLetter.Some? then storedLetter else m.letterDoc)
  {
    m.(letterDoc := if storedLetter.Some? then storedLetter else m.letterDoc,
       userRole := Some(DetermineUserRole(m.flags)))
  }

  /** update's field copy onto the stored record; the letter is replaced only when a new one was uploaded. */
  function Updated(existing: SubMember, m: SubMember, storedLetter: Option<nat>): (r: SubMember)
    ensures r.id == existing.id && r.flags == m.flags && r.userRole == Some(DetermineUserRole(m.flags))
    ensures r.letterDoc == (if storedLetter.Some? then storedLetter else existing.letterDoc)
    ensures r.name == m.name && r.email == m.email && r.subCommittee == m.subCommittee
  {
    existing.(name := m.name, phone := m.phone, email := m.email, positionInRa := m.positionInRa,
              country := m.country, subCommittee := m.subCommittee, appointedDate := m.appointedDate,
              flags := m.flags, userRole := Some(DetermineUserRole(m.flags)),
              letterDoc := if storedLetter.Some? then storedLetter else existing.letterDoc)
  }

  /** The member table of `CSubCommitteeMembersService`. */
  class MemberRegistry {
    var members: map<nat, SubMember>
    var nextId: nat

    ghost predicate Valid()
      reads this
    {
      forall id :: id in members ==> members[id].id == id && id < nextId
    }

    constructor ()
      ensures Valid() && members == map[]
    {
      members := map[];
      nextId := 1;
    }

    /**
     * syncMemberToUser. No email: nothing. An account with the member's
     * email: role, name, email and subcommittee overwritten in place, then
     * `updateUser`, whose reference resolution may fail. No account:
     * `createUser`, which may fail.
     */
    method SyncMemberToUser(m: SubMember, store: UserStore, countries: map<nat, CountryRef>,
                            subcommittees: map<nat, SubCommitteeRef>, uuid: string, mailFails: bool)
      returns (r: Result<(), string>)
      requires store.Valid() && |uuid| == 36
      modifies store
      ensures store.Valid()
      ensures r.Ok? <==> SyncSucceeds(m, old(store.users), countries, subcommittees, mailFails)
      ensures r.Ok? ==> store.users == SyncedUsers(m, old(store.users), old(store.nextId), countries, subcommittees, uuid)
      ensures m.email.None? || m.email.value == [] ==>
                r.Ok? && store.users == old(store.users) && store.nextId == old(store.nextId) &&
                store.outbox == old(store.outbox)
      ensures m.email.Some? && m.email.value != [] && LookupEmail(old(store.users), m.email.value).Some? ==>
                var id := LookupEmail(old(store.users), m.email.value).value;
                var synced := SyncedAccount(old(store.users)[id], m, countries, subcommittees);
                r == (if synced.Ok? then Ok(()) else Err(synced.error)) &&
                store.users == (if synced.Ok? then old(store.users)[id := synced.value] else old(store.users)) &&
                store.nextId == old(store.nextId) && store.outbox == old(store.outbox)
      ensures m.email.Some? && m.email.value != [] && LookupEmail(old(store.users), m.email.value).None? ==>
                (r.Ok? ==> store.nextId == old(store.nextId) + 1 &&
                           store.outbox == old(store.outbox) + [Mail(m.email.value, m.name, PasswordFromUuid(uuid))])
      ensures r.Ok? ==> store.nextId == old(store.nextId) + |SyncedMails(m, old(store.users), uuid)| &&
                        store.outbox == old(store.outbox) + SyncedMails(m, old(store.users), uuid)
    {
      if m.email.None? || m.email.value == [] {
        return Ok(());
      }
      var found := store.FindByEmail(m.email.value);
      if found.Some? {
        var synced := SyncedAccount(store.users[found.value], m, countries, subcommittees);
        if synced.Err? {
          return Err(synced.error);
        }
        store.Save(synced.value);
        r := Ok(());
      } else {
        var created := store.CreateUser(NewUserFor(m), countries, subcommittees, uuid, mailFails);
        r := if created.Ok? then Ok(()) else Err(created.error);
      }
    }

    /**
     * create: validate, store the uploaded letter, derive the stored role,
     * save, then sync to the user table. The service is transactional, so a
     * failing sync undoes the save and any user-table change. `docId` is the
     * id the document table gives an accepted letter.
     */
    method Create(m: SubMember, letter: Option<Upload>, docId: nat, today: int, store: UserStore,
                  countries: map<nat, CountryRef>, subcommittees: map<nat, SubCommitteeRef>,
                  uuid: string, mailFails: bool) returns (r: Result<nat, string>)
      requires Valid() && store.Valid() && |uuid| == 36
      modifies this, store
      ensures Valid() && store.Valid()
      ensures MemberError(m.appointedDate, m.flags, today).Some? ==>
                r == Err(MemberError(m.appointedDate, m.flags, today).value)
      ensures MemberError(m.appointedDate, m.flags, today).None? && StoredLetter(letter, docId).Err? ==>
                r == Err(StoredLetter(letter, docId).error)
      ensures r.Ok? <==> MemberError(m.appointedDate, m.flags, today).None? && StoredLetter(letter, docId).Ok? &&
                         SyncSucceeds(Prepared(m, StoredLetter(letter, docId).value), old(store.users),
                                      countries, subcommittees, mailFails)
      ensures r.Ok? ==> r.value == old(nextId) &&
                        members == old(members)[r.value := Prepared(m, StoredLetter(letter, docId).value).(id := r.value)]
      ensures r.Ok? ==> store.users == SyncedUsers(Prepared(m, StoredLetter(letter, docId).value), old(store.users),
                                                   old(store.nextId), countries, subcommittees, uuid)
      ensures r.Ok? ==> nextId == old(nextId) + 1
      ensures r.Ok? ==> var mails := SyncedMails(Prepared(m, StoredLetter(letter, docId).value), old(store.users), uuid);
                        store.nextId == old(store.nextId) + |mails| && store.outbox == old(store.outbox) + mails
      ensures r.Err? ==> members == old(members) && nextId == old(nextId) && store.users == old(store.users) &&
                         store.nextId == old(store.nextId) && store.outbox == old(store.outbox)
    {
      var problem := MemberError(m.appointedDate, m.flags, today);
      if problem.Some? {
        return Err(problem.value);
      }
      var stored := StoredLetter(letter, docId);
      if stored.Err? {
        return Err(stored.error);
      }
      var users0, next0, outbox0, members0, nextId0 := store.users, store.nextId, store.outbox, members, nextId;
      var id := nextId;
      var saved := Prepared(m, stored.value).(id := id);
      members := members[id := saved];
      nextId := nextId + 1;
      SyncIgnoresMemberId(Prepared(m, stored.value), id, users0, next0, countries, subcommittees, uuid, mailFails);
      var synced := SyncMemberToUser(saved, store, countries, subcommittees, uuid, mailFails);
      if synced.Err? {
        store.users, store.nextId, store.outbox := users0, next0, outbox0;
        members, nextId := members0, nextId0;
        return Err(synced.error);
      }
      r := Ok(id);
    }

    /**
     * update: an unknown id throws first; then the same validation as create,
     * the field copy, the re-derived role, the letter, save and sync, all
     * undone together when a later step fails.
     */
    method Update(id: nat, m: SubMember, letter: Option<Upload>, docId: nat, today: int, store: UserStore,
                  countries: map<nat, CountryRef>, subcommittees: map<nat, SubCommitteeRef>,
                  uuid: string, mailFails: bool) returns (r: Result<SubMember, string>)
      requires Valid() && store.Valid() && |uuid| == 36
      modifies this, store
      ensures Valid() && store.Valid() && nextId == old(nextId)
      ensures id !in old(members) ==> r == Err("Committee member not found with id: " + NatToString(id))
      ensures id in old(members) && MemberError(m.appointedDate, m.flags, today).Some? ==>
                r == Err(MemberError(m.appointedDate, m.flags, today).value)
      ensures id in old(members) && MemberError(m.appointedDate, m.flags, today).None? &&
              StoredLetter(letter, docId).Err? ==>
                r == Err(StoredLetter(letter, docId).error)
      ensures r.Ok? <==> id in old(members) && MemberError(m.appointedDate, m.flags, today).None? &&
                         StoredLetter(letter, docId).Ok? &&
                         SyncSucceeds(Updated(old(members)[id], m, StoredLetter(letter, docId).value), old(store.users),
                                      countries, subcommittees, mailFails)
      ensures r.Ok? ==> r.value == Updated(old(members)[id], m, StoredLetter(letter, docId).value) &&
                        members == old(members)[id := r.value]
      ensures r.Ok? ==> store.users == SyncedUsers(r.value, old(store.users), old(store.nextId),
                                                   countries, subcommittees, uuid)
      ensures r.Ok? ==> store.nextId == old(store.nextId) + |SyncedMails(r.value, old(store.users), uuid)| &&
                        store.outbox == old(store.outbox) + SyncedMails(r.value, old(store.users), uuid)
      ensures r.Err? ==> members == old(members) && store.users == old(store.users) &&
                         store.nextId == old(store.nextId) && store.outbox == old(store.outbox)
    {
      if id !in members {
        return Err("Committee member not found with id: " + NatToString(id));
      }
      var problem := MemberError(m.appointedDate, m.flags, today);
      if problem.Some? {
        return Err(problem.value);
      }
      var stored := StoredLetter(letter, docId);
      if stored.Err? {
        return Err(stored.error);
      }
      var users0, next0, outbox0, members0 := store.users, store.nextId, store.outbox, members;
      var saved := Updated(members[id], m, stored.value);
      members := members[id := saved];
      var synced := SyncMemberToUser(saved, store, countries, subcommittees, uuid, mailFails);
      if synced.Err? {
        store.users, store.nextId, store.outbox := users0, next0, outbox0;
        members := members0;
        return Err(synced.error);
      }
      r := Ok(saved);
    }
  }

  /** Syncing reads the member's contact data, role flags and references, never its id. */
  lemma SyncIgnoresMemberId(m: SubMember, id: nat, users: map<nat, User>, nextId: nat, countries: map<nat, CountryRef>,
                            subcommittees: map<nat, SubCommitteeRef>, uuid: string, mailFails: bool)
    requires UniqueEmails(users) && |uuid| == 36
    ensures SyncSucceeds(m.(id := id), users, countries, subcommittees, mailFails) ==
            SyncSucceeds(m, users, countries, subcommittees, mailFails)
    ensures SyncSucceeds(m, users, countries, subcommittees, false) ==>
            SyncedUsers(m.(id := id), users, nextId, countries, subcommittees, uuid) ==
            SyncedUsers(m, users, nextId, countries, subcommittees, uuid)
    ensures SyncedMails(m.(id := id), users, uuid) == SyncedMails(m, users, uuid)
  {
    if m.email.Some? && m.email.value != [] {
      assert NewUserFor(m.(id := id)) == NewUserFor(m);
      match LookupEmail(users, m.email.value)
      case Some(k) => assert SyncedUser(users[k], m.(id := id)) == SyncedUser(users[k], m);
      case None =>
    }
  }

  /** An accepted member holds one or two posts, and its stored role is never an office-holder role outside the committee. */
  lemma AcceptedMemberRoles(m: SubMember, today: int)
    requires MemberError(m.appointedDate, m.flags, today).None?
    ensures 1 <= RoleCount(m.flags) <= 2
    ensures DetermineUserRole(m.flags) != SubcommitteeMember
    ensures DetermineUserRole(m.flags) !in {Admin, Secretary, Hod, CommissionerGeneral}
  {
  }
}

=== FILE: committees.dfy ===
/**
 * CommitteeService: committees are unique by name; an update may keep the
 * name or change it to one no other committee uses, and changes nothing
 * else. Every operation is transactional.
 */
module Committees {
  import opened Common

  datatype Committee = Committee(id: nat, name: string)

  datatype CommitteeRows = CommitteeRows(committees: map<nat, Committee>, nextId: nat)

  ghost predicate RowsValid(s: CommitteeRows)
  {
    forall id :: id in s.committees ==> s.committees[id].id == id && id < s.nextId
  }

  /** No two committees share a name. */
  ghost predicate NamesUnique(committees: map<nat, Committee>)
  {
    forall i, j :: i in committees && j in committees && i != j ==> committees[i].name != committees[j].name
  }

  /** `existsByName`. */
  predicate NameTaken(committees: map<nat, Committee>, name: string)
  {
    exists id :: id in committees && committees[id].name == name
  }

  /** getCommitteeById: an unknown id throws EntityNotFoundException. */
  function Get(s: CommitteeRows, id: nat): (r: Result<Committee, string>)
    ensures r.Ok? <==> id in s.committees
    ensures r.Ok? ==> r.value == s.committees[id]
  {
    if id in s.committees then Ok(s.committees[id]) else Err("Committee not found with id: " + NatToString(id))
  }

  /** createCommittee: a taken name is refused; otherwise the committee is saved under a new id. */
  function Create(s: CommitteeRows, name: string): (r: Result<CommitteeRows, string>)
    ensures r.Err? <==> NameTaken(s.committees, name)
    ensures r.Err? ==> r.error == "Committee with name " + name + " already exists"
  {
    if NameTaken(s.committees, name) then Err("Committee with name " + name + " already exists")
    else Ok(CommitteeRows(s.committees[s.nextId := Committee(s.nextId, name)], s.nextId + 1))
  }

  /** updateCommittee: the lookup, then the name check when the name changes; only the name is written. */
  function Update(s: CommitteeRows, id: nat, name: string): (r: Result<CommitteeRows, string>)
    ensures r.Ok? <==> id in s.committees && (s.committees[id].name == name || !NameTaken(s.committees, name))
    ensures id !in s.committees ==> r == Err(Get(s, id).error)
  {
    match Get(s, id)
    case Err(e) => Err(e)
    case Ok(c) =>
      if c.name != name && NameTaken(s.committees, name) then Err("Committee with name " + name + " already exists")
      else Ok(s.(committees := s.committees[id := c.(name := name)]))
  }

  /** deleteCommittee: the lookup's error is passed on unchanged; otherwise the row goes. */
  function Delete(s: CommitteeRows, id: nat): (r: Result<CommitteeRows, string>)
    ensures r.Err? <==> Get(s, id).Err?
    ensures r.Err? ==> r.error == Get(s, id).error
    ensures r.Ok? ==> r.value.committees.Keys == s.committees.Keys - {id}
  {
    match Get(s, id)
    case Err(e) => Err(e)
    case Ok(_) => Ok(s.(committees := s.committees - {id}))
  }

  /** Create, update and delete all keep the names unique and the table well formed. */
  lemma OperationsKeepNamesUnique(s: CommitteeRows, id: nat, name: string)
    requires RowsValid(s) && NamesUnique(s.committees)
    ensures Create(s, name).Ok? ==> RowsValid(Create(s, name).value) && NamesUnique(Create(s, name).value.committees)
    ensures Update(s, id, name).Ok? ==>
      RowsValid(Update(s, id, name).value) && NamesUnique(Update(s, id, name).value.committees)
    ensures Delete(s, id).Ok? ==> RowsValid(Delete(s, id).value) && NamesUnique(Delete(s, id).value.committees)
  {
    if Create(s, name).Ok? {
      var c := Create(s, name).value.committees;
      forall i, j | i in c && j in c && i != j ensures c[i].name != c[j].name {
        if i == s.nextId {
          assert c[j] == s.committees[j];
        } else if j == s.nextId {
          assert c[i] == s.committees[i];
        }
      }
    }
    if Update(s, id, name).Ok? {
      var c := Update(s, id, name).value.committees;
      forall i, j | i in c && j in c && i != j ensures c[i].name != c[j].name {
        if i == id {
          assert c[j] == s.committees[j];
        } else if j == id {
          assert c[i] == s.committees[i];
        }
      }
    }
  }

  /** An update that keeps the name always succeeds for a stored committee, and changes nothing. */
  lemma UpdateSameNameChangesNothing(s: CommitteeRows, id: nat)
    requires id in s.committees
    ensures Update(s, id, s.committees[id].name) == Ok(s)
  {
    assert s.committees[id := s.committees[id].(name := s.committees[id].name)] == s.committees;
  }

  class CommitteeService {
    var committees: map<nat, Committee>
    var nextId: nat

    function State(): CommitteeRows
      reads this
    {
      CommitteeRows(committees, nextId)
    }

    ghost predicate Valid()
      reads this
    {
      RowsValid(State()) && NamesUnique(committees)
    }

    constructor ()
      ensures Valid() && committees == map[]
    {
      committees := map[];
      nextId := 1;
    }

    method GetCommitteeById(id: nat) returns (r: Result<Committee, string>)
      ensures r == Get(State(), id)
    {
      if id !in committees {
        return Err("Committee not found with id: " + NatToString(id));
      }
      r := Ok(committees[id]);
    }

    method CreateCommittee(name: string) returns (r: Result<Committee, string>)
      requires Valid()
      modifies this
      ensures Valid()
      ensures Create(old(State()), name).Err? ==> r == Err(Create(old(State()), name).error) && State() == old(State())
      ensures Create(old(State()), name).Ok? ==>
        State() == Create(old(State()), name).value && r == Ok(Committee(old(nextId), name))
    {
      if NameTaken(committees, name) {
        return Err("Committee with name " + name + " already exists");
      }
      OperationsKeepNamesUnique(State(), 0, name);
      var saved := Committee(nextId, name);
      committees := committees[nextId := saved];
      nextId := nextId + 1;
      r := Ok(saved);
    }

    method UpdateCommittee(id: nat, name: string) returns (r: Result<Committee, string>)
      requires Valid()
      modifies this
      ensures Valid()
      ensures Update(old(State()), id, name).Err? ==>
        r == Err(Update(old(State()), id, name).error) && State() == old(State())
      ensures Update(old(State()), id, name).Ok? ==>
        State() == Update(old(State()), id, name).value && r == Ok(Committee(id, name))
    {
      var found := GetCommitteeById(id);
      if found.Err? {
        return Err(found.error);
      }
      var c := found.value;
      if c.name != name && NameTaken(committees, name) {
        return Err("Committee with name " + name + " already exists");
      }
      OperationsKeepNamesUnique(State(), id, name);
      committees := committees[id := c.(name := name)];
      r := Ok(c.(name := name));
    }

    method DeleteCommittee(id: nat) returns (err: Option<string>)
      requires Valid()
      modifies this
      ensures Valid()
      ensures Delete(old(State()), id).Err? ==> err == Some(Delete(old(State()), id).error) && State() == old(State())
      ensures Delete(old(State()), id).Ok? ==> err.None? && State() == Delete(old(State()), id).value
    {
      var found := GetCommitteeById(id);
      if found.Err? {
        return Some(found.error);
      }
      OperationsKeepNamesUnique(State(), id, "");
      committees := committees - {id};
      err := None;
    }
  }
}

=== FILE: common.dfy ===
/**
 * Building blocks shared by the whole EARA Connect model: optional values,
 * results that carry an error instead of an exception, the few string
 * operations the services use (ASCII case mapping, trimming, prefix and
 * suffix tests, last-index search), and the stable sort that
 * `Array.prototype.sort` performs with a comparator.
 */
module Common {

  datatype Option<T> = None | Some(value: T)

  /** A service call that either returns a value or throws `error`. */
  datatype Result<T, E> = Ok(value: T) | Err(error: E)
  {
    predicate IsOk() { Ok? }
  }

  // ---------------------------------------------------------------------
  // Characters and strings

  /** ASCII lower-casing, the part of `toLowerCase` that the names, roles and extensions here use. */
  function LowerChar(c: char): char
  {
    if 'A' <= c <= 'Z' then (c as int + 32) as char else c
  }

  function UpperChar(c: char): char
  {
    if 'a' <= c <= 'z' then (c as int - 32) as char else c
  }

  function Lower(s: string): (r: string)
    ensures |r| == |s|
    ensures forall i :: 0 <= i < |s| ==> r[i] == LowerChar(s[i])
  {
    seq(|s|, i requires 0 <= i < |s| => LowerChar(s[i]))
  }

  function Upper(s: string): (r: string)
    ensures |r| == |s|
    ensures forall i :: 0 <= i < |s| ==> r[i] == UpperChar(s[i])
  {
    seq(|s|, i requires 0 <= i < |s| => UpperChar(s[i]))
  }

  /** The characters `trim` removes: Java's `String.trim` drops every code point up to U+0020. */
  predicate IsSpace(c: char)
  {
    c <= ' '
  }

  predicate IsBlank(s: string)
  {
    forall i :: 0 <= i < |s| ==> IsSpace(s[i])
  }

  /** The ASCII part of JavaScript's `\s` and of what its `trim` removes: space, tab, line feed, vertical tab, form feed, carriage return. */
  predicate JsSpace(c: char)
  {
    c == ' ' || c == '\t' || c == '\n' || c == '\U{000B}' || c == '\U{000C}' || c == '\r'
  }

  /** `!s.trim()` in JavaScript: nothing but white space. */
  predicate JsBlank(s: string)
  {
    forall i :: 0 <= i < |s| ==> JsSpace(s[i])
  }

  /** The number of spaces `s` starts with. */
  function LeadingSpaces(s: string): (n: nat)
    ensures n <= |s|
    ensures forall i :: 0 <= i < n ==> IsSpace(s[i])
    ensures n == |s| || !IsSpace(s[n])
  {
    if s == [] || !IsSpace(s[0]) then 0 else 1 + LeadingSpaces(s[1..])
  }

  function TrimStart(s: string): (r: string)
    ensures |r| <= |s| && r == s[|s| - |r|..]
    ensures r == [] || !IsSpace(r[0])
    ensures IsBlank(s[..|s| - |r|])
  {
    var n := LeadingSpaces(s);
    assert |s| - |s[n..]| == n;
    s[n..]
  }

  function TrimEnd(s: string): (r: string)
    ensures |r| <= |s| && r == s[..|r|]
    ensures r == [] || !IsSpace(r[|r| - 1])
    ensures IsBlank(s[|r|..])
  {
    if s == [] || !IsSpace(s[|s| - 1]) then s
    else
      var r := TrimEnd(s[..|s| - 1]);
      assert s[..|s| - 1][..|r|] == s[..|r|];
      assert s[|r|..] == s[..|s| - 1][|r|..] + [s[|s| - 1]];
      r
  }

  /** `s.trim()`: leading and trailing spaces removed. */
  function Trim(s: string): (r: string)
    ensures |r| <= |s|
    ensures r == [] || (!IsSpace(r[0]) && !IsSpace(r[|r| - 1]))
  {
    TrimEnd(TrimStart(s))
  }

  /** A string trims to nothing exactly when it is blank. */
  lemma TrimEmptyIffBlank(s: string)
    ensures Trim(s) == [] <==> IsBlank(s)
  {
    var t := TrimStart(s);
    var e := TrimEnd(t);
    if e == [] {
      assert t[|e|..] == t;
      assert s == s[..|s| - |t|] + t;
    } else {
      assert e[0] == t[0] == s[|s| - |t|];
    }
  }

  predicate StartsWith(s: string, prefix: string)
  {
    |prefix| <= |s| && s[..|prefix|] == prefix
  }

  predicate EndsWith(s: string, suffix: string)
  {
    |suffix| <= |s| && s[|s| - |suffix|..] == suffix
  }

  /** `s.includes(part)`: `part` occurs somewhere in `s`. */
  predicate Contains(s: string, part: string)
  {
    exists i :: 0 <= i <= |s| - |part| && OccursAt(s, part, i)
  }

  predicate OccursAt(s: string, part: string, i: int)
  {
    0 <= i && i + |part| <= |s| && s[i..i + |part|] == part
  }

  /** `s.indexOf(part, from)`: the first occurrence at or after `from`, with `None` for -1. */
  function IndexFrom(s: string, part: string, from: nat): (r: Option<nat>)
    ensures r.Some? ==> from <= r.value && OccursAt(s, part, r.value)
                        && forall j :: from <= j < r.value ==> !OccursAt(s, part, j)
    ensures r.None? ==> forall j :: from <= j ==> !OccursAt(s, part, j)
    decreases |s| + 1 - from
  {
    if from + |part| > |s| then None
    else if OccursAt(s, part, from) then Some(from)
    else IndexFrom(s, part, from + 1)
  }

  /** `s.replace(part, with)` with a string pattern: only the first occurrence is replaced. */
  function ReplaceFirst(s: string, part: string, with: string): string
  {
    match IndexFrom(s, part, 0)
    case None => s
    case Some(k) => s[..k] + with + s[k + |part|..]
  }

  /** `s.lastIndexOf(c)`, with `None` for -1. */
  function LastIndexOf(s: string, c: char): (r: Option<nat>)
    ensures r.None? <==> (forall i :: 0 <= i < |s| ==> s[i] != c)
    ensures r.Some? ==> r.value < |s| && s[r.value] == c
                        && forall i :: r.value < i < |s| ==> s[i] != c
  {
    if s == [] then None
    else if s[|s| - 1] == c then Some(|s| - 1)
    else LastIndexOf(s[..|s| - 1], c)
  }

  /** Decimal rendering of a number, as string concatenation prints it. */
  function NatToString(n: nat): (r: string)
    ensures |r| >= 1
    ensures forall i :: 0 <= i < |r| ==> '0' <= r[i] <= '9'
  {
    if n < 10 then [DigitChar(n)] else NatToString(n / 10) + [DigitChar(n % 10)]
  }

  function DigitChar(d: nat): (c: char)
    requires d < 10
    ensures '0' <= c <= '9'
  {
    ['0', '1', '2', '3', '4', '5', '6', '7', '8', '9'][d]
  }

  function IntToString(n: int): (r: string)
    ensures |r| >= 1
  {
    if n < 0 then "-" + NatToString(-n) else NatToString(n)
  }

  // ---------------------------------------------------------------------
  // Repository lookups

  lemma SingletonOf<T>(s: set<T>)
    requires |s| == 1
    ensures exists x :: s == {x}
  {
    var x :| x in s;
    assert |s - {x}| == 0;
    assert s == {x};
  }

  lemma SubsetCard<T>(a: set<T>, b: set<T>)
    requires a <= b
    ensures |a| <= |b|
  {
    assert b == a + (b - a);
  }

  /**
   * A repository query declared to return an `Optional`, given the ids of
   * the rows that match: nothing, the one match, or a failure when several
   * rows match (the result is not unique).
   */
  function UniqueRow(ids: set<nat>): (r: Result<Option<nat>, string>)
    ensures r == Ok(None) <==> ids == {}
    ensures r.Ok? && r.value.Some? ==> ids == {r.value.value}
    ensures r.Err? <==> |ids| >= 2
  {
    if ids == {} then Ok(None)
    else if |ids| == 1 then
      SingletonOf(ids);
      var id :| ids == {id};
      Ok(Some(id))
    else Err("query did not return a unique result")
  }

  // ---------------------------------------------------------------------
  // Counting and filtering

  function Count<T>(s: seq<T>, p: T -> bool): (n: nat)
    ensures n <= |s|
  {
    if s == [] then 0 else (if p(s[0]) then 1 else 0) + Count(s[1..], p)
  }

  /** Counting over a sequence extended at the end by one element. */
  lemma {:induction false} CountSnoc<T>(s: seq<T>, x: T, p: T -> bool)
    ensures Count(s + [x], p) == Count(s, p) + (if p(x) then 1 else 0)
  {
    if s == [] {
      assert s + [x] == [x];
    } else {
      assert (s + [x])[1..] == s[1..] + [x];
      CountSnoc(s[1..], x, p);
    }
  }

  /** A count is positive exactly when some element satisfies the predicate. */
  lemma {:induction false} CountPositive<T>(s: seq<T>, p: T -> bool)
    ensures Count(s, p) > 0 <==> exists i :: 0 <= i < |s| && p(s[i])
  {
    if s != [] {
      CountPositive(s[1..], p);
      if exists i :: 0 <= i < |s[1..]| && p(s[1..][i]) {
        var i :| 0 <= i < |s[1..]| && p(s[1..][i]);
        assert p(s[i + 1]);
      }
      if exists i :: 0 <= i < |s| && p(s[i]) {
        var i :| 0 <= i < |s| && p(s[i]);
        if i > 0 {
          assert p(s[1..][i - 1]);
        }
      }
    }
  }

  /** Two predicates that never hold together count, between them, the elements satisfying either. */
  lemma {:induction false} CountDisjoint<T>(s: seq<T>, p: T -> bool, q: T -> bool)
    requires forall x :: !(p(x) && q(x))
    ensures Count(s, p) + Count(s, q) == Count(s, x => p(x) || q(x))
  {
    if s != [] {
      CountDisjoint(s[1..], p, q);
    }
  }

  /** A predicate implied by another counts at least as many elements. */
  lemma {:induction false} CountMonotone<T>(s: seq<T>, p: T -> bool, q: T -> bool)
    requires forall x :: p(x) ==> q(x)
    ensures Count(s, p) <= Count(s, q)
  {
    if s != [] {
      CountMonotone(s[1..], p, q);
    }
  }

  /** `s.filter(p)`. */
  function Filter<T(==)>(s: seq<T>, p: T -> bool): (r: seq<T>)
    ensures |r| == Count(s, p)
    ensures forall i :: 0 <= i < |r| ==> r[i] in s && p(r[i])
    ensures forall i :: 0 <= i < |s| && p(s[i]) ==> s[i] in r
    ensures multiset(r) <= multiset(s)
  {
    if s == [] then []
    else
      assert s == [s[0]] + s[1..];
      if p(s[0]) then [s[0]] + Filter(s[1..], p) else Filter(s[1..], p)
  }

  /** `r` is obtained from `s` by deleting elements, keeping the order of what remains. */
  predicate IsSubsequence<T(==)>(r: seq<T>, s: seq<T>)
    decreases |s|
  {
    if r == [] then true
    else if s == [] then false
    else if r[0] == s[0] then IsSubsequence(r[1..], s[1..])
    else IsSubsequence(r, s[1..])
  }

  lemma {:induction false} FilterIsSubsequence<T>(s: seq<T>, p: T -> bool)
    ensures IsSubsequence(Filter(s, p), s)
  {
    if s != [] {
      FilterIsSubsequence(s[1..], p);
      if !p(s[0]) {
        SubsequenceSkip(Filter(s[1..], p), s[0], s[1..]);
      }
    }
  }

  /** Putting an extra element in front of `s` keeps every subsequence of `s` one. */
  lemma {:induction false} SubsequenceSkip<T>(r: seq<T>, x: T, s: seq<T>)
    requires IsSubsequence(r, s)
    ensures IsSubsequence(r, [x] + s)
    decreases |s|, 1
  {
    assert ([x] + s)[1..] == s;
    if r != [] && r[0] == x {
      SubsequenceTail(r, s);
    }
  }

  lemma {:induction false} SubsequenceTail<T>(r: seq<T>, s: seq<T>)
    requires r != [] && IsSubsequence(r, s)
    ensures IsSubsequence(r[1..], s)
    decreases |s|, 0
  {
    if r[0] == s[0] {
      SubsequenceSkip(r[1..], s[0], s[1..]);
    } else {
      SubsequenceTail(r, s[1..]);
      SubsequenceSkip(r[1..], s[0], s[1..]);
    }
    assert s == [s[0]] + s[1..];
  }

  /** When every element passes, filtering is the identity. */
  lemma {:induction false} FilterAll<T>(s: seq<T>, p: T -> bool)
    requires forall i :: 0 <= i < |s| ==> p(s[i])
    ensures Filter(s, p) == s
  {
    if s != [] {
      FilterAll(s[1..], p);
    }
  }

  /** Filtering a list extended by one element extends the filtered list by that element when it passes. */
  lemma {:induction false} FilterAppend<T>(s: seq<T>, x: T, p: T -> bool)
    ensures Filter(s + [x], p) == Filter(s, p) + (if p(x) then [x] else [])
  {
    if s == [] {
      assert s + [x] == [x];
    } else {
      assert (s + [x])[1..] == s[1..] + [x];
      FilterAppend(s[1..], x, p);
    }
  }

  /** Filtering distributes over concatenation. */
  lemma {:induction false} FilterConcat<T>(s: seq<T>, t: seq<T>, p: T -> bool)
    ensures Filter(s + t, p) == Filter(s, p) + Filter(t, p)
  {
    if s == [] {
      assert s + t == t;
    } else {
      assert (s + t)[1..] == s[1..] + t;
      FilterConcat(s[1..], t, p);
    }
  }

  /** When no element passes, the filtered list is empty. */
  lemma {:induction false} FilterNone<T>(s: seq<T>, p: T -> bool)
    requires forall i :: 0 <= i < |s| ==> !p(s[i])
    ensures Filter(s, p) == []
  {
    if s != [] {
      FilterNone(s[1..], p);
    }
  }

  /** Filtering by a weaker test first changes nothing. */
  lemma {:induction false} FilterOfFilter<T>(s: seq<T>, p: T -> bool, q: T -> bool)
    requires forall i :: 0 <= i < |s| && q(s[i]) ==> p(s[i])
    ensures Filter(Filter(s, p), q) == Filter(s, q)
  {
    if s != [] {
      FilterOfFilter(s[1..], p, q);
    }
  }

  // ---------------------------------------------------------------------
  // Stable sort with a comparator

  /**
   * A comparator in the style of `Array.prototype.sort`: a negative answer puts
   * the first argument first, zero keeps the two in their original order.
   */
  ghost predicate IsTotalPreorder<T(!new)>(cmp: (T, T) -> int)
  {
    (forall a, b :: cmp(a, b) <= 0 || cmp(b, a) <= 0) &&
    (forall a, b, c :: cmp(a, b) <= 0 && cmp(b, c) <= 0 ==> cmp(a, c) <= 0)
  }

  /** Each element is no greater than the next one. */
  predicate SortedBy<T>(s: seq<T>, cmp: (T, T) -> int)
  {
    forall i :: 0 <= i < |s| - 1 ==> cmp(s[i], s[i + 1]) <= 0
  }

  /** Puts `x` in front of the first element it is not greater than. */
  function Insert<T>(x: T, s: seq<T>, cmp: (T, T) -> int): (r: seq<T>)
    ensures multiset(r) == multiset(s) + multiset{x}
    ensures |r| == |s| + 1
    ensures r[0] == x || (s != [] && r[0] == s[0])
  {
    if s == [] then [x]
    else if cmp(x, s[0]) <= 0 then [x] + s
    else
      var rest := Insert(x, s[1..], cmp);
      assert s == [s[0]] + s[1..];
      [s[0]] + rest
  }

  /**
   * Insertion sort. It is stable: the first element is placed before every
   * later element that compares equal to it.
   */
  function SortBy<T>(s: seq<T>, cmp: (T, T) -> int): (r: seq<T>)
    ensures multiset(r) == multiset(s)
    ensures |r| == |s|
  {
    if s == [] then []
    else
      assert s == [s[0]] + s[1..];
      Insert(s[0], SortBy(s[1..], cmp), cmp)
  }

  lemma {:induction false} InsertSorted<T(!new)>(x: T, s: seq<T>, cmp: (T, T) -> int)
    requires IsTotalPreorder(cmp)
    requires SortedBy(s, cmp)
    ensures SortedBy(Insert(x, s, cmp), cmp)
  {
    if s != [] && cmp(x, s[0]) > 0 {
      var rest := Insert(x, s[1..], cmp);
      InsertSorted(x, s[1..], cmp);
      assert cmp(s[0], x) <= 0;
      assert rest[0] == x || rest[0] == s[1];
      var r := [s[0]] + rest;
      forall i | 0 <= i < |r| - 1 ensures cmp(r[i], r[i + 1]) <= 0 {
        if i > 0 {
          assert r[i] == rest[i - 1] && r[i + 1] == rest[i];
        }
      }
    }
  }

  /** The sort yields an ordered permutation of its input. */
  lemma {:induction false} SortBySorted<T(!new)>(s: seq<T>, cmp: (T, T) -> int)
    requires IsTotalPreorder(cmp)
    ensures SortedBy(SortBy(s, cmp), cmp)
    ensures multiset(SortBy(s, cmp)) == multiset(s)
  {
    if s != [] {
      SortBySorted(s[1..], cmp);
      InsertSorted(s[0], SortBy(s[1..], cmp), cmp);
    }
  }

  /** Stability: an input that is already in order comes back unchanged. */
  lemma {:induction false} SortByKeepsSorted<T>(s: seq<T>, cmp: (T, T) -> int)
    requires SortedBy(s, cmp)
    ensures SortBy(s, cmp) == s
  {
    if s != [] {
      assert SortedBy(s[1..], cmp) by {
        forall i | 0 <= i < |s[1..]| - 1 ensures cmp(s[1..][i], s[1..][i + 1]) <= 0 {
          assert s[1..][i] == s[i + 1] && s[1..][i + 1] == s[i + 2];
        }
      }
      SortByKeepsSorted(s[1..], cmp);
      assert s == [s[0]] + s[1..];
    }
  }

  /** Adjacent order extends to every pair once the comparator is transitive. */
  lemma {:induction false} SortedPairwise<T(!new)>(s: seq<T>, cmp: (T, T) -> int, i: nat, j: nat)
    requires IsTotalPreorder(cmp)
    requires SortedBy(s, cmp)
    requires i < j < |s|
    ensures cmp(s[i], s[j]) <= 0
    decreases j - i
  {
    if i + 1 < j {
      SortedPairwise(s, cmp, i + 1, j);
      assert cmp(s[i], s[i + 1]) <= 0;
    }
  }

  /** A count of `p` plus a count of its negation covers the whole list. */
  lemma {:induction false} CountComplement<T>(s: seq<T>, p: T -> bool)
    ensures Count(s, p) + Count(s, x => !p(x)) == |s|
  {
    if s != [] {
      CountComplement(s[1..], p);
    }
  }

  // ---------------------------------------------------------------------
  // Integer arithmetic of the web client

  /** `Math.ceil(a / b)` for a positive divisor. */
  function CeilDiv(a: int, b: int): (r: int)
    requires b > 0
    ensures (r - 1) * b < a <= r * b
  {
    var q := (-a) / b;
    assert -a == q * b + (-a) % b;
    -q
  }

  /** A rounded-up quotient is at most `k` exactly when the dividend is at most `k` divisors. */
  lemma CeilDivAtMost(a: int, b: int, k: int)
    requires b > 0
    ensures CeilDiv(a, b) <= k <==> a <= k * b
  {
    var r := CeilDiv(a, b);
    if r <= k {
      MultiplyMonotone(r, k, b);
    } else {
      MultiplyMonotone(k, r - 1, b);
    }
  }

  /** A rounded-down quotient: the dividend lies from that many divisors up to one more. */
  lemma FloorDivBounds(a: int, b: int)
    requires b > 0
    ensures (a / b) * b <= a < (a / b + 1) * b
  {
    assert a == (a / b) * b + a % b;
  }

  /** A rounded-down quotient is below `k` exactly when the dividend is below `k` divisors. */
  lemma FloorDivBelow(a: int, b: int, k: int)
    requires b > 0
    ensures a / b < k <==> a < k * b
  {
    var q := a / b;
    assert a == q * b + a % b;
    if q < k {
      MultiplyMonotone(q + 1, k, b);
    } else {
      MultiplyMonotone(k, q, b);
    }
  }

  /**
   * `Math.round((part / whole) * 100)` on the exact quotient, 0 for a zero
   * whole, with halves rounded up. JavaScript divides and multiplies in
   * doubles, which can land just below a half and round down.
   */
  function RoundedPercent(part: nat, whole: nat): (r: int)
    ensures whole == 0 ==> r == 0
    ensures whole > 0 ==> r * 2 * whole <= 200 * part + whole < (r + 1) * 2 * whole
  {
    if whole == 0 then 0
    else
      var d := 2 * whole;
      var n := 200 * part + whole;
      assert n == (n / d) * d + n % d;
      n / d
  }

  /** A share of a whole rounds to a percentage from 0 to 100; all of it is 100 and none of it 0. */
  lemma RoundedPercentBounds(part: nat, whole: nat)
    requires part <= whole
    ensures 0 <= RoundedPercent(part, whole) <= 100
    ensures whole > 0 && part == whole ==> RoundedPercent(part, whole) == 100
    ensures part == 0 ==> RoundedPercent(part, whole) == 0
  {
    if whole > 0 {
      var r := RoundedPercent(part, whole);
      var w := 2 * whole;
      assert r * w <= 200 * part + whole < (r + 1) * w;
      assert 200 * part + whole < 101 * w;
      if r >= 101 {
        MultiplyMonotone(101, r, w);
      }
      if part == whole && r < 100 {
        MultiplyMonotone(r + 1, 100, w);
      }
      if part == 0 && r > 0 {
        MultiplyMonotone(1, r, w);
      }
    }
  }

  lemma MultiplyMonotone(a: int, b: int, c: nat)
    requires a <= b
    ensures a * c <= b * c
  {
    assert b * c - a * c == (b - a) * c;
  }

  // ---------------------------------------------------------------------
  // Ordering of strings

  /** The `<` and `>` of JavaScript on strings: code-unit by code-unit, a proper prefix first. */
  function CompareStrings(a: string, b: string): (c: int)
    ensures -1 <= c <= 1
    ensures c == 0 <==> a == b
  {
    if a == [] && b == [] then 0
    else if a == [] then -1
    else if b == [] then 1
    else if a[0] < b[0] then -1
    else if a[0] > b[0] then 1
    else
      var c := CompareStrings(a[1..], b[1..]);
      assert c == 0 ==> a == [a[0]] + a[1..] && b == [b[0]] + b[1..];
      c
  }

  lemma {:induction false} CompareStringsAntisymmetric(a: string, b: string)
    ensures CompareStrings(a, b) == -CompareStrings(b, a)
  {
    if a != [] && b != [] && a[0] == b[0] {
      CompareStringsAntisymmetric(a[1..], b[1..]);
    }
  }

  lemma {:induction false} CompareStringsTransitive(a: string, b: string, c: string)
    requires CompareStrings(a, b) <= 0 && CompareStrings(b, c) <= 0
    ensures CompareStrings(a, c) <= 0
  {
    if a != [] && b != [] && c != [] && a[0] == b[0] && b[0] == c[0] {
      CompareStringsTransitive(a[1..], b[1..], c[1..]);
    }
  }
}

=== FILE: countries.dfy ===
/**
 * CountryService: countries are unique by name, by email and by ISO code,
 * each belongs to an existing EAC, and a country is deleted only after the
 * revenue authorities that point at it. Every operation is transactional:
 * a failing check leaves the tables unchanged.
 */
module Countries {
  import opened Common

  /** The fields of a country the service reads and writes. */
  datatype Country = Country(id: nat, name: string, email: string, isCode: string, eacId: nat)

  /** A revenue authority, reduced to the country it belongs to. */
  datatype RevenueAuthority = RevenueAuthority(id: nat, countryId: nat)

  /** The tables CountryService works on. */
  datatype CountryTables = CountryTables(
    countries: map<nat, Country>,
    nextId: nat,
    eacs: set<nat>,
    authorities: map<nat, RevenueAuthority>)

  /** Every row is stored under its own id, and every id is below the next one. */
  ghost predicate TablesValid(s: CountryTables)
  {
    forall id :: id in s.countries ==> s.countries[id].id == id && id < s.nextId
  }

  /** No two countries share a name, an email or an ISO code. */
  ghost predicate KeysUnique(countries: map<nat, Country>)
  {
    forall i, j :: i in countries && j in countries && i != j ==>
      countries[i].name != countries[j].name && countries[i].email != countries[j].email &&
      countries[i].isCode != countries[j].isCode
  }

  /** Every revenue authority belongs to a stored country. */
  ghost predicate AuthoritiesAttached(s: CountryTables)
  {
    forall a :: a in s.authorities ==> s.authorities[a].countryId in s.countries
  }

  /** `existsByName`, `existsByEmail`, `existsByIsCode`. */
  predicate NameTaken(countries: map<nat, Country>, name: string)
  {
    exists id :: id in countries && countries[id].name == name
  }

  predicate EmailTaken(countries: map<nat, Country>, email: string)
  {
    exists id :: id in countries && countries[id].email == email
  }

  predicate CodeTaken(countries: map<nat, Country>, code: string)
  {
    exists id :: id in countries && countries[id].isCode == code
  }

  /**
   * createCountry: the name, then the email, then the ISO code must be free,
   * and the EAC must exist; the country is then saved under a new id.
   */
  function Create(s: CountryTables, draft: Country): (r: Result<CountryTables, string>)
    ensures r.Ok? <==> (!NameTaken(s.countries, draft.name) && !EmailTaken(s.countries, draft.email) &&
                        !CodeTaken(s.countries, draft.isCode) && draft.eacId in s.eacs)
    ensures NameTaken(s.countries, draft.name) ==> r == Err("Country with name " + draft.name + " already exists")
  {
    if NameTaken(s.countries, draft.name) then Err("Country with name " + draft.name + " already exists")
    else if EmailTaken(s.countries, draft.email) then Err("Email " + draft.email + " is already in use")
    else if CodeTaken(s.countries, draft.isCode) then Err("ISO code " + draft.isCode + " is already in use")
    else if draft.eacId !in s.eacs then Err("EAC not found with id: " + NatToString(draft.eacId))
    else Ok(s.(countries := s.countries[s.nextId := draft.(id := s.nextId)], nextId := s.nextId + 1))
  }

  /**
   * updateCountry: each of name, email and ISO code may be kept or changed to
   * a value no country uses; the EAC is looked up only when it changes. Only
   * these four fields are written.
   */
  function Update(s: CountryTables, id: nat, details: Country): (r: Result<CountryTables, string>)
    ensures id !in s.countries ==> r == Err("Country not found with id: " + NatToString(id))
    ensures r.Ok? <==> (id in s.countries &&
      (details.name == s.countries[id].name || !NameTaken(s.countries, details.name)) &&
      (details.email == s.countries[id].email || !EmailTaken(s.countries, details.email)) &&
      (details.isCode == s.countries[id].isCode || !CodeTaken(s.countries, details.isCode)) &&
      (details.eacId == s.countries[id].eacId || details.eacId in s.eacs))
  {
    if id !in s.countries then Err("Country not found with id: " + NatToString(id))
    else
      var c := s.countries[id];
      if c.name != details.name && NameTaken(s.countries, details.name) then
        Err("Country with name " + details.name + " already exists")
      else if c.email != details.email && EmailTaken(s.countries, details.email) then
        Err("Email " + details.email + " is already in use")
      else if c.isCode != details.isCode && CodeTaken(s.countries, details.isCode) then
        Err("ISO code " + details.isCode + " is already in use")
      else if c.eacId != details.eacId && details.eacId !in s.eacs then
        Err("EAC not found with id: " + NatToString(details.eacId))
      else
        var updated := c.(name := details.name, email := details.email, isCode := details.isCode, eacId := details.eacId);
        Ok(s.(countries := s.countries[id := updated]))
  }

  /** The revenue authorities of every country but `id`. */
  function AuthoritiesWithout(authorities: map<nat, RevenueAuthority>, id: nat): (r: map<nat, RevenueAuthority>)
    ensures forall a :: a in r <==> a in authorities && authorities[a].countryId != id
    ensures forall a :: a in r ==> r[a] == authorities[a]
  {
    map a | a in authorities && authorities[a].countryId != id :: authorities[a]
  }

  /** deleteCountry: an unknown id throws; otherwise its revenue authorities go first, then the country. */
  function Delete(s: CountryTables, id: nat): (r: Result<CountryTables, string>)
    ensures r.Err? <==> id !in s.countries
    ensures r.Ok? ==> id !in r.value.countries && forall a :: a in r.value.authorities ==> r.value.authorities[a].countryId != id
  {
    if id !in s.countries then Err("Country not found with id: " + NatToString(id))
    else Ok(s.(authorities := AuthoritiesWithout(s.authorities, id), countries := s.countries - {id}))
  }

  /** A successful create keeps the keys unique and the stored rows as they were. */
  lemma CreateKeepsKeysUnique(s: CountryTables, draft: Country)
    requires TablesValid(s) && KeysUnique(s.countries) && Create(s, draft).Ok?
    ensures var s' := Create(s, draft).value;
      TablesValid(s') && KeysUnique(s'.countries) && (AuthoritiesAttached(s) ==> AuthoritiesAttached(s')) &&
      s'.authorities == s.authorities &&
      (forall id :: id in s.countries ==> id in s'.countries && s'.countries[id] == s.countries[id])
  {
    var s' := Create(s, draft).value;
    forall i, j | i in s'.countries && j in s'.countries && i != j
      ensures s'.countries[i].name != s'.countries[j].name && s'.countries[i].email != s'.countries[j].email &&
              s'.countries[i].isCode != s'.countries[j].isCode
    {
      if i == s.nextId {
        assert s.countries[j] == s'.countries[j];
      } else if j == s.nextId {
        assert s.countries[i] == s'.countries[i];
      }
    }
  }

  /** A successful update keeps the keys unique and changes no other country. */
  lemma UpdateKeepsKeysUnique(s: CountryTables, id: nat, details: Country)
    requires TablesValid(s) && KeysUnique(s.countries) && Update(s, id, details).Ok?
    ensures var s' := Update(s, id, details).value;
      TablesValid(s') && KeysUnique(s'.countries) && AuthoritiesAttached(s) == AuthoritiesAttached(s') &&
      s'.countries.Keys == s.countries.Keys && s'.authorities == s.authorities &&
      (forall k :: k in s.countries && k != id ==> s'.countries[k] == s.countries[k]) &&
      s'.countries[id] == s.countries[id].(name := details.name, email := details.email, isCode := details.isCode,
                                           eacId := details.eacId)
  {
    var s' := Update(s, id, details).value;
    forall i, j | i in s'.countries && j in s'.countries && i != j
      ensures s'.countries[i].name != s'.countries[j].name && s'.countries[i].email != s'.countries[j].email &&
              s'.countries[i].isCode != s'.countries[j].isCode
    {
      if i == id {
        assert s.countries[j] == s'.countries[j];
      } else if j == id {
        assert s.countries[i] == s'.countries[i];
      }
    }
  }

  /**
   * Delete keeps every revenue authority attached and the other countries'
   * rows and authorities as they were.
   */
  lemma DeleteKeepsAuthoritiesAttached(s: CountryTables, id: nat)
    requires TablesValid(s) && KeysUnique(s.countries) && AuthoritiesAttached(s) && id in s.countries
    ensures var s' := Delete(s, id).value;
      TablesValid(s') && KeysUnique(s'.countries) && AuthoritiesAttached(s') &&
      (forall k :: k in s'.countries <==> k in s.countries && k != id) &&
      (forall a :: a in s.authorities && s.authorities[a].countryId != id ==>
         a in s'.authorities && s'.authorities[a] == s.authorities[a])
  {
  }

  /** Removing the country before its revenue authorities would leave an authority pointing nowhere. */
  lemma DeleteOrderMatters(s: CountryTables, id: nat, a: nat)
    requires a in s.authorities && s.authorities[a].countryId == id
    ensures !AuthoritiesAttached(s.(countries := s.countries - {id}))
  {
  }

  /** Renaming a country to its own name, email and ISO code always passes the uniqueness checks. */
  lemma UpdateKeepingKeysPasses(s: CountryTables, id: nat, eacId: nat)
    requires id in s.countries && (eacId == s.countries[id].eacId || eacId in s.eacs)
    ensures Update(s, id, s.countries[id].(eacId := eacId)).Ok?
  {
  }

  /** A stored name, email or ISO code cannot be used by a second country. */
  lemma CreateRejectsTakenKeys(s: CountryTables, draft: Country, k: nat)
    requires k in s.countries
    requires s.countries[k].name == draft.name || s.countries[k].email == draft.email ||
             s.countries[k].isCode == draft.isCode
    ensures Create(s, draft).Err?
  {
  }

  class CountryService {
    var countries: map<nat, Country>
    var nextId: nat
    var eacs: set<nat>
    var authorities: map<nat, RevenueAuthority>

    function State(): CountryTables
      reads this
    {
      CountryTables(countries, nextId, eacs, authorities)
    }

    ghost predicate Valid()
      reads this
    {
      TablesValid(State()) && KeysUnique(countries) && AuthoritiesAttached(State())
    }

    constructor (eacs: set<nat>)
      ensures Valid() && countries == map[] && authorities == map[] && this.eacs == eacs
    {
      countries := map[];
      nextId := 1;
      this.eacs := eacs;
      authorities := map[];
    }

    /** getCountryById. */
    method GetCountryById(id: nat) returns (r: Result<Country, string>)
      ensures id in countries ==> r == Ok(countries[id])
      ensures id !in countries ==> r == Err("Country not found with id: " + NatToString(id))
    {
      if id !in countries {
        return Err("Country not found with id: " + NatToString(id));
      }
      r := Ok(countries[id]);
    }

    method CreateCountry(draft: Country) returns (r: Result<Country, string>)
      requires Valid()
      modifies this
      ensures Valid()
      ensures Create(old(State()), draft).Err? ==>
        r == Err(Create(old(State()), draft).error) && State() == old(State())
      ensures Create(old(State()), draft).Ok? ==>
        State() == Create(old(State()), draft).value && r == Ok(countries[old(nextId)])
    {
      if NameTaken(countries, draft.name) {
        return Err("Country with name " + draft.name + " already exists");
      }
      if EmailTaken(countries, draft.email) {
        return Err("Email " + draft.email + " is already in use");
      }
      if CodeTaken(countries, draft.isCode) {
        return Err("ISO code " + draft.isCode + " is already in use");
      }
      if draft.eacId !in eacs {
        return Err("EAC not found with id: " + NatToString(draft.eacId));
      }
      CreateKeepsKeysUnique(State(), draft);
      var saved := draft.(id := nextId);
      countries := countries[nextId := saved];
      nextId := nextId + 1;
      r := Ok(saved);
    }

    method UpdateCountry(id: nat, details: Country) returns (r: Result<Country, string>)
      requires Valid()
      modifies this
      ensures Valid()
      ensures Update(old(State()), id, details).Err? ==>
        r == Err(Update(old(State()), id, details).error) && State() == old(State())
      ensures Update(old(State()), id, details).Ok? ==>
        State() == Update(old(State()), id, details).value && r == Ok(countries[id])
    {
      var found := GetCountryById(id);
      if found.Err? {
        return Err(found.error);
      }
      var c := found.value;
      if c.name != details.name && NameTaken(countries, details.name) {
        return Err("Country with name " + details.name + " already exists");
      }
      if c.email != details.email && EmailTaken(countries, details.email) {
        return Err("Email " + details.email + " is already in use");
      }
      if c.isCode != details.isCode && CodeTaken(countries, details.isCode) {
        return Err("ISO code " + details.isCode + " is already in use");
      }
      if c.eacId != details.eacId && details.eacId !in eacs {
        return Err("EAC not found with id: " + NatToString(details.eacId));
      }
      UpdateKeepsKeysUnique(State(), id, details);
      var updated := c.(name := details.name, email := details.email, isCode := details.isCode, eacId := details.eacId);
      countries := countries[id := updated];
      r := Ok(updated);
    }

    method DeleteCountry(id: nat) returns (err: Option<string>)
      requires Valid()
      modifies this
      ensures Valid()
      ensures Delete(old(State()), id).Err? ==> err == Some(Delete(old(State()), id).error) && State() == old(State())
      ensures Delete(old(State()), id).Ok? ==> err.None? && State() == Delete(old(State()), id).value
    {
      var found := GetCountryById(id);
      if found.Err? {
        return Some(found.error);
      }
      DeleteKeepsAuthoritiesAttached(State(), id);
      authorities := AuthoritiesWithout(authorities, id);
      countries := countries - {id};
      err := None;
    }
  }
}

=== FILE: country_committee_members.dfy ===
/**
 * Commissioner General committee members. Saving a member copies it into
 * the user table with a freshly generated twelve-character password; mail
 * failures during that copy are logged and swallowed. `java.util.Random` is
 * replaced by the sequence of numbers its `nextInt(70)` calls return.
 */
module CountryCommitteeMembers {
  import opened Common
  import opened Domain
  import opened Users

  /** A row of the country committee member table. */
  datatype CountryMember = CountryMember(
    id: nat,
    name: string,
    email: Option<string>,
    phone: Option<string>,
    country: Option<CountryRef>,
    committeeId: Option<nat>,
    chair: bool,
    viceChair: bool,
    committeeSecretary: bool,
    committeeMember: bool)

  /** determinePrimaryRole: chair, vice chair, committee secretary, committee member, else COMMISSIONER_GENERAL. */
  function PrimaryRole(m: CountryMember): (r: UserRole)
    ensures m.chair ==> r == Chair
    ensures !m.chair && !m.viceChair && !m.committeeSecretary && !m.committeeMember ==> r == CommissionerGeneral
    ensures r in {Chair, ViceChair, CommitteeSecretary, CommitteeMember, CommissionerGeneral}
  {
    if m.chair then Chair
    else if m.viceChair then ViceChair
    else if m.committeeSecretary then CommitteeSecretary
    else if m.committeeMember then CommitteeMember
    else CommissionerGeneral
  }

  /** The role follows the highest-ranked post held: a lower post never overrides a higher one. */
  lemma PrimaryRoleRanking(m: CountryMember)
    ensures !m.chair && m.viceChair ==> PrimaryRole(m) == ViceChair
    ensures !m.chair && !m.viceChair && m.committeeSecretary ==> PrimaryRole(m) == CommitteeSecretary
    ensures !m.chair && !m.viceChair && !m.committeeSecretary && m.committeeMember ==> PrimaryRole(m) == CommitteeMember
    ensures PrimaryRole(m) != SubcommitteeMember && PrimaryRole(m) != DelegationSecretary
  {
  }

  /** The 70 characters passwords are drawn from. */
  const PasswordAlphabet: string := "ABCDEFGHIJKLMNOPQRSTUVWXYZabcdefghijklmnopqrstuvwxyz0123456789!@#$%^&*"

  /** A valid sequence of draws for one password: twelve numbers below the alphabet size. */
  predicate ValidDraws(draws: seq<nat>)
  {
    |draws| == 12 && forall i :: 0 <= i < |draws| ==> draws[i] < 70
  }

  /** The password a sequence of draws spells: the i-th character is the alphabet entry the i-th draw picks. */
  function DrawnPassword(draws: seq<nat>): (password: string)
    requires ValidDraws(draws)
    ensures |password| == 12
    ensures forall i :: 0 <= i < 12 ==> password[i] in PasswordAlphabet
  {
    assert |PasswordAlphabet| == 70;
    seq(12, i requires 0 <= i < 12 => PasswordAlphabet[draws[i]])
  }

  /** generateRandomPassword: one character per draw, appended in draw order. */
  method GeneratePassword(draws: seq<nat>) returns (password: string)
    requires ValidDraws(draws)
    ensures password == DrawnPassword(draws)
  {
    assert |PasswordAlphabet| == 70;
    password := [];
    var i := 0;
    while i < 12
      invariant 0 <= i <= 12 && |password| == i
      invariant forall k :: 0 <= k < i ==> password[k] == PasswordAlphabet[draws[k]]
    {
      password := password + [PasswordAlphabet[draws[i]]];
      i := i + 1;
    }
  }

  /** The account syncMemberToUser creates: active, with the member's contact data and no subcommittee. */
  function NewUserFor(m: CountryMember, password: string): (u: User)
    requires m.email.Some?
    ensures u.email == m.email.value && u.password == password && u.active
    ensures u.role == Some(PrimaryRole(m)) && u.country == m.country && u.subcommittee.None?
  {
    User(0, m.email.value, password, m.name, m.phone, Some(PrimaryRole(m)), m.country, None,
         true, None, Some(true), Some(false), None, None, None, None)
  }

  /** What syncing does to an existing account: role, name, email, country, reactivation and a new password. */
  function SyncedUser(u: User, m: CountryMember, password: string): (r: User)
    requires m.email.Some?
    ensures r.id == u.id && r.subcommittee == u.subcommittee && r.lastLogin == u.lastLogin
    ensures r.role == Some(PrimaryRole(m)) && r.name == m.name && r.email == m.email.value
    ensures r.country == m.country && r.active && r.password == password
  {
    u.(role := Some(PrimaryRole(m)), name := m.name, email := m.email.value, country := m.country,
       active := true, password := password)
  }

  /**
   * The user table, id counter and outbox syncMemberToUser leaves for a
   * member with an email, given the password it drew: the account with that
   * email updated, or a new one inserted, and the mail recorded unless it
   * failed.
   */
  ghost function SyncState(m: CountryMember, password: string, mailFails: bool,
                           users: map<nat, User>, nextId: nat, outbox: seq<Mail>): (map<nat, User>, nat, seq<Mail>)
    requires UniqueEmails(users) && m.email.Some?
  {
    var mail := if mailFails then [] else [Mail(m.email.value, m.name, password)];
    match LookupEmail(users, m.email.value)
    case Some(id) => (users[id := SyncedUser(users[id], m, password)], nextId, outbox + mail)
    case None => (users[nextId := NewUserFor(m, password).(id := nextId)], nextId + 1, outbox + mail)
  }

  /**
   * A synced Commissioner General can sign in: the member's email names
   * exactly one account, which is active, holds the primary role and the
   * drawn password; the credentials mail carries that password.
   */
  lemma SyncGivesAccess(m: CountryMember, password: string, mailFails: bool,
                        users: map<nat, User>, nextId: nat, outbox: seq<Mail>)
    requires UniqueEmails(users) && m.email.Some? && forall id :: id in users ==> id < nextId
    ensures var after := SyncState(m, password, mailFails, users, nextId, outbox);
            UniqueEmails(after.0) && LookupEmail(after.0, m.email.value).Some? &&
            var u := after.0[LookupEmail(after.0, m.email.value).value];
            u.active && u.password == password && u.role == Some(PrimaryRole(m)) &&
            after.2 == outbox + (if mailFails then [] else [Mail(u.email, m.name, u.password)])
  {
    var after := SyncState(m, password, mailFails, users, nextId, outbox);
    match LookupEmail(users, m.email.value)
    case Some(id) =>
      assert after.0[id].email == m.email.value;
    case None =>
      assert nextId !in users;
      assert after.0[nextId].email == m.email.value;
  }

  class CountryMemberRegistry {
    var members: map<nat, CountryMember>
    var nextId: nat

    ghost predicate Valid()
      reads this
    {
      forall id :: id in members ==> members[id].id == id && id < nextId
    }

    constructor ()
      ensures Valid() && members == map[]
    {
      members := map[];
      nextId := 1;
    }

    /**
     * syncMemberToUser. No email: nothing. Otherwise the account with that
     * email is updated, or a new one inserted without the role checks
     * createUser would make; both get the fresh password and are active.
     * The credentials mail is attempted and its failure ignored.
     */
    method SyncMemberToUser(m: CountryMember, store: UserStore, draws: seq<nat>, mailFails: bool)
      requires store.Valid() && ValidDraws(draws)
      modifies store
      ensures store.Valid()
      ensures m.email.None? || m.email.value == [] ==>
                store.users == old(store.users) && store.nextId == old(store.nextId) && store.outbox == old(store.outbox)
      ensures m.email.Some? && m.email.value != [] ==>
                (store.users, store.nextId, store.outbox) ==
                SyncState(m, DrawnPassword(draws), mailFails, old(store.users), old(store.nextId), old(store.outbox))
    {
      if m.email.None? || m.email.value == [] {
        return;
      }
      var password := GeneratePassword(draws);
      var found := store.FindByEmail(m.email.value);
      if found.Some? {
        store.Save(SyncedUser(store.users[found.value], m, password));
      } else {
        var _ := store.Insert(NewUserFor(m, password));
      }
      var _ := store.SendCredentials(m.email.value, m.name, password, mailFails);
    }

    /** save / update: store the member (a new id when it has none in the table yet), then sync it. */
    method Save(m: CountryMember, store: UserStore, draws: seq<nat>, mailFails: bool) returns (saved: CountryMember)
      requires Valid() && store.Valid() && ValidDraws(draws)
      modifies this, store
      ensures Valid() && store.Valid()
      ensures m.id in old(members) ==> saved == m && members == old(members)[m.id := m] && nextId == old(nextId)
      ensures m.id !in old(members) ==> saved == m.(id := old(nextId)) && members == old(members)[old(nextId) := saved]
                                        && nextId == old(nextId) + 1
      ensures m.email.None? || m.email.value == [] ==>
                store.users == old(store.users) && store.nextId == old(store.nextId) && store.outbox == old(store.outbox)
      ensures m.email.Some? && m.email.value != [] ==>
                (store.users, store.nextId, store.outbox) ==
                SyncState(saved, DrawnPassword(draws), mailFails, old(store.users), old(store.nextId), old(store.outbox))
    {
      if m.id in members {
        saved := m;
      } else {
        saved := m.(id := nextId);
        nextId := nextId + 1;
      }
      members := members[saved.id := saved];
      SyncMemberToUser(saved, store, draws, mailFails);
    }

    /**
     * resendCredentials: false for an unknown member or one without email.
     * With an account, a new password is saved and the mail sent; a failed
     * mail is caught by the outer handler, so the answer is false but the new
     * password stays. Without an account, the member is synced and the
     * answer is true.
     */
    method ResendCredentials(memberId: nat, store: UserStore, draws: seq<nat>, mailFails: bool) returns (ok: bool)
      requires Valid() && store.Valid() && ValidDraws(draws)
      modifies store
      ensures store.Valid()
      ensures memberId !in members || members[memberId].email.None? || members[memberId].email.value == [] ==>
                !ok && store.users == old(store.users) && store.nextId == old(store.nextId) && store.outbox == old(store.outbox)
      ensures memberId in members && members[memberId].email.Some? && members[memberId].email.value != [] ==>
                var email := members[memberId].email.value;
                (LookupEmail(old(store.users), email).Some? ==>
                   var id := LookupEmail(old(store.users), email).value;
                   ok == !mailFails && store.nextId == old(store.nextId) &&
                   store.users == old(store.users)[id := old(store.users)[id].(password := DrawnPassword(draws))] &&
                   store.outbox == old(store.outbox) +
                                   (if mailFails then [] else [Mail(email, old(store.users)[id].name, DrawnPassword(draws))])) &&
                (LookupEmail(old(store.users), email).None? ==>
                   ok && (store.users, store.nextId, store.outbox) ==
                         SyncState(members[memberId], DrawnPassword(draws), mailFails,
                                   old(store.users), old(store.nextId), old(store.outbox)))
    {
      if memberId !in members {
        return false;
      }
      var m := members[memberId];
      if m.email.None? || m.email.value == [] {
        return false;
      }
      var found := store.FindByEmail(m.email.value);
      if found.Some? {
        var password := GeneratePassword(draws);
        var u := store.users[found.value];
        store.Save(u.(password := password));
        var sent := store.SendCredentials(u.email, u.name, password, mailFails);
        ok := sent;
      } else {
        SyncMemberToUser(m, store, draws, mailFails);
        ok := true;
      }
    }
  }
}

=== FILE: dashboard.dfy ===
/**
 * DashboardService, the parts that are exact counting: the performance
 * distribution, the list of years that have reports, the status counts of
 * the summary, the number of reviewed reports, and the trend label of a
 * subcommittee. Averages rounded through doubles, mock data and month
 * windows are not part of this model.
 */
module Dashboard {
  import opened Common
  import opened Domain

  // ---------------------------------------------------------------------
  // Performance distribution

  /** The five bands of getRealPerformanceDistribution. */
  datatype Band = Excellent | VeryGood | Good | Satisfactory | Poor

  /** The band a percentage falls in: at least 90, 80, 70, 60, or below 60. */
  function BandOf(perf: int): (b: Band)
    ensures b == Excellent <==> perf >= 90
    ensures b == VeryGood <==> 80 <= perf < 90
    ensures b == Good <==> 70 <= perf < 80
    ensures b == Satisfactory <==> 60 <= perf < 70
    ensures b == Poor <==> perf < 60
  {
    if perf >= 90 then Excellent
    else if perf >= 80 then VeryGood
    else if perf >= 70 then Good
    else if perf >= 60 then Satisfactory
    else Poor
  }

  /** Bands ranked from best (4) to worst (0). */
  function BandRank(b: Band): nat
  {
    match b
    case Excellent => 4
    case VeryGood => 3
    case Good => 2
    case Satisfactory => 1
    case Poor => 0
  }

  /** A higher percentage never falls in a worse band. */
  lemma BandMonotone(p: int, q: int)
    requires p <= q
    ensures BandRank(BandOf(p)) <= BandRank(BandOf(q))
  {
  }

  predicate Rated(r: Report)
  {
    r.performancePercentage.Some?
  }

  /** The test each band counter applies to a report: rated, and in that band. */
  function InBand(b: Band): Report -> bool
  {
    (r: Report) => r.performancePercentage.Some? && BandOf(r.performancePercentage.value) == b
  }

  datatype Distribution = Distribution(excellent: nat, veryGood: nat, good: nat, satisfactory: nat, poor: nat)

  function Total(d: Distribution): nat
  {
    d.excellent + d.veryGood + d.good + d.satisfactory + d.poor
  }

  /**
   * getRealPerformanceDistribution: one pass over the reports, a counter per
   * band; reports without a percentage are skipped. Each counter is the
   * number of rated reports in its band, and together they count every
   * rated report once.
   */
  method PerformanceDistribution(reports: seq<Report>) returns (d: Distribution)
    ensures d.excellent == Count(reports, InBand(Excellent))
    ensures d.veryGood == Count(reports, InBand(VeryGood))
    ensures d.good == Count(reports, InBand(Good))
    ensures d.satisfactory == Count(reports, InBand(Satisfactory))
    ensures d.poor == Count(reports, InBand(Poor))
    ensures Total(d) == Count(reports, Rated)
  {
    var excellent, veryGood, good, satisfactory, poor := 0, 0, 0, 0, 0;
    for i := 0 to |reports|
      invariant excellent == Count(reports[..i], InBand(Excellent))
      invariant veryGood == Count(reports[..i], InBand(VeryGood))
      invariant good == Count(reports[..i], InBand(Good))
      invariant satisfactory == Count(reports[..i], InBand(Satisfactory))
      invariant poor == Count(reports[..i], InBand(Poor))
      invariant excellent + veryGood + good + satisfactory + poor == Count(reports[..i], Rated)
    {
      var r := reports[i];
      assert reports[..i + 1] == reports[..i] + [r];
      CountSnoc(reports[..i], r, InBand(Excellent));
      CountSnoc(reports[..i], r, InBand(VeryGood));
      CountSnoc(reports[..i], r, InBand(Good));
      CountSnoc(reports[..i], r, InBand(Satisfactory));
      CountSnoc(reports[..i], r, InBand(Poor));
      CountSnoc(reports[..i], r, Rated);
      if r.performancePercentage.Some? {
        var perf := r.performancePercentage.value;
        if perf >= 90 {
          excellent := excellent + 1;
        } else if perf >= 80 {
          veryGood := veryGood + 1;
        } else if perf >= 70 {
          good := good + 1;
        } else if perf >= 60 {
          satisfactory := satisfactory + 1;
        } else {
          poor := poor + 1;
        }
      }
    }
    assert reports[..|reports|] == reports;
    d := Distribution(excellent, veryGood, good, satisfactory, poor);
  }

  // ---------------------------------------------------------------------
  // Available years

  /**
   * The years of the reports that have a submission time; `yearOf` is
   * `LocalDateTime.getYear` on the stored instant.
   */
  function DatedYears(reports: seq<Report>, yearOf: int -> int): (years: set<int>)
    ensures forall i :: 0 <= i < |reports| && reports[i].submittedAt.Some? ==>
      yearOf(reports[i].submittedAt.value) in years
    ensures forall y :: y in years ==>
      exists i :: 0 <= i < |reports| && reports[i].submittedAt.Some? && yearOf(reports[i].submittedAt.value) == y
  {
    set i | 0 <= i < |reports| && reports[i].submittedAt.Some? :: yearOf(reports[i].submittedAt.value)
  }

  predicate StrictlyDescending(s: seq<int>)
  {
    forall i, j :: 0 <= i < j < |s| ==> s[i] > s[j]
  }

  /** A finite non-empty set of years has a largest element. */
  lemma {:induction false} HasMax(s: set<int>)
    requires s != {}
    ensures exists m :: m in s && forall y :: y in s ==> y <= m
    decreases |s|
  {
    if forall y :: y !in s {
      assert false;
    }
    var x :| x in s;
    if s != {x} {
      var t := s - {x};
      HasMax(t);
      var m :| m in t && forall y :: y in t ==> y <= m;
      var best := if x > m then x else m;
      forall y | y in s ensures y <= best {
        if y != x {
          assert y in t;
        }
      }
      assert best in s;
    } else {
      assert forall y :: y in s ==> y <= x;
    }
  }

  /** The list getAvailableYears falls back on when no report is dated. */
  const DefaultYears: seq<int> := [2024, 2023, 2022]

  /** The set of distinct years, filled in one pass over the reports. */
  method CollectYears(reports: seq<Report>, yearOf: int -> int) returns (unique: set<int>)
    ensures unique == DatedYears(reports, yearOf)
  {
    unique := {};
    for i := 0 to |reports|
      invariant unique == DatedYears(reports[..i], yearOf)
    {
      if reports[i].submittedAt.Some? {
        unique := unique + {yearOf(reports[i].submittedAt.value)};
      }
      assert reports[..i + 1][..i] == reports[..i];
      assert reports[..i + 1][i] == reports[i];
    }
    assert reports[..|reports|] == reports;
  }

  /**
   * `new ArrayList<>(uniqueYears)` sorted with `Collections.reverseOrder()`:
   * the years of the set, each once, largest first.
   */
  method SortDescending(unique: set<int>) returns (years: seq<int>)
    ensures StrictlyDescending(years)
    ensures forall y :: y in years <==> y in unique
    ensures years == [] <==> unique == {}
  {
    years := [];
    var rest := unique;
    while rest != {}
      invariant rest <= unique
      invariant StrictlyDescending(years)
      invariant forall y :: y in years <==> y in unique && y !in rest
      invariant forall i, x :: 0 <= i < |years| && x in rest ==> years[i] > x
      invariant unique == {} ==> years == []
      invariant years == [] ==> rest == unique
      decreases |rest|
    {
      HasMax(rest);
      var m :| m in rest && forall x :: x in rest ==> x <= m;
      years := years + [m];
      rest := rest - {m};
    }
  }

  /**
   * getAvailableYears: collect the distinct years of the dated reports, sort
   * them largest first, and use the default list when there are none.
   */
  method AvailableYears(reports: seq<Report>, yearOf: int -> int) returns (years: seq<int>)
    ensures DatedYears(reports, yearOf) == {} ==> years == DefaultYears
    ensures DatedYears(reports, yearOf) != {} ==>
      StrictlyDescending(years) && forall y :: y in years <==> y in DatedYears(reports, yearOf)
  {
    var unique := CollectYears(reports, yearOf);
    years := SortDescending(unique);
    if years == [] {
      years := DefaultYears;
    }
  }

  /** A year appears in the list at most once: strictly descending lists have no repeats. */
  lemma DescendingHasNoRepeats(s: seq<int>)
    requires StrictlyDescending(s)
    ensures forall i, j :: 0 <= i < |s| && 0 <= j < |s| && i != j ==> s[i] != s[j]
  {
  }

  // ---------------------------------------------------------------------
  // Status counts

  function HasStatus(st: ReportStatus): Report -> bool
  {
    (r: Report) => r.status == st
  }

  /** The report counts of the dashboard summary. */
  datatype Summary = Summary(totalReports: nat, approvedReports: nat, rejectedReports: nat, pendingReports: nat)

  /**
   * getPerformanceDashboardData's counts: all reports, those approved or
   * rejected by a HOD, and those still submitted. Commissioner outcomes are
   * in none of the three.
   */
  function SummaryCounts(reports: seq<Report>): (s: Summary)
    ensures s.totalReports == |reports|
  {
    Summary(|reports|, Count(reports, HasStatus(ApprovedByHod)), Count(reports, HasStatus(RejectedByHod)),
            Count(reports, HasStatus(Submitted)))
  }

  /** The three status counts never exceed the total: the statuses are distinct. */
  lemma {:induction false} SummaryCountsBounded(reports: seq<Report>)
    ensures var s := SummaryCounts(reports);
      s.approvedReports + s.rejectedReports + s.pendingReports <= s.totalReports
  {
    if reports != [] {
      SummaryCountsBounded(reports[1..]);
    }
  }

  /**
   * Reports finalised by the Commissioner are left out of the summary: when
   * every report is, all three counts are zero.
   */
  lemma CommissionerOutcomesUncounted(reports: seq<Report>)
    requires forall i :: 0 <= i < |reports| ==> reports[i].status in {ApprovedByCommissioner, RejectedByCommissioner}
    ensures SummaryCounts(reports) == Summary(|reports|, 0, 0, 0)
  {
    CountPositive(reports, HasStatus(ApprovedByHod));
    CountPositive(reports, HasStatus(RejectedByHod));
    CountPositive(reports, HasStatus(Submitted));
  }

  function NotSubmitted(r: Report): bool
  {
    r.status != Submitted
  }

  /** getMonthlyOverviewData's totalReviews: every report that has left SUBMITTED. */
  function TotalReviews(reports: seq<Report>): (n: nat)
    ensures n <= |reports|
  {
    Count(reports, NotSubmitted)
  }

  /** Every report is either pending or reviewed, never both. */
  lemma {:induction false} ReviewsAndPendingPartition(reports: seq<Report>)
    ensures TotalReviews(reports) + SummaryCounts(reports).pendingReports == |reports|
  {
    if reports != [] {
      ReviewsAndPendingPartition(reports[1..]);
    }
  }

  // ---------------------------------------------------------------------
  // Subcommittee trend

  function SumOf(s: seq<int>): int
  {
    if s == [] then 0 else s[0] + SumOf(s[1..])
  }

  /** The mean of a subcommittee's (non-empty) list of percentages, computed exactly. */
  function Average(performances: seq<int>): real
    requires performances != []
  {
    SumOf(performances) as real / |performances| as real
  }

  /** The trend label: "up" above an average of 80, "stable" above 60, otherwise "down". */
  function Trend(performances: seq<int>): string
    requires performances != []
  {
    var avg := Average(performances);
    if avg > 80.0 then "up" else if avg > 60.0 then "stable" else "down"
  }

  /** Comparing a mean with a threshold is comparing the total with the threshold per element. */
  lemma MeanAbove(total: real, n: real, threshold: real)
    requires n > 0.0
    ensures total / n > threshold <==> total > threshold * n
  {
    var q := total / n;
    assert q * n == total;
    if q > threshold {
      assert (q - threshold) * n > 0.0;
    } else {
      assert (threshold - q) * n >= 0.0;
    }
  }

  /** The label in integer terms: the thresholds compare the total with 80 and 60 per report. */
  lemma TrendByTotals(performances: seq<int>)
    requires performances != []
    ensures Trend(performances) == "up" <==> SumOf(performances) > 80 * |performances|
    ensures Trend(performances) == "stable" <==> 60 * |performances| < SumOf(performances) <= 80 * |performances|
    ensures Trend(performances) == "down" <==> SumOf(performances) <= 60 * |performances|
  {
    var k := |performances|;
    var t := SumOf(performances);
    var n := k as real;
    var total := t as real;
    MeanAbove(total, n, 80.0);
    MeanAbove(total, n, 60.0);
    assert t > 80 * k <==> total > 80.0 * n;
    assert t > 60 * k <==> total > 60.0 * n;
    assert "up" != "stable" && "up" != "down" && "stable" != "down";
  }
}

=== FILE: database_fix.dfy ===
/**
 * DatabaseFixService: repairs of the member and user tables, and the
 * integrity report that counts the rows still missing data their role needs.
 */
module DatabaseFix {
  import opened Common
  import opened Domain
  import opened Users
  import opened CommitteeMembers

  /** requiresCountry: the three secretary roles; a null role requires nothing. */
  predicate RequiresCountry(role: Option<UserRole>)
  {
    role == Some(Secretary) || role == Some(CommitteeSecretary) || role == Some(DelegationSecretary)
  }

  /** requiresSubcommittee: CHAIR and SUBCOMMITTEE_MEMBER. */
  predicate RequiresSubcommittee(role: Option<UserRole>)
  {
    role == Some(Chair) || role == Some(SubcommitteeMember)
  }

  /** The report's two requirement tests are the ones user validation enforces on a user with a role. */
  lemma RequirementsMatchValidation(u: User)
    requires u.role.Some?
    ensures RequiresCountry(u.role) <==> IsSecretaryRole(u.role.value)
    ensures RequiresSubcommittee(u.role) <==> u.role.value in {Chair, SubcommitteeMember}
    ensures RoleRequirementsMet(u) <==> !MissingCountry(u) && !MissingSubcommittee(u)
  {
  }

  /** The member with a null role given the role its flags determine; any other member as it is. */
  function WithRole(m: SubMember): (r: SubMember)
    ensures r.userRole.Some?
    ensures m.userRole.Some? ==> r == m
    ensures m.userRole.None? ==> r == m.(userRole := Some(DetermineUserRole(m.flags)))
  {
    if m.userRole.None? then m.(userRole := Some(DetermineUserRole(m.flags))) else m
  }

  /** fixNullUserRoles on the whole table. */
  function RolesFixed(members: map<nat, SubMember>): (r: map<nat, SubMember>)
    ensures r.Keys == members.Keys
    ensures forall id :: id in r ==> r[id] == WithRole(members[id])
  {
    map id | id in members :: WithRole(members[id])
  }

  /** After the fix no member has a null role, members that had one keep it, and a second fix changes nothing. */
  lemma RolesFixedProperties(members: map<nat, SubMember>)
    ensures forall id :: id in RolesFixed(members) ==> RolesFixed(members)[id].userRole.Some?
    ensures forall id :: id in members && members[id].userRole.Some? ==> RolesFixed(members)[id] == members[id]
    ensures forall id :: id in members && members[id].userRole.None? ==>
      RolesFixed(members)[id].userRole == Some(DetermineUserRole(members[id].flags))
    ensures RolesFixed(RolesFixed(members)) == RolesFixed(members)
  {
  }

  /** The condition under which fixFirstLoginFlags rewrites a user: logged in, with the flag true or null. */
  predicate FirstLoginStale(u: User)
  {
    u.lastLogin.Some? && (u.firstLogin.None? || u.firstLogin == Some(true))
  }

  function WithFirstLoginFixed(u: User): (r: User)
    ensures FirstLoginStale(u) ==> r == u.(firstLogin := Some(false))
    ensures !FirstLoginStale(u) ==> r == u
  {
    if FirstLoginStale(u) then u.(firstLogin := Some(false)) else u
  }

  /** fixFirstLoginFlags on the whole table. */
  function FirstLoginFixed(users: map<nat, User>): (r: map<nat, User>)
    ensures r.Keys == users.Keys
    ensures forall id :: id in r ==> r[id] == WithFirstLoginFixed(users[id])
  {
    map id | id in users :: WithFirstLoginFixed(users[id])
  }

  /** The users fixFirstLoginFlags rewrites. */
  function StaleIds(users: map<nat, User>): (ids: set<nat>)
    ensures forall id :: id in ids <==> id in users && FirstLoginStale(users[id])
  {
    set id | id in users && FirstLoginStale(users[id])
  }

  /**
   * After the fix every user that has logged in has the flag false, users
   * that never logged in are untouched, and a second fix rewrites nobody.
   */
  lemma FirstLoginFixedProperties(users: map<nat, User>)
    ensures forall id :: id in users && users[id].lastLogin.Some? ==> FirstLoginFixed(users)[id].firstLogin == Some(false)
    ensures forall id :: id in users && users[id].lastLogin.None? ==> FirstLoginFixed(users)[id] == users[id]
    ensures StaleIds(FirstLoginFixed(users)) == {}
  {
    var fixed := FirstLoginFixed(users);
    forall id | id in users && users[id].lastLogin.Some?
      ensures fixed[id].firstLogin == Some(false)
    {
      assert fixed[id] == WithFirstLoginFixed(users[id]);
      if !FirstLoginStale(users[id]) {
        assert users[id].firstLogin.Some? && users[id].firstLogin.value != true;
      }
    }
    assert forall id :: id in fixed ==> !FirstLoginStale(fixed[id]);
  }

  /** The fix touches only the flag, so every email stays where it was. */
  lemma FirstLoginFixKeepsEmails(users: map<nat, User>)
    requires UniqueEmails(users)
    ensures UniqueEmails(FirstLoginFixed(users))
    ensures forall id :: id in users ==> FirstLoginFixed(users)[id].email == users[id].email
  {
  }

  /** `phone == null || phone.trim().isEmpty()`. */
  predicate MissingPhone(u: User)
  {
    u.phone.None? || Trim(u.phone.value) == []
  }

  predicate MissingCountry(u: User)
  {
    u.country.None? && RequiresCountry(u.role)
  }

  predicate MissingSubcommittee(u: User)
  {
    u.subcommittee.None? && RequiresSubcommittee(u.role)
  }

  predicate NeverLoggedIn(u: User)
  {
    u.lastLogin.None?
  }

  predicate NullRole(m: SubMember)
  {
    m.userRole.None?
  }

  /** The counters of `DatabaseIntegrityReport`; the text details are left out. */
  datatype IntegrityReport = IntegrityReport(
    missingPhoneCount: nat,
    missingCountryCount: nat,
    missingSubcommitteeCount: nat,
    neverLoggedInCount: nat,
    nullUserRoleCount: nat)

  /** hasIssues: the never-logged-in count is not an issue. */
  predicate HasIssues(r: IntegrityReport)
  {
    r.missingPhoneCount > 0 || r.missingCountryCount > 0 || r.missingSubcommitteeCount > 0 || r.nullUserRoleCount > 0
  }

  /**
   * generateIntegrityReport over the users and members as the repositories
   * list them: each counter is the number of rows its test holds for.
   */
  method GenerateIntegrityReport(users: seq<User>, members: seq<SubMember>) returns (report: IntegrityReport)
    ensures report == IntegrityReport(Count(users, MissingPhone), Count(users, MissingCountry),
                                      Count(users, MissingSubcommittee), Count(users, NeverLoggedIn),
                                      Count(members, NullRole))
  {
    var phone, country, subcommittee, never := 0, 0, 0, 0;
    var i := 0;
    while i < |users|
      invariant 0 <= i <= |users|
      invariant phone == Count(users[..i], MissingPhone) && country == Count(users[..i], MissingCountry)
      invariant subcommittee == Count(users[..i], MissingSubcommittee) && never == Count(users[..i], NeverLoggedIn)
    {
      var u := users[i];
      assert users[..i + 1] == users[..i] + [u];
      CountSnoc(users[..i], u, MissingPhone);
      CountSnoc(users[..i], u, MissingCountry);
      CountSnoc(users[..i], u, MissingSubcommittee);
      CountSnoc(users[..i], u, NeverLoggedIn);
      if u.phone.None? || Trim(u.phone.value) == [] {
        phone := phone + 1;
      }
      if u.country.None? && RequiresCountry(u.role) {
        country := country + 1;
      }
      if u.subcommittee.None? && RequiresSubcommittee(u.role) {
        subcommittee := subcommittee + 1;
      }
      if u.lastLogin.None? {
        never := never + 1;
      }
      i := i + 1;
    }
    assert users[..i] == users;
    var nullRoles := 0;
    var j := 0;
    while j < |members|
      invariant 0 <= j <= |members|
      invariant nullRoles == Count(members[..j], NullRole)
    {
      assert members[..j + 1] == members[..j] + [members[j]];
      CountSnoc(members[..j], members[j], NullRole);
      if members[j].userRole.None? {
        nullRoles := nullRoles + 1;
      }
      j := j + 1;
    }
    assert members[..j] == members;
    report := IntegrityReport(phone, country, subcommittee, never, nullRoles);
  }

  /** A user row the integrity report flags: no phone, or a country or subcommittee its role needs is missing. */
  predicate BrokenUser(u: User)
  {
    MissingPhone(u) || MissingCountry(u) || MissingSubcommittee(u)
  }

  /**
   * The report has issues exactly when some user row is broken or some
   * member has a null role; users that never logged in do not matter.
   */
  lemma HasIssuesIffSomeRowBroken(users: seq<User>, members: seq<SubMember>)
    ensures var r := IntegrityReport(Count(users, MissingPhone), Count(users, MissingCountry),
                                     Count(users, MissingSubcommittee), Count(users, NeverLoggedIn),
                                     Count(members, NullRole));
      HasIssues(r) <==> (exists i :: 0 <= i < |users| && BrokenUser(users[i])) ||
                        (exists j :: 0 <= j < |members| && NullRole(members[j]))
  {
    SomeCountPositive(users, MissingPhone, MissingCountry, MissingSubcommittee);
    CountPositive(members, NullRole);
    if exists i :: 0 <= i < |users| && BrokenUser(users[i]) {
      var i :| 0 <= i < |users| && BrokenUser(users[i]);
      assert MissingPhone(users[i]) || MissingCountry(users[i]) || MissingSubcommittee(users[i]);
    }
  }

  /** One of three counts is positive exactly when some element satisfies one of the three predicates. */
  lemma SomeCountPositive<T>(s: seq<T>, p: T -> bool, q: T -> bool, r: T -> bool)
    ensures Count(s, p) > 0 || Count(s, q) > 0 || Count(s, r) > 0
            <==> exists i :: 0 <= i < |s| && (p(s[i]) || q(s[i]) || r(s[i]))
  {
    CountPositive(s, p);
    CountPositive(s, q);
    CountPositive(s, r);
    if exists i :: 0 <= i < |s| && (p(s[i]) || q(s[i]) || r(s[i])) {
      var i :| 0 <= i < |s| && (p(s[i]) || q(s[i]) || r(s[i]));
      if p(s[i]) {
      } else if q(s[i]) {
      } else {
      }
    }
  }

  /** Once the roles are fixed, a listing of the members counts no null role. */
  lemma FixedMembersCountNoNullRole(members: seq<SubMember>)
    requires forall j :: 0 <= j < |members| ==> members[j].userRole.Some?
    ensures Count(members, NullRole) == 0
  {
    CountPositive(members, NullRole);
  }

  /** fixNullUserRoles: every member with a null role gets the role its flags determine. */
  method FixNullUserRoles(registry: MemberRegistry)
    requires registry.Valid()
    modifies registry
    ensures registry.Valid() && registry.nextId == old(registry.nextId)
    ensures registry.members == RolesFixed(old(registry.members))
  {
    var remaining := set id | id in registry.members && registry.members[id].userRole.None?;
    while remaining != {}
      invariant remaining <= old(registry.members).Keys
      invariant registry.members.Keys == old(registry.members).Keys && registry.nextId == old(registry.nextId)
      invariant forall id :: id in remaining ==> registry.members[id] == old(registry.members)[id] &&
                                                 old(registry.members)[id].userRole.None?
      invariant forall id :: id in registry.members && id !in remaining ==>
        registry.members[id] == WithRole(old(registry.members)[id])
      invariant registry.Valid()
      decreases |remaining|
    {
      var id :| id in remaining;
      var m := registry.members[id];
      registry.members := registry.members[id := m.(userRole := Some(DetermineUserRole(m.flags)))];
      remaining := remaining - {id};
    }
  }

  /**
   * The loop of fixFirstLoginFlags over the user rows: every stale user is
   * rewritten with first-login false and counted.
   */
  method FixFirstLoginRows(users0: map<nat, User>) returns (users: map<nat, User>, count: nat)
    ensures users == FirstLoginFixed(users0)
    ensures count == |StaleIds(users0)|
  {
    users := users0;
    count := 0;
    ghost var rewritten: set<nat> := {};
    var remaining := users.Keys;
    while remaining != {}
      invariant remaining <= users0.Keys && users.Keys == users0.Keys
      invariant forall id :: id in users ==>
        users[id] == if id in remaining then users0[id] else WithFirstLoginFixed(users0[id])
      invariant forall id :: id in rewritten <==> id in users0 && FirstLoginStale(users0[id]) && id !in remaining
      invariant count == |rewritten|
      decreases |remaining|
    {
      var id :| id in remaining;
      var u := users[id];
      if u.lastLogin.Some? && (u.firstLogin.None? || u.firstLogin == Some(true)) {
        users := users[id := u.(firstLogin := Some(false))];
        rewritten := rewritten + {id};
        count := count + 1;
      }
      remaining := remaining - {id};
    }
    assert rewritten == StaleIds(users0);
  }

  /**
   * fixFirstLoginFlags: every stale user is rewritten with first-login
   * false; the count of rewritten users is returned (the source logs it).
   */
  method FixFirstLoginFlags(store: UserStore) returns (updatedCount: nat)
    requires store.Valid()
    modifies store
    ensures store.Valid() && store.nextId == old(store.nextId) && store.outbox == old(store.outbox)
    ensures store.users == FirstLoginFixed(old(store.users))
    ensures updatedCount == |StaleIds(old(store.users))|
  {
    var fixed;
    fixed, updatedCount := FixFirstLoginRows(store.users);
    FirstLoginFixKeepsEmails(store.users);
    store.users := fixed;
  }
}

=== FILE: documents.dfy ===
/**
 * DocumentService: the checks an uploaded document passes before it is
 * stored, and the name it is stored under. Writing the bytes to disk and
 * the document repository are not modelled; an upload is described by the
 * three facts the checks read.
 */
module Documents {
  import opened Common

  /**
   * A multipart upload: its file name (after `StringUtils.cleanPath`, `None`
   * for a missing name), its declared content type and its size in bytes.
   * `isEmpty()` is a size of zero.
   */
  datatype Upload = Upload(filename: Option<string>, contentType: Option<string>, size: nat)

  /** 10 MiB, the largest document accepted. */
  const MaxDocumentSize: nat := 10 * 1024 * 1024

  /**
   * getFileExtension: the suffix from the last dot on, or "" when there is
   * no name or no dot.
   */
  function FileExtension(name: Option<string>): (ext: string)
    ensures ext == [] <==> name.None? || forall i :: 0 <= i < |name.value| ==> name.value[i] != '.'
    ensures ext != [] ==> ext[0] == '.' && EndsWith(name.value, ext)
    ensures forall i :: 0 < i < |ext| ==> ext[i] != '.'
  {
    if name.None? || name.value == [] then []
    else match LastIndexOf(name.value, '.')
      case None => []
      case Some(k) => name.value[k..]
  }

  /** A name with no dot in it adds nothing to the extension of what follows it. */
  lemma {:induction false} ExtensionAfterDotFreePrefix(prefix: string, ext: string)
    requires forall i :: 0 <= i < |prefix| ==> prefix[i] != '.'
    requires ext == [] || ext[0] == '.'
    requires forall i :: 0 < i < |ext| ==> ext[i] != '.'
    ensures FileExtension(Some(prefix + ext)) == ext
  {
    var s := prefix + ext;
    if ext != [] {
      assert s[|prefix|] == '.';
      var k := LastIndexOf(s, '.').value;
      assert k == |prefix|;
      assert s[k..] == ext;
    } else {
      assert s == prefix;
    }
  }

  /** isAllowedContentType: PDF, Word (both formats) or any image type. */
  predicate AllowedContentType(contentType: string)
  {
    contentType == "application/pdf"
    || contentType == "application/msword"
    || contentType == "application/vnd.openxmlformats-officedocument.wordprocessingml.document"
    || StartsWith(contentType, "image/")
  }

  /** The four ways validateFile can accept a document, each one of its checks. */
  predicate DocumentAcceptable(f: Upload)
  {
    f.size > 0
    && f.filename.Some? && !Contains(f.filename.value, "..")
    && f.size <= MaxDocumentSize
    && f.contentType.Some? && AllowedContentType(f.contentType.value)
  }

  /**
   * validateFile: `None` when the upload passes, otherwise the message of the
   * first check it fails, in the order empty file, path, size, type. A
   * missing name makes `contains` throw.
   */
  function ValidateFile(f: Upload): (err: Option<string>)
    ensures err.None? <==> DocumentAcceptable(f)
    ensures f.size == 0 ==> err == Some("File is empty")
    ensures f.size > 0 && f.filename.Some? && Contains(f.filename.value, "..") ==>
      err == Some("Invalid file path: " + f.filename.value)
    ensures f.size > MaxDocumentSize && f.filename.Some? && !Contains(f.filename.value, "..") ==>
      err == Some("File size exceeds maximum allowed size of 10MB")
  {
    if f.size == 0 then Some("File is empty")
    else if f.filename.None? then Some("NullPointerException")
    else if Contains(f.filename.value, "..") then Some("Invalid file path: " + f.filename.value)
    else if f.size > MaxDocumentSize then Some("File size exceeds maximum allowed size of 10MB")
    else if f.contentType.None? then Some("File type not allowed: null")
    else if !AllowedContentType(f.contentType.value) then Some("File type not allowed: " + f.contentType.value)
    else None
  }

  /** The size limit is inclusive: a file of exactly 10 MiB passes the size check. */
  lemma SizeLimitIsInclusive(name: string, contentType: string)
    requires !Contains(name, "..") && AllowedContentType(contentType)
    ensures ValidateFile(Upload(Some(name), Some(contentType), MaxDocumentSize)).None?
    ensures ValidateFile(Upload(Some(name), Some(contentType), MaxDocumentSize + 1)).Some?
  {
  }

  /**
   * The name storeFile gives a validated upload: the UUID it draws (a
   * parameter here) followed by the original extension.
   */
  function StoredFilename(f: Upload, uuid: string): (r: Result<string, string>)
    ensures r.Ok? <==> DocumentAcceptable(f)
    ensures r.Err? ==> Some(r.error) == ValidateFile(f)
  {
    match ValidateFile(f)
    case Some(e) => Err(e)
    case None => Ok(uuid + FileExtension(f.filename))
  }

  /** A UUID has no dot in it, so the stored name keeps exactly the original extension. */
  lemma StoredNameKeepsExtension(f: Upload, uuid: string)
    requires forall i :: 0 <= i < |uuid| ==> uuid[i] != '.'
    requires DocumentAcceptable(f)
    ensures FileExtension(Some(StoredFilename(f, uuid).value)) == FileExtension(f.filename)
  {
    ExtensionAfterDotFreePrefix(uuid, FileExtension(f.filename));
  }
}

=== FILE: domain.dfy ===
/**
 * The entities the backend services share: the user role enumeration, the
 * user record, and the country and subcommittee references a user carries.
 * A JPA entity that a service only reads is a value here; the services that
 * update records in place keep them in the fields of their own classes.
 */
module Domain {
  import opened Common

  /** `User.UserRole`, in declaration order. */
  datatype UserRole =
    | Admin
    | Secretary
    | Chair
    | ViceChair
    | Hod
    | CommissionerGeneral
    | SubcommitteeMember
    | DelegationSecretary
    | CommitteeSecretary
    | CommitteeMember

  /** The enum constant's name, which is what `toString()` and the string enumeration mapping produce. */
  function RoleName(r: UserRole): (name: string)
    ensures |name| >= 3
  {
    match r
    case Admin => "ADMIN"
    case Secretary => "SECRETARY"
    case Chair => "CHAIR"
    case ViceChair => "VICE_CHAIR"
    case Hod => "HOD"
    case CommissionerGeneral => "COMMISSIONER_GENERAL"
    case SubcommitteeMember => "SUBCOMMITTEE_MEMBER"
    case DelegationSecretary => "DELEGATION_SECRETARY"
    case CommitteeSecretary => "COMMITTEE_SECRETARY"
    case CommitteeMember => "COMMITTEE_MEMBER"
  }

  /** `UserRole.valueOf`: the role whose constant name is `name`, if any. */
  function ParseRole(name: string): (r: Option<UserRole>)
    ensures r.Some? ==> RoleName(r.value) == name
  {
    if name == "ADMIN" then Some(Admin)
    else if name == "SECRETARY" then Some(Secretary)
    else if name == "CHAIR" then Some(Chair)
    else if name == "VICE_CHAIR" then Some(ViceChair)
    else if name == "HOD" then Some(Hod)
    else if name == "COMMISSIONER_GENERAL" then Some(CommissionerGeneral)
    else if name == "SUBCOMMITTEE_MEMBER" then Some(SubcommitteeMember)
    else if name == "DELEGATION_SECRETARY" then Some(DelegationSecretary)
    else if name == "COMMITTEE_SECRETARY" then Some(CommitteeSecretary)
    else if name == "COMMITTEE_MEMBER" then Some(CommitteeMember)
    else None
  }

  /** Parsing the name of a role gives that role back. */
  lemma ParseRoleName(r: UserRole)
    ensures ParseRole(RoleName(r)) == Some(r)
  {
  }

  datatype CountryRef = CountryRef(id: nat, name: string)

  datatype SubCommitteeRef = SubCommitteeRef(id: nat, name: string)

  /** A row of the `users` table; `None` stands for a SQL NULL. Times are epoch instants. */
  datatype User = User(
    id: nat,
    email: string,
    password: string,
    name: string,
    phone: Option<string>,
    role: Option<UserRole>,
    country: Option<CountryRef>,
    subcommittee: Option<SubCommitteeRef>,
    active: bool,
    lastLogin: Option<int>,
    firstLogin: Option<bool>,
    passwordResetRequired: Option<bool>,
    address: Option<string>,
    department: Option<string>,
    position: Option<string>,
    profilePicture: Option<string>)

  /** The users whose role is `r`, as `UserRepo.findByRole` returns them. */
  function UsersWithRole(users: map<nat, User>, r: UserRole): (ids: set<nat>)
    ensures forall id :: id in ids <==> id in users && users[id].role == Some(r)
  {
    set id | id in users && users[id].role == Some(r)
  }

  // ---------------------------------------------------------------------
  // Meetings, resolutions, assignments and reports

  datatype MeetingType = CommissionerGeneralMeeting | TechnicalMeeting | SubcommitteeMeeting

  datatype MeetingStatus = Scheduled | InProgress | Completed | Cancelled

  /** A row of `meetings`; the creator is kept by id. */
  datatype Meeting = Meeting(
    id: nat,
    title: string,
    hostingCountry: Option<CountryRef>,
    createdBy: Option<nat>,
    meetingType: Option<MeetingType>,
    status: MeetingStatus,
    minutes: Option<string>)

  /**
   * `Resolution.ResolutionStatus`; `ResolutionAssignment.AssignmentStatus`
   * declares the same four constants and is represented by this type too.
   */
  datatype ResolutionStatus = Assigned | InProgress | Completed | Cancelled

  datatype Resolution = Resolution(
    id: nat,
    title: string,
    description: Option<string>,
    meetingId: nat,
    createdBy: nat,
    status: ResolutionStatus,
    createdAt: int)

  /** A row of `resolution_assignments`: one subcommittee's weighted share of a resolution. */
  datatype Assignment = Assignment(
    id: nat,
    resolutionId: nat,
    subcommitteeId: nat,
    contributionPercentage: int,
    assignedBy: int,
    assignedAt: int,
    status: ResolutionStatus)

  datatype ReportStatus =
    | Submitted
    | ApprovedByHod
    | RejectedByHod
    | ApprovedByCommissioner
    | RejectedByCommissioner

  /** A row of `reports`; the resolution, subcommittee and submitter are kept by id. */
  datatype Report = Report(
    id: nat,
    resolutionId: nat,
    subcommitteeId: nat,
    submittedBy: nat,
    performancePercentage: Option<int>,
    progressDetails: Option<string>,
    hindrances: Option<string>,
    status: ReportStatus,
    reviewedByHod: Option<nat>,
    hodComments: Option<string>,
    hodReviewedAt: Option<int>,
    reviewedByCommissioner: Option<nat>,
    commissionerComments: Option<string>,
    commissionerReviewedAt: Option<int>,
    submittedAt: Option<int>,
    isFinalReport: bool,
    reportVersion: int)

  /** The test `findByResolutionId` applies to an assignment row. */
  function OfResolution(resolutionId: nat): Assignment -> bool
  {
    (a: Assignment) => a.resolutionId == resolutionId
  }

  /** The assignment rows that belong to a resolution, `resolution.getAssignments()`. */
  function AssignmentsOf(assignments: seq<Assignment>, resolutionId: nat): (r: seq<Assignment>)
    ensures forall i :: 0 <= i < |r| ==> r[i] in assignments && r[i].resolutionId == resolutionId
  {
    Filter(assignments, OfResolution(resolutionId))
  }
}

=== FILE: hod_permission.dfy ===
/**
 * Who holds Head of Delegation (HOD) privileges, as the backend decides it.
 * There is no working HOD role: the privilege belongs to the chair and the
 * vice chair of the subcommittee named "Head Of Delegation", and the name is
 * compared exactly.
 */
module HodPermission {
  import opened Common
  import opened Domain

  const HeadOfDelegationName: string := "Head Of Delegation"

  /** isChairOfHeadOfDelegation: the user's subcommittee exists and carries the exact name. */
  predicate IsChairOfHeadOfDelegation(user: User)
  {
    user.subcommittee.Some? && user.subcommittee.value.name == HeadOfDelegationName
  }

  /** hasHODPrivileges(User); `None` is a null user. */
  predicate HasHodPrivileges(user: Option<User>)
  {
    user.Some? &&
    (user.value.role == Some(Chair) || user.value.role == Some(ViceChair)) &&
    IsChairOfHeadOfDelegation(user.value)
  }

  /** hasHODPrivileges(Long): an id that names no user is not privileged. */
  function HasHodPrivilegesById(users: map<nat, User>, userId: nat): (b: bool)
    ensures b ==> userId in users
    ensures b <==> userId in users && HasHodPrivileges(Some(users[userId]))
  {
    if userId in users then HasHodPrivileges(Some(users[userId])) else false
  }

  /** The privilege in full: role CHAIR or VICE_CHAIR, a subcommittee, and exactly the right name. */
  lemma HodPrivilegeCharacterised(user: User)
    ensures HasHodPrivileges(Some(user)) <==>
      user.role in {Some(Chair), Some(ViceChair)} &&
      user.subcommittee.Some? && user.subcommittee.value.name == "Head Of Delegation"
  {
  }

  /** No role other than CHAIR and VICE_CHAIR grants it, the stored HOD role included. */
  lemma OtherRolesNeverPrivileged(user: User)
    requires user.role != Some(Chair) && user.role != Some(ViceChair)
    ensures !HasHodPrivileges(Some(user))
    ensures user.role == Some(Hod) ==> !HasHodPrivileges(Some(user))
  {
  }

  /** A null user gives false rather than an error. */
  lemma NullUserNotPrivileged()
    ensures !HasHodPrivileges(None)
  {
  }

  /** The comparison is case-sensitive: a chair of "head of delegation" is not privileged. */
  lemma NameComparisonIsExact(id: nat, sid: nat)
    ensures !HasHodPrivileges(Some(User(id, "c@eara.org", "pw", "Chair", None, Some(Chair), None,
      Some(SubCommitteeRef(sid, "head of delegation")), true, None, Some(true), Some(false),
      None, None, None, None)))
  {
    var lowered: string := "head of delegation";
    assert lowered[0] != HeadOfDelegationName[0];
  }

  /**
   * findByName: the id of the one subcommittee named "Head Of Delegation".
   * No match gives null; several matches make the repository throw, which
   * the service catches and also turns into null.
   */
  function HeadOfDelegationSubcommitteeId(subcommittees: seq<SubCommitteeRef>): (r: Option<nat>)
    ensures r.Some? ==> exists i :: 0 <= i < |subcommittees| && subcommittees[i].id == r.value
                                  && subcommittees[i].name == HeadOfDelegationName
    ensures (forall i :: 0 <= i < |subcommittees| ==> subcommittees[i].name != HeadOfDelegationName)
            ==> r.None?
  {
    var named := Filter(subcommittees, HodNamed);
    if |named| == 1 then Some(named[0].id) else None
  }

  predicate HodNamed(s: SubCommitteeRef)
  {
    s.name == HeadOfDelegationName
  }

  /** One row named "Head Of Delegation" and no other: the count is one. */
  lemma {:induction false} CountOneNamed(subcommittees: seq<SubCommitteeRef>, i: nat)
    requires i < |subcommittees| && HodNamed(subcommittees[i])
    requires forall j :: 0 <= j < |subcommittees| && j != i ==> !HodNamed(subcommittees[j])
    ensures Count(subcommittees, HodNamed) == 1
  {
    var rest := subcommittees[1..];
    if i == 0 {
      forall k | 0 <= k < |rest| ensures !HodNamed(rest[k]) {
        assert rest[k] == subcommittees[k + 1];
      }
      CountPositive(rest, HodNamed);
    } else {
      forall j | 0 <= j < |rest| && j != i - 1 ensures !HodNamed(rest[j]) {
        assert rest[j] == subcommittees[j + 1];
      }
      CountOneNamed(rest, i - 1);
    }
  }

  /** Two rows named "Head Of Delegation": the count is at least two. */
  lemma {:induction false} CountTwoNamed(subcommittees: seq<SubCommitteeRef>, i: nat, j: nat)
    requires i < j < |subcommittees| && HodNamed(subcommittees[i]) && HodNamed(subcommittees[j])
    ensures Count(subcommittees, HodNamed) >= 2
  {
    var rest := subcommittees[1..];
    if i == 0 {
      assert rest[j - 1] == subcommittees[j];
      CountPositive(rest, HodNamed);
    } else {
      assert rest[i - 1] == subcommittees[i] && rest[j - 1] == subcommittees[j];
      CountTwoNamed(rest, i - 1, j - 1);
    }
  }

  /** Exactly one subcommittee named "Head Of Delegation": its id is found. */
  lemma OneHodSubcommittee(subcommittees: seq<SubCommitteeRef>, i: nat)
    requires i < |subcommittees| && subcommittees[i].name == HeadOfDelegationName
    requires forall j :: 0 <= j < |subcommittees| && j != i ==> subcommittees[j].name != HeadOfDelegationName
    ensures HeadOfDelegationSubcommitteeId(subcommittees) == Some(subcommittees[i].id)
  {
    CountOneNamed(subcommittees, i);
    var named := Filter(subcommittees, HodNamed);
    assert named[0] in subcommittees && HodNamed(named[0]);
    var k :| 0 <= k < |subcommittees| && subcommittees[k] == named[0];
    assert k == i;
  }

  /** Two or more subcommittees named "Head Of Delegation": `findByName` throws and the answer is null. */
  lemma SeveralHodSubcommittees(subcommittees: seq<SubCommitteeRef>, i: nat, j: nat)
    requires i < j < |subcommittees|
    requires subcommittees[i].name == HeadOfDelegationName && subcommittees[j].name == HeadOfDelegationName
    ensures HeadOfDelegationSubcommitteeId(subcommittees).None?
  {
    CountTwoNamed(subcommittees, i, j);
  }

  /** findById: the first row with that id. */
  function FindSubcommittee(subcommittees: seq<SubCommitteeRef>, id: nat): (r: Option<SubCommitteeRef>)
    ensures r.Some? ==> r.value in subcommittees && r.value.id == id
    ensures r.None? <==> forall i :: 0 <= i < |subcommittees| ==> subcommittees[i].id != id
  {
    if subcommittees == [] then None
    else if subcommittees[0].id == id then Some(subcommittees[0])
    else FindSubcommittee(subcommittees[1..], id)
  }

  /** isHeadOfDelegationSubcommittee: false for an unknown id, otherwise the exact name test. */
  function IsHeadOfDelegationSubcommittee(subcommittees: seq<SubCommitteeRef>, id: nat): (b: bool)
    ensures b ==> exists i :: 0 <= i < |subcommittees| && subcommittees[i].id == id
                              && subcommittees[i].name == HeadOfDelegationName
    ensures (forall i :: 0 <= i < |subcommittees| ==> subcommittees[i].id != id) ==> !b
    ensures FindSubcommittee(subcommittees, id).Some? && FindSubcommittee(subcommittees, id).value.name == HeadOfDelegationName
            ==> b
  {
    match FindSubcommittee(subcommittees, id)
    case None => false
    case Some(s) => s.name == HeadOfDelegationName
  }

  /**
   * getUserRoleDisplay: "Head of Delegation" for a privileged user, otherwise
   * the role's name. A user without a role makes `toString` throw.
   */
  function UserRoleDisplay(user: User): (r: Option<string>)
    ensures HasHodPrivileges(Some(user)) ==> r == Some("Head of Delegation")
    ensures !HasHodPrivileges(Some(user)) && user.role.Some? ==> r == Some(RoleName(user.role.value))
    ensures r.None? <==> user.role.None?
  {
    if HasHodPrivileges(Some(user)) then Some("Head of Delegation")
    else if user.role.None? then None
    else Some(RoleName(user.role.value))
  }

  /** The display reads "Head of Delegation" exactly when the user is privileged. */
  lemma RoleDisplayIffPrivileged(user: User)
    requires user.role.Some?
    ensures UserRoleDisplay(user) == Some("Head of Delegation") <==> HasHodPrivileges(Some(user))
  {
    if !HasHodPrivileges(Some(user)) {
      var n := RoleName(user.role.value);
      assert n != "Head of Delegation" by {
        match user.role.value
        case Admin => assert n[0] == 'A';
        case Secretary => assert n[0] == 'S';
        case Chair => assert n[0] == 'C';
        case ViceChair => assert n[0] == 'V';
        case Hod => assert n[1] == 'O';
        case CommissionerGeneral => assert n[0] == 'C';
        case SubcommitteeMember => assert n[0] == 'S';
        case DelegationSecretary => assert n[0] == 'D';
        case CommitteeSecretary => assert n[0] == 'C';
        case CommitteeMember => assert n[0] == 'C';
      }
    }
  }
}

=== FILE: invitations.dfy ===
/**
 * InvitationService: a secretary invites chosen users to a meeting, a meeting
 * invites whole committees and subcommittees at once, and an invitee answers.
 * Every recipient is handled on its own: a failure is recorded in the
 * recipient's result and the loop goes on. The sending loops are specified
 * by `SendAll`, a fold of the one-recipient step `SendOne` over the
 * recipients; MeetingService uses the same fold with existing rows left alone.
 */
module Invitations {
  import opened Common
  import opened Domain
  import opened Users
  import opened CountryCommitteeMembers
  import opened MeetingInvitations

  /** One entry of the `results` list: `isNew` tells "Invitation sent" from "Invitation updated". */
  datatype RecipientResult =
    | Sent(recipientId: nat, isNew: bool)
    | Failed(recipientId: nat, message: string)

  function IsSent(r: RecipientResult): bool { r.Sent? }

  function IsFailed(r: RecipientResult): bool { r.Failed? }

  /**
   * One recipient. A missing user, or a pair whose lookup fails because it
   * already has several rows, is a failure that changes nothing. A pair
   * without a row gets a new PENDING row sent now. A pair with one row gets
   * it reset to PENDING and re-sent when `reset` holds (InvitationService) and
   * keeps it untouched otherwise (MeetingService).
   */
  function SendOne(t: InvitationRows, users: map<nat, User>, meetingId: nat, u: nat, now: int, reset: bool)
    : (InvitationRows, RecipientResult)
  {
    if u !in users then (t, Failed(u, "Failed to send invitation: Recipient not found: " + NatToString(u)))
    else match LookupPair(t.invitations, meetingId, u)
      case Err(e) => (t, Failed(u, "Failed to send invitation: " + e))
      case Ok(None) =>
        (InvitationRows(t.invitations[t.nextId := Invitation(t.nextId, meetingId, u, Pending, now, None, None)], t.nextId + 1),
         Sent(u, true))
      case Ok(Some(id)) =>
        if reset then
          (t.(invitations := t.invitations[id := t.invitations[id].(status := Pending, sentAt := now)]), Sent(u, false))
        else (t, Sent(u, false))
  }

  /** The recipients in order, each by `SendOne` on the table the previous ones left. */
  function SendAll(t: InvitationRows, users: map<nat, User>, meetingId: nat, rs: seq<nat>, now: int, reset: bool)
    : (r: (InvitationRows, seq<RecipientResult>))
    ensures |r.1| == |rs|
    decreases |rs|
  {
    if rs == [] then (t, [])
    else
      var prev := SendAll(t, users, meetingId, rs[..|rs| - 1], now, reset);
      var step := SendOne(prev.0, users, meetingId, rs[|rs| - 1], now, reset);
      (step.0, prev.1 + [step.1])
  }

  /** A recipient the step succeeds for: a known user whose pair has at most one row. */
  predicate Eligible(users: map<nat, User>, t: InvitationRows, meetingId: nat, u: nat)
  {
    u in users && |PairIds(t.invitations, meetingId, u)| <= 1
  }

  /** What one step does to the table, and that it touches only the recipient's own pair. */
  lemma SendOneEffect(t: InvitationRows, users: map<nat, User>, m: nat, u: nat, now: int, reset: bool)
    requires RowsValid(t)
    ensures var (t', res) := SendOne(t, users, m, u, now, reset);
      RowsValid(t') && res.recipientId == u && (res.Sent? <==> Eligible(users, t, m, u))
    ensures var t' := SendOne(t, users, m, u, now, reset).0;
      Eligible(users, t, m, u) ==> |PairIds(t'.invitations, m, u)| == 1
    ensures var t' := SendOne(t, users, m, u, now, reset).0;
      reset && Eligible(users, t, m, u) ==>
        forall id :: id in PairIds(t'.invitations, m, u) ==>
          t'.invitations[id].status == Pending && t'.invitations[id].sentAt == now
    ensures var t' := SendOne(t, users, m, u, now, reset).0;
      forall id :: id in t.invitations ==>
        (id in t'.invitations &&
         (!reset || t.invitations[id].meetingId != m || t.invitations[id].userId != u ==>
            t'.invitations[id] == t.invitations[id]))
    ensures var t' := SendOne(t, users, m, u, now, reset).0;
      forall m2, v :: m2 != m || v != u ==> PairIds(t'.invitations, m2, v) == PairIds(t.invitations, m2, v)
    ensures var t' := SendOne(t, users, m, u, now, reset).0;
      forall v :: Eligible(users, t', m, v) <==> Eligible(users, t, m, v)
  {
    var t' := SendOne(t, users, m, u, now, reset).0;
    if u in users {
      match LookupPair(t.invitations, m, u)
      case Err(_) =>
      case Ok(None) =>
        assert PairIds(t'.invitations, m, u) == {t.nextId};
        forall m2, v | m2 != m || v != u
          ensures PairIds(t'.invitations, m2, v) == PairIds(t.invitations, m2, v)
        {
          assert t.nextId !in PairIds(t'.invitations, m2, v);
        }
      case Ok(Some(id)) =>
        assert PairIds(t'.invitations, m, u) == {id};
        forall m2, v | m2 != m || v != u
          ensures PairIds(t'.invitations, m2, v) == PairIds(t.invitations, m2, v)
        {
        }
    }
  }

  /** A step keeps the table well formed and every user's eligibility. */
  lemma SendOneValidEligible(t: InvitationRows, users: map<nat, User>, m: nat, u: nat, now: int, reset: bool)
    requires RowsValid(t)
    ensures RowsValid(SendOne(t, users, m, u, now, reset).0)
    ensures forall v :: Eligible(users, SendOne(t, users, m, u, now, reset).0, m, v) <==> Eligible(users, t, m, v)
  {
    SendOneEffect(t, users, m, u, now, reset);
  }

  /** The whole loop keeps the table well formed and every user's eligibility. */
  lemma {:induction false} SendAllValidEligible(t: InvitationRows, users: map<nat, User>, m: nat, rs: seq<nat>,
                                                now: int, reset: bool)
    requires RowsValid(t)
    ensures RowsValid(SendAll(t, users, m, rs, now, reset).0)
    ensures forall v :: Eligible(users, SendAll(t, users, m, rs, now, reset).0, m, v) <==> Eligible(users, t, m, v)
    decreases |rs|
  {
    if rs != [] {
      var n := |rs| - 1;
      SendAllValidEligible(t, users, m, rs[..n], now, reset);
      SendOneValidEligible(SendAll(t, users, m, rs[..n], now, reset).0, users, m, rs[n], now, reset);
    }
  }

  /**
   * What sending to a list of recipients leaves alone: no row is deleted,
   * rows of other meetings and users keep their values (all rows do when
   * existing rows are not reset), pairs outside the list keep their rows, and
   * every user stays eligible or not as before.
   */
  lemma {:induction false} SendAllFrame(t: InvitationRows, users: map<nat, User>, m: nat, rs: seq<nat>, now: int,
                                        reset: bool)
    requires RowsValid(t)
    ensures var t' := SendAll(t, users, m, rs, now, reset).0; RowsValid(t')
    ensures var t' := SendAll(t, users, m, rs, now, reset).0;
      forall id :: id in t.invitations ==>
        (id in t'.invitations &&
         (!reset || t.invitations[id].meetingId != m || t.invitations[id].userId !in rs ==>
            t'.invitations[id] == t.invitations[id]))
    ensures var t' := SendAll(t, users, m, rs, now, reset).0;
      forall m2, v :: m2 != m || v !in rs ==> PairIds(t'.invitations, m2, v) == PairIds(t.invitations, m2, v)
    ensures var t' := SendAll(t, users, m, rs, now, reset).0;
      forall v :: Eligible(users, t', m, v) <==> Eligible(users, t, m, v)
    decreases |rs|
  {
    if rs != [] {
      var n := |rs| - 1;
      var init := rs[..n];
      SendAllFrame(t, users, m, init, now, reset);
      var prev := SendAll(t, users, m, init, now, reset);
      SendOneEffect(prev.0, users, m, rs[n], now, reset);
      var t' := SendAll(t, users, m, rs, now, reset).0;
      forall m2, v | m2 != m || v !in rs
        ensures PairIds(t'.invitations, m2, v) == PairIds(t.invitations, m2, v)
      {
        assert v !in init ==> v !in rs || v == rs[n];
      }
    }
  }

  /** A recipient succeeds exactly when it is eligible in the table before the loop. */
  lemma {:induction false} SendAllResults(t: InvitationRows, users: map<nat, User>, m: nat, rs: seq<nat>, now: int,
                                          reset: bool)
    requires RowsValid(t)
    ensures var res := SendAll(t, users, m, rs, now, reset).1;
      forall i :: 0 <= i < |rs| ==> res[i].recipientId == rs[i] && (res[i].Sent? <==> Eligible(users, t, m, rs[i]))
    decreases |rs|
  {
    if rs != [] {
      var n := |rs| - 1;
      var init := rs[..n];
      SendAllResults(t, users, m, init, now, reset);
      SendAllValidEligible(t, users, m, init, now, reset);
      var prev := SendAll(t, users, m, init, now, reset);
      SendOneEffect(prev.0, users, m, rs[n], now, reset);
      var res := SendAll(t, users, m, rs, now, reset).1;
      forall i | 0 <= i < |rs|
        ensures res[i].recipientId == rs[i] && (res[i].Sent? <==> Eligible(users, t, m, rs[i]))
      {
        if i < n {
          assert init[i] == rs[i] && res[i] == prev.1[i];
        }
      }
    }
  }

  /** Afterwards each successful recipient has exactly one row for the meeting. */
  lemma {:induction false} SendAllOneRow(t: InvitationRows, users: map<nat, User>, m: nat, rs: seq<nat>, now: int,
                                         reset: bool)
    requires RowsValid(t)
    ensures var t' := SendAll(t, users, m, rs, now, reset).0;
      forall i :: 0 <= i < |rs| && Eligible(users, t, m, rs[i]) ==> |PairIds(t'.invitations, m, rs[i])| == 1
    decreases |rs|
  {
    if rs != [] {
      var n := |rs| - 1;
      var init := rs[..n];
      var u := rs[n];
      SendAllOneRow(t, users, m, init, now, reset);
      SendAllValidEligible(t, users, m, init, now, reset);
      var prev := SendAll(t, users, m, init, now, reset);
      SendOneEffect(prev.0, users, m, u, now, reset);
      var t' := SendAll(t, users, m, rs, now, reset).0;
      forall i | 0 <= i < |rs| && Eligible(users, t, m, rs[i])
        ensures |PairIds(t'.invitations, m, rs[i])| == 1
      {
        if rs[i] != u {
          assert i < n && init[i] == rs[i];
        }
      }
    }
  }

  /** Every row of the pair is PENDING and was sent at `now`. */
  ghost predicate PairPending(t: InvitationRows, m: nat, u: nat, now: int)
  {
    forall id :: id in PairIds(t.invitations, m, u) ==>
      t.invitations[id].status == Pending && t.invitations[id].sentAt == now
  }

  /** A resetting step leaves the recipient's pair PENDING and sent now, and other pairs as they were. */
  lemma SendOnePending(t: InvitationRows, users: map<nat, User>, m: nat, u: nat, now: int)
    requires RowsValid(t)
    ensures Eligible(users, t, m, u) ==> PairPending(SendOne(t, users, m, u, now, true).0, m, u, now)
    ensures forall v :: v != u && PairPending(t, m, v, now) ==> PairPending(SendOne(t, users, m, u, now, true).0, m, v, now)
  {
    var t' := SendOne(t, users, m, u, now, true).0;
    forall v | v != u && PairPending(t, m, v, now)
      ensures PairPending(t', m, v, now)
    {
      assert forall id :: id in PairIds(t'.invitations, m, v) ==> id in PairIds(t.invitations, m, v);
    }
    if Eligible(users, t, m, u) {
      match LookupPair(t.invitations, m, u)
      case Ok(None) =>
        assert PairIds(t'.invitations, m, u) == {t.nextId};
      case Ok(Some(id)) =>
        assert PairIds(t'.invitations, m, u) == {id};
    }
  }

  /** When existing rows are reset, every row of a successful recipient's pair is PENDING and sent now. */
  lemma {:induction false} SendAllPending(t: InvitationRows, users: map<nat, User>, m: nat, rs: seq<nat>, now: int)
    requires RowsValid(t)
    ensures forall i :: 0 <= i < |rs| && Eligible(users, t, m, rs[i]) ==>
      PairPending(SendAll(t, users, m, rs, now, true).0, m, rs[i], now)
    decreases |rs|
  {
    if rs != [] {
      var n := |rs| - 1;
      var init := rs[..n];
      var u := rs[n];
      SendAllPending(t, users, m, init, now);
      SendAllValidEligible(t, users, m, init, now, true);
      var prev := SendAll(t, users, m, init, now, true);
      SendOnePending(prev.0, users, m, u, now);
      forall i | 0 <= i < |rs| && Eligible(users, t, m, rs[i])
        ensures PairPending(SendAll(t, users, m, rs, now, true).0, m, rs[i], now)
      {
        if rs[i] != u {
          assert i < n && init[i] == rs[i];
        }
      }
    }
  }

  /** The checks before the loop, in the source's order; `None` when all pass. */
  function SendGuard(meetings: map<nat, Meeting>, users: map<nat, User>, meetingId: nat, senderId: nat)
    : (r: Option<string>)
    ensures r.None? <==>
      meetingId in meetings && senderId in users && users[senderId].role == Some(Secretary) &&
      meetings[meetingId].hostingCountry.Some? && users[senderId].country.Some? &&
      meetings[meetingId].hostingCountry.value.id == users[senderId].country.value.id
    ensures meetingId !in meetings ==> r == Some("Meeting not found")
    ensures meetingId in meetings && senderId !in users ==> r == Some("Sender not found")
  {
    if meetingId !in meetings then Some("Meeting not found")
    else if senderId !in users then Some("Sender not found")
    else if users[senderId].role != Some(Secretary) then Some("Only secretaries can send meeting invitations")
    else if meetings[meetingId].hostingCountry.None? || users[senderId].country.None? then Some("NullPointerException")
    else if meetings[meetingId].hostingCountry.value.id != users[senderId].country.value.id then
      Some("Secretary can only send invitations for meetings in their country")
    else None
  }

  /**
   * Only the plain SECRETARY role may send: a committee or delegation
   * secretary of the hosting country is refused, although the secretary
   * validators count both as secretaries.
   */
  lemma OnlyPlainSecretariesSend(meetings: map<nat, Meeting>, users: map<nat, User>, meetingId: nat, senderId: nat)
    requires meetingId in meetings && senderId in users
    requires users[senderId].role in {Some(CommitteeSecretary), Some(DelegationSecretary)}
    ensures SendGuard(meetings, users, meetingId, senderId) == Some("Only secretaries can send meeting invitations")
  {
  }

  /** The summary sendInvitations answers with. */
  datatype SendSummary = SendSummary(totalSent: nat, successCount: nat, failureCount: nat, results: seq<RecipientResult>)

  /** One recipient of a sending loop, on the table itself. */
  method SendTo(table: InvitationTable, users: map<nat, User>, meetingId: nat, u: nat, now: int, reset: bool)
    returns (res: RecipientResult)
    requires table.Valid()
    modifies table
    ensures table.Valid()
    ensures (table.State(), res) == SendOne(old(table.State()), users, meetingId, u, now, reset)
  {
    SendOneEffect(table.State(), users, meetingId, u, now, reset);
    if u !in users {
      return Failed(u, "Failed to send invitation: Recipient not found: " + NatToString(u));
    }
    match LookupPair(table.invitations, meetingId, u)
    case Err(e) =>
      res := Failed(u, "Failed to send invitation: " + e);
    case Ok(None) =>
      var _ := table.Insert(meetingId, u, Pending, now, None, None);
      res := Sent(u, true);
    case Ok(Some(id)) =>
      if reset {
        table.invitations := table.invitations[id := table.invitations[id].(status := Pending, sentAt := now)];
      }
      res := Sent(u, false);
  }

  /** The fold over one more recipient is one more step on the fold so far. */
  lemma SendAllSnoc(t: InvitationRows, users: map<nat, User>, meetingId: nat, rs: seq<nat>, i: nat, now: int, reset: bool)
    requires i < |rs|
    ensures var prev := SendAll(t, users, meetingId, rs[..i], now, reset);
      var step := SendOne(prev.0, users, meetingId, rs[i], now, reset);
      SendAll(t, users, meetingId, rs[..i + 1], now, reset) == (step.0, prev.1 + [step.1])
  {
    assert rs[..i + 1][..i] == rs[..i];
  }

  /** The loop over the recipients, in order, shared by the services that send to a list of users. */
  method SendSequence(table: InvitationTable, users: map<nat, User>, meetingId: nat, rs: seq<nat>, now: int, reset: bool)
    returns (results: seq<RecipientResult>, successCount: nat)
    requires table.Valid()
    modifies table
    ensures table.Valid()
    ensures (table.State(), results) == SendAll(old(table.State()), users, meetingId, rs, now, reset)
    ensures successCount == Count(results, IsSent) && successCount <= |rs|
  {
    ghost var start := table.State();
    results := [];
    successCount := 0;
    var i := 0;
    while i < |rs|
      invariant 0 <= i <= |rs|
      invariant table.Valid()
      invariant table.State() == SendAll(start, users, meetingId, rs[..i], now, reset).0
      invariant results == SendAll(start, users, meetingId, rs[..i], now, reset).1
      invariant successCount == Count(results, IsSent) && successCount <= i
    {
      SendAllSnoc(start, users, meetingId, rs, i, now, reset);
      var res := SendTo(table, users, meetingId, rs[i], now, reset);
      CountSnoc(results, res, IsSent);
      results := results + [res];
      if res.Sent? {
        successCount := successCount + 1;
      }
      i := i + 1;
    }
    assert rs[..i] == rs;
  }

  /**
   * sendInvitations: nothing is written when a check fails; otherwise every
   * recipient is sent to in order, with one result each, and the counts
   * split the recipients.
   */
  method SendInvitations(table: InvitationTable, meetings: map<nat, Meeting>, users: map<nat, User>,
                         meetingId: nat, senderId: nat, recipientIds: seq<nat>, now: int)
    returns (r: Result<SendSummary, string>)
    requires table.Valid()
    modifies table
    ensures table.Valid()
    ensures SendGuard(meetings, users, meetingId, senderId).Some? ==>
      r == Err(SendGuard(meetings, users, meetingId, senderId).value) && table.State() == old(table.State())
    ensures SendGuard(meetings, users, meetingId, senderId).None? ==>
      r.Ok? && (table.State(), r.value.results) == SendAll(old(table.State()), users, meetingId, recipientIds, now, true)
    ensures r.Ok? ==>
      r.value.totalSent == |recipientIds| && r.value.successCount + r.value.failureCount == |recipientIds| &&
      r.value.successCount == Count(r.value.results, IsSent)
  {
    var guard := SendGuard(meetings, users, meetingId, senderId);
    if guard.Some? {
      return Err(guard.value);
    }
    var results, successCount := SendSequence(table, users, meetingId, recipientIds, now, true);
    r := Ok(SendSummary(|recipientIds|, successCount, |recipientIds| - successCount, results));
  }

  /**
   * After a successful send, every recipient that was eligible holds exactly
   * one invitation for the meeting, PENDING and sent now, and the others'
   * invitations to this meeting are as before.
   */
  lemma SendInvitationsOutcome(t: InvitationRows, users: map<nat, User>, m: nat, rs: seq<nat>, now: int)
    requires RowsValid(t)
    ensures var (t', res) := SendAll(t, users, m, rs, now, true);
      forall i :: 0 <= i < |rs| && res[i].Sent? ==>
        |PairIds(t'.invitations, m, rs[i])| == 1 && PairPending(t', m, rs[i], now)
    ensures var t' := SendAll(t, users, m, rs, now, true).0;
      forall v :: v !in rs ==> PairIds(t'.invitations, m, v) == PairIds(t.invitations, m, v)
  {
    SendAllResults(t, users, m, rs, now, true);
    SendAllOneRow(t, users, m, rs, now, true);
    SendAllPending(t, users, m, rs, now);
    SendAllFrame(t, users, m, rs, now, true);
  }

  /** respondToInvitation: the status name is parsed ignoring case before anything is written. */
  method RespondToInvitation(table: InvitationTable, invitationId: nat, status: string, comment: Option<string>, now: int)
    returns (r: Result<Invitation, string>)
    requires table.Valid()
    modifies table
    ensures table.Valid() && table.nextId == old(table.nextId)
    ensures invitationId !in old(table.invitations) ==>
      r == Err("Invitation not found") && table.invitations == old(table.invitations)
    ensures invitationId in old(table.invitations) && ParseStatus(status).None? ==>
      r == Err("Invalid status. Must be: PENDING, ACCEPTED, DECLINED, or MAYBE") &&
      table.invitations == old(table.invitations)
    ensures invitationId in old(table.invitations) && ParseStatus(status).Some? ==>
      r == Ok(Responded(old(table.invitations)[invitationId], ParseStatus(status).value, comment, now)) &&
      table.invitations == old(table.invitations)[invitationId := r.value]
  {
    if invitationId !in table.invitations {
      return Err("Invitation not found");
    }
    var parsed := ParseStatus(status);
    if parsed.None? {
      return Err("Invalid status. Must be: PENDING, ACCEPTED, DECLINED, or MAYBE");
    }
    var saved := table.RespondToInvitation(invitationId, parsed.value, comment, now);
    r := Ok(saved.value);
  }

  // ---------------------------------------------------------------------
  // Bulk invitations

  /**
   * The users a committee's members resolve to through their email, in
   * member order; a member without an email, or whose email no user has,
   * is skipped.
   */
  function CommitteeUsers(users: map<nat, User>, members: seq<CountryMember>, committeeId: nat): (r: seq<nat>)
    requires UniqueEmails(users)
    ensures forall u :: u in r ==> u in users
    ensures forall u :: u in r <==> u in users && MemberOf(users[u], members, committeeId)
    decreases |members|
  {
    if members == [] then []
    else
      var m := members[0];
      var rest := CommitteeUsers(users, members[1..], committeeId);
      var found := if m.committeeId == Some(committeeId) && m.email.Some? then LookupEmail(users, m.email.value) else None;
      if found.Some? then [found.value] + rest else rest
  }

  /** Some member row of the committee carries the user's email. */
  predicate MemberOf(user: User, members: seq<CountryMember>, committeeId: nat)
  {
    exists k :: 0 <= k < |members| && members[k].committeeId == Some(committeeId) && members[k].email == Some(user.email)
  }

  /** `findBySubcommitteeId`: the users of the subcommittee. */
  function SubcommitteeUsers(users: map<nat, User>, subcommitteeId: nat): set<nat>
  {
    set u | u in users && users[u].subcommittee.Some? && users[u].subcommittee.value.id == subcommitteeId
  }

  /** The union of the users of the known committees among `ids`. */
  function CommitteeRecipients(users: map<nat, User>, members: seq<CountryMember>, committees: set<nat>, ids: seq<nat>)
    : set<nat>
    requires UniqueEmails(users)
    decreases |ids|
  {
    if ids == [] then {}
    else
      var n := |ids| - 1;
      var prev := CommitteeRecipients(users, members, committees, ids[..n]);
      if ids[n] in committees then prev + set u | u in CommitteeUsers(users, members, ids[n]) else prev
  }

  /** A user is a committee recipient exactly when one of the known committees named has the user as a member. */
  lemma {:induction false} CommitteeRecipientsMembers(users: map<nat, User>, members: seq<CountryMember>,
                                                      committees: set<nat>, ids: seq<nat>)
    requires UniqueEmails(users)
    ensures forall u :: u in CommitteeRecipients(users, members, committees, ids) <==>
      u in users && exists i :: 0 <= i < |ids| && ids[i] in committees && MemberOf(users[u], members, ids[i])
    decreases |ids|
  {
    if ids != [] {
      var n := |ids| - 1;
      CommitteeRecipientsMembers(users, members, committees, ids[..n]);
      assert forall i :: 0 <= i < n ==> ids[..n][i] == ids[i];
    }
  }

  /** The union of the users of the known subcommittees among `ids`. */
  function SubcommitteeRecipients(users: map<nat, User>, subcommittees: set<nat>, ids: seq<nat>): set<nat>
    decreases |ids|
  {
    if ids == [] then {}
    else
      var n := |ids| - 1;
      var prev := SubcommitteeRecipients(users, subcommittees, ids[..n]);
      if ids[n] in subcommittees then prev + SubcommitteeUsers(users, ids[n]) else prev
  }

  /** A user is a subcommittee recipient exactly when it belongs to one of the known subcommittees named. */
  lemma {:induction false} SubcommitteeRecipientsMembers(users: map<nat, User>, subcommittees: set<nat>, ids: seq<nat>)
    ensures forall u :: u in SubcommitteeRecipients(users, subcommittees, ids) <==>
      u in users && users[u].subcommittee.Some? &&
      exists i :: 0 <= i < |ids| && ids[i] in subcommittees && users[u].subcommittee.value.id == ids[i]
    decreases |ids|
  {
    if ids != [] {
      var n := |ids| - 1;
      SubcommitteeRecipientsMembers(users, subcommittees, ids[..n]);
      assert forall i :: 0 <= i < n ==> ids[..n][i] == ids[i];
    }
  }

  /** The number of ids that name nothing. */
  function UnknownCount(known: set<nat>, ids: seq<nat>): (n: nat)
    ensures n <= |ids|
    decreases |ids|
  {
    if ids == [] then 0
    else UnknownCount(known, ids[..|ids| - 1]) + (if ids[|ids| - 1] in known then 0 else 1)
  }

  /** No group error is counted exactly when every id names a known group. */
  lemma {:induction false} UnknownCountZero(known: set<nat>, ids: seq<nat>)
    ensures UnknownCount(known, ids) == 0 <==> forall i :: 0 <= i < |ids| ==> ids[i] in known
    decreases |ids|
  {
    if ids != [] {
      var n := |ids| - 1;
      UnknownCountZero(known, ids[..n]);
      assert forall i :: 0 <= i < n ==> ids[..n][i] == ids[i];
    }
  }

  datatype GroupKind = CommitteeGroup | SubcommitteeGroup

  /** One entry of the bulk `results` list, per committee or subcommittee id. */
  datatype GroupResult =
    | GroupSent(kind: GroupKind, id: nat, memberCount: nat)
    | GroupFailed(kind: GroupKind, id: nat, error: string)

  function CommitteeResult(users: map<nat, User>, members: seq<CountryMember>, committees: set<nat>, id: nat)
    : (g: GroupResult)
    requires UniqueEmails(users)
    ensures g.GroupFailed? <==> id !in committees
  {
    if id in committees then GroupSent(CommitteeGroup, id, |CommitteeUsers(users, members, id)|)
    else GroupFailed(CommitteeGroup, id, "Committee not found: " + NatToString(id))
  }

  function SubcommitteeResult(users: map<nat, User>, subcommittees: set<nat>, id: nat): (g: GroupResult)
    ensures g.GroupFailed? <==> id !in subcommittees
  {
    if id in subcommittees then GroupSent(SubcommitteeGroup, id, |SubcommitteeUsers(users, id)|)
    else GroupFailed(SubcommitteeGroup, id, "Subcommittee not found: " + NatToString(id))
  }

  /** The committee entries of the bulk `results` list, one per id in order. */
  function CommitteeResults(users: map<nat, User>, members: seq<CountryMember>, committees: set<nat>, ids: seq<nat>)
    : (r: seq<GroupResult>)
    requires UniqueEmails(users)
    ensures |r| == |ids|
    decreases |ids|
  {
    if ids == [] then []
    else CommitteeResults(users, members, committees, ids[..|ids| - 1]) +
         [CommitteeResult(users, members, committees, ids[|ids| - 1])]
  }

  /** The subcommittee entries of the bulk `results` list, one per id in order. */
  function SubcommitteeResults(users: map<nat, User>, subcommittees: set<nat>, ids: seq<nat>): (r: seq<GroupResult>)
    ensures |r| == |ids|
    decreases |ids|
  {
    if ids == [] then []
    else SubcommitteeResults(users, subcommittees, ids[..|ids| - 1]) +
         [SubcommitteeResult(users, subcommittees, ids[|ids| - 1])]
  }

  /** Entry `k` reports on id `k`: a failure exactly for an unknown committee, else its member count. */
  lemma {:induction false} CommitteeResultsAt(users: map<nat, User>, members: seq<CountryMember>, committees: set<nat>,
                                              ids: seq<nat>, k: nat)
    requires UniqueEmails(users) && k < |ids|
    ensures CommitteeResults(users, members, committees, ids)[k] == CommitteeResult(users, members, committees, ids[k])
    decreases |ids|
  {
    var n := |ids| - 1;
    if k < n {
      CommitteeResultsAt(users, members, committees, ids[..n], k);
    }
  }

  /** Entry `k` reports on id `k`: a failure exactly for an unknown subcommittee, else its member count. */
  lemma {:induction false} SubcommitteeResultsAt(users: map<nat, User>, subcommittees: set<nat>, ids: seq<nat>, k: nat)
    requires k < |ids|
    ensures SubcommitteeResults(users, subcommittees, ids)[k] == SubcommitteeResult(users, subcommittees, ids[k])
    decreases |ids|
  {
    var n := |ids| - 1;
    if k < n {
      SubcommitteeResultsAt(users, subcommittees, ids[..n], k);
    }
  }

  /** `order` lists every element of `s` exactly once. */
  ghost predicate IsEnumeration(order: seq<nat>, s: set<nat>)
  {
    |order| == |s| && forall u :: u in order <==> u in s
  }

  /** The counters sendBulkInvitations answers with. */
  datatype BulkSummary = BulkSummary(totalRecipients: nat, successCount: nat, errorCount: nat, groups: seq<GroupResult>)

  /**
   * sendBulkInvitations: the users of the known committees and subcommittees
   * are gathered into one set, and each of them, in some order, is sent to
   * with existing invitations reset. Every unknown group id and every failed
   * recipient adds one error.
   */
  method SendBulkInvitations(table: InvitationTable, meetings: map<nat, Meeting>, users: map<nat, User>,
                             members: seq<CountryMember>, committees: set<nat>, subcommittees: set<nat>,
                             meetingId: nat, committeeIds: seq<nat>, subcommitteeIds: seq<nat>, now: int)
    returns (r: Result<BulkSummary, string>)
    requires table.Valid() && UniqueEmails(users)
    modifies table
    ensures table.Valid()
    ensures meetingId !in meetings ==> r == Err("Meeting not found") && table.State() == old(table.State())
    ensures meetingId in meetings ==> r.Ok?
    ensures r.Ok? ==>
      var recipients := CommitteeRecipients(users, members, committees, committeeIds) +
                        SubcommitteeRecipients(users, subcommittees, subcommitteeIds);
      r.value.totalRecipients == |recipients| &&
      r.value.groups == CommitteeResults(users, members, committees, committeeIds) +
                        SubcommitteeResults(users, subcommittees, subcommitteeIds) &&
      exists order :: IsEnumeration(order, recipients) &&
        var (t', res) := SendAll(old(table.State()), users, meetingId, order, now, true);
        table.State() == t' && r.value.successCount == Count(res, IsSent) &&
        r.value.successCount + r.value.errorCount ==
          |recipients| + UnknownCount(committees, committeeIds) + UnknownCount(subcommittees, subcommitteeIds)
  {
    if meetingId !in meetings {
      return Err("Meeting not found");
    }
    var committeeRecipients, committeeGroups, committeeErrors := GatherCommittees(users, members, committees, committeeIds);
    var subcommitteeRecipients, subcommitteeGroups, subcommitteeErrors :=
      GatherSubcommittees(users, subcommittees, subcommitteeIds);
    var recipients := committeeRecipients + subcommitteeRecipients;
    var successCount, failures := SendToEach(table, users, meetingId, recipients, now);
    r := Ok(BulkSummary(|recipients|, successCount, committeeErrors + subcommitteeErrors + failures,
                        committeeGroups + subcommitteeGroups));
  }

  /** The committee loop of sendBulkInvitations: one result per id, and the users of the known committees. */
  method GatherCommittees(users: map<nat, User>, members: seq<CountryMember>, committees: set<nat>, ids: seq<nat>)
    returns (recipients: set<nat>, groups: seq<GroupResult>, errors: nat)
    requires UniqueEmails(users)
    ensures recipients == CommitteeRecipients(users, members, committees, ids)
    ensures errors == UnknownCount(committees, ids)
    ensures groups == CommitteeResults(users, members, committees, ids)
  {
    recipients, groups, errors := {}, [], 0;
    var i := 0;
    while i < |ids|
      invariant 0 <= i <= |ids|
      invariant recipients == CommitteeRecipients(users, members, committees, ids[..i])
      invariant errors == UnknownCount(committees, ids[..i])
      invariant groups == CommitteeResults(users, members, committees, ids[..i])
    {
      assert ids[..i + 1][..i] == ids[..i];
      var id := ids[i];
      groups := groups + [CommitteeResult(users, members, committees, id)];
      if id in committees {
        recipients := recipients + set u | u in CommitteeUsers(users, members, id);
      } else {
        errors := errors + 1;
      }
      i := i + 1;
    }
    assert ids[..i] == ids;
  }

  /** The subcommittee loop of sendBulkInvitations. */
  method GatherSubcommittees(users: map<nat, User>, subcommittees: set<nat>, ids: seq<nat>)
    returns (recipients: set<nat>, groups: seq<GroupResult>, errors: nat)
    ensures recipients == SubcommitteeRecipients(users, subcommittees, ids)
    ensures errors == UnknownCount(subcommittees, ids)
    ensures groups == SubcommitteeResults(users, subcommittees, ids)
  {
    recipients, groups, errors := {}, [], 0;
    var i := 0;
    while i < |ids|
      invariant 0 <= i <= |ids|
      invariant recipients == SubcommitteeRecipients(users, subcommittees, ids[..i])
      invariant errors == UnknownCount(subcommittees, ids[..i])
      invariant groups == SubcommitteeResults(users, subcommittees, ids[..i])
    {
      var id := ids[i];
      assert ids[..i + 1][..i] == ids[..i] && ids[..i + 1][i] == id;
      assert SubcommitteeRecipients(users, subcommittees, ids[..i + 1]) ==
        if id in subcommittees then recipients + SubcommitteeUsers(users, id) else recipients;
      groups := groups + [SubcommitteeResult(users, subcommittees, id)];
      if id in subcommittees {
        recipients := recipients + SubcommitteeUsers(users, id);
      } else {
        errors := errors + 1;
      }
      i := i + 1;
    }
    assert ids[..i] == ids;
  }

  /** The loop over the recipient set: each member once, in the set's iteration order. */
  method SendToEach(table: InvitationTable, users: map<nat, User>, meetingId: nat, recipients: set<nat>, now: int)
    returns (successCount: nat, failures: nat)
    requires table.Valid()
    modifies table
    ensures table.Valid()
    ensures successCount + failures == |recipients|
    ensures exists order ::
      (IsEnumeration(order, recipients) &&
       var (t', res) := SendAll(old(table.State()), users, meetingId, order, now, true);
       table.State() == t' && successCount == Count(res, IsSent))
  {
    var remaining := recipients;
    ghost var order: seq<nat> := [];
    ghost var results: seq<RecipientResult> := [];
    successCount, failures := 0, 0;
    while remaining != {}
      invariant remaining <= recipients
      invariant forall u :: u in order <==> u in recipients && u !in remaining
      invariant |order| + |remaining| == |recipients|
      invariant table.Valid()
      invariant (table.State(), results) == SendAll(old(table.State()), users, meetingId, order, now, true)
      invariant successCount + failures == |order| && successCount == Count(results, IsSent)
      decreases |remaining|
    {
      var u :| u in remaining;
      assert (order + [u])[..|order|] == order;
      var res := SendTo(table, users, meetingId, u, now, true);
      CountSnoc(results, res, IsSent);
      results := results + [res];
      order := order + [u];
      remaining := remaining - {u};
      if res.Sent? {
        successCount := successCount + 1;
      } else {
        failures := failures + 1;
      }
    }
    assert IsEnumeration(order, recipients);
  }

  /** Every bulk recipient is a known user, so a recipient fails only on a pair that already has several rows. */
  lemma BulkRecipientsAreUsers(users: map<nat, User>, members: seq<CountryMember>, committees: set<nat>,
                               subcommittees: set<nat>, committeeIds: seq<nat>, subcommitteeIds: seq<nat>)
    requires UniqueEmails(users)
    ensures forall u ::
      u in CommitteeRecipients(users, members, committees, committeeIds) + SubcommitteeRecipients(users, subcommittees, subcommitteeIds)
      ==> u in users
  {
    CommitteeRecipientsMembers(users, members, committees, committeeIds);
    SubcommitteeRecipientsMembers(users, subcommittees, subcommitteeIds);
  }
}

=== FILE: meeting_invitations.dfy ===
/**
 * The meeting invitation table and the service that edits single rows of it.
 * Nothing in the table stops two rows for the same (meeting, user) pair; the
 * repository's `findByMeetingIdAndUserId` then fails, which is why the
 * pair lookup answers with an error rather than picking a row.
 */
module MeetingInvitations {
  import opened Common

  /** `MeetingInvitation.InvitationStatus`. */
  datatype InvitationStatus = Pending | Accepted | Declined | Maybe

  function StatusName(s: InvitationStatus): string
  {
    match s
    case Pending => "PENDING"
    case Accepted => "ACCEPTED"
    case Declined => "DECLINED"
    case Maybe => "MAYBE"
  }

  /** `InvitationStatus.valueOf(name.toUpperCase())`; `None` where `valueOf` throws. */
  function ParseStatus(name: string): (r: Option<InvitationStatus>)
    ensures r.Some? ==> StatusName(r.value) == Upper(name)
    ensures r.None? <==> forall s: InvitationStatus :: StatusName(s) != Upper(name)
  {
    var u := Upper(name);
    if u == "PENDING" then Some(Pending)
    else if u == "ACCEPTED" then Some(Accepted)
    else if u == "DECLINED" then Some(Declined)
    else if u == "MAYBE" then Some(Maybe)
    else None
  }

  /** Any spelling of a status name that upper-cases to it parses to that status. */
  lemma ParseIgnoresCase(name: string, s: InvitationStatus)
    requires Upper(name) == StatusName(s)
    ensures ParseStatus(name) == Some(s)
  {
  }

  /** A row of `meeting_invitations`, with the meeting and the user kept by id. */
  datatype Invitation = Invitation(
    id: nat,
    meetingId: nat,
    userId: nat,
    status: InvitationStatus,
    sentAt: int,
    respondedAt: Option<int>,
    responseComment: Option<string>)

  /** The rows for one (meeting, user) pair. */
  function PairIds(invs: map<nat, Invitation>, meetingId: nat, userId: nat): (ids: set<nat>)
    ensures forall id :: id in ids <==> id in invs && invs[id].meetingId == meetingId && invs[id].userId == userId
  {
    set id | id in invs && invs[id].meetingId == meetingId && invs[id].userId == userId
  }

  /**
   * `findByMeetingIdAndUserId`: nothing, the pair's only row, or a failure
   * when the pair has several rows (the query's result is not unique).
   */
  function LookupPair(invs: map<nat, Invitation>, meetingId: nat, userId: nat): (r: Result<Option<nat>, string>)
    ensures r == Ok(None) <==> PairIds(invs, meetingId, userId) == {}
    ensures r.Ok? && r.value.Some? ==> PairIds(invs, meetingId, userId) == {r.value.value}
    ensures r.Err? <==> |PairIds(invs, meetingId, userId)| >= 2
  {
    UniqueRow(PairIds(invs, meetingId, userId))
  }

  /** A new row for a pair that already has one makes every later lookup of the pair fail. */
  lemma SecondRowBreaksLookup(invs: map<nat, Invitation>, k: nat, inv: Invitation)
    requires k !in invs && PairIds(invs, inv.meetingId, inv.userId) != {}
    ensures LookupPair(invs[k := inv], inv.meetingId, inv.userId).Err?
  {
    var old_id :| old_id in PairIds(invs, inv.meetingId, inv.userId);
    var ids := PairIds(invs[k := inv], inv.meetingId, inv.userId);
    assert {old_id, k} <= ids;
    assert |{old_id, k}| == 2;
    assert |ids| >= |{old_id, k}| by {
      SubsetCard({old_id, k}, ids);
    }
  }

  /** The fields of a request body that the create and update paths read; `None` is JSON null. */
  datatype InvitationDetails = InvitationDetails(
    meetingId: Option<nat>,
    userId: Option<nat>,
    status: Option<InvitationStatus>,
    respondedAt: Option<int>,
    responseComment: Option<string>)

  /**
   * updateInvitation on one row: a status or a comment replaces the stored one
   * only when supplied, and the response time is stamped only when a status
   * other than PENDING is supplied.
   */
  function Updated(inv: Invitation, details: InvitationDetails, now: int): (r: Invitation)
    ensures r.id == inv.id && r.meetingId == inv.meetingId && r.userId == inv.userId && r.sentAt == inv.sentAt
    ensures r.status == (if details.status.Some? then details.status.value else inv.status)
    ensures r.responseComment == (if details.responseComment.Some? then details.responseComment else inv.responseComment)
    ensures r.respondedAt != inv.respondedAt ==> r.respondedAt == Some(now)
    ensures r.respondedAt == Some(now) <==>
              (details.status.Some? && details.status.value != Pending) || inv.respondedAt == Some(now)
  {
    inv.(status := if details.status.Some? then details.status.value else inv.status,
         responseComment := if details.responseComment.Some? then details.responseComment else inv.responseComment,
         respondedAt := if details.status.Some? && details.status.value != Pending then Some(now) else inv.respondedAt)
  }

  /** An update that supplies neither status nor comment leaves the row as it was. */
  lemma EmptyUpdateChangesNothing(inv: Invitation, details: InvitationDetails, now: int)
    requires details.status.None? && details.responseComment.None?
    ensures Updated(inv, details, now) == inv
  {
  }

  /** respondToInvitation on one row: status and comment are overwritten and the time always stamped. */
  function Responded(inv: Invitation, status: InvitationStatus, comment: Option<string>, now: int): (r: Invitation)
    ensures r.id == inv.id && r.meetingId == inv.meetingId && r.userId == inv.userId && r.sentAt == inv.sentAt
    ensures r.status == status && r.responseComment == comment && r.respondedAt == Some(now)
  {
    inv.(status := status, responseComment := comment, respondedAt := Some(now))
  }

  /** A PENDING answer is stamped by respond but not by update. */
  lemma RespondStampsEvenPending(inv: Invitation, now: int)
    requires inv.respondedAt != Some(now)
    ensures Responded(inv, Pending, None, now).respondedAt == Some(now)
    ensures Updated(inv, InvitationDetails(None, None, Some(Pending), None, None), now).respondedAt == inv.respondedAt
  {
  }

  /** The contents of the invitation table: its rows by id and the id the next new row gets. */
  datatype InvitationRows = InvitationRows(invitations: map<nat, Invitation>, nextId: nat)

  /** Every row is stored under its own id, and every id is below the next one. */
  ghost predicate RowsValid(t: InvitationRows)
  {
    forall id :: id in t.invitations ==> t.invitations[id].id == id && id < t.nextId
  }

  class InvitationTable {
    var invitations: map<nat, Invitation>
    var nextId: nat

    function State(): InvitationRows
      reads this
    {
      InvitationRows(invitations, nextId)
    }

    ghost predicate Valid()
      reads this
    {
      RowsValid(State())
    }

    constructor ()
      ensures Valid() && invitations == map[]
    {
      invitations := map[];
      nextId := 1;
    }

    /** `save` of a new row: it gets the next id. */
    method Insert(meetingId: nat, userId: nat, status: InvitationStatus, sentAt: int,
                  respondedAt: Option<int>, comment: Option<string>) returns (saved: Invitation)
      requires Valid()
      modifies this
      ensures Valid() && nextId == old(nextId) + 1
      ensures saved == Invitation(old(nextId), meetingId, userId, status, sentAt, respondedAt, comment)
      ensures invitations == old(invitations)[old(nextId) := saved]
    {
      saved := Invitation(nextId, meetingId, userId, status, sentAt, respondedAt, comment);
      invitations := invitations[nextId := saved];
      nextId := nextId + 1;
    }

    /**
     * createInvitation: nothing without a meeting and a user; otherwise a new
     * row, PENDING and sent now whatever the request said. Nothing checks
     * whether the pair already has a row.
     */
    method CreateInvitation(details: InvitationDetails, now: int) returns (r: Option<Invitation>)
      requires Valid()
      modifies this
      ensures Valid()
      ensures details.meetingId.None? || details.userId.None? ==>
                r.None? && invitations == old(invitations) && nextId == old(nextId)
      ensures details.meetingId.Some? && details.userId.Some? ==>
                r == Some(Invitation(old(nextId), details.meetingId.value, details.userId.value, Pending, now,
                                     details.respondedAt, details.responseComment)) &&
                invitations == old(invitations)[old(nextId) := r.value] && nextId == old(nextId) + 1
    {
      if details.meetingId.None? || details.userId.None? {
        return None;
      }
      var saved := Insert(details.meetingId.value, details.userId.value, Pending, now,
                          details.respondedAt, details.responseComment);
      r := Some(saved);
    }

    /** updateInvitation: nothing for an unknown id, otherwise `Updated`. */
    method UpdateInvitation(id: nat, details: InvitationDetails, now: int) returns (r: Option<Invitation>)
      requires Valid()
      modifies this
      ensures Valid() && nextId == old(nextId)
      ensures id !in old(invitations) ==> r.None? && invitations == old(invitations)
      ensures id in old(invitations) ==>
                r == Some(Updated(old(invitations)[id], details, now)) && invitations == old(invitations)[id := r.value]
    {
      if id !in invitations {
        return None;
      }
      var inv := Updated(invitations[id], details, now);
      invitations := invitations[id := inv];
      r := Some(inv);
    }

    /** respondToInvitation: nothing for an unknown id, otherwise `Responded`. */
    method RespondToInvitation(id: nat, status: InvitationStatus, comment: Option<string>, now: int)
      returns (r: Option<Invitation>)
      requires Valid()
      modifies this
      ensures Valid() && nextId == old(nextId)
      ensures id !in old(invitations) ==> r.None? && invitations == old(invitations)
      ensures id in old(invitations) ==>
                r == Some(Responded(old(invitations)[id], status, comment, now)) &&
                invitations == old(invitations)[id := r.value]
    {
      if id !in invitations {
        return None;
      }
      var inv := Responded(invitations[id], status, comment, now);
      invitations := invitations[id := inv];
      r := Some(inv);
    }

    /** deleteInvitation: false and no change for an unknown id. */
    method DeleteInvitation(id: nat) returns (deleted: bool)
      requires Valid()
      modifies this
      ensures Valid() && nextId == old(nextId)
      ensures deleted <==> id in old(invitations)
      ensures invitations == old(invitations) - {id}
    {
      deleted := id in invitations;
      invitations := invitations - {id};
    }
  }
}

=== FILE: meetings.dfy ===
/**
 * MeetingService: who a meeting of each type invites, the creation guard for
 * secretaries, inviting chosen users without duplicating a pair, the pool of
 * users still to invite, minutes, and resolutions created from a meeting.
 * The service is not transactional: a failure after a save leaves the saved
 * rows in place, and the model keeps them too.
 */
module Meetings {
  import opened Common
  import opened Domain
  import opened SecretaryValidation
  import opened MeetingInvitations
  import opened Invitations
  import opened Resolutions

  /** The role a meeting of each type is for. */
  function InviteeRole(t: MeetingType): UserRole
  {
    match t
    case CommissionerGeneralMeeting => CommissionerGeneral
    case TechnicalMeeting => Secretary
    case SubcommitteeMeeting => Chair
  }

  /**
   * getUsersForMeetingType: every COMMISSIONER_GENERAL user for a
   * Commissioner General meeting; the SECRETARY users of the hosting country
   * for a technical meeting; its CHAIR users for a subcommittee meeting.
   */
  function UsersForMeetingType(users: map<nat, User>, t: MeetingType, countryId: nat): (ids: set<nat>)
    ensures forall u :: u in ids <==>
      u in users && users[u].role == Some(InviteeRole(t)) &&
      (t != CommissionerGeneralMeeting ==> users[u].country.Some? && users[u].country.value.id == countryId)
  {
    set u | u in users && users[u].role == Some(InviteeRole(t)) &&
            (t != CommissionerGeneralMeeting ==> users[u].country.Some? && users[u].country.value.id == countryId)
  }

  /** A Commissioner General meeting invites the same users whatever country hosts it. */
  lemma CommissionerMeetingsIgnoreCountry(users: map<nat, User>, c1: nat, c2: nat)
    ensures UsersForMeetingType(users, CommissionerGeneralMeeting, c1) ==
            UsersForMeetingType(users, CommissionerGeneralMeeting, c2)
    ensures UsersForMeetingType(users, CommissionerGeneralMeeting, c1) == UsersWithRole(users, CommissionerGeneral)
  {
  }

  /**
   * The candidates for a stored meeting: a null type or a null hosting
   * country throws (the type is switched on, the country's id read).
   */
  function Candidates(users: map<nat, User>, meeting: Meeting): (r: Result<set<nat>, string>)
    ensures r.Err? <==> meeting.meetingType.None? || meeting.hostingCountry.None?
    ensures r.Ok? ==> r.value == UsersForMeetingType(users, meeting.meetingType.value, meeting.hostingCountry.value.id)
  {
    if meeting.meetingType.None? || meeting.hostingCountry.None? then Err("NullPointerException")
    else Ok(UsersForMeetingType(users, meeting.meetingType.value, meeting.hostingCountry.value.id))
  }

  /** The users that hold at least one invitation to the meeting. */
  function InvitedUsers(invs: map<nat, Invitation>, meetingId: nat): (ids: set<nat>)
    ensures forall u :: u in ids <==> PairIds(invs, meetingId, u) != {}
  {
    var ids := set id | id in invs && invs[id].meetingId == meetingId :: invs[id].userId;
    assert forall u :: u in ids ==> PairIds(invs, meetingId, u) != {} by {
      forall u | u in ids ensures PairIds(invs, meetingId, u) != {} {
        var id :| id in invs && invs[id].meetingId == meetingId && invs[id].userId == u;
        assert id in PairIds(invs, meetingId, u);
      }
    }
    ids
  }

  /** getPotentialInvitees: the meeting's candidates that hold no invitation to it yet. */
  function PotentialInvitees(meetings: map<nat, Meeting>, users: map<nat, User>, invs: map<nat, Invitation>,
                             meetingId: nat): (r: Result<set<nat>, string>)
    ensures meetingId !in meetings ==> r == Err("Meeting not found")
    ensures meetingId in meetings ==> r.Err? == Candidates(users, meetings[meetingId]).Err?
    ensures r.Ok? ==> forall u :: u in r.value <==>
      u in Candidates(users, meetings[meetingId]).value && PairIds(invs, meetingId, u) == {}
  {
    if meetingId !in meetings then Err("Meeting not found")
    else match Candidates(users, meetings[meetingId])
      case Err(e) => Err(e)
      case Ok(c) => Ok(c - InvitedUsers(invs, meetingId))
  }

  /**
   * Inviting a user takes the user out of the pool: after a send that
   * succeeds for `u`, `u` is no longer a potential invitee of the meeting.
   */
  lemma InvitedUsersLeaveThePool(meetings: map<nat, Meeting>, users: map<nat, User>, t: InvitationRows,
                                 meetingId: nat, rs: seq<nat>, now: int, reset: bool, i: nat)
    requires RowsValid(t) && i < |rs|
    requires SendAll(t, users, meetingId, rs, now, reset).1[i].Sent?
    ensures var t' := SendAll(t, users, meetingId, rs, now, reset).0;
      var pool := PotentialInvitees(meetings, users, t'.invitations, meetingId);
      pool.Ok? ==> rs[i] !in pool.value
  {
    SendAllResults(t, users, meetingId, rs, now, reset);
    SendAllOneRow(t, users, meetingId, rs, now, reset);
  }

  /**
   * validateSecretaryLocation(meetingId, secretaryId): both exist, both
   * countries are set and their ids are equal; the role is not checked.
   */
  function SameCountry(meetings: map<nat, Meeting>, users: map<nat, User>, meetingId: nat, secretaryId: nat)
    : (ok: bool)
    ensures ok <==> (meetingId in meetings && secretaryId in users &&
                     users[secretaryId].country.Some? && meetings[meetingId].hostingCountry.Some? &&
                     meetings[meetingId].hostingCountry.value.id == users[secretaryId].country.value.id)
  {
    if meetingId in meetings && secretaryId in users then
      var meeting := meetings[meetingId];
      var secretary := users[secretaryId];
      if secretary.country.Some? && meeting.hostingCountry.Some? then
        meeting.hostingCountry.value.id == secretary.country.value.id
      else false
    else false
  }

  /**
   * The service's own check is weaker than the validator's: every secretary
   * the validator clears passes it, and so does any other user of the
   * hosting country.
   */
  lemma SameCountryIgnoresRole(meetings: map<nat, Meeting>, users: map<nat, User>, meetingId: nat, secretaryId: nat)
    requires meetingId in meetings && secretaryId in users
    ensures ValidateLocation(users[secretaryId], meetings[meetingId]) ==>
      SameCountry(meetings, users, meetingId, secretaryId)
    ensures SameCountry(meetings, users, meetingId, secretaryId) ==>
      (ValidateLocation(users[secretaryId], meetings[meetingId]) <==> IsSecretary(users[secretaryId]))
  {
  }

  /** The guard of createMeeting: a secretary creator must pass the location check; anyone else is not checked. */
  function CreationGuard(creator: Option<User>, meeting: Meeting): (r: Option<string>)
    ensures r.Some? <==> creator.Some? && IsSecretary(creator.value) && !ValidateLocation(creator.value, meeting)
    ensures r.Some? ==> r.value == "Location validation failed: " + LocationMessage(creator.value, meeting)
  {
    if creator.Some? && IsSecretary(creator.value) && !ValidateLocation(creator.value, meeting) then
      Some("Location validation failed: " + LocationMessage(creator.value, meeting))
    else None
  }

  /** New rows, one per user in order, with consecutive ids: what createAndSendInvitation does for each. */
  function InsertAll(t: InvitationRows, meetingId: nat, order: seq<nat>, now: int): (r: InvitationRows)
    ensures r.nextId == t.nextId + |order|
    decreases |order|
  {
    if order == [] then t
    else
      var prev := InsertAll(t, meetingId, order[..|order| - 1], now);
      InvitationRows(prev.invitations[prev.nextId := Invitation(prev.nextId, meetingId, order[|order| - 1], Pending, now,
                                                               None, None)],
                     prev.nextId + 1)
  }

  /**
   * The rows InsertAll adds: the k-th user gets a PENDING row with id
   * `nextId + k`, whether or not the pair already had one; old rows stay.
   */
  lemma {:induction false} InsertAllRows(t: InvitationRows, meetingId: nat, order: seq<nat>, now: int)
    requires RowsValid(t)
    ensures var r := InsertAll(t, meetingId, order, now);
      RowsValid(r) &&
      (forall id :: id in r.invitations <==> id in t.invitations || t.nextId <= id < t.nextId + |order|) &&
      (forall id :: id in t.invitations ==> r.invitations[id] == t.invitations[id]) &&
      (forall k :: 0 <= k < |order| ==>
         r.invitations[t.nextId + k] == Invitation(t.nextId + k, meetingId, order[k], Pending, now, None, None))
    decreases |order|
  {
    if order != [] {
      var n := |order| - 1;
      InsertAllRows(t, meetingId, order[..n], now);
      var r := InsertAll(t, meetingId, order, now);
      forall k | 0 <= k < |order|
        ensures r.invitations[t.nextId + k] == Invitation(t.nextId + k, meetingId, order[k], Pending, now, None, None)
      {
        if k < n {
          assert order[..n][k] == order[k];
        }
      }
    }
  }

  /** Creating invitations for a user that already holds one adds a second row, which breaks the pair's lookup. */
  lemma InsertAllDuplicates(t: InvitationRows, meetingId: nat, order: seq<nat>, now: int, k: nat)
    requires RowsValid(t) && k < |order| && PairIds(t.invitations, meetingId, order[k]) != {}
    ensures LookupPair(InsertAll(t, meetingId, order, now).invitations, meetingId, order[k]).Err?
  {
    InsertAllRows(t, meetingId, order, now);
    var r := InsertAll(t, meetingId, order, now);
    var old_id :| old_id in PairIds(t.invitations, meetingId, order[k]);
    var ids := PairIds(r.invitations, meetingId, order[k]);
    assert old_id < t.nextId;
    assert {old_id, t.nextId + k} <= ids;
    SubsetCard({old_id, t.nextId + k}, ids);
  }

  /** The invitation of one user on creation, on the table itself. */
  method CreateAndSend(table: InvitationTable, meetingId: nat, u: nat, now: int)
    requires table.Valid()
    modifies table
    ensures table.Valid()
    ensures table.State() == InsertAll(old(table.State()), meetingId, [u], now)
  {
    var _ := table.Insert(meetingId, u, Pending, now, None, None);
  }

  /** sendMeetingInvitations: one new row per candidate, in the order the repository lists them. */
  method InviteAll(table: InvitationTable, meetingId: nat, candidates: set<nat>, now: int)
    requires table.Valid()
    modifies table
    ensures table.Valid()
    ensures exists order :: (IsEnumeration(order, candidates) &&
                            table.State() == InsertAll(old(table.State()), meetingId, order, now))
  {
    var remaining := candidates;
    ghost var order: seq<nat> := [];
    while remaining != {}
      invariant remaining <= candidates
      invariant forall u :: u in order <==> u in candidates && u !in remaining
      invariant |order| + |remaining| == |candidates|
      invariant table.Valid()
      invariant table.State() == InsertAll(old(table.State()), meetingId, order, now)
      decreases |remaining|
    {
      var u :| u in remaining;
      assert (order + [u])[..|order|] == order;
      var _ := table.Insert(meetingId, u, Pending, now, None, None);
      order := order + [u];
      remaining := remaining - {u};
    }
    assert IsEnumeration(order, candidates);
  }

  /** A resolution in the request body of createResolutions; a missing title is null. */
  datatype ResolutionDraft = ResolutionDraft(title: Option<string>, description: Option<string>)

  /** The index of the first draft without a title, or the number of drafts. */
  function FirstUntitled(drafts: seq<ResolutionDraft>): (k: nat)
    ensures k <= |drafts|
    ensures forall j :: 0 <= j < k ==> drafts[j].title.Some?
    ensures k < |drafts| ==> drafts[k].title.None?
    decreases |drafts|
  {
    if drafts == [] then 0
    else if drafts[0].title.None? then 0
    else 1 + FirstUntitled(drafts[1..])
  }

  class MeetingTable {
    var meetings: map<nat, Meeting>
    var nextId: nat

    ghost predicate Valid()
      reads this
    {
      forall id :: id in meetings ==> meetings[id].id == id && id < nextId
    }

    constructor ()
      ensures Valid() && meetings == map[]
    {
      meetings := map[];
      nextId := 1;
    }

    /**
     * createMeeting: the guard runs before anything is saved; a meeting
     * without a creator or without a hosting country cannot be saved (both
     * columns are NOT NULL, and the creator is checked first). After the save
     * every candidate gets a new invitation; a null type, which the column
     * allows, fails at that point, with the meeting already saved.
     */
    method CreateMeeting(draft: Meeting, creator: Option<User>, users: map<nat, User>, invitations: InvitationTable,
                         now: int)
      returns (r: Result<Meeting, string>)
      requires Valid() && invitations.Valid()
      modifies this, invitations
      ensures Valid() && invitations.Valid()
      ensures CreationGuard(creator, draft).Some? ==>
        r == Err(CreationGuard(creator, draft).value) &&
        meetings == old(meetings) && nextId == old(nextId) && invitations.State() == old(invitations.State())
      ensures CreationGuard(creator, draft).None? && creator.None? ==>
        r == Err("created_by must not be null") &&
        meetings == old(meetings) && nextId == old(nextId) && invitations.State() == old(invitations.State())
      ensures CreationGuard(creator, draft).None? && creator.Some? && draft.hostingCountry.None? ==>
        r == Err("hosting_country_id must not be null") &&
        meetings == old(meetings) && nextId == old(nextId) && invitations.State() == old(invitations.State())
      ensures CreationGuard(creator, draft).None? && creator.Some? && draft.hostingCountry.Some? ==>
        var saved := draft.(id := old(nextId), createdBy := Some(creator.value.id));
        meetings == old(meetings)[old(nextId) := saved] && nextId == old(nextId) + 1 &&
        (draft.meetingType.None? ==>
           r == Err("NullPointerException") && invitations.State() == old(invitations.State())) &&
        (Candidates(users, saved).Ok? ==>
           r == Ok(saved) &&
           exists order :: (IsEnumeration(order, Candidates(users, saved).value) &&
                            invitations.State() == InsertAll(old(invitations.State()), saved.id, order, now)))
    {
      var guard := CreationGuard(creator, draft);
      if guard.Some? {
        return Err(guard.value);
      }
      if creator.None? {
        return Err("created_by must not be null");
      }
      if draft.hostingCountry.None? {
        return Err("hosting_country_id must not be null");
      }
      var saved := draft.(id := nextId, createdBy := Some(creator.value.id));
      meetings := meetings[nextId := saved];
      nextId := nextId + 1;
      var candidates := Candidates(users, saved);
      if candidates.Err? {
        return Err(candidates.error);
      }
      InviteAll(invitations, saved.id, candidates.value, now);
      r := Ok(saved);
    }

    /** updateMeetingMinutes: the minutes are stored and the meeting is COMPLETED; an unknown id gives nothing. */
    method UpdateMeetingMinutes(id: nat, minutes: string) returns (r: Option<Meeting>)
      requires Valid()
      modifies this
      ensures Valid() && nextId == old(nextId)
      ensures id !in old(meetings) ==> r.None? && meetings == old(meetings)
      ensures id in old(meetings) ==>
        r == Some(old(meetings)[id].(minutes := Some(minutes), status := MeetingStatus.Completed)) &&
        meetings == old(meetings)[id := r.value]
    {
      if id !in meetings {
        return None;
      }
      var m := meetings[id].(minutes := Some(minutes), status := MeetingStatus.Completed);
      meetings := meetings[id := m];
      r := Some(m);
    }

    /**
     * updateMeetingMinutesWithValidation: the minute-taking check, then the
     * location check on the stored secretary, then the same update.
     */
    method UpdateMeetingMinutesWithValidation(id: nat, minutes: string, users: map<nat, User>, secretaryId: nat)
      returns (r: Result<Meeting, string>)
      requires Valid()
      modifies this
      ensures Valid() && nextId == old(nextId)
      ensures r.Ok? <==> id in old(meetings) && secretaryId in users &&
                         ValidateLocation(users[secretaryId], old(meetings)[id])
      ensures r.Ok? ==> r.value == old(meetings)[id].(minutes := Some(minutes), status := MeetingStatus.Completed) &&
                        meetings == old(meetings)[id := r.value]
      ensures r.Err? ==> meetings == old(meetings)
      ensures id !in old(meetings) ==> r == Err("Meeting not found")
    {
      if id !in meetings {
        return Err("Meeting not found");
      }
      var validation := ValidateMinuteTaking(users, secretaryId, id);
      if !validation.valid {
        return Err("Cannot update minutes: " + validation.message);
      }
      var meeting := meetings[id];
      if !ValidateLocation(users[secretaryId], meeting) {
        return Err("Location validation failed: " + LocationMessage(users[secretaryId], meeting));
      }
      var m := meeting.(minutes := Some(minutes), status := MeetingStatus.Completed);
      meetings := meetings[id := m];
      r := Ok(m);
    }

    /**
     * createResolutions: an unknown meeting or an empty list is refused
     * before anything is saved. Each draft becomes a new ASSIGNED resolution
     * created by the meeting's creator; a draft without a title cannot be
     * saved and stops the loop with the earlier ones kept. The notification
     * step afterwards fails on a null type or hosting country.
     */
    method CreateResolutions(service: ResolutionService, meetingId: nat, drafts: Option<seq<ResolutionDraft>>,
                             users: map<nat, User>, now: int)
      returns (err: Option<string>)
      requires service.Valid()
      modifies service
      ensures service.Valid()
      ensures service.assignments == old(service.assignments)
      ensures service.nextAssignmentId == old(service.nextAssignmentId)
      ensures service.notices == old(service.notices)
      ensures meetingId !in meetings ==> err == Some("Meeting not found")
      ensures meetingId in meetings && (drafts.None? || drafts.value == []) ==> err == Some("No resolutions provided")
      ensures meetingId in meetings && drafts.Some? && drafts.value != [] && meetings[meetingId].createdBy.None? ==>
        err.Some?
      ensures meetingId !in meetings || drafts.None? || drafts.value == [] || meetings[meetingId].createdBy.None? ==>
        service.resolutions == old(service.resolutions) && service.nextResolutionId == old(service.nextResolutionId)
      ensures meetingId in meetings && drafts.Some? && drafts.value != [] && meetings[meetingId].createdBy.Some? ==>
        var ds := drafts.value;
        var k := FirstUntitled(ds);
        var first := old(service.nextResolutionId);
        service.nextResolutionId == first + k &&
        (forall id :: id in service.resolutions <==> id in old(service.resolutions) || first <= id < first + k) &&
        (forall id :: id in old(service.resolutions) ==> service.resolutions[id] == old(service.resolutions)[id]) &&
        (forall j :: 0 <= j < k ==>
           service.resolutions[first + j] ==
             Resolution(first + j, ds[j].title.value, ds[j].description, meetingId,
                        meetings[meetingId].createdBy.value, Assigned, now)) &&
        (k < |ds| ==> err.Some?) &&
        (k == |ds| ==> (err.None? <==> Candidates(users, meetings[meetingId]).Ok?))
    {
      if meetingId !in meetings {
        return Some("Meeting not found");
      }
      if drafts.None? || drafts.value == [] {
        return Some("No resolutions provided");
      }
      var meeting := meetings[meetingId];
      if meeting.createdBy.None? {
        return Some("created_by must not be null");
      }
      var ds := drafts.value;
      var k := FirstUntitled(ds);
      var first := service.nextResolutionId;
      var i := 0;
      while i < k
        invariant 0 <= i <= k
        invariant service.Valid()
        invariant service.assignments == old(service.assignments)
        invariant service.nextAssignmentId == old(service.nextAssignmentId)
        invariant service.notices == old(service.notices)
        invariant service.nextResolutionId == first + i
        invariant forall id :: id in service.resolutions <==> id in old(service.resolutions) || first <= id < first + i
        invariant forall id :: id in old(service.resolutions) ==> service.resolutions[id] == old(service.resolutions)[id]
        invariant forall j :: 0 <= j < i ==>
          service.resolutions[first + j] ==
            Resolution(first + j, ds[j].title.value, ds[j].description, meetingId, meeting.createdBy.value, Assigned, now)
      {
        var res := Resolution(service.nextResolutionId, ds[i].title.value, ds[i].description, meetingId,
                              meeting.createdBy.value, Assigned, now);
        service.resolutions := service.resolutions[service.nextResolutionId := res];
        service.nextResolutionId := service.nextResolutionId + 1;
        i := i + 1;
      }
      if k < |ds| {
        return Some("title must not be null");
      }
      var notified := Candidates(users, meeting);
      if notified.Err? {
        return Some(notified.error);
      }
      err := None;
    }
  }

  /**
   * sendInvitationsToUsers: an unknown meeting throws before the loop;
   * otherwise each user is handled by the same step as sendInvitations,
   * except that a pair with a row keeps it unchanged and counts as a success.
   */
  method SendInvitationsToUsers(table: InvitationTable, meetings: map<nat, Meeting>, users: map<nat, User>,
                                meetingId: nat, userIds: seq<nat>, now: int)
    returns (r: Result<(nat, nat), string>)
    requires table.Valid()
    modifies table
    ensures table.Valid()
    ensures meetingId !in meetings ==> r == Err("Meeting not found") && table.State() == old(table.State())
    ensures meetingId in meetings ==>
      var (t', res) := SendAll(old(table.State()), users, meetingId, userIds, now, false);
      table.State() == t' && r == Ok((Count(res, IsSent), |userIds| - Count(res, IsSent)))
  {
    if meetingId !in meetings {
      return Err("Meeting not found");
    }
    var results, successCount := SendSequence(table, users, meetingId, userIds, now, false);
    r := Ok((successCount, |userIds| - successCount));
  }

  /**
   * sendInvitationsToUsers never duplicates a pair: every existing row is
   * unchanged, a user that already held one invitation still holds exactly
   * that one and counts as a success, and no user ends with a second row.
   */
  lemma ExistingInvitationsUntouched(t: InvitationRows, users: map<nat, User>, m: nat, rs: seq<nat>, now: int)
    requires RowsValid(t)
    ensures var (t', res) := SendAll(t, users, m, rs, now, false);
      (forall id :: id in t.invitations ==> id in t'.invitations && t'.invitations[id] == t.invitations[id]) &&
      (forall i :: 0 <= i < |rs| && rs[i] in users && |PairIds(t.invitations, m, rs[i])| == 1 ==>
         res[i].Sent? && PairIds(t'.invitations, m, rs[i]) == PairIds(t.invitations, m, rs[i])) &&
      (forall u :: |PairIds(t.invitations, m, u)| <= 1 ==> |PairIds(t'.invitations, m, u)| <= 1)
  {
    var t' := SendAll(t, users, m, rs, now, false).0;
    SendAllFrame(t, users, m, rs, now, false);
    SendAllResults(t, users, m, rs, now, false);
    SendAllOneRow(t, users, m, rs, now, false);
    forall i | 0 <= i < |rs| && rs[i] in users && |PairIds(t.invitations, m, rs[i])| == 1
      ensures PairIds(t'.invitations, m, rs[i]) == PairIds(t.invitations, m, rs[i])
    {
      var ids := PairIds(t.invitations, m, rs[i]);
      assert ids <= PairIds(t'.invitations, m, rs[i]);
      SingletonOf(PairIds(t'.invitations, m, rs[i]));
    }
    forall u | |PairIds(t.invitations, m, u)| <= 1
      ensures |PairIds(t'.invitations, m, u)| <= 1
    {
      if u in rs {
        var i :| 0 <= i < |rs| && rs[i] == u;
        if u !in users {
          assert !Eligible(users, t, m, u);
          assert PairIds(t'.invitations, m, u) == PairIds(t.invitations, m, u) by {
            SendAllUnknownUser(t, users, m, rs, now, false, u);
          }
        }
      }
    }
  }

  /** A recipient that is not a user never gets a row. */
  lemma {:induction false} SendAllUnknownUser(t: InvitationRows, users: map<nat, User>, m: nat, rs: seq<nat>,
                                              now: int, reset: bool, u: nat)
    requires RowsValid(t) && u !in users
    ensures PairIds(SendAll(t, users, m, rs, now, reset).0.invitations, m, u) == PairIds(t.invitations, m, u)
    decreases |rs|
  {
    if rs != [] {
      var n := |rs| - 1;
      SendAllUnknownUser(t, users, m, rs[..n], now, reset, u);
      SendAllValidEligible(t, users, m, rs[..n], now, reset);
      SendOneEffect(SendAll(t, users, m, rs[..n], now, reset).0, users, m, rs[n], now, reset);
    }
  }
}

=== FILE: profile_pictures.dfy ===
/**
 * ProfilePictureService: the checks a profile picture passes, the URL it is
 * published under, and how delete recovers the stored file name from that
 * URL. The file copy and removal are not modelled; what the service changes
 * is the user's `profilePicture` column.
 */
module ProfilePictures {
  import opened Common
  import opened Domain
  import opened Users
  import opened Documents

  /** 5 MiB, the largest picture accepted. */
  const MaxPictureSize: nat := 5 * 1024 * 1024

  /** The directory part of every profile-picture URL. */
  const UrlPrefix: string := "/files/profile-pictures/"

  /** The extensions `\.(jpg|jpeg|png|gif|webp)` matches in full. */
  predicate ImageExtension(ext: string)
  {
    ext == ".jpg" || ext == ".jpeg" || ext == ".png" || ext == ".gif" || ext == ".webp"
  }

  /** The checks validateProfilePictureFile makes, all of them passed. */
  predicate PictureAcceptable(f: Upload)
  {
    f.size > 0
    && f.contentType.Some? && StartsWith(f.contentType.value, "image/")
    && f.size <= MaxPictureSize
    && (f.filename.Some? ==> ImageExtension(Lower(FileExtension(f.filename))))
  }

  /**
   * validateProfilePictureFile: `None` when the picture passes, otherwise the
   * message of the first failed check, in the order empty, type, size,
   * extension. A picture without a name skips the extension check; the
   * extension is compared lower-cased.
   */
  function ValidatePicture(f: Upload): (err: Option<string>)
    ensures err.None? <==> PictureAcceptable(f)
    ensures f.size == 0 ==> err == Some("Profile picture file cannot be empty")
    ensures f.size > 0 && (f.contentType.None? || !StartsWith(f.contentType.value, "image/")) ==>
      err == Some("Only image files are allowed for profile pictures")
  {
    if f.size == 0 then Some("Profile picture file cannot be empty")
    else if f.contentType.None? || !StartsWith(f.contentType.value, "image/") then
      Some("Only image files are allowed for profile pictures")
    else if f.size > MaxPictureSize then Some("Profile picture file size must be less than 5MB")
    else if f.filename.Some? && !ImageExtension(Lower(FileExtension(f.filename))) then
      Some("Only JPG, JPEG, PNG, GIF, and WebP files are allowed")
    else None
  }

  /** Upper-case extensions are accepted: the comparison ignores case. */
  lemma ExtensionCaseIgnored(name: string)
    requires FileExtension(Some(name)) == ".PNG"
    ensures PictureAcceptable(Upload(Some(name), Some("image/png"), 1))
  {
    assert Lower(".PNG") == ".png";
  }

  /** The name a picture is stored under: the user id, the UUID drawn for it, then the extension. */
  function PictureFilename(userId: nat, uuid: string, f: Upload): string
  {
    "profile_" + NatToString(userId) + "_" + uuid + FileExtension(f.filename)
  }

  /** The URL uploadProfilePicture stores on the user and returns. */
  function PictureUrl(userId: nat, uuid: string, f: Upload): (url: string)
    ensures StartsWith(url, UrlPrefix)
    ensures url[|UrlPrefix|..] == PictureFilename(userId, uuid, f)
  {
    UrlPrefix + PictureFilename(userId, uuid, f)
  }

  /**
   * The file name deleteProfilePicture derives from a URL: what follows the
   * last '/', or the whole URL when it has none.
   */
  function FilenameOfUrl(url: string): (name: string)
    ensures forall i :: 0 <= i < |name| ==> name[i] != '/'
    ensures EndsWith(url, name)
  {
    match LastIndexOf(url, '/')
    case None => url
    case Some(k) => url[k + 1..]
  }

  /** Whatever follows the last '/' of `prefix + name` is `name` itself when `name` has no '/'. */
  lemma FilenameOfUrlSplit(prefix: string, name: string)
    requires |prefix| > 0 && prefix[|prefix| - 1] == '/'
    requires forall i :: 0 <= i < |name| ==> name[i] != '/'
    ensures FilenameOfUrl(prefix + name) == name
  {
    var s := prefix + name;
    assert s[|prefix| - 1] == '/';
    var k := LastIndexOf(s, '/').value;
    assert k == |prefix| - 1;
    assert s[k + 1..] == name;
  }

  /**
   * Delete finds the file upload wrote: for a UUID and a name without '/',
   * the last path segment of the published URL is the stored file name.
   */
  lemma DeleteRecoversUploadedName(userId: nat, uuid: string, f: Upload)
    requires forall i :: 0 <= i < |uuid| ==> uuid[i] != '/'
    requires f.filename.Some? ==> forall i :: 0 <= i < |f.filename.value| ==> f.filename.value[i] != '/'
    ensures FilenameOfUrl(PictureUrl(userId, uuid, f)) == PictureFilename(userId, uuid, f)
  {
    var ext := FileExtension(f.filename);
    var id := NatToString(userId);
    var name := PictureFilename(userId, uuid, f);
    assert name == "profile_" + id + "_" + uuid + ext;
    forall i | 0 <= i < |name| ensures name[i] != '/' {
      if i < 8 {
        assert name[i] == "profile_"[i];
      } else if i < 8 + |id| {
        assert name[i] == id[i - 8];
      } else if i == 8 + |id| {
        assert name[i] == '_';
      } else if i < 9 + |id| + |uuid| {
        assert name[i] == uuid[i - 9 - |id|];
      } else {
        assert name[i] == ext[i - 9 - |id| - |uuid|];
        assert f.filename.value[|f.filename.value| - |ext| + (i - 9 - |id| - |uuid|)] == ext[i - 9 - |id| - |uuid|];
      }
    }
    FilenameOfUrlSplit(UrlPrefix, name);
  }

  /**
   * uploadProfilePicture as a function of the user table: the checks run
   * before the user lookup, and a successful upload yields the URL.
   */
  function UploadOutcome(users: map<nat, User>, userId: nat, f: Upload, uuid: string): (r: Result<string, string>)
    ensures r.Ok? <==> PictureAcceptable(f) && userId in users
    ensures r.Ok? ==> r.value == PictureUrl(userId, uuid, f)
    ensures !PictureAcceptable(f) ==> Some(r.error) == ValidatePicture(f)
  {
    match ValidatePicture(f)
    case Some(e) => Err(e)
    case None =>
      if userId !in users then Err("User not found with ID: " + NatToString(userId))
      else Ok(PictureUrl(userId, uuid, f))
  }

  /** uploadProfilePicture: on success the user's profilePicture is the published URL and nothing else changes. */
  method UploadProfilePicture(store: UserStore, userId: nat, f: Upload, uuid: string) returns (r: Result<string, string>)
    requires store.Valid()
    modifies store
    ensures store.Valid() && store.nextId == old(store.nextId) && store.outbox == old(store.outbox)
    ensures r == UploadOutcome(old(store.users), userId, f, uuid)
    ensures r.Err? ==> store.users == old(store.users)
    ensures r.Ok? ==> store.users == old(store.users)[userId := old(store.users)[userId].(profilePicture := Some(r.value))]
  {
    var invalid := ValidatePicture(f);
    if invalid.Some? {
      return Err(invalid.value);
    }
    if userId !in store.users {
      return Err("User not found with ID: " + NatToString(userId));
    }
    var url := PictureUrl(userId, uuid, f);
    var user := store.users[userId];
    store.Save(user.(profilePicture := Some(url)));
    r := Ok(url);
  }

  /**
   * deleteProfilePicture: an unknown user is an error; a user with a
   * non-empty picture loses it; a user without one is left alone. The name
   * of the file removed from disk is returned as `removed`.
   */
  method DeleteProfilePicture(store: UserStore, userId: nat) returns (err: Option<string>, removed: Option<string>)
    requires store.Valid()
    modifies store
    ensures store.Valid() && store.nextId == old(store.nextId) && store.outbox == old(store.outbox)
    ensures err.Some? <==> userId !in old(store.users)
    ensures err.Some? ==> err.value == "User not found with ID: " + NatToString(userId)
    ensures err.None? && old(store.users)[userId].profilePicture.Some? && old(store.users)[userId].profilePicture.value != [] ==>
      removed == Some(FilenameOfUrl(old(store.users)[userId].profilePicture.value))
      && store.users == old(store.users)[userId := old(store.users)[userId].(profilePicture := None)]
    ensures err.None? && (old(store.users)[userId].profilePicture.None? || old(store.users)[userId].profilePicture.value == []) ==>
      removed.None? && store.users == old(store.users)
  {
    removed := None;
    if userId !in store.users {
      return Some("User not found with ID: " + NatToString(userId)), None;
    }
    var user := store.users[userId];
    if user.profilePicture.Some? && user.profilePicture.value != [] {
      removed := Some(FilenameOfUrl(user.profilePicture.value));
      store.Save(user.(profilePicture := None));
    }
    err := None;
  }
}

=== FILE: report_lifecycle.dfy ===
/**
 * The report workflow: a chair submits, the Head of Delegation reviews
 * (stage 1), the Commissioner General reviews (stage 2), and a rejected
 * report can be resubmitted. The model follows the code, not an idealised
 * state machine: neither review looks at the current status, and the
 * commissioner review checks no role.
 *
 * The user table is read-only here and is given as its rows in repository
 * order. Notifications are a log; each entry also says whether the mail that
 * goes with it was delivered. The recipients whose mail throws are a
 * parameter, and such a failure is swallowed.
 */
module ReportLifecycle {
  import opened Common
  import opened Domain
  import opened HodPermission
  import opened ChairValidation

  /** `Notification.NotificationType` values the workflow uses. */
  datatype NoticeKind = ReportSubmission | ReportApproval | ReportRejection

  /** One in-app notification; `mailed` says whether the accompanying mail went out. */
  datatype Notice = Notice(recipient: nat, title: string, kind: NoticeKind, reportId: nat, mailed: bool)

  const SubmissionTitle: string := "New Report Submission"
  const ForwardedTitle: string := "Report Approved by HOD"
  const ApprovedTitle: string := "Report Approved"
  const RejectedTitle: string := "Report Rejected"

  /** What the save throws for a report whose NOT NULL performance_percentage column is null. */
  const NullPercentage: string := "not-null property performance_percentage"

  /** `userRepo.findById`: the first row with that id. */
  function FindUser(rows: seq<User>, id: nat): (r: Option<User>)
    ensures r.Some? <==> exists i :: 0 <= i < |rows| && rows[i].id == id
    ensures r.Some? ==> r.value in rows && r.value.id == id
  {
    if rows == [] then None
    else if rows[0].id == id then Some(rows[0])
    else
      var r := FindUser(rows[1..], id);
      assert forall i :: 1 <= i < |rows| ==> rows[i] == rows[1..][i - 1];
      r
  }

  /** `userRepo.findByRole(role)`. */
  function RowsWithRole(rows: seq<User>, role: UserRole): (r: seq<User>)
    ensures |r| <= |rows|
  {
    Filter(rows, (u: User) => u.role == Some(role))
  }

  /** The users notifyHodsAboutReport looks at: the chairs, then the vice chairs. */
  function HodCandidates(rows: seq<User>): seq<User>
  {
    RowsWithRole(rows, Chair) + RowsWithRole(rows, ViceChair)
  }

  /** The users of `users` that `keep` accepts, in order. */
  function Kept(users: seq<User>, keep: User -> bool): (r: seq<User>)
    ensures |r| <= |users|
  {
    if users == [] then []
    else (if keep(users[0]) then [users[0]] else []) + Kept(users[1..], keep)
  }

  /** hasHODPrivileges as a test on a row. */
  function IsHod(): User -> bool
  {
    (u: User) => HasHodPrivileges(Some(u))
  }

  /** The candidates notifyHodsAboutReport notifies, in order. */
  function HodRecipients(rows: seq<User>): seq<User>
  {
    Kept(HodCandidates(rows), IsHod())
  }

  /** One notice per user, in order, each mailed unless that user's mail fails. */
  function NoticesTo(users: seq<User>, title: string, kind: NoticeKind, reportId: nat, mailFails: set<nat>)
    : (r: seq<Notice>)
    ensures |r| == |users|
  {
    if users == [] then []
    else [Notice(users[0].id, title, kind, reportId, users[0].id !in mailFails)]
         + NoticesTo(users[1..], title, kind, reportId, mailFails)
  }

  lemma {:induction false} NoticesAppend(users: seq<User>, u: User, title: string, kind: NoticeKind, reportId: nat,
                                         mailFails: set<nat>)
    ensures NoticesTo(users + [u], title, kind, reportId, mailFails)
            == NoticesTo(users, title, kind, reportId, mailFails) + [Notice(u.id, title, kind, reportId, u.id !in mailFails)]
  {
    if users != [] {
      assert (users + [u])[1..] == users[1..] + [u];
      NoticesAppend(users[1..], u, title, kind, reportId, mailFails);
    }
  }

  /** Every user of the list is notified, and the mail reaches exactly those whose mail does not fail. */
  lemma {:induction false} NoticesToExact(users: seq<User>, title: string, kind: NoticeKind, reportId: nat,
                                          mailFails: set<nat>, i: nat)
    requires i < |users|
    ensures NoticesTo(users, title, kind, reportId, mailFails)[i]
            == Notice(users[i].id, title, kind, reportId, users[i].id !in mailFails)
  {
    if i > 0 {
      NoticesToExact(users[1..], title, kind, reportId, mailFails, i - 1);
    }
  }

  lemma {:induction false} KeptAppend(users: seq<User>, u: User, keep: User -> bool)
    ensures Kept(users + [u], keep) == Kept(users, keep) + (if keep(u) then [u] else [])
  {
    if users != [] {
      assert (users + [u])[1..] == users[1..] + [u];
      KeptAppend(users[1..], u, keep);
    }
  }

  lemma KeptPrefix(users: seq<User>, i: nat, keep: User -> bool)
    requires i < |users|
    ensures Kept(users[..i + 1], keep) == Kept(users[..i], keep) + (if keep(users[i]) then [users[i]] else [])
  {
    assert users[..i + 1] == users[..i] + [users[i]];
    KeptAppend(users[..i], users[i], keep);
  }

  lemma {:induction false} KeptMembers(users: seq<User>, keep: User -> bool, u: User)
    ensures u in Kept(users, keep) <==> u in users && keep(u)
  {
    if users != [] {
      KeptMembers(users[1..], keep, u);
      assert users == [users[0]] + users[1..];
    }
  }

  /** Submission notices reach exactly the privileged chairs and vice chairs of the table. */
  lemma HodRecipientsExact(rows: seq<User>, u: User)
    ensures u in HodRecipients(rows) <==> u in rows && HasHodPrivileges(Some(u))
  {
    KeptMembers(HodCandidates(rows), IsHod(), u);
  }

  /** A chair and a vice chair are different rows, so nobody is notified twice for one row. */
  lemma HodRecipientsOncePerRow(rows: seq<User>)
    ensures |HodRecipients(rows)| <= |rows|
  {
    var chairs := RowsWithRole(rows, Chair);
    var vices := RowsWithRole(rows, ViceChair);
    var p := (u: User) => HasHodPrivileges(Some(u));
    CountAtMostRoles(rows);
    assert |HodRecipients(rows)| <= |chairs| + |vices|;
  }

  /** The chair rows and the vice chair rows together are no more than the table. */
  lemma {:induction false} CountAtMostRoles(rows: seq<User>)
    ensures |RowsWithRole(rows, Chair)| + |RowsWithRole(rows, ViceChair)| <= |rows|
  {
    if rows != [] {
      CountAtMostRoles(rows[1..]);
    }
  }

  /** submitReport: status SUBMITTED and a fresh submission time, whatever the report carried. */
  function Submission(report: Report, now: int): (r: Report)
    ensures r.status == Submitted && r.submittedAt == Some(now)
    ensures r.(status := report.status, submittedAt := report.submittedAt) == report
  {
    report.(status := Submitted, submittedAt := Some(now))
  }

  /** The stage 1 review: reviewer, comments and time recorded; approved or rejected by HOD. */
  function HodReviewed(report: Report, hodId: nat, approved: bool, comments: string, now: int): (r: Report)
    ensures r.status == (if approved then ApprovedByHod else RejectedByHod)
    ensures r.reviewedByHod == Some(hodId) && r.hodComments == Some(comments) && r.hodReviewedAt == Some(now)
    ensures r.(status := report.status, reviewedByHod := report.reviewedByHod, hodComments := report.hodComments,
               hodReviewedAt := report.hodReviewedAt) == report
  {
    report.(reviewedByHod := Some(hodId), hodComments := Some(comments), hodReviewedAt := Some(now),
            status := if approved then ApprovedByHod else RejectedByHod)
  }

  /** The stage 2 review: the commissioner fields recorded; approved or rejected by the commissioner. */
  function CommissionerReviewed(report: Report, commissionerId: nat, approved: bool, comments: string, now: int)
    : (r: Report)
    ensures r.status == (if approved then ApprovedByCommissioner else RejectedByCommissioner)
    ensures r.reviewedByCommissioner == Some(commissionerId) && r.commissionerComments == Some(comments)
            && r.commissionerReviewedAt == Some(now)
    ensures r.(status := report.status, reviewedByCommissioner := report.reviewedByCommissioner,
               commissionerComments := report.commissionerComments,
               commissionerReviewedAt := report.commissionerReviewedAt) == report
  {
    report.(reviewedByCommissioner := Some(commissionerId), commissionerComments := Some(comments),
            commissionerReviewedAt := Some(now),
            status := if approved then ApprovedByCommissioner else RejectedByCommissioner)
  }

  /**
   * updateReport: the new progress, hindrances and percentage, a fresh
   * submission time, status SUBMITTED and all six review fields cleared.
   */
  function Resubmitted(report: Report, details: Report, now: int): (r: Report)
    ensures r.status == Submitted && r.submittedAt == Some(now)
    ensures r.progressDetails == details.progressDetails && r.hindrances == details.hindrances
            && r.performancePercentage == details.performancePercentage
    ensures r.reviewedByHod.None? && r.hodComments.None? && r.hodReviewedAt.None?
    ensures r.reviewedByCommissioner.None? && r.commissionerComments.None? && r.commissionerReviewedAt.None?
    ensures r.id == report.id && r.resolutionId == report.resolutionId && r.subcommitteeId == report.subcommitteeId
            && r.submittedBy == report.submittedBy && r.reportVersion == report.reportVersion
            && r.isFinalReport == report.isFinalReport
  {
    report.(progressDetails := details.progressDetails, hindrances := details.hindrances,
            performancePercentage := details.performancePercentage, submittedAt := Some(now),
            status := Submitted, reviewedByHod := None, hodComments := None, hodReviewedAt := None,
            reviewedByCommissioner := None, commissionerComments := None, commissionerReviewedAt := None)
  }

  /** Neither review reads the status it starts from: the outcome is the same from any status. */
  lemma ReviewsIgnoreCurrentStatus(report: Report, s1: ReportStatus, s2: ReportStatus,
                                   reviewer: nat, approved: bool, comments: string, now: int)
    ensures HodReviewed(report.(status := s1), reviewer, approved, comments, now)
            == HodReviewed(report.(status := s2), reviewer, approved, comments, now)
    ensures CommissionerReviewed(report.(status := s1), reviewer, approved, comments, now)
            == CommissionerReviewed(report.(status := s2), reviewer, approved, comments, now)
  {
  }

  /** A stage 1 review of a report the commissioner already decided sends it back to the HOD stage. */
  lemma HodReviewReopensFinalReport(report: Report, hodId: nat, approved: bool, comments: string, now: int)
    requires report.status in {ApprovedByCommissioner, RejectedByCommissioner}
    ensures HodReviewed(report, hodId, approved, comments, now).status in {ApprovedByHod, RejectedByHod}
    ensures HodReviewed(report, hodId, approved, comments, now).reviewedByCommissioner == report.reviewedByCommissioner
  {
  }

  /** After a resubmission the submitter may update the report again, and the version number stays. */
  lemma ResubmissionReopensForChair(reports: map<nat, Report>, id: nat, details: Report, now: int)
    requires id in reports
    ensures var r := Resubmitted(reports[id], details, now);
            CanUpdateReport(reports[id := r], r.submittedBy, id) && r.reportVersion == reports[id].reportVersion
  {
  }

  class ReportService {
    var reports: map<nat, Report>
    var nextId: nat
    /** In-app notifications created, in order. */
    var notices: seq<Notice>

    ghost predicate Valid()
      reads this
    {
      forall id :: id in reports ==> reports[id].id == id && id < nextId
    }

    constructor ()
      ensures Valid() && reports == map[] && notices == []
    {
      reports := map[];
      nextId := 1;
      notices := [];
    }

    /** notifyCommissionerAboutReport: notifies each user in turn; a failed mail is logged and skipped. */
    method NotifyAll(users: seq<User>, title: string, kind: NoticeKind, reportId: nat, mailFails: set<nat>)
      modifies this
      ensures reports == old(reports) && nextId == old(nextId)
      ensures notices == old(notices) + NoticesTo(users, title, kind, reportId, mailFails)
    {
      var i := 0;
      while i < |users|
        invariant 0 <= i <= |users|
        invariant reports == old(reports) && nextId == old(nextId)
        invariant notices == old(notices) + NoticesTo(users[..i], title, kind, reportId, mailFails)
      {
        var u := users[i];
        assert users[..i + 1] == users[..i] + [u];
        NoticesAppend(users[..i], u, title, kind, reportId, mailFails);
        notices := notices + [Notice(u.id, title, kind, reportId, u.id !in mailFails)];
        i := i + 1;
      }
      assert users[..i] == users;
    }

    /** notifyHodsAboutReport: chairs then vice chairs, each notified only when privileged. */
    method NotifyHods(rows: seq<User>, title: string, kind: NoticeKind, reportId: nat, mailFails: set<nat>)
      modifies this
      ensures reports == old(reports) && nextId == old(nextId)
      ensures notices == old(notices) + NoticesTo(HodRecipients(rows), title, kind, reportId, mailFails)
    {
      NotifyWhere(HodCandidates(rows), IsHod(), title, kind, reportId, mailFails);
    }

    /** Walks the users in order and notifies those that `keep` accepts. */
    method NotifyWhere(users: seq<User>, keep: User -> bool, title: string, kind: NoticeKind, reportId: nat,
                       mailFails: set<nat>)
      modifies this
      ensures reports == old(reports) && nextId == old(nextId)
      ensures notices == old(notices) + NoticesTo(Kept(users, keep), title, kind, reportId, mailFails)
    {
      ghost var notified: seq<User> := [];
      var i := 0;
      while i < |users|
        invariant 0 <= i <= |users|
        invariant reports == old(reports) && nextId == old(nextId)
        invariant notified == Kept(users[..i], keep)
        invariant notices == old(notices) + NoticesTo(notified, title, kind, reportId, mailFails)
      {
        var u := users[i];
        KeptPrefix(users, i, keep);
        if keep(u) {
          NoticesAppend(notified, u, title, kind, reportId, mailFails);
          notices := notices + [Notice(u.id, title, kind, reportId, u.id !in mailFails)];
          notified := notified + [u];
        }
        i := i + 1;
      }
      assert users[..i] == users;
    }

    /**
     * submitReport: a report without a performance percentage is refused by
     * the save (the column is NOT NULL), before anything is stored or sent.
     * Otherwise the report is stored as SUBMITTED with the current time
     * (under a new id when it has none in the table), and the privileged
     * chairs and vice chairs are notified.
     */
    method SubmitReport(report: Report, now: int, rows: seq<User>, mailFails: set<nat>) returns (r: Result<Report, string>)
      requires Valid()
      modifies this
      ensures Valid()
      ensures r.Err? <==> report.performancePercentage.None?
      ensures r.Err? ==> r.error == NullPercentage && reports == old(reports) && nextId == old(nextId) &&
                         notices == old(notices)
      ensures r.Ok? ==> r.value.status == Submitted && r.value.submittedAt == Some(now)
      ensures r.Ok? && report.id in old(reports) ==> r.value == Submission(report, now) && nextId == old(nextId)
      ensures r.Ok? && report.id !in old(reports) ==>
                r.value == Submission(report, now).(id := old(nextId)) && nextId == old(nextId) + 1
      ensures r.Ok? ==> reports == old(reports)[r.value.id := r.value]
      ensures r.Ok? ==>
                notices == old(notices) + NoticesTo(HodRecipients(rows), SubmissionTitle, ReportSubmission, r.value.id, mailFails)
    {
      if report.performancePercentage.None? {
        return Err(NullPercentage);
      }
      var saved := Submission(report, now);
      if saved.id !in reports {
        saved := saved.(id := nextId);
        nextId := nextId + 1;
      }
      reports := reports[saved.id := saved];
      NotifyHods(rows, SubmissionTitle, ReportSubmission, saved.id, mailFails);
      r := Ok(saved);
    }

    /**
     * reviewByHod: null, with nothing changed, when the report or the
     * reviewer is missing or the reviewer lacks HOD privileges. Otherwise
     * the review is recorded; an approval notifies every commissioner
     * general and then the submitter, a rejection only the submitter.
     */
    method ReviewByHod(reportId: nat, hodId: nat, approved: bool, comments: string, now: int,
                       rows: seq<User>, mailFails: set<nat>) returns (r: Option<Report>)
      requires Valid()
      modifies this
      ensures Valid() && nextId == old(nextId)
      ensures r.None? <==> reportId !in old(reports) || !HasHodPrivileges(FindUser(rows, hodId))
      ensures r.None? ==> reports == old(reports) && notices == old(notices)
      ensures r.Some? ==>
                r.value == HodReviewed(old(reports)[reportId], hodId, approved, comments, now) &&
                reports == old(reports)[reportId := r.value]
      ensures r.Some? && approved ==>
                var chair := Notice(r.value.submittedBy, ApprovedTitle, ReportApproval, reportId,
                                    r.value.submittedBy !in mailFails);
                notices == old(notices) + NoticesTo(RowsWithRole(rows, CommissionerGeneral), ForwardedTitle,
                                                    ReportApproval, reportId, mailFails) + [chair]
      ensures r.Some? && !approved ==>
                notices == old(notices) + [Notice(r.value.submittedBy, RejectedTitle, ReportRejection, reportId,
                                                  r.value.submittedBy !in mailFails)]
    {
      if reportId !in reports {
        return None;
      }
      var hod := FindUser(rows, hodId);
      if hod.None? || !HasHodPrivileges(hod) {
        return None;
      }
      var report := HodReviewed(reports[reportId], hodId, approved, comments, now);
      var mailed := report.submittedBy !in mailFails;
      if approved {
        NotifyAll(RowsWithRole(rows, CommissionerGeneral), ForwardedTitle, ReportApproval, reportId, mailFails);
        notices := notices + [Notice(report.submittedBy, ApprovedTitle, ReportApproval, reportId, mailed)];
      } else {
        notices := notices + [Notice(report.submittedBy, RejectedTitle, ReportRejection, reportId, mailed)];
      }
      reports := reports[reportId := report];
      r := Some(report);
    }

    /**
     * reviewByCommissioner: null when the report or the user is missing;
     * otherwise the review is recorded with no role or status check and no
     * notification.
     */
    method ReviewByCommissioner(reportId: nat, commissionerId: nat, approved: bool, comments: string, now: int,
                                rows: seq<User>) returns (r: Option<Report>)
      requires Valid()
      modifies this
      ensures Valid() && nextId == old(nextId) && notices == old(notices)
      ensures r.None? <==> reportId !in old(reports) || FindUser(rows, commissionerId).None?
      ensures r.None? ==> reports == old(reports)
      ensures r.Some? ==>
                r.value == CommissionerReviewed(old(reports)[reportId], commissionerId, approved, comments, now) &&
                reports == old(reports)[reportId := r.value]
    {
      if reportId in reports && FindUser(rows, commissionerId).Some? {
        var report := CommissionerReviewed(reports[reportId], commissionerId, approved, comments, now);
        reports := reports[reportId := report];
        r := Some(report);
      } else {
        r := None;
      }
    }

    /**
     * updateReport: null for an unknown report. Otherwise the report takes
     * the new details and is resubmitted, whatever its status was; new
     * details without a performance percentage make the save fail, with
     * nothing stored or sent. After the save the HODs are notified.
     */
    method UpdateReport(reportId: nat, details: Report, now: int, rows: seq<User>, mailFails: set<nat>)
      returns (r: Result<Option<Report>, string>)
      requires Valid()
      modifies this
      ensures Valid() && nextId == old(nextId)
      ensures r == Ok(None) <==> reportId !in old(reports)
      ensures r.Err? <==> reportId in old(reports) && details.performancePercentage.None?
      ensures r.Err? ==> r.error == NullPercentage
      ensures r == Ok(None) || r.Err? ==> reports == old(reports) && notices == old(notices)
      ensures r.Ok? && r.value.Some? ==>
                r.value.value == Resubmitted(old(reports)[reportId], details, now) &&
                reports == old(reports)[reportId := r.value.value] &&
                notices == old(notices) + NoticesTo(HodRecipients(rows), SubmissionTitle, ReportSubmission, reportId, mailFails)
    {
      if reportId !in reports {
        return Ok(None);
      }
      var report := Resubmitted(reports[reportId], details, now);
      if report.performancePercentage.None? {
        return Err(NullPercentage);
      }
      reports := reports[reportId := report];
      NotifyHods(rows, SubmissionTitle, ReportSubmission, reportId, mailFails);
      r := Ok(Some(report));
    }
  }
}

=== FILE: resolutions.dfy ===
/**
 * Resolutions and their weighted assignment to subcommittees. The service is
 * not transactional: an assignment loop that fails part-way keeps the rows it
 * has already saved. The two write paths are specified by pure functions over
 * the tables they touch (`AssignOutcome`, `ReplaceOutcome`), and the class's
 * methods are proved to perform exactly those updates.
 */
module Resolutions {
  import opened Common
  import opened Domain
  import opened SecretaryValidation
  import opened ChairValidation

  /**
   * The class the mapper gives an integral JSON number stored in an untyped
   * map: `Integer` when it fits in 32 bits, `Long` when it fits in 64 bits,
   * `BigInteger` beyond. The mapper does not ask for longs, so an id such as 5
   * arrives as an `Integer`.
   */
  datatype JavaNumber = JavaInteger | JavaLong | JavaBigInteger

  function Decoded(n: int): JavaNumber
  {
    if -0x8000_0000 <= n < 0x8000_0000 then JavaInteger
    else if -0x8000_0000_0000_0000 <= n < 0x8000_0000_0000_0000 then JavaLong
    else JavaBigInteger
  }

  function ClassName(c: JavaNumber): string
  {
    match c
    case JavaInteger => "java.lang.Integer"
    case JavaLong => "java.lang.Long"
    case JavaBigInteger => "java.math.BigInteger"
  }

  /** Java's 32-bit `int` addition: the exact value wrapped into -2^31 .. 2^31 - 1. */
  function Wrap32(x: int): int
  {
    (x + 0x8000_0000) % 0x1_0000_0000 - 0x8000_0000
  }

  /** A sum that fits in 32 bits does not wrap. */
  lemma Wrap32Small(x: int)
    requires -0x8000_0000 <= x < 0x8000_0000
    ensures Wrap32(x) == x
  {
    assert 0 <= x + 0x8000_0000 < 0x1_0000_0000;
  }

  /**
   * One entry of the request list: its `subcommitteeId` key, and the numbers
   * under its `contributionPercentage` and `assignedBy` keys (`None` for a
   * null or missing value).
   */
  datatype AssignmentRequest = AssignmentRequest(subcommitteeId: nat, contributionPercentage: Option<int>, assignedBy: Option<int>)

  /** Why a write path stopped; `Message` gives the exception text. */
  datatype AssignError =
    | ResolutionNotFound
    | WeightsNotHundred
    | SubcommitteeNotFound
    | NullWeight                                  // unboxing a null `Integer`
    | CastFails(from: JavaNumber, to: JavaNumber) // a ClassCastException
    | NullColumn(column: string)                  // the save meets a NOT NULL column
    | NotAllowed(reason: string)

  function Message(e: AssignError): string
  {
    match e
    case ResolutionNotFound => "Resolution not found"
    case WeightsNotHundred => "Total contribution percentage must equal 100%"
    case SubcommitteeNotFound => "Subcommittee not found"
    case NullWeight => "NullPointerException"
    case CastFails(from, to) => "class " + ClassName(from) + " cannot be cast to class " + ClassName(to)
    case NullColumn(column) => "not-null property " + column
    case NotAllowed(reason) => "Cannot assign resolution: " + reason
  }

  /**
   * The tables the write paths touch, with the id the next saved assignment
   * row receives, and the notifications created so far.
   */
  datatype Tables = Tables(resolutions: map<nat, Resolution>, assignments: seq<Assignment>, nextAssignmentId: nat,
                           notices: seq<AssignmentNotice>)

  const AssignmentTitle: string := "New Task Assignment"

  /**
   * One TASK_ASSIGNMENT notification, related to a resolution, created for a
   * user of a subcommittee that received an assignment row, with that row's
   * weight in its text. `mailed` says whether the mail sent just before it
   * went out; a failed mail is only logged.
   */
  datatype AssignmentNotice = AssignmentNotice(recipient: nat, title: string, resolutionId: nat, subcommitteeId: nat,
                                               contribution: int, mailed: bool)

  /** A user row whose subcommittee is `subcommitteeId`. */
  predicate MemberOf(u: User, subcommitteeId: nat)
  {
    u.subcommittee.Some? && u.subcommittee.value.id == subcommitteeId
  }

  /** `userRepo.findBySubcommitteeId`: the users of the subcommittee, in table order. */
  function SubcommitteeUsers(users: seq<User>, subcommitteeId: nat): seq<User>
  {
    if users == [] then []
    else (if MemberOf(users[0], subcommitteeId) then [users[0]] else []) + SubcommitteeUsers(users[1..], subcommitteeId)
  }

  /** The users found are exactly the subcommittee's users. */
  lemma {:induction false} SubcommitteeUsersExact(users: seq<User>, subcommitteeId: nat, u: User)
    ensures u in SubcommitteeUsers(users, subcommitteeId) <==> u in users && MemberOf(u, subcommitteeId)
  {
    if users != [] {
      SubcommitteeUsersExact(users[1..], subcommitteeId, u);
      assert users == [users[0]] + users[1..];
    }
  }

  /** The notification a user gets for one saved row. */
  function NoticeFor(row: Assignment, u: User, mailFails: set<nat>): AssignmentNotice
  {
    AssignmentNotice(u.id, AssignmentTitle, row.resolutionId, row.subcommitteeId, row.contributionPercentage,
                     u.id !in mailFails)
  }

  /** notifySubcommitteeMembers(row): one notification per user of the row's subcommittee, in table order. */
  function NoticesFor(row: Assignment, users: seq<User>, mailFails: set<nat>): (r: seq<AssignmentNotice>)
    ensures |r| == |SubcommitteeUsers(users, row.subcommitteeId)|
    ensures forall i :: 0 <= i < |r| ==> r[i] == NoticeFor(row, SubcommitteeUsers(users, row.subcommitteeId)[i], mailFails)
  {
    var members := SubcommitteeUsers(users, row.subcommitteeId);
    seq(|members|, i requires 0 <= i < |members| => NoticeFor(row, members[i], mailFails))
  }

  /** The notifications for a sequence of saved rows, row after row. */
  function AssignmentNotices(rows: seq<Assignment>, users: seq<User>, mailFails: set<nat>): seq<AssignmentNotice>
  {
    if rows == [] then [] else NoticesFor(rows[0], users, mailFails) + AssignmentNotices(rows[1..], users, mailFails)
  }

  /** Saving one more row adds that row's notifications after the earlier ones. */
  lemma {:induction false} AssignmentNoticesSnoc(rows: seq<Assignment>, row: Assignment, users: seq<User>,
                                                 mailFails: set<nat>)
    ensures AssignmentNotices(rows + [row], users, mailFails)
            == AssignmentNotices(rows, users, mailFails) + NoticesFor(row, users, mailFails)
  {
    if rows == [] {
      assert rows + [row] == [row];
      assert [row][1..] == [];
    } else {
      assert (rows + [row])[1..] == rows[1..] + [row];
      AssignmentNoticesSnoc(rows[1..], row, users, mailFails);
    }
  }

  /** A user of a saved row's subcommittee is sent that row's notice. */
  lemma {:induction false} NoticeIsListed(rows: seq<Assignment>, users: seq<User>, mailFails: set<nat>, j: nat, u: User)
    requires j < |rows| && u in users && MemberOf(u, rows[j].subcommitteeId)
    ensures NoticeFor(rows[j], u, mailFails) in AssignmentNotices(rows, users, mailFails)
  {
    var head := NoticesFor(rows[0], users, mailFails);
    var tail := AssignmentNotices(rows[1..], users, mailFails);
    assert AssignmentNotices(rows, users, mailFails) == head + tail;
    if j == 0 {
      var members := SubcommitteeUsers(users, rows[0].subcommitteeId);
      SubcommitteeUsersExact(users, rows[0].subcommitteeId, u);
      var i :| 0 <= i < |members| && members[i] == u;
      assert head[i] == NoticeFor(rows[0], u, mailFails);
    } else {
      assert rows[1..][j - 1] == rows[j];
      NoticeIsListed(rows[1..], users, mailFails, j - 1, u);
    }
  }

  /** Every notice for some saved rows is one row's notice to a user of that row's subcommittee. */
  lemma {:induction false} NoticeOrigin(rows: seq<Assignment>, users: seq<User>, mailFails: set<nat>, k: nat)
    returns (j: nat, u: User)
    requires k < |AssignmentNotices(rows, users, mailFails)|
    ensures j < |rows| && u in users && MemberOf(u, rows[j].subcommitteeId)
    ensures AssignmentNotices(rows, users, mailFails)[k] == NoticeFor(rows[j], u, mailFails)
  {
    var head := NoticesFor(rows[0], users, mailFails);
    var tail := AssignmentNotices(rows[1..], users, mailFails);
    assert AssignmentNotices(rows, users, mailFails) == head + tail;
    if k < |head| {
      var members := SubcommitteeUsers(users, rows[0].subcommitteeId);
      SubcommitteeUsersExact(users, rows[0].subcommitteeId, members[k]);
      j, u := 0, members[k];
    } else {
      j, u := NoticeOrigin(rows[1..], users, mailFails, k - |head|);
      assert rows[1..][j] == rows[j + 1];
      j := j + 1;
    }
  }

  /** The weight a request carries, 0 standing for none. */
  function Weight(req: AssignmentRequest): int
  {
    if req.contributionPercentage.Some? then req.contributionPercentage.value else 0
  }

  /** The exact sum of the weights; the assign path adds them in 32 bits. */
  function TotalWeight(reqs: seq<AssignmentRequest>): int
  {
    if reqs == [] then 0 else Weight(reqs[0]) + TotalWeight(reqs[1..])
  }

  /** The sum of the weights of some assignment rows. */
  function RowWeight(rows: seq<Assignment>): int
  {
    if rows == [] then 0 else rows[0].contributionPercentage + RowWeight(rows[1..])
  }

  /** The row saved for one request: status ASSIGNED, stamped with `now`. */
  function Row(req: AssignmentRequest, resolutionId: nat, assignedBy: int, now: int, id: nat): (a: Assignment)
    ensures a.resolutionId == resolutionId && a.subcommitteeId == req.subcommitteeId
    ensures a.contributionPercentage == Weight(req) && a.status == Assigned
  {
    Assignment(id, resolutionId, req.subcommitteeId, Weight(req), assignedBy, now, Assigned)
  }

  /** The rows the assign path saves: every one records the resolution's creator as assigner. */
  function AssignedRows(reqs: seq<AssignmentRequest>, resolutionId: nat, creator: nat, now: int, firstId: nat)
    : (rows: seq<Assignment>)
    ensures |rows| == |reqs|
    ensures forall i :: 0 <= i < |reqs| ==> rows[i] == Row(reqs[i], resolutionId, creator, now, firstId + i)
  {
    seq(|reqs|, i requires 0 <= i < |reqs| => Row(reqs[i], resolutionId, creator, now, firstId + i))
  }

  /** One more request saves one more row, numbered after the others. */
  lemma AssignedRowsSnoc(reqs: seq<AssignmentRequest>, i: nat, resolutionId: nat, creator: nat, now: int, firstId: nat)
    requires i < |reqs|
    ensures AssignedRows(reqs[..i + 1], resolutionId, creator, now, firstId)
            == AssignedRows(reqs[..i], resolutionId, creator, now, firstId) + [Row(reqs[i], resolutionId, creator, now, firstId + i)]
  {
  }

  /** The rows the replace path saves: each records the `assignedBy` its own request carries. */
  function ReplacementRows(reqs: seq<AssignmentRequest>, resolutionId: nat, now: int, firstId: nat)
    : (rows: seq<Assignment>)
    requires forall i :: 0 <= i < |reqs| ==> reqs[i].assignedBy.Some?
    ensures |rows| == |reqs|
    ensures forall i :: 0 <= i < |reqs| ==>
      rows[i] == Row(reqs[i], resolutionId, reqs[i].assignedBy.value, now, firstId + i)
  {
    seq(|reqs|, i requires 0 <= i < |reqs| => Row(reqs[i], resolutionId, reqs[i].assignedBy.value, now, firstId + i))
  }

  /** The index of the first request naming an unknown subcommittee, or |reqs| when there is none. */
  function FirstUnknown(reqs: seq<AssignmentRequest>, subcommittees: set<nat>): (k: nat)
    ensures k <= |reqs|
    ensures forall i :: 0 <= i < k ==> reqs[i].subcommitteeId in subcommittees
    ensures k < |reqs| ==> reqs[k].subcommitteeId !in subcommittees
  {
    if reqs == [] then 0
    else if reqs[0].subcommitteeId !in subcommittees then 0
    else 1 + FirstUnknown(reqs[1..], subcommittees)
  }

  /** `(Integer) contributionPercentage` unboxed to an `int`: a weight that is present and decoded as an `Integer`. */
  predicate IntWeight(req: AssignmentRequest)
  {
    req.contributionPercentage.Some? && Decoded(req.contributionPercentage.value) == JavaInteger
  }

  /** What the unboxing throws for a weight that is not an `int`. */
  function WeightError(req: AssignmentRequest): AssignError
    requires !IntWeight(req)
  {
    if req.contributionPercentage.None? then NullWeight
    else CastFails(Decoded(req.contributionPercentage.value), JavaInteger)
  }

  /** The index of the first request whose weight does not unbox, or |reqs|: where the summing stream throws. */
  function FirstBadWeight(reqs: seq<AssignmentRequest>): (k: nat)
    ensures k <= |reqs|
    ensures forall i :: 0 <= i < k ==> IntWeight(reqs[i])
    ensures k < |reqs| ==> !IntWeight(reqs[k])
  {
    if reqs == [] then 0
    else if !IntWeight(reqs[0]) then 0
    else 1 + FirstBadWeight(reqs[1..])
  }

  /**
   * The first thing that stops the replace path on one request, in the order
   * it happens: the subcommittee lookup, the `(Integer)` cast of the weight,
   * the `(Long)` cast of the assigner, then the save, which refuses a null in
   * either NOT NULL column and checks the entity's properties in name order,
   * `assignedBy` before `contributionPercentage`. `None` when the request is
   * saved.
   */
  function ReplaceError(req: AssignmentRequest, subcommittees: set<nat>): (e: Option<AssignError>)
    ensures e.None? <==> Saveable(req, subcommittees)
    ensures e == Some(SubcommitteeNotFound) <==> req.subcommitteeId !in subcommittees
    ensures req.subcommitteeId in subcommittees && req.assignedBy.Some? && Decoded(req.assignedBy.value) == JavaInteger
            ==> e.Some? && e.value.CastFails?
  {
    if req.subcommitteeId !in subcommittees then Some(SubcommitteeNotFound)
    else if req.contributionPercentage.Some? && Decoded(req.contributionPercentage.value) != JavaInteger then
      Some(CastFails(Decoded(req.contributionPercentage.value), JavaInteger))
    else if req.assignedBy.Some? && Decoded(req.assignedBy.value) != JavaLong then
      Some(CastFails(Decoded(req.assignedBy.value), JavaLong))
    else if req.assignedBy.None? then Some(NullColumn("assigned_by"))
    else if req.contributionPercentage.None? then Some(NullColumn("contribution_percentage"))
    else None
  }

  /**
   * A request the replace path saves: a known subcommittee, a weight that
   * unboxes to an `int`, and an assigner the mapper delivered as a `Long`.
   */
  predicate Saveable(req: AssignmentRequest, subcommittees: set<nat>)
  {
    req.subcommitteeId in subcommittees && IntWeight(req) &&
    req.assignedBy.Some? && Decoded(req.assignedBy.value) == JavaLong
  }

  /** The index of the first request the replace path cannot save, or |reqs|. */
  function FirstUnsaveable(reqs: seq<AssignmentRequest>, subcommittees: set<nat>): (k: nat)
    ensures k <= |reqs|
    ensures forall i :: 0 <= i < k ==> Saveable(reqs[i], subcommittees)
    ensures k < |reqs| ==> !Saveable(reqs[k], subcommittees)
  {
    if reqs == [] then 0
    else if !Saveable(reqs[0], subcommittees) then 0
    else 1 + FirstUnsaveable(reqs[1..], subcommittees)
  }

  /** The first unsaveable request is the first one after a saveable prefix. */
  lemma FirstUnsaveableAt(reqs: seq<AssignmentRequest>, subcommittees: set<nat>, i: nat)
    requires i <= |reqs|
    requires forall j :: 0 <= j < i ==> Saveable(reqs[j], subcommittees)
    requires i < |reqs| ==> !Saveable(reqs[i], subcommittees)
    ensures FirstUnsaveable(reqs, subcommittees) == i
  {
  }

  /**
   * What assignResolutionToSubcommittees(resolutionId, assignments) does to
   * the tables. An unknown resolution stops it first; then the weights are
   * unboxed and summed in 32-bit `int` arithmetic, so a null or non-`Integer`
   * weight throws, and a wrapped sum other than 100 is refused, all before any
   * write. Otherwise rows are appended in request order until a request names
   * an unknown subcommittee; the rows saved before it stay, and each saved row
   * has notified the users of its subcommittee (`users` is the user table in
   * repository order, `mailFails` the users whose mail throws). Only when
   * every row is saved is the resolution set to IN_PROGRESS.
   */
  function AssignOutcome(t: Tables, resolutionId: nat, reqs: seq<AssignmentRequest>,
                         subcommittees: set<nat>, users: seq<User>, mailFails: set<nat>, now: int)
    : (r: (Option<AssignError>, Tables))
    ensures resolutionId !in t.resolutions ==> r == (Some(ResolutionNotFound), t)
    ensures resolutionId in t.resolutions && FirstBadWeight(reqs) < |reqs| ==>
              r == (Some(WeightError(reqs[FirstBadWeight(reqs)])), t)
    ensures resolutionId in t.resolutions && FirstBadWeight(reqs) == |reqs| && Wrap32(TotalWeight(reqs)) != 100 ==>
              r == (Some(WeightsNotHundred), t)
    ensures r.1.resolutions.Keys == t.resolutions.Keys
    ensures |t.assignments| <= |r.1.assignments| && r.1.assignments[..|t.assignments|] == t.assignments
    ensures r.0.None? ==> r.1.resolutions[resolutionId].status == ResolutionStatus.InProgress && |r.1.assignments| == |t.assignments| + |reqs|
    ensures forall id :: id in t.resolutions && id != resolutionId ==> r.1.resolutions[id] == t.resolutions[id]
    ensures r.1.notices == t.notices + AssignmentNotices(r.1.assignments[|t.assignments|..], users, mailFails)
  {
    if resolutionId !in t.resolutions then (Some(ResolutionNotFound), t)
    else if FirstBadWeight(reqs) < |reqs| then (Some(WeightError(reqs[FirstBadWeight(reqs)])), t)
    else if Wrap32(TotalWeight(reqs)) != 100 then (Some(WeightsNotHundred), t)
    else
      var res := t.resolutions[resolutionId];
      var (e, written) := SaveAssigned(t, resolutionId, res.createdBy, reqs, subcommittees, users, mailFails, now);
      if e.Some? then (e, written)
      else (None, written.(resolutions := t.resolutions[resolutionId := res.(status := ResolutionStatus.InProgress)]))
  }

  /**
   * The assign path's loop: each request in turn is saved as a row recording
   * `creator`, and the users of its subcommittee are notified, until a
   * request names an unknown subcommittee.
   */
  function SaveAssigned(t: Tables, resolutionId: nat, creator: nat, reqs: seq<AssignmentRequest>,
                        subcommittees: set<nat>, users: seq<User>, mailFails: set<nat>, now: int)
    : (r: (Option<AssignError>, Tables))
    ensures r.1.resolutions == t.resolutions
    ensures r.0.None? || r.0 == Some(SubcommitteeNotFound)
    ensures r.0.None? <==> forall i :: 0 <= i < |reqs| ==> reqs[i].subcommitteeId in subcommittees
    ensures |t.assignments| <= |r.1.assignments| && r.1.assignments[..|t.assignments|] == t.assignments
    ensures |r.1.assignments| == |t.assignments| + FirstUnknown(reqs, subcommittees)
    ensures r.1.notices == t.notices + AssignmentNotices(r.1.assignments[|t.assignments|..], users, mailFails)
  {
    var k := FirstUnknown(reqs, subcommittees);
    var written := SavedFirst(t, resolutionId, creator, reqs, k, users, mailFails, now);
    assert written.assignments[..|t.assignments|] == t.assignments;
    assert written.assignments[|t.assignments|..] == AssignedRows(reqs[..k], resolutionId, creator, now, t.nextAssignmentId);
    (if k < |reqs| then Some(SubcommitteeNotFound) else None, written)
  }

  /** The tables once the assign loop has saved the first i requests' rows and notified their subcommittees. */
  function SavedFirst(t: Tables, resolutionId: nat, creator: nat, reqs: seq<AssignmentRequest>, i: nat,
                      users: seq<User>, mailFails: set<nat>, now: int): Tables
    requires i <= |reqs|
  {
    var rows := AssignedRows(reqs[..i], resolutionId, creator, now, t.nextAssignmentId);
    Tables(t.resolutions, t.assignments + rows, t.nextAssignmentId + i, t.notices + AssignmentNotices(rows, users, mailFails))
  }

  /** One more turn of the assign loop saves the next request's row and then notifies its subcommittee. */
  lemma SavedFirstStep(t: Tables, resolutionId: nat, creator: nat, reqs: seq<AssignmentRequest>, i: nat,
                       users: seq<User>, mailFails: set<nat>, now: int)
    requires i < |reqs|
    ensures var s := SavedFirst(t, resolutionId, creator, reqs, i, users, mailFails, now);
            var row := Row(reqs[i], resolutionId, creator, now, s.nextAssignmentId);
            SavedFirst(t, resolutionId, creator, reqs, i + 1, users, mailFails, now) ==
            s.(assignments := s.assignments + [row], nextAssignmentId := s.nextAssignmentId + 1,
               notices := s.notices + NoticesFor(row, users, mailFails))
  {
    var rows := AssignedRows(reqs[..i], resolutionId, creator, now, t.nextAssignmentId);
    var row := Row(reqs[i], resolutionId, creator, now, t.nextAssignmentId + i);
    AssignedRowsSnoc(reqs, i, resolutionId, creator, now, t.nextAssignmentId);
    AssignmentNoticesSnoc(rows, row, users, mailFails);
  }

  /** The assign path's loop, once it is known where it stops. */
  lemma SaveAssignedAt(t: Tables, resolutionId: nat, creator: nat, reqs: seq<AssignmentRequest>, subcommittees: set<nat>,
                       users: seq<User>, mailFails: set<nat>, now: int, i: nat)
    requires i <= |reqs|
    requires forall j :: 0 <= j < i ==> reqs[j].subcommitteeId in subcommittees
    requires i < |reqs| ==> reqs[i].subcommitteeId !in subcommittees
    ensures SaveAssigned(t, resolutionId, creator, reqs, subcommittees, users, mailFails, now) ==
      (if i == |reqs| then None else Some(SubcommitteeNotFound), SavedFirst(t, resolutionId, creator, reqs, i, users, mailFails, now))
  {
    assert FirstUnknown(reqs, subcommittees) == i by {
      FirstUnknownAt(reqs, subcommittees, i);
    }
  }

  /** The first unknown subcommittee is the first one after a known prefix. */
  lemma FirstUnknownAt(reqs: seq<AssignmentRequest>, subcommittees: set<nat>, i: nat)
    requires i <= |reqs|
    requires forall j :: 0 <= j < i ==> reqs[j].subcommitteeId in subcommittees
    requires i < |reqs| ==> reqs[i].subcommitteeId !in subcommittees
    ensures FirstUnknown(reqs, subcommittees) == i
  {
  }

  /**
   * What createResolutionAssignments does to the tables. An unknown resolution
   * changes nothing. Otherwise every existing row of the resolution is deleted
   * and the requests are saved in order, with no check of their sum, until one
   * cannot be saved (`ReplaceError`); the deletion and the rows saved before it
   * stay. The resolution's status is never touched. On success the answer is
   * the number of rows created.
   */
  function ReplaceOutcome(t: Tables, resolutionId: nat, reqs: seq<AssignmentRequest>,
                          subcommittees: set<nat>, now: int): (r: (Result<nat, AssignError>, Tables))
    ensures resolutionId !in t.resolutions ==> r == (Err(ResolutionNotFound), t)
    ensures r.1.resolutions == t.resolutions && r.1.notices == t.notices
    ensures r.0.Ok? ==> r.0.value == |reqs|
    ensures resolutionId in t.resolutions && FirstUnsaveable(reqs, subcommittees) < |reqs| ==>
              r.0 == Err(ReplaceError(reqs[FirstUnsaveable(reqs, subcommittees)], subcommittees).value)
  {
    if resolutionId !in t.resolutions then (Err(ResolutionNotFound), t)
    else SaveRequests(t.(assignments := Filter(t.assignments, NotOfResolution(resolutionId))), resolutionId, reqs, subcommittees, now)
  }

  /**
   * The replace path's loop: the requests saved one after the other onto the
   * tables, up to the first that cannot be saved, whose error is the answer.
   */
  function SaveRequests(t: Tables, resolutionId: nat, reqs: seq<AssignmentRequest>,
                        subcommittees: set<nat>, now: int): (r: (Result<nat, AssignError>, Tables))
    ensures r.1.resolutions == t.resolutions && r.1.notices == t.notices
    ensures |r.1.assignments| == |t.assignments| + FirstUnsaveable(reqs, subcommittees)
    ensures r.1.assignments[..|t.assignments|] == t.assignments
  {
    var k := FirstUnsaveable(reqs, subcommittees);
    var written := Tables(t.resolutions, t.assignments + ReplacementRows(reqs[..k], resolutionId, now, t.nextAssignmentId),
                          t.nextAssignmentId + k, t.notices);
    assert written.assignments[..|t.assignments|] == t.assignments;
    var answer: Result<nat, AssignError> := if k == |reqs| then Ok(|reqs|) else Err(ReplaceError(reqs[k], subcommittees).value);
    (answer, written)
  }

  /** The rows `deleteAll(findByResolutionId(resolutionId))` leaves behind. */
  function NotOfResolution(resolutionId: nat): Assignment -> bool
  {
    (a: Assignment) => a.resolutionId != resolutionId
  }

  /** The replace path's loop, once it is known where it stops. */
  lemma SaveRequestsAt(t: Tables, resolutionId: nat, reqs: seq<AssignmentRequest>, subcommittees: set<nat>,
                       now: int, i: nat)
    requires i <= |reqs|
    requires forall j :: 0 <= j < i ==> Saveable(reqs[j], subcommittees)
    requires i < |reqs| ==> !Saveable(reqs[i], subcommittees)
    ensures SaveRequests(t, resolutionId, reqs, subcommittees, now) ==
      (if i == |reqs| then Ok(|reqs|) else Err(ReplaceError(reqs[i], subcommittees).value),
       Tables(t.resolutions, t.assignments + ReplacementRows(reqs[..i], resolutionId, now, t.nextAssignmentId),
              t.nextAssignmentId + i, t.notices))
  {
    FirstUnsaveableAt(reqs, subcommittees, i);
  }

  // ---------------------------------------------------------------------
  // Properties of the two write paths

  /** The weights of the rows the assign path saves are the requested weights. */
  lemma {:induction false} AssignedRowsWeight(reqs: seq<AssignmentRequest>, resolutionId: nat, creator: nat, now: int, firstId: nat)
    ensures RowWeight(AssignedRows(reqs, resolutionId, creator, now, firstId)) == TotalWeight(reqs)
  {
    if reqs != [] {
      var rows := AssignedRows(reqs, resolutionId, creator, now, firstId);
      assert rows[1..] == AssignedRows(reqs[1..], resolutionId, creator, now, firstId + 1);
      AssignedRowsWeight(reqs[1..], resolutionId, creator, now, firstId + 1);
    }
  }

  /** The weights of a concatenation add up. */
  lemma {:induction false} RowWeightConcat(a: seq<Assignment>, b: seq<Assignment>)
    ensures RowWeight(a + b) == RowWeight(a) + RowWeight(b)
  {
    if a == [] {
      assert a + b == b;
    } else {
      assert (a + b)[1..] == a[1..] + b;
      RowWeightConcat(a[1..], b);
    }
  }

  /**
   * A successful assign adds exactly one ASSIGNED row per request, in order,
   * each recording the resolution's creator and the request's weight, and the
   * added weights total 100 in 32-bit arithmetic. Rows that were already
   * there, for this or any other resolution, are kept.
   */
  lemma AssignSuccess(t: Tables, resolutionId: nat, reqs: seq<AssignmentRequest>, subcommittees: set<nat>,
                      users: seq<User>, mailFails: set<nat>, now: int)
    requires AssignOutcome(t, resolutionId, reqs, subcommittees, users, mailFails, now).0.None?
    ensures var t' := AssignOutcome(t, resolutionId, reqs, subcommittees, users, mailFails, now).1;
      var added := t'.assignments[|t.assignments|..];
      resolutionId in t.resolutions &&
      |added| == |reqs| && Wrap32(RowWeight(added)) == 100 &&
      (forall i :: 0 <= i < |reqs| ==>
        added[i].resolutionId == resolutionId && added[i].subcommitteeId == reqs[i].subcommitteeId &&
        reqs[i].contributionPercentage == Some(added[i].contributionPercentage) &&
        added[i].assignedBy == t.resolutions[resolutionId].createdBy && added[i].status == Assigned)
  {
    var t' := AssignOutcome(t, resolutionId, reqs, subcommittees, users, mailFails, now).1;
    var rows := AssignedRows(reqs, resolutionId, t.resolutions[resolutionId].createdBy, now, t.nextAssignmentId);
    assert reqs[..|reqs|] == reqs;
    assert t'.assignments[|t.assignments|..] == rows;
    AssignedRowsWeight(reqs, resolutionId, t.resolutions[resolutionId].createdBy, now, t.nextAssignmentId);
  }

  /** Duplicate subcommittees are not rejected: each request gets its own row. */
  lemma AssignAcceptsDuplicates(t: Tables, resolutionId: nat, sid: nat, users: seq<User>, mailFails: set<nat>, now: int)
    requires resolutionId in t.resolutions
    ensures var reqs := [AssignmentRequest(sid, Some(50), None), AssignmentRequest(sid, Some(50), None)];
      var r := AssignOutcome(t, resolutionId, reqs, {sid}, users, mailFails, now);
      r.0.None? && |r.1.assignments| == |t.assignments| + 2
  {
    var reqs := [AssignmentRequest(sid, Some(50), None), AssignmentRequest(sid, Some(50), None)];
    assert FirstBadWeight(reqs) == 2 by {
      assert reqs[1..][1..] == [];
    }
    assert TotalWeight(reqs) == 100 by {
      assert reqs[1..][1..] == [];
      assert TotalWeight(reqs[1..]) == 50;
    }
    assert FirstUnknown(reqs, {sid}) == 2 by {
      assert reqs[1..][1..] == [];
    }
  }

  /**
   * After a successful assign, the chair of every requested subcommittee
   * reaches the resolution through its assignment rows.
   */
  lemma AssignMakesVisible(t: Tables, resolutionId: nat, reqs: seq<AssignmentRequest>, subcommittees: set<nat>,
                           users: seq<User>, mailFails: set<nat>, now: int, i: nat)
    requires AssignOutcome(t, resolutionId, reqs, subcommittees, users, mailFails, now).0.None?
    requires i < |reqs|
    ensures AssignedTo(AssignOutcome(t, resolutionId, reqs, subcommittees, users, mailFails, now).1.assignments,
                       resolutionId, reqs[i].subcommitteeId)
  {
    AssignSuccess(t, resolutionId, reqs, subcommittees, users, mailFails, now);
    var a := AssignOutcome(t, resolutionId, reqs, subcommittees, users, mailFails, now).1.assignments;
    assert a[|t.assignments| + i] == a[|t.assignments|..][i];
  }

  /**
   * A failing assign that got past the weight check keeps the rows it saved
   * before the unknown subcommittee, and leaves the resolution's status alone.
   */
  lemma AssignPartialWrite(t: Tables, resolutionId: nat, reqs: seq<AssignmentRequest>, subcommittees: set<nat>,
                           users: seq<User>, mailFails: set<nat>, now: int)
    requires resolutionId in t.resolutions && FirstBadWeight(reqs) == |reqs| && Wrap32(TotalWeight(reqs)) == 100
    requires FirstUnknown(reqs, subcommittees) < |reqs|
    ensures var r := AssignOutcome(t, resolutionId, reqs, subcommittees, users, mailFails, now);
      r.0 == Some(SubcommitteeNotFound) && r.1.resolutions == t.resolutions &&
      |r.1.assignments| == |t.assignments| + FirstUnknown(reqs, subcommittees)
  {
  }

  /** Once the resolution's rows are deleted, its rows are exactly the ones appended. */
  lemma RowsAfterDelete(a: seq<Assignment>, rows: seq<Assignment>, resolutionId: nat)
    requires forall i :: 0 <= i < |rows| ==> rows[i].resolutionId == resolutionId
    ensures AssignmentsOf(Filter(a, NotOfResolution(resolutionId)) + rows, resolutionId) == rows
  {
    var kept := Filter(a, NotOfResolution(resolutionId));
    FilterConcat(kept, rows, OfResolution(resolutionId));
    FilterNone(kept, OfResolution(resolutionId));
    FilterAll(rows, OfResolution(resolutionId));
  }

  /** Deleting one resolution's rows and appending new ones for it leaves another resolution's rows alone. */
  lemma OtherRowsAfterDelete(a: seq<Assignment>, rows: seq<Assignment>, resolutionId: nat, other: nat)
    requires other != resolutionId
    requires forall i :: 0 <= i < |rows| ==> rows[i].resolutionId == resolutionId
    ensures AssignmentsOf(Filter(a, NotOfResolution(resolutionId)) + rows, other) == AssignmentsOf(a, other)
  {
    var kept := Filter(a, NotOfResolution(resolutionId));
    FilterConcat(kept, rows, OfResolution(other));
    FilterNone(rows, OfResolution(other));
    FilterOfFilter(a, NotOfResolution(resolutionId), OfResolution(other));
  }

  /**
   * After a successful replace, the resolution's rows are exactly the
   * requested ones, in order, and every other resolution's rows are as before.
   */
  lemma ReplaceSuccess(t: Tables, resolutionId: nat, reqs: seq<AssignmentRequest>, subcommittees: set<nat>, now: int)
    requires ReplaceOutcome(t, resolutionId, reqs, subcommittees, now).0.Ok?
    ensures forall i :: 0 <= i < |reqs| ==>
      reqs[i].subcommitteeId in subcommittees && IntWeight(reqs[i]) &&
      reqs[i].assignedBy.Some? && Decoded(reqs[i].assignedBy.value) == JavaLong
    ensures var t' := ReplaceOutcome(t, resolutionId, reqs, subcommittees, now).1;
      AssignmentsOf(t'.assignments, resolutionId) == ReplacementRows(reqs, resolutionId, now, t.nextAssignmentId) &&
      forall other :: other != resolutionId ==> AssignmentsOf(t'.assignments, other) == AssignmentsOf(t.assignments, other)
  {
    var k := FirstUnsaveable(reqs, subcommittees);
    assert k == |reqs| && reqs[..k] == reqs;
    var rows := ReplacementRows(reqs, resolutionId, now, t.nextAssignmentId);
    RowsAfterDelete(t.assignments, rows, resolutionId);
    forall other | other != resolutionId
      ensures AssignmentsOf(Filter(t.assignments, NotOfResolution(resolutionId)) + rows, other)
              == AssignmentsOf(t.assignments, other)
    {
      OtherRowsAfterDelete(t.assignments, rows, resolutionId, other);
    }
  }

  /**
   * The replace path saves weights that do not add up to 100, given an
   * assigner number the mapper delivers as a `Long` (one beyond 32 bits).
   */
  lemma ReplaceSkipsWeightCheck(t: Tables, resolutionId: nat, sid: nat, assigner: int, now: int)
    requires resolutionId in t.resolutions && Decoded(assigner) == JavaLong
    ensures var reqs := [AssignmentRequest(sid, Some(30), Some(assigner))];
      TotalWeight(reqs) != 100 && ReplaceOutcome(t, resolutionId, reqs, {sid}, now).0 == Ok(1)
  {
    var reqs := [AssignmentRequest(sid, Some(30), Some(assigner))];
    assert FirstUnsaveable(reqs, {sid}) == 1 by {
      assert reqs[1..] == [];
    }
  }

  /**
   * A request whose assigner is a number within 32 bits, such as a user id
   * like 5, reaches the `(Long)` cast as an `Integer`: the replace fails at
   * that request, after the resolution's old rows were deleted, so fewer rows
   * than requested are left for it; other resolutions keep theirs.
   */
  lemma {:induction false} ReplaceRejectsIntegerAssigner(t: Tables, resolutionId: nat, reqs: seq<AssignmentRequest>,
                                                         subcommittees: set<nat>, now: int, i: nat)
    requires resolutionId in t.resolutions && i < |reqs|
    requires reqs[i].assignedBy.Some? && Decoded(reqs[i].assignedBy.value) == JavaInteger
    ensures var r := ReplaceOutcome(t, resolutionId, reqs, subcommittees, now);
      r.0.Err? && |AssignmentsOf(r.1.assignments, resolutionId)| <= i &&
      forall other :: other != resolutionId ==> AssignmentsOf(r.1.assignments, other) == AssignmentsOf(t.assignments, other)
  {
    var k := FirstUnsaveable(reqs, subcommittees);
    assert !Saveable(reqs[i], subcommittees);
    assert k <= i;
    var rows := ReplacementRows(reqs[..k], resolutionId, now, t.nextAssignmentId);
    RowsAfterDelete(t.assignments, rows, resolutionId);
    forall other | other != resolutionId
      ensures AssignmentsOf(Filter(t.assignments, NotOfResolution(resolutionId)) + rows, other)
              == AssignmentsOf(t.assignments, other)
    {
      OtherRowsAfterDelete(t.assignments, rows, resolutionId, other);
    }
  }

  /**
   * Example: one request `{"subcommitteeId": sid, "contributionPercentage": 30,
   * "assignedBy": 5}` fails with the Integer-to-Long cast, and the resolution
   * is left with no rows at all.
   */
  lemma ReplaceSmallAssignerExample(t: Tables, resolutionId: nat, sid: nat, now: int)
    requires resolutionId in t.resolutions
    ensures var r := ReplaceOutcome(t, resolutionId, [AssignmentRequest(sid, Some(30), Some(5))], {sid}, now);
      r.0 == Err(CastFails(JavaInteger, JavaLong)) && AssignmentsOf(r.1.assignments, resolutionId) == []
  {
    var reqs := [AssignmentRequest(sid, Some(30), Some(5))];
    assert FirstUnsaveable(reqs, {sid}) == 0;
    RowsAfterDelete(t.assignments, [], resolutionId);
    assert Filter(t.assignments, NotOfResolution(resolutionId)) + [] == Filter(t.assignments, NotOfResolution(resolutionId));
  }

  /**
   * The assign path's sum wraps around: two weights of 2^31 - 1 and one of
   * 102 pass the check, though the saved weights add up to 4294967396.
   */
  lemma AssignAcceptsWrappedSum(t: Tables, resolutionId: nat, sid: nat, users: seq<User>, mailFails: set<nat>, now: int)
    requires resolutionId in t.resolutions
    ensures var reqs := [AssignmentRequest(sid, Some(0x7fff_ffff), None), AssignmentRequest(sid, Some(0x7fff_ffff), None),
                         AssignmentRequest(sid, Some(102), None)];
      var r := AssignOutcome(t, resolutionId, reqs, {sid}, users, mailFails, now);
      r.0.None? && RowWeight(r.1.assignments[|t.assignments|..]) == 4294967396
  {
    var reqs := [AssignmentRequest(sid, Some(0x7fff_ffff), None), AssignmentRequest(sid, Some(0x7fff_ffff), None),
                 AssignmentRequest(sid, Some(102), None)];
    assert reqs[1..][1..][1..] == [];
    assert FirstBadWeight(reqs) == 3;
    assert TotalWeight(reqs[1..][1..]) == 102;
    assert TotalWeight(reqs[1..]) == 0x7fff_ffff + 102;
    assert FirstUnknown(reqs, {sid}) == 3;
    AssignSuccess(t, resolutionId, reqs, {sid}, users, mailFails, now);
    var rows := AssignedRows(reqs, resolutionId, t.resolutions[resolutionId].createdBy, now, t.nextAssignmentId);
    assert reqs[..3] == reqs;
    AssignedRowsWeight(reqs, resolutionId, t.resolutions[resolutionId].createdBy, now, t.nextAssignmentId);
  }

  /**
   * After a successful assign, the notifications it created are exactly one
   * TASK_ASSIGNMENT notice, about the resolution and carrying the weight, per
   * request and per user of the request's subcommittee; each says whether its
   * mail went out.
   */
  lemma AssignNotifiesSubcommittees(t: Tables, resolutionId: nat, reqs: seq<AssignmentRequest>, subcommittees: set<nat>,
                                    users: seq<User>, mailFails: set<nat>, now: int, n: AssignmentNotice)
    requires AssignOutcome(t, resolutionId, reqs, subcommittees, users, mailFails, now).0.None?
    ensures var t' := AssignOutcome(t, resolutionId, reqs, subcommittees, users, mailFails, now).1;
      |t.notices| <= |t'.notices| && t'.notices[..|t.notices|] == t.notices &&
      (n in t'.notices[|t.notices|..] <==>
        exists i, u :: 0 <= i < |reqs| && u in users && MemberOf(u, reqs[i].subcommitteeId) &&
          n == AssignmentNotice(u.id, AssignmentTitle, resolutionId, reqs[i].subcommitteeId, Weight(reqs[i]),
                                u.id !in mailFails))
  {
    var t' := AssignOutcome(t, resolutionId, reqs, subcommittees, users, mailFails, now).1;
    var creator := t.resolutions[resolutionId].createdBy;
    var rows := AssignedRows(reqs, resolutionId, creator, now, t.nextAssignmentId);
    SaveAssignedAt(t, resolutionId, creator, reqs, subcommittees, users, mailFails, now, |reqs|);
    assert reqs[..|reqs|] == reqs;
    assert t'.notices == t.notices + AssignmentNotices(rows, users, mailFails);
    assert t'.notices[|t.notices|..] == AssignmentNotices(rows, users, mailFails);
    RequestNoticesExact(reqs, resolutionId, creator, now, t.nextAssignmentId, users, mailFails, n);
  }

  /** The notices for the rows saved for some requests: one per request and per user of its subcommittee. */
  lemma RequestNoticesExact(reqs: seq<AssignmentRequest>, resolutionId: nat, creator: nat, now: int, firstId: nat,
                            users: seq<User>, mailFails: set<nat>, n: AssignmentNotice)
    ensures n in AssignmentNotices(AssignedRows(reqs, resolutionId, creator, now, firstId), users, mailFails) <==>
      exists i, u :: 0 <= i < |reqs| && u in users && MemberOf(u, reqs[i].subcommitteeId) &&
        n == AssignmentNotice(u.id, AssignmentTitle, resolutionId, reqs[i].subcommitteeId, Weight(reqs[i]),
                              u.id !in mailFails)
  {
    var rows := AssignedRows(reqs, resolutionId, creator, now, firstId);
    var all := AssignmentNotices(rows, users, mailFails);
    if n in all {
      var k :| 0 <= k < |all| && all[k] == n;
      var j, u := NoticeOrigin(rows, users, mailFails, k);
      assert n == AssignmentNotice(u.id, AssignmentTitle, resolutionId, reqs[j].subcommitteeId, Weight(reqs[j]),
                                   u.id !in mailFails);
    }
    if exists i, u :: 0 <= i < |reqs| && u in users && MemberOf(u, reqs[i].subcommitteeId) &&
         n == AssignmentNotice(u.id, AssignmentTitle, resolutionId, reqs[i].subcommitteeId, Weight(reqs[i]),
                               u.id !in mailFails) {
      var i, u :| 0 <= i < |reqs| && u in users && MemberOf(u, reqs[i].subcommitteeId) &&
         n == AssignmentNotice(u.id, AssignmentTitle, resolutionId, reqs[i].subcommitteeId, Weight(reqs[i]),
                               u.id !in mailFails);
      assert n == NoticeFor(rows[i], u, mailFails);
      NoticeIsListed(rows, users, mailFails, i, u);
    }
  }


  // ---------------------------------------------------------------------
  // Read paths

  /** The position of the first row for the subcommittee, or |rows| when there is none. */
  function FirstIndexFor(rows: seq<Assignment>, subcommitteeId: nat): (k: nat)
    ensures k <= |rows|
    ensures forall j :: 0 <= j < k ==> rows[j].subcommitteeId != subcommitteeId
    ensures k < |rows| ==> rows[k].subcommitteeId == subcommitteeId
  {
    if rows == [] then 0
    else if rows[0].subcommitteeId == subcommitteeId then 0
    else 1 + FirstIndexFor(rows[1..], subcommitteeId)
  }

  /** `findFirst()` over the resolution's rows for the report's subcommittee. */
  function FirstFor(rows: seq<Assignment>, subcommitteeId: nat): (r: Option<Assignment>)
    ensures r.None? <==> forall i :: 0 <= i < |rows| ==> rows[i].subcommitteeId != subcommitteeId
    ensures r.Some? ==> exists i :: 0 <= i < |rows| && rows[i] == r.value && rows[i].subcommitteeId == subcommitteeId &&
                          forall j :: 0 <= j < i ==> rows[j].subcommitteeId != subcommitteeId
  {
    var k := FirstIndexFor(rows, subcommitteeId);
    if k < |rows| then Some(rows[k]) else None
  }

  /**
   * A report's share of overallProgress, times 100: its percentage times the
   * weight of the first matching row, or 0 when no row matches. The two
   * `Integer`s are multiplied as `int`s, so the product wraps at 32 bits.
   * With a match, a NULL percentage fails to unbox (a NullPointerException).
   */
  function Contribution(report: Report, rows: seq<Assignment>): (r: Result<int, string>)
    ensures FirstFor(rows, report.subcommitteeId).None? ==> r == Ok(0)
    ensures r.Err? <==> FirstFor(rows, report.subcommitteeId).Some? && report.performancePercentage.None?
  {
    match FirstFor(rows, report.subcommitteeId)
    case None => Ok(0)
    case Some(a) =>
      if report.performancePercentage.None? then Err("NullPointerException")
      else Ok(Wrap32(report.performancePercentage.value * a.contributionPercentage))
  }

  /** overallProgress times 100: Σ perf × weight, stopped by the first report that cannot unbox. */
  function WeightedProgress(reports: seq<Report>, rows: seq<Assignment>): (r: Result<int, string>)
    ensures r.Err? <==> exists i :: 0 <= i < |reports| && Contribution(reports[i], rows).Err?
  {
    if reports == [] then Ok(0)
    else
      var head := Contribution(reports[0], rows);
      var tail := WeightedProgress(reports[1..], rows);
      if head.Err? then head
      else if tail.Err? then (assert forall i :: 0 <= i < |reports[1..]| ==> reports[1..][i] == reports[i + 1]; tail)
      else Ok(head.value + tail.value)
  }

  /** The weight of the first matching row, or 0: what bounds a report's contribution. */
  function MatchedWeight(report: Report, rows: seq<Assignment>): int
  {
    match FirstFor(rows, report.subcommitteeId)
    case None => 0
    case Some(a) => a.contributionPercentage
  }

  function SumMatchedWeights(reports: seq<Report>, rows: seq<Assignment>): int
  {
    if reports == [] then 0 else MatchedWeight(reports[0], rows) + SumMatchedWeights(reports[1..], rows)
  }

  /**
   * With percentages in 0..100 and weights from 0 up to 21474836, so that no
   * product leaves 32 bits, overallProgress is between 0 and the sum of the
   * matched weights; nothing divides it by the number of reports, so several
   * reports for one subcommittee add up.
   */
  lemma {:induction false} ProgressBounds(reports: seq<Report>, rows: seq<Assignment>)
    requires forall i :: 0 <= i < |reports| ==>
               reports[i].performancePercentage.Some? && 0 <= reports[i].performancePercentage.value <= 100
    requires forall i :: 0 <= i < |rows| ==> 0 <= rows[i].contributionPercentage <= 21474836
    ensures WeightedProgress(reports, rows).Ok?
    ensures 0 <= WeightedProgress(reports, rows).value <= 100 * SumMatchedWeights(reports, rows)
  {
    if reports != [] {
      ProgressBounds(reports[1..], rows);
      ContributionBounds(reports[0], rows);
    }
  }

  /** One report's contribution, when no product leaves 32 bits. */
  lemma ContributionBounds(report: Report, rows: seq<Assignment>)
    requires report.performancePercentage.Some? && 0 <= report.performancePercentage.value <= 100
    requires forall i :: 0 <= i < |rows| ==> 0 <= rows[i].contributionPercentage <= 21474836
    ensures Contribution(report, rows).Ok?
    ensures 0 <= Contribution(report, rows).value <= 100 * MatchedWeight(report, rows)
  {
    var f := FirstFor(rows, report.subcommitteeId);
    if f.Some? {
      var p := report.performancePercentage.value;
      var w := f.value.contributionPercentage;
      assert 0 <= w <= 21474836;
      assert 0 <= p * w <= 100 * w by {
        assert p * w <= 100 * w by { assert (100 - p) * w >= 0; }
      }
      Wrap32Small(p * w);
    }
  }

  /** Reports of subcommittees without a row add nothing to the progress. */
  lemma {:induction false} UnmatchedReportsIgnored(reports: seq<Report>, extra: Report, rows: seq<Assignment>)
    requires FirstFor(rows, extra.subcommitteeId).None?
    ensures WeightedProgress(reports + [extra], rows) == WeightedProgress(reports, rows)
  {
    if reports == [] {
      assert reports + [extra] == [extra];
      assert [extra][1..] == [];
    } else {
      assert (reports + [extra])[1..] == reports[1..] + [extra];
      UnmatchedReportsIgnored(reports[1..], extra, rows);
    }
  }

  /** Two full reports from a subcommittee carrying all the weight give 200%: the result is not normalised. */
  lemma ProgressNotNormalised(r1: Report, r2: Report, row: Assignment)
    requires r1.subcommitteeId == r2.subcommitteeId == row.subcommitteeId
    requires r1.performancePercentage == r2.performancePercentage == Some(100) && row.contributionPercentage == 100
    ensures WeightedProgress([r1, r2], [row]) == Ok(2 * 100 * 100)
  {
    assert [r1, r2][1..] == [r2];
    assert [r2][1..] == [];
    assert FirstFor([row], r1.subcommitteeId) == Some(row);
    Wrap32Small(100 * 100);
    assert Contribution(r1, [row]) == Contribution(r2, [row]) == Ok(100 * 100);
    assert WeightedProgress([r2], [row]) == Ok(100 * 100);
  }

  /**
   * Example: a full report for a subcommittee weighted 2^31 - 1, a weight the
   * replace path stores unchecked, gives a progress of -1%: the product
   * 100 × 2147483647 wraps to -100.
   */
  lemma ProgressWrapsExample(r: Report, row: Assignment)
    requires r.subcommitteeId == row.subcommitteeId
    requires r.performancePercentage == Some(100) && row.contributionPercentage == 0x7fff_ffff
    ensures WeightedProgress([r], [row]) == Ok(-100)
  {
    assert [r][1..] == [];
    assert FirstFor([row], r.subcommitteeId) == Some(row);
    assert Wrap32(100 * 0x7fff_ffff) == -100;
  }

  /** getResolutionProgress: overallProgress times 100, and the two counts. */
  datatype Progress = Progress(weightedSum: int, totalAssignments: nat, totalReports: nat)

  function ReportOfResolution(resolutionId: nat): Report -> bool
  {
    (r: Report) => r.resolutionId == resolutionId
  }

  function ResolutionProgress(assignments: seq<Assignment>, reports: seq<Report>, resolutionId: nat)
    : (r: Result<Progress, string>)
    ensures r.Ok? ==> r.value.totalAssignments == Count(assignments, OfResolution(resolutionId))
                      && r.value.totalReports == Count(reports, ReportOfResolution(resolutionId))
    ensures var sum := WeightedProgress(Filter(reports, ReportOfResolution(resolutionId)),
                                        AssignmentsOf(assignments, resolutionId));
            r.Ok? == sum.Ok? && (r.Ok? ==> r.value.weightedSum == sum.value)
  {
    var rows := AssignmentsOf(assignments, resolutionId);
    var reps := Filter(reports, ReportOfResolution(resolutionId));
    match WeightedProgress(reps, rows)
    case Err(e) => Err(e)
    case Ok(sum) => Ok(Progress(sum, |rows|, |reps|))
  }

  /**
   * getResolutionsBySubcommittee: the resolutions, in table order, with at
   * least one assignment row to that subcommittee.
   */
  function BySubcommittee(resolutions: seq<Resolution>, assignments: seq<Assignment>, subcommitteeId: nat)
    : (r: seq<Resolution>)
    ensures forall res :: res in r <==> res in resolutions && AssignedTo(assignments, res.id, subcommitteeId)
    ensures IsSubsequence(r, resolutions)
  {
    FilterIsSubsequence(resolutions, (res: Resolution) => AssignedTo(assignments, res.id, subcommitteeId));
    Filter(resolutions, (res: Resolution) => AssignedTo(assignments, res.id, subcommitteeId))
  }

  // ---------------------------------------------------------------------
  // The service

  class ResolutionService {
    var resolutions: map<nat, Resolution>
    var nextResolutionId: nat
    var assignments: seq<Assignment>
    var nextAssignmentId: nat
    var notices: seq<AssignmentNotice>

    ghost predicate Valid()
      reads this
    {
      forall id :: id in resolutions ==> resolutions[id].id == id && id < nextResolutionId
    }

    constructor ()
      ensures Valid() && resolutions == map[] && assignments == [] && notices == []
    {
      resolutions := map[];
      nextResolutionId := 1;
      assignments := [];
      nextAssignmentId := 1;
      notices := [];
    }

    function State(): Tables
      reads this
    {
      Tables(resolutions, assignments, nextAssignmentId, notices)
    }

    /** createResolution: saved as ASSIGNED with the creation time, whatever status it came with. */
    method CreateResolution(res: Resolution, now: int) returns (saved: Resolution)
      requires Valid()
      modifies this
      ensures Valid() && assignments == old(assignments) && nextAssignmentId == old(nextAssignmentId)
      ensures notices == old(notices)
      ensures saved.status == Assigned && saved.createdAt == now
      ensures saved == res.(id := saved.id, status := Assigned, createdAt := now)
      ensures res.id in old(resolutions) ==> saved.id == res.id && nextResolutionId == old(nextResolutionId)
      ensures res.id !in old(resolutions) ==> saved.id == old(nextResolutionId) && nextResolutionId == old(nextResolutionId) + 1
      ensures resolutions == old(resolutions)[saved.id := saved]
    {
      var id := res.id;
      if id !in resolutions {
        id := nextResolutionId;
        nextResolutionId := nextResolutionId + 1;
      }
      saved := res.(id := id, status := Assigned, createdAt := now);
      resolutions := resolutions[id := saved];
    }

    /** assignResolutionToSubcommittees(resolutionId, assignments). */
    method Assign(resolutionId: nat, reqs: seq<AssignmentRequest>, subcommittees: set<nat>,
                  users: seq<User>, mailFails: set<nat>, now: int)
      returns (err: Option<AssignError>)
      requires Valid()
      modifies this
      ensures Valid() && nextResolutionId == old(nextResolutionId)
      ensures (err, State()) == AssignOutcome(old(State()), resolutionId, reqs, subcommittees, users, mailFails, now)
    {
      if resolutionId !in resolutions {
        return Some(ResolutionNotFound);
      }
      var res := resolutions[resolutionId];
      var bad := FirstBadWeight(reqs);
      if bad < |reqs| {
        return Some(WeightError(reqs[bad]));
      }
      if Wrap32(TotalWeight(reqs)) != 100 {
        return Some(WeightsNotHundred);
      }
      err := SaveAndNotifyEach(resolutionId, res.createdBy, reqs, subcommittees, users, mailFails, now);
      if err.None? {
        resolutions := resolutions[resolutionId := res.(status := ResolutionStatus.InProgress)];
      }
    }

    /** The loop of assignResolutionToSubcommittees: save each request and notify its subcommittee. */
    method SaveAndNotifyEach(resolutionId: nat, creator: nat, reqs: seq<AssignmentRequest>, subcommittees: set<nat>,
                             users: seq<User>, mailFails: set<nat>, now: int)
      returns (err: Option<AssignError>)
      requires Valid()
      modifies this
      ensures Valid() && nextResolutionId == old(nextResolutionId)
      ensures (err, State()) == SaveAssigned(old(State()), resolutionId, creator, reqs, subcommittees, users, mailFails, now)
    {
      var i := 0;
      while i < |reqs|
        invariant 0 <= i <= |reqs|
        invariant forall j :: 0 <= j < i ==> reqs[j].subcommitteeId in subcommittees
        invariant State() == SavedFirst(old(State()), resolutionId, creator, reqs, i, users, mailFails, now)
        invariant nextResolutionId == old(nextResolutionId)
      {
        if reqs[i].subcommitteeId !in subcommittees {
          SaveAssignedAt(old(State()), resolutionId, creator, reqs, subcommittees, users, mailFails, now, i);
          return Some(SubcommitteeNotFound);
        }
        SavedFirstStep(old(State()), resolutionId, creator, reqs, i, users, mailFails, now);
        var row := Row(reqs[i], resolutionId, creator, now, nextAssignmentId);
        assignments := assignments + [row];
        nextAssignmentId := nextAssignmentId + 1;
        NotifySubcommitteeMembers(row, users, mailFails);
        i := i + 1;
      }
      SaveAssignedAt(old(State()), resolutionId, creator, reqs, subcommittees, users, mailFails, now, i);
      err := None;
    }

    /**
     * notifySubcommitteeMembers: for each user of the row's subcommittee, in
     * table order, the mail is attempted (a failure is only logged) and a
     * notification created.
     */
    method NotifySubcommitteeMembers(row: Assignment, users: seq<User>, mailFails: set<nat>)
      modifies this
      ensures notices == old(notices) + NoticesFor(row, users, mailFails)
      ensures resolutions == old(resolutions) && nextResolutionId == old(nextResolutionId)
      ensures assignments == old(assignments) && nextAssignmentId == old(nextAssignmentId)
    {
      var members := SubcommitteeUsers(users, row.subcommitteeId);
      var i := 0;
      while i < |members|
        invariant 0 <= i <= |members|
        invariant notices == old(notices) + NoticesFor(row, users, mailFails)[..i]
        invariant resolutions == old(resolutions) && nextResolutionId == old(nextResolutionId)
        invariant assignments == old(assignments) && nextAssignmentId == old(nextAssignmentId)
      {
        var mailed := members[i].id !in mailFails;
        notices := notices + [AssignmentNotice(members[i].id, AssignmentTitle, row.resolutionId, row.subcommitteeId,
                                               row.contributionPercentage, mailed)];
        assert NoticesFor(row, users, mailFails)[..i + 1] == NoticesFor(row, users, mailFails)[..i] + [NoticeFor(row, members[i], mailFails)];
        i := i + 1;
      }
      assert NoticesFor(row, users, mailFails)[..i] == NoticesFor(row, users, mailFails);
    }

    /**
     * The overload that first asks whether `assignedById` may assign
     * resolutions; a refusal changes nothing. `users` is the user table by
     * id, `userRows` the same table in repository order.
     */
    method AssignAsSecretary(resolutionId: nat, reqs: seq<AssignmentRequest>, assignedById: nat,
                             users: map<nat, User>, userRows: seq<User>, mailFails: set<nat>,
                             subcommittees: set<nat>, now: int)
      returns (err: Option<AssignError>)
      requires Valid()
      modifies this
      ensures Valid() && nextResolutionId == old(nextResolutionId)
      ensures !ValidateResolutionAssignment(users, assignedById).valid ==>
                err == Some(NotAllowed(ValidateResolutionAssignment(users, assignedById).message)) &&
                State() == old(State())
      ensures ValidateResolutionAssignment(users, assignedById).valid ==>
                (err, State()) == AssignOutcome(old(State()), resolutionId, reqs, subcommittees, userRows, mailFails, now)
    {
      var validation := ValidateResolutionAssignment(users, assignedById);
      if !validation.valid {
        return Some(NotAllowed(validation.message));
      }
      err := Assign(resolutionId, reqs, subcommittees, userRows, mailFails, now);
    }

    /** createResolutionAssignments: delete the resolution's rows, then save the requests. */
    method ReplaceAssignments(resolutionId: nat, reqs: seq<AssignmentRequest>, subcommittees: set<nat>, now: int)
      returns (count: Result<nat, AssignError>)
      requires Valid()
      modifies this
      ensures Valid() && nextResolutionId == old(nextResolutionId)
      ensures (count, State()) == ReplaceOutcome(old(State()), resolutionId, reqs, subcommittees, now)
    {
      if resolutionId !in resolutions {
        return Err(ResolutionNotFound);
      }
      assignments := Filter(assignments, NotOfResolution(resolutionId));
      count := SaveEach(resolutionId, reqs, subcommittees, now);
    }

    /** The loop of createResolutionAssignments: save each request in turn, stopping at the first that fails. */
    method SaveEach(resolutionId: nat, reqs: seq<AssignmentRequest>, subcommittees: set<nat>, now: int)
      returns (count: Result<nat, AssignError>)
      requires Valid()
      modifies this
      ensures Valid() && nextResolutionId == old(nextResolutionId)
      ensures (count, State()) == SaveRequests(old(State()), resolutionId, reqs, subcommittees, now)
    {
      var i := 0;
      while i < |reqs|
        invariant 0 <= i <= |reqs|
        invariant forall j :: 0 <= j < i ==> Saveable(reqs[j], subcommittees)
        invariant assignments == old(assignments) + ReplacementRows(reqs[..i], resolutionId, now, old(nextAssignmentId))
        invariant nextAssignmentId == old(nextAssignmentId) + i
        invariant resolutions == old(resolutions) && nextResolutionId == old(nextResolutionId)
        invariant notices == old(notices)
      {
        // the lookup, the two casts and the save's NOT NULL checks, in that order
        var failure := ReplaceError(reqs[i], subcommittees);
        if failure.Some? {
          SaveRequestsAt(old(State()), resolutionId, reqs, subcommittees, now, i);
          return Err(failure.value);
        }
        var row := Row(reqs[i], resolutionId, reqs[i].assignedBy.value, now, nextAssignmentId);
        assignments := assignments + [row];
        nextAssignmentId := nextAssignmentId + 1;
        assert ReplacementRows(reqs[..i + 1], resolutionId, now, old(nextAssignmentId))
            == ReplacementRows(reqs[..i], resolutionId, now, old(nextAssignmentId)) + [row];
        i := i + 1;
      }
      SaveRequestsAt(old(State()), resolutionId, reqs, subcommittees, now, i);
      count := Ok(|reqs|);
    }
  }
}

=== FILE: secretary_validation.dfy ===
/**
 * The location rule for secretaries: a secretary may manage a meeting only
 * when their own country is the meeting's hosting country. Lookups by id
 * catch every exception and answer "no", so an unknown id is never an error.
 */
module SecretaryValidation {
  import opened Common
  import opened Domain

  /** `ValidationResult(valid, message)`. */
  datatype ValidationResult = ValidationResult(valid: bool, message: string)

  /** isSecretary: the three secretary roles. */
  predicate IsSecretary(user: User)
  {
    user.role == Some(Secretary) || user.role == Some(CommitteeSecretary) ||
    user.role == Some(DelegationSecretary)
  }

  /** validateSecretaryLocation(User, Meeting): role, own country, hosting country, then equal ids. */
  function ValidateLocation(secretary: User, meeting: Meeting): (ok: bool)
    ensures ok <==> IsSecretary(secretary) && secretary.country.Some? && meeting.hostingCountry.Some?
                    && secretary.country.value.id == meeting.hostingCountry.value.id
  {
    if !IsSecretary(secretary) then false
    else if secretary.country.None? then false
    else if meeting.hostingCountry.None? then false
    else secretary.country.value.id == meeting.hostingCountry.value.id
  }

  /**
   * validateSecretaryLocation(Long, Meeting): an unknown id, or a null meeting
   * reached after the role and country checks, throws inside the `try` and
   * gives false.
   */
  function ValidateLocationById(users: map<nat, User>, secretaryId: nat, meeting: Option<Meeting>): (ok: bool)
    ensures ok <==> secretaryId in users && meeting.Some? && ValidateLocation(users[secretaryId], meeting.value)
  {
    if secretaryId !in users then false
    else
      var s := users[secretaryId];
      if !IsSecretary(s) || s.country.None? then false
      else if meeting.None? then false
      else ValidateLocation(s, meeting.value)
  }

  /** validateSecretaryCanCreateMeeting: a secretary whose country id is the requested hosting country. */
  function CanCreateMeeting(users: map<nat, User>, secretaryId: nat, hostingCountryId: nat): (ok: bool)
    ensures ok <==> secretaryId in users && IsSecretary(users[secretaryId])
                    && users[secretaryId].country.Some?
                    && users[secretaryId].country.value.id == hostingCountryId
  {
    if secretaryId !in users then false
    else
      var s := users[secretaryId];
      if !IsSecretary(s) then false
      else if s.country.None? then false
      else s.country.value.id == hostingCountryId
  }

  const LocationPassed: string := "Location validation passed"
  const NotSecretaryMessage: string := "Only secretaries can perform meeting management tasks"
  const NoCountryMessage: string := "Secretary must have a country assigned to manage meetings"
  const NoHostingCountryMessage: string := "Meeting must have a hosting country assigned"

  /** `String.format("Secretary from %s cannot manage meetings hosted in %s", ...)`. */
  function MismatchMessage(from: string, hostedIn: string): (m: string)
    ensures StartsWith(m, "Secretary from ")
  {
    "Secretary from " + from + " cannot manage meetings hosted in " + hostedIn
  }

  /** getLocationValidationMessage: the message of the first failing check. */
  function LocationMessage(secretary: User, meeting: Meeting): (m: string)
    ensures !IsSecretary(secretary) ==> m == NotSecretaryMessage
    ensures IsSecretary(secretary) && secretary.country.None? ==> m == NoCountryMessage
    ensures IsSecretary(secretary) && secretary.country.Some? && meeting.hostingCountry.None?
            ==> m == NoHostingCountryMessage
    ensures IsSecretary(secretary) && secretary.country.Some? && meeting.hostingCountry.Some?
            && secretary.country.value.id != meeting.hostingCountry.value.id
            ==> m == MismatchMessage(secretary.country.value.name, meeting.hostingCountry.value.name)
  {
    if !IsSecretary(secretary) then NotSecretaryMessage
    else if secretary.country.None? then NoCountryMessage
    else if meeting.hostingCountry.None? then NoHostingCountryMessage
    else if secretary.country.value.id != meeting.hostingCountry.value.id then
      MismatchMessage(secretary.country.value.name, meeting.hostingCountry.value.name)
    else LocationPassed
  }

  /** The message says the check passed exactly when the location check passes. */
  lemma MessagePassedIffValid(secretary: User, meeting: Meeting)
    ensures LocationMessage(secretary, meeting) == LocationPassed <==> ValidateLocation(secretary, meeting)
  {
    if !ValidateLocation(secretary, meeting) {
      // every failure message is longer than the success message
      assert |LocationMessage(secretary, meeting)| > |LocationPassed|;
    }
  }

  /** validateMinuteTaking: the meeting id is not consulted at all. */
  function ValidateMinuteTaking(users: map<nat, User>, secretaryId: nat, meetingId: nat): (r: ValidationResult)
    ensures r.valid <==> secretaryId in users && IsSecretary(users[secretaryId])
                         && users[secretaryId].country.Some?
    ensures secretaryId !in users ==> r.message == "Validation error: Secretary not found"
  {
    if secretaryId !in users then ValidationResult(false, "Validation error: Secretary not found")
    else if !IsSecretary(users[secretaryId]) then ValidationResult(false, "Only secretaries can take meeting minutes")
    else if users[secretaryId].country.None? then ValidationResult(false, "Secretary must have a country assigned")
    else ValidationResult(true, "Secretary authorized to take minutes")
  }

  /** The answer is the same for every meeting id. */
  lemma MinuteTakingIgnoresMeeting(users: map<nat, User>, secretaryId: nat, m1: nat, m2: nat)
    ensures ValidateMinuteTaking(users, secretaryId, m1) == ValidateMinuteTaking(users, secretaryId, m2)
  {
  }

  /** validateResolutionAssignment: any existing secretary, with no country check. */
  function ValidateResolutionAssignment(users: map<nat, User>, secretaryId: nat): (r: ValidationResult)
    ensures r.valid <==> secretaryId in users && IsSecretary(users[secretaryId])
    ensures secretaryId !in users ==> r.message == "Validation error: Secretary not found"
  {
    if secretaryId !in users then ValidationResult(false, "Validation error: Secretary not found")
    else if !IsSecretary(users[secretaryId]) then ValidationResult(false, "Only secretaries can assign resolutions")
    else ValidationResult(true, "Secretary authorized to assign resolutions")
  }

  /** A secretary cleared for a meeting is also cleared to create a meeting in its hosting country. */
  lemma LocationImpliesCanCreate(users: map<nat, User>, secretaryId: nat, meeting: Meeting)
    requires ValidateLocationById(users, secretaryId, Some(meeting))
    ensures CanCreateMeeting(users, secretaryId, meeting.hostingCountry.value.id)
    ensures ValidateMinuteTaking(users, secretaryId, meeting.id).valid
    ensures ValidateResolutionAssignment(users, secretaryId).valid
  {
  }
}

=== FILE: users.dfy ===
/**
 * The user table and the operations that change it: the email-keyed upsert
 * that creates accounts, profile updates, logins, password changes and
 * credential resets. Passwords come from `UUID.randomUUID()`, passed in as
 * its 36-character text; sending mail is a step that may fail, passed in as
 * a flag, and the mails that were sent are kept in `outbox`.
 */
module Users {
  import opened Common
  import opened Domain

  /** A credentials mail: recipient, greeting name and the password it carries. */
  datatype Mail = Mail(to: string, name: string, password: string)

  predicate IsSecretaryRole(r: UserRole)
  {
    r == Secretary || r == CommitteeSecretary || r == DelegationSecretary
  }

  /** The fields each role needs: a role at all, a country for secretaries, a subcommittee for chairs and members. */
  predicate RoleRequirementsMet(u: User)
  {
    u.role.Some? &&
    (IsSecretaryRole(u.role.value) ==> u.country.Some?) &&
    (u.role.value in {Chair, SubcommitteeMember} ==> u.subcommittee.Some?)
  }

  /** validateUserRoleRequirements: the first broken requirement, in the order the checks run. */
  function RoleRequirementError(u: User): (err: Option<string>)
    ensures err.None? <==> RoleRequirementsMet(u)
    ensures u.role.None? ==> err == Some("User role is required")
  {
    if u.role.None? then Some("User role is required")
    else if u.role.value == Secretary && u.country.None? then Some("Country is required for SECRETARY role")
    else if u.role.value in {Chair, SubcommitteeMember} && u.subcommittee.None? then
      Some("Subcommittee is required for CHAIR and SUBCOMMITTEE_MEMBER roles")
    else if u.role.value == CommitteeSecretary && u.country.None? then
      Some("Country is required for COMMITTEE_SECRETARY role")
    else if u.role.value == DelegationSecretary && u.country.None? then
      Some("Country is required for DELEGATION_SECRETARY role")
    else None
  }

  /**
   * resolveEntityReferences: a country or subcommittee given by id is replaced
   * by the stored one; an id that names nothing is an error.
   */
  function ResolveReferences(u: User, countries: map<nat, CountryRef>, subcommittees: map<nat, SubCommitteeRef>)
    : (r: Result<User, string>)
    ensures r.Ok? <==> (u.country.Some? ==> u.country.value.id in countries) &&
                       (u.subcommittee.Some? ==> u.subcommittee.value.id in subcommittees)
    ensures r.Ok? ==> r.value == u.(country := if u.country.None? then None else Some(countries[u.country.value.id]),
                                     subcommittee := if u.subcommittee.None? then None
                                                     else Some(subcommittees[u.subcommittee.value.id]))
  {
    if u.country.Some? && u.country.value.id !in countries then
      Err("Country not found with ID: " + NatToString(u.country.value.id))
    else if u.subcommittee.Some? && u.subcommittee.value.id !in subcommittees then
      Err("Subcommittee not found with ID: " + NatToString(u.subcommittee.value.id))
    else
      Ok(u.(country := if u.country.None? then None else Some(countries[u.country.value.id]),
            subcommittee := if u.subcommittee.None? then None else Some(subcommittees[u.subcommittee.value.id])))
  }

  /**
   * The start of the message a failed credentials mail throws; the mail
   * exception's own message, which the model does not know, follows it.
   */
  const CredentialsMailError: string := "Failed to send credentials email: "

  /** generateRandomPassword: the first eight characters of a UUID's text. */
  function PasswordFromUuid(uuid: string): (password: string)
    requires |uuid| == 36
    ensures |password| == 8 && StartsWith(uuid, password)
  {
    uuid[..8]
  }

  /**
   * updateUser's field copy: name, phone and email always; address,
   * department, position, country and subcommittee only when given; the
   * password only when non-empty. Role, activity and login data are kept.
   */
  function ApplyUpdate(u: User, details: User): (r: User)
    ensures r.id == u.id && r.role == u.role && r.active == u.active
    ensures r.lastLogin == u.lastLogin && r.firstLogin == u.firstLogin
    ensures r.name == details.name && r.phone == details.phone && r.email == details.email
    ensures r.address == (if details.address.Some? then details.address else u.address)
    ensures r.department == (if details.department.Some? then details.department else u.department)
    ensures r.position == (if details.position.Some? then details.position else u.position)
    ensures r.country == (if details.country.Some? then details.country else u.country)
    ensures r.subcommittee == (if details.subcommittee.Some? then details.subcommittee else u.subcommittee)
    ensures r.password == (if details.password != [] then details.password else u.password)
    ensures r.profilePicture == u.profilePicture
  {
    u.(name := details.name, phone := details.phone, email := details.email,
       address := if details.address.Some? then details.address else u.address,
       department := if details.department.Some? then details.department else u.department,
       position := if details.position.Some? then details.position else u.position,
       country := if details.country.Some? then details.country else u.country,
       subcommittee := if details.subcommittee.Some? then details.subcommittee else u.subcommittee,
       password := if details.password != [] then details.password else u.password)
  }

  /** The login side effects: lastLogin stamped and, whatever it was, firstLogin false. */
  function AfterLogin(u: User, now: int): (r: User)
    ensures r.lastLogin == Some(now) && r.firstLogin == Some(false)
    ensures r == u.(lastLogin := Some(now), firstLogin := Some(false))
  {
    u.(lastLogin := Some(now), firstLogin := if u.firstLogin.None? || u.firstLogin.value then Some(false) else u.firstLogin)
  }

  /** Emails are unique across the table (the column is declared unique). */
  ghost predicate UniqueEmails(users: map<nat, User>)
  {
    forall a, b :: a in users && b in users && users[a].email == users[b].email ==> a == b
  }

  /** The user with that email, if any (`findByEmail`). */
  function LookupEmail(users: map<nat, User>, email: string): (r: Option<nat>)
    requires UniqueEmails(users)
    ensures r.Some? ==> r.value in users && users[r.value].email == email
    ensures r.None? <==> forall id :: id in users ==> users[id].email != email
  {
    if exists id :: id in users && users[id].email == email then
      var id :| id in users && users[id].email == email; Some(id)
    else None
  }

  class UserStore {
    var users: map<nat, User>
    var nextId: nat
    var outbox: seq<Mail>

    ghost predicate Valid()
      reads this
    {
      UniqueEmails(users) &&
      forall id :: id in users ==> users[id].id == id && id < nextId
    }

    constructor ()
      ensures Valid() && users == map[] && outbox == []
    {
      users := map[];
      nextId := 1;
      outbox := [];
    }

    function FindByEmail(email: string): (r: Option<nat>)
      reads this
      requires Valid()
      ensures r.Some? ==> r.value in users && users[r.value].email == email
      ensures r.None? <==> forall id :: id in users ==> users[id].email != email
    {
      LookupEmail(users, email)
    }

    /** `userRepo.save` of a user already in the table; its email must not clash with another row. */
    method Save(u: User)
      requires Valid() && u.id in users
      requires forall id :: id in users && id != u.id ==> users[id].email != u.email
      modifies this
      ensures Valid()
      ensures users == old(users)[u.id := u] && nextId == old(nextId) && outbox == old(outbox)
    {
      users := users[u.id := u];
    }

    /** `userRepo.save` of a new user: it receives the next id. */
    method Insert(u: User) returns (id: nat)
      requires Valid()
      requires forall k :: k in users ==> users[k].email != u.email
      modifies this
      ensures Valid()
      ensures id == old(nextId) && id !in old(users)
      ensures users == old(users)[id := u.(id := id)] && nextId == old(nextId) + 1 && outbox == old(outbox)
    {
      id := nextId;
      users := users[id := u.(id := id)];
      nextId := nextId + 1;
    }

    /** sendCredentials: a failed send throws; a successful one is recorded. */
    method SendCredentials(to: string, name: string, password: string, mailFails: bool) returns (sent: bool)
      modifies this
      ensures sent == !mailFails
      ensures users == old(users) && nextId == old(nextId)
      ensures outbox == old(outbox) + (if sent then [Mail(to, name, password)] else [])
    {
      sent := !mailFails;
      if sent {
        outbox := outbox + [Mail(to, name, password)];
      }
    }

    /**
     * createUser. After resolving references and checking the role's
     * requirements, an existing account with the same email is overwritten
     * (name, phone, role, country, subcommittee), reactivated and given a
     * fresh password; otherwise the user is inserted with that password.
     * A failed mail throws after the save, which stays (no transaction).
     */
    method CreateUser(user: User, countries: map<nat, CountryRef>, subcommittees: map<nat, SubCommitteeRef>,
                      uuid: string, mailFails: bool) returns (r: Result<nat, string>)
      requires Valid() && |uuid| == 36
      modifies this
      ensures Valid()
      ensures ResolveReferences(user, countries, subcommittees).Err? ==>
                r.Err? && users == old(users) && nextId == old(nextId) && outbox == old(outbox)
      ensures ResolveReferences(user, countries, subcommittees).Ok? &&
              !RoleRequirementsMet(ResolveReferences(user, countries, subcommittees).value) ==>
                r.Err? && users == old(users) && nextId == old(nextId) && outbox == old(outbox)
      ensures ResolveReferences(user, countries, subcommittees).Ok? &&
              RoleRequirementsMet(ResolveReferences(user, countries, subcommittees).value) ==>
                var u := ResolveReferences(user, countries, subcommittees).value;
                var pw := PasswordFromUuid(uuid);
                (match LookupEmail(old(users), u.email)
                 case Some(id) =>
                   users == old(users)[id := old(users)[id].(name := u.name, phone := u.phone, role := u.role,
                     country := u.country, subcommittee := u.subcommittee, active := true, password := pw)]
                   && nextId == old(nextId)
                   && (r.Ok? ==> r.value == id)
                 case None =>
                   users == old(users)[old(nextId) := u.(id := old(nextId), password := pw)]
                   && nextId == old(nextId) + 1
                   && (r.Ok? ==> r.value == old(nextId))) &&
                (r.Ok? <==> !mailFails) &&
                outbox == old(outbox) + (if mailFails then [] else [Mail(u.email, u.name, pw)])
    {
      var resolved := ResolveReferences(user, countries, subcommittees);
      if resolved.Err? {
        return Err(resolved.error);
      }
      var u := resolved.value;
      var problem := RoleRequirementError(u);
      if problem.Some? {
        return Err(problem.value);
      }
      var pw := PasswordFromUuid(uuid);
      var existing := FindByEmail(u.email);
      var id: nat;
      if existing.Some? {
        id := existing.value;
        var e := users[id];
        Save(e.(name := u.name, phone := u.phone, role := u.role, country := u.country,
                subcommittee := u.subcommittee, active := true, password := pw));
      } else {
        id := Insert(u.(password := pw));
      }
      var sent := SendCredentials(u.email, u.name, pw, mailFails);
      if sent {
        r := Ok(id);
      } else {
        r := Err(CredentialsMailError);
      }
    }

    /**
     * updateUser: an unknown id gives null and changes nothing. An email
     * already held by another user breaks the unique column and throws.
     */
    method UpdateUser(id: nat, details: User, countries: map<nat, CountryRef>,
                      subcommittees: map<nat, SubCommitteeRef>) returns (r: Result<Option<User>, string>)
      requires Valid()
      modifies this
      ensures Valid() && nextId == old(nextId) && outbox == old(outbox)
      ensures ResolveReferences(details, countries, subcommittees).Err? ==> r.Err? && users == old(users)
      ensures id !in old(users) ==> users == old(users) && (r.Err? || r == Ok(None))
      ensures r.Ok? && r.value.Some? ==>
                id in old(users) &&
                r.value.value == ApplyUpdate(old(users)[id], ResolveReferences(details, countries, subcommittees).value) &&
                users == old(users)[id := r.value.value]
      ensures r.Err? ==> users == old(users)
      ensures id in old(users) && ResolveReferences(details, countries, subcommittees).Ok? &&
              (forall k :: k in old(users) && k != id ==> old(users)[k].email != details.email)
              ==> r.Ok? && r.value.Some?
    {
      var resolved := ResolveReferences(details, countries, subcommittees);
      if resolved.Err? {
        return Err(resolved.error);
      }
      if id !in users {
        return Ok(None);
      }
      var updated := ApplyUpdate(users[id], resolved.value);
      if exists k :: k in users && k != id && users[k].email == updated.email {
        return Err("Duplicate email");
      }
      Save(updated);
      r := Ok(Some(updated));
    }

    /**
     * authenticateUser: true exactly for a known email, the stored password
     * and an active account; only then are the login fields updated.
     */
    method Authenticate(email: string, password: string, now: int) returns (ok: bool)
      requires Valid()
      modifies this
      ensures Valid() && nextId == old(nextId) && outbox == old(outbox)
      ensures ok <==> LookupEmail(old(users), email).Some? &&
                      old(users)[LookupEmail(old(users), email).value].password == password &&
                      old(users)[LookupEmail(old(users), email).value].active
      ensures ok ==> var id := LookupEmail(old(users), email).value;
                     users == old(users)[id := AfterLogin(old(users)[id], now)]
      ensures !ok ==> users == old(users)
    {
      var found := FindByEmail(email);
      ok := false;
      if found.Some? {
        var u := users[found.value];
        if u.password == password && u.active {
          Save(AfterLogin(u, now));
          ok := true;
        }
      }
    }

    /** recordSuccessfulLogin: the login side effects without the password check. */
    method RecordSuccessfulLogin(email: string, now: int)
      requires Valid()
      modifies this
      ensures Valid() && nextId == old(nextId) && outbox == old(outbox)
      ensures LookupEmail(old(users), email).None? ==> users == old(users)
      ensures LookupEmail(old(users), email).Some? ==>
                var id := LookupEmail(old(users), email).value;
                users == old(users)[id := AfterLogin(old(users)[id], now)]
    {
      var found := FindByEmail(email);
      if found.Some? {
        Save(AfterLogin(users[found.value], now));
      }
    }

    /** changePassword: only with the current password; otherwise false and no change. */
    method ChangePassword(id: nat, current: string, newPassword: string) returns (ok: bool)
      requires Valid()
      modifies this
      ensures Valid() && nextId == old(nextId) && outbox == old(outbox)
      ensures ok <==> id in old(users) && old(users)[id].password == current
      ensures ok ==> users == old(users)[id := old(users)[id].(password := newPassword)]
      ensures !ok ==> users == old(users)
    {
      ok := false;
      if id in users && users[id].password == current {
        Save(users[id].(password := newPassword));
        ok := true;
      }
    }

    /**
     * resendCredentials: a fresh password for a known user, then the mail;
     * an unknown id throws. A failed mail throws after the save.
     */
    method ResendCredentials(id: nat, uuid: string, mailFails: bool) returns (r: Result<User, string>)
      requires Valid() && |uuid| == 36
      modifies this
      ensures Valid() && nextId == old(nextId)
      ensures id !in old(users) ==>
                r == Err("User not found with ID: " + NatToString(id)) && users == old(users) && outbox == old(outbox)
      ensures id in old(users) ==>
                var u := old(users)[id].(password := PasswordFromUuid(uuid));
                users == old(users)[id := u] &&
                r == (if mailFails then Err(CredentialsMailError) else Ok(u)) &&
                outbox == old(outbox) + (if mailFails then [] else [Mail(u.email, u.name, u.password)])
    {
      if id !in users {
        return Err("User not found with ID: " + NatToString(id));
      }
      var u := users[id].(password := PasswordFromUuid(uuid));
      Save(u);
      var sent := SendCredentials(u.email, u.name, u.password, mailFails);
      r := if sent then Ok(u) else Err(CredentialsMailError);
    }
  }

  /** The upsert never adds a second row for an email already present, and the table keeps one row per email. */
  lemma UpsertKeepsOneRowPerEmail(before: map<nat, User>, after: map<nat, User>, id: nat, u: User)
    requires UniqueEmails(before) && id in before && after == before[id := u]
    requires u.email == before[id].email
    ensures UniqueEmails(after) && |after| == |before|
    ensures LookupEmail(after, u.email) == Some(id)
  {
    assert after.Keys == before.Keys;
  }

  /** Each of the secretary roles needs a country, and chairs and subcommittee members need a subcommittee. */
  lemma RoleRequirementsByRole(u: User)
    requires u.role.Some?
    ensures u.role.value in {Secretary, CommitteeSecretary, DelegationSecretary} && u.country.None?
            ==> RoleRequirementError(u).Some?
    ensures u.role.value in {Chair, SubcommitteeMember} && u.subcommittee.None? ==> RoleRequirementError(u).Some?
    ensures u.role.value in {Admin, ViceChair, Hod, CommissionerGeneral, CommitteeMember} ==> RoleRequirementError(u).None?
  {
    match u.role.value
    case Secretary =>
    case CommitteeSecretary =>
    case DelegationSecretary =>
    case Chair =>
    case SubcommitteeMember =>
    case _ =>
  }
}
